=== FILE: README.md ===
# Hot-water ordered power, works schedule and cost estimate — a Dafny model

This project models the computational core of a building-services toolkit used by
auditors, housing managers and contractors. It has four groups.

- **Ordered power for domestic hot water (CWU)** (`cwu_time_simulation.py`, `api.py`).
  - The loss forms are validated and resolved.
  - An energy pre-pass runs over a flow profile.
  - Two discrete-time tank simulators: a single mixed tank, and a two-zone tank with plug flow, split losses and relaxation mixing.
  - A doubling-plus-bisection search finds the smallest heater power that keeps violations within a tolerance.
  - The cost model, the A/B/C recommendation and the final decision.
  - The demand profile and the cost arithmetic of the HTTP endpoint.
- **Works schedule** (`scheduleEngine.ts`).
  - Tasks are built per riser and floor, then sorted topologically with Kahn's algorithm.
  - Crews are levelled by work day, and critical-path slack is computed.
  - The schedule, its statistics and its bottlenecks are assembled.
- **Cost estimate and overrides** (`costEstimateEngine.ts`, `applyOverrides.ts`).
  - A bill of quantities in sections A–E: materials, labour, tools, overheads and profit.
  - Quantity and price overrides re-price the estimate.
- **Calculators and page logic.**
  - The hot-water calculators: `cwu.ts`, `calculateCwuLoss.ts`, `calcOrderedPowerCWU.ts`, `calcPeakFlow.ts`, the two ordered-power panels and the auditor calculation route.
  - The pure classifiers of the auditor, auditors and manager pages.
  - The energy pie normalisation, the work-schedule page, the quick estimate and the offer totals.

## How the model is built

- Floating-point numbers are exact `real`s.
- JavaScript numbers whose NaN or Infinity the source tests or produces are a four-way datatype, `Numbers.Num`: `Finite`, `NaN`, `PosInf` and `NegInf`.
- Math.round rounds halves toward +∞. `toFixed` rounds halves away from zero. Money is rounded to whole grosze.
- Errors are `Result` values, one error constructor per `raise` or `throw`, and they are checked in the source's order.
- Simulators, the search, the topological sort, levelling and CPM are methods with loop invariants. Everything else is a pure function.

## Model

| member | source | states |
|---|---|---|
| TankPhysics.ValidateLoss | cwu_time_simulation.py:71-81 | a loss statement is accepted exactly when some form is given, UA and ΔT come together, and neither the direct loss nor the percentage is negative; two forms given together are accepted |
| TankPhysics.DeriveLossKw | cwu_time_simulation.py:569-581 | fails exactly when validation fails, with the same error; otherwise the direct loss wins, then UA·ΔT/1000, then percent/100 of the non-negative average power |
| TankPhysics.DerivedLossNonNegative | cwu_time_simulation.py:569-581 | a derived loss is non-negative when UA and ΔT are (validation does not check their sign) |
| TankPhysics.EnergyCapacity | cwu_time_simulation.py:586-590 | stored energy is non-negative for a real volume and zero for a target not above cold water |
| TankPhysics.TempFromEnergy | cwu_time_simulation.py:593-599 | the temperature is never below cold water, and is the cold temperature for an empty volume |
| TankPhysics.TempOfCapacity | cwu_time_simulation.py:586-599 | temperature → energy → temperature is the identity at or above cold water |
| TankPhysics.CapacityOfTemp | cwu_time_simulation.py:586-599 | energy → temperature → energy is the identity on non-negative energies |
| TankPhysics.TempMonotone | cwu_time_simulation.py:593-599 | more energy never shows a lower temperature |
| TankPhysics.TempBelowIff | cwu_time_simulation.py:586-599 | the temperature is below t exactly when the energy is below t's capacity |
| TankPhysics.DeliveredJ | cwu_time_simulation.py:556-560 | delivered energy, with negative samples as zero, is never negative |
| TankPhysics.DeliveredAdditive | cwu_time_simulation.py:556-560 | delivered energy adds up over consecutive parts of a profile |
| TankPhysics.Prepass | cwu_time_simulation.py:533-566 | errors for dt ≤ 0, an empty profile and delivery not above cold, in that order; otherwise the energy in kWh and an average power that times the hours gives that energy, both ≥ 0 |
| TankPhysics.HeaterControl | cwu_time_simulation.py:668-677 | without hysteresis the heater is on exactly below the set point; with it, off at the set point, on at the band's bottom, unchanged inside the band |
| TankPhysics.FirstReaching | cwu_time_simulation.py:605-608 | the first index from a start whose temperature reaches the threshold, or none when no later sample does |
| TankPhysics.RegenStart | cwu_time_simulation.py:604-605 | the search start stays inside the series |
| TankPhysics.RegenTime | cwu_time_simulation.py:602-609 | none for an empty series; otherwise the time from the coldest moment to the first sample at or above the threshold, or none when none reaches it |
| MixedTank.Capacity | cwu_time_simulation.py:633 | the set-point capacity of a real tank above cold water is positive |
| MixedTank.Drain | cwu_time_simulation.py:662-664 | draw and loss are each taken off and stop at zero, so the energy stays non-negative and never grows |
| MixedTank.DrawJ | cwu_time_simulation.py:657-658 | the energy of one step's delivered water, negatives read as zero, is non-negative |
| MixedTank.StepJ | cwu_time_simulation.py:660-680 | a non-negative power gives non-negative step energy, and zero power none |
| MixedTank.Heat | cwu_time_simulation.py:680 | heating is capped at the set-point capacity and otherwise adds the whole input |
| MixedTank.TraceShape | cwu_time_simulation.py:650-684 | one record per sample at times 0, dt, 2dt, …; each input is 0 or the heater power; violation time lies in [0, n·dt] |
| MixedTank.InitWithinCapacity | cwu_time_simulation.py:633-634 | a tank that starts no hotter than the set point holds between zero and the capacity |
| MixedTank.TraceEnergy | cwu_time_simulation.py:650-684 | stored energy stays in [0, capacity] after every step |
| MixedTank.TraceTemps | cwu_time_simulation.py:650-655 | starting no hotter than the set point, every recorded temperature lies between cold water and the set point |
| MixedTank.StepMonotone | cwu_time_simulation.py:662-680 | without hysteresis one step is monotone in the heater power and the starting energy |
| MixedTank.TraceMonotone | cwu_time_simulation.py:650-684 | without hysteresis more power never leaves less energy nor more violation time |
| MixedTank.Simulate | cwu_time_simulation.py:614-708 | raises for a non-positive volume, negative power, negative loss, non-positive dt and a set point not above cold, in that order, and runs exactly otherwise; series of the profile's length at times 0, dt, …, inputs 0 or the power, violation minutes in [0, n·dt/60], temperatures in [cold, set] when the tank starts no hotter |
| MixedTank.ViolationMonotone | cwu_time_simulation.py:663-690 | without hysteresis the reported violation minutes never increase with power |
| MixedTank.Step | cwu_time_simulation.py:650-688 | one step records its time, starting temperature and an input of 0 or the full power, and adds at most dt of violation |
| MixedTank.TraceTimes | cwu_time_simulation.py:651-654 | records are taken at times 0, dt, 2dt, … |
| MixedTank.TraceViolation | cwu_time_simulation.py:682-684 | the violation time lies between zero and the length of the run |
| MixedTank.StepCounted | cwu_time_simulation.py:682-684 | each step adds dt to the violation time exactly when its final temperature is below the minimum |
| MixedTank.TraceViolationCount | cwu_time_simulation.py:650-684 | after a run the violation time is dt times the number of steps that ended below the minimum |
| MixedTank.ViolationCounted | cwu_time_simulation.py:682-690 | the reported violation minutes are dt/60 times the number of steps whose final temperature is below the minimum, those temperatures being the next recorded ones |
| TankPhysics.CountBelow | cwu_time_simulation.py:682-684 | the number of steps below the minimum never exceeds the number of steps |
| LayeredTank.GeometryOf | cwu_time_simulation.py:733-742 | the hot and cold zones split the tank's volume; inside the accepted hot fraction both zones are real and the hot-zone capacity is non-negative |
| LayeredTank.Outflow | cwu_time_simulation.py:768-781 | drawing water never raises the stored energy nor the cold zone's, keeps the hot zone within its cap, and changes nothing without a draw |
| LayeredTank.Losses | cwu_time_simulation.py:783-797 | the standing loss only lowers each zone and never below zero; no loss changes nothing |
| LayeredTank.RelaxationKeepsHeat | cwu_time_simulation.py:806-809 | relaxing both zones toward their volume-weighted mean keeps the volume-weighted temperature sum |
| LayeredTank.Between | cwu_time_simulation.py:808-809 | a temperature moved a fraction in [0, 1] toward another stays between the two |
| LayeredTank.MeanBetween | cwu_time_simulation.py:807 | the volume-weighted equilibrium temperature lies between the two zone temperatures |
| LayeredTank.Relax | cwu_time_simulation.py:806-809 | the relaxed temperatures stay between the old ones and keep the volume-weighted sum |
| LayeredTank.Alpha | cwu_time_simulation.py:802 | the relaxation fraction lies in [0, 1] |
| LayeredTank.Mix | cwu_time_simulation.py:800-811 | mixing keeps both zones non-negative and the hot zone within its cap; no mixing time constant means no mixing |
| LayeredTank.MixTempsInRange | cwu_time_simulation.py:803-809 | zones within their caps have temperatures between cold water and the set point before and after relaxing |
| LayeredTank.EnergyFromTemps | cwu_time_simulation.py:810-811 | temperatures with the same volume-weighted sum hold the same total energy |
| LayeredTank.RelaxKeepsEnergy | cwu_time_simulation.py:806-811 | relaxing two zones above cold water keeps their total energy |
| LayeredTank.RelaxedWithinCaps | cwu_time_simulation.py:806-811 | relaxed zones stay within their set-point capacities |
| LayeredTank.RelaxedKeepsTotal | cwu_time_simulation.py:800-811 | the energy recomputed from the relaxed temperatures is the energy before mixing |
| LayeredTank.MixConserves | cwu_time_simulation.py:800-811 | with both zones at or below the set point, mixing conserves the total energy and keeps both within their caps |
| LayeredTank.HeatHot | cwu_time_simulation.py:826 | heating raises only the hot zone, capped at its set-point capacity, and adds all of the input when it fits |
| LayeredTank.BeforeHeating | cwu_time_simulation.py:768-811 | draw, losses and mixing leave both zones non-negative and the hot zone within its cap |
| LayeredTank.Step | cwu_time_simulation.py:759-835 | one step appends one time, the hot- and cold-zone temperatures it starts from and an input of 0 or the full power; the violation grows by at most one step |
| LayeredTank.Trace | cwu_time_simulation.py:759-835 | after a run both zones are non-negative and the hot zone is within its cap |
| LayeredTank.TraceShape | cwu_time_simulation.py:759-825 | one record of each series per sample, each input 0 or the full power |
| LayeredTank.TraceTimes | cwu_time_simulation.py:759-764 | records are taken at times 0, dt, 2dt, … |
| LayeredTank.TraceViolation | cwu_time_simulation.py:829-831 | the violation time lies between zero and the length of the run |
| LayeredTank.InitWithinCaps | cwu_time_simulation.py:742-746 | a tank starting no hotter than the set point starts with both zones within their caps |
| LayeredTank.StepHotTemps | cwu_time_simulation.py:761-765 | one step records a hot-zone temperature between cold water and the set point |
| LayeredTank.TraceHotTemps | cwu_time_simulation.py:759-765 | every recorded hot-zone temperature lies between cold water and the set point |
| LayeredTank.IdleStepConserves | cwu_time_simulation.py:768-826 | a step without draw, loss or heating keeps the total energy of zones within their caps |
| LayeredTank.IdleRunConserves | cwu_time_simulation.py:759-835 | a whole idle run keeps the starting total energy |
| LayeredTank.MixUniform | cwu_time_simulation.py:800-811 | zones already at one temperature are only capped by mixing |
| LayeredTank.ClampLosesEnergy | cwu_time_simulation.py:810 | the cap applied after mixing discards energy: a tank starting above its set point loses stored energy in one idle step |
| LayeredTank.Simulate | cwu_time_simulation.py:713-855 | raises for a non-positive volume, negative power, negative loss, non-positive dt and a hot fraction outside [0.05, 0.95], in that order, and runs exactly otherwise; one record per sample at times 0, dt, …, inputs 0 or the power, violation minutes within the run, hot-zone temperatures in range and a cold-zone series |
| LayeredTank.Report | cwu_time_simulation.py:837-855 | the result carries the hot-zone series as primary, the cold-zone series as secondary and the violation in minutes |
| LayeredTank.SplitPositive | cwu_time_simulation.py:733-739 | a hot fraction strictly between 0 and 1 of a positive volume leaves both zones positive |
| LayeredTank.DrawVolume | cwu_time_simulation.py:769 | the volume drawn in a step is non-negative and zero exactly when the demand is not positive |
| LayeredTank.Drain | cwu_time_simulation.py:773-781 | taking the delivered energy off the hot zone and moving cold-zone water up keeps both zones non-negative, never raises the total or the cold zone, keeps the hot zone within its cap, and does nothing without a draw |
| LayeredTank.Refill | cwu_time_simulation.py:777-781 | moving a share of the cold zone into the hot zone keeps both non-negative, never raises the total, and keeps the hot zone within its cap |
| LayeredTank.RefillMonotone | cwu_time_simulation.py:777-781 | zones no fuller before the refill are no fuller after it |
| LayeredTank.OutflowMonotone | cwu_time_simulation.py:768-781 | the draw keeps the order of two tanks whose zones are no fuller than each other's |
| LayeredTank.DrainMonotone | cwu_time_simulation.py:773-781 | draining the same energy and volume keeps the zone-by-zone order of two tanks |
| LayeredTank.RelaxMonotone | cwu_time_simulation.py:806-809 | relaxation keeps the order of two pairs of zone temperatures |
| LayeredTank.MixMonotone | cwu_time_simulation.py:799-811 | mixing keeps the zone-by-zone order of two tanks |
| LayeredTank.BeforeHeatingMonotone | cwu_time_simulation.py:768-811 | draw, losses and mixing together keep the zone-by-zone order of two tanks |
| LayeredTank.StepMonotone | cwu_time_simulation.py:813-831 | without hysteresis a step with no less power from no emptier zones ends no emptier and adds no more violation time |
| LayeredTank.TraceMonotone | cwu_time_simulation.py:759-835 | without hysteresis a run with more power keeps its zones no emptier at every step and never collects more violation time |
| LayeredTank.ViolationMonotone | cwu_time_simulation.py:713-855 | without hysteresis the reported violation minutes of the layered tank never increase with power |
| LayeredTank.StepCounted | cwu_time_simulation.py:829-831 | each step adds dt to the violation time exactly when its final hot-zone temperature is below the minimum |
| LayeredTank.ViolationCounted | cwu_time_simulation.py:829-837 | the reported violation minutes are dt/60 times the number of steps whose final hot-zone temperature is below the minimum, those temperatures being the next recorded ones |
| Search.HalvingsLeft | cwu_time_simulation.py:883-890 | the measure that bounds the bisection: above 1 it is at least the value |
| Search.HalvingDecreases | cwu_time_simulation.py:883-890 | halving an interval wider than the tolerance strictly lowers the measure, so the bisection ends |
| Search.Double | cwu_time_simulation.py:873-881 | the doubling phase from a positive start ends with a feasible power no lower than the start, or reports that powers up to the ceiling stay infeasible, or passes on a simulator error |
| Search.Bisect | cwu_time_simulation.py:883-891 | the bisection returns a feasible upper bound with its run, within the tolerance of a lower bound that is 0 or infeasible |
| Search.FindMinPmax | cwu_time_simulation.py:860-893 | rejects a tolerance of 0 or below; reports the non-terminating start at 0 exactly when 0 is infeasible below the ceiling; otherwise a feasible power within the tolerance of 0 or of an infeasible power |
| Search.DoublingAsWritten | cwu_time_simulation.py:875-877 | the source's doubling never lowers a non-negative power |
| Search.DoublingFromZeroNeverEnds | cwu_time_simulation.py:873-877 | from a start of 0 with 0 infeasible below the ceiling, every pass of the doubling loop leaves the power at 0 and the loop condition true |
| Search.FoundWithinTolerance | cwu_time_simulation.py:883-891 | for a simulator whose violation never grows with power, no power more than the tolerance below the result is feasible |
| Search.MixedSimulatorMonotone | cwu_time_simulation.py:614-708 | the mixed-tank simulator without hysteresis has the monotonicity the bisection relies on |
| Search.FindMinPmaxMixed | cwu_time_simulation.py:860-893 | searching the mixed tank gives a feasible power with no feasible power more than the tolerance below it |
| Search.LayeredSimulatorMonotone | cwu_time_simulation.py:713-855 | the layered simulator, run without hysteresis as the comparison runs it, has the monotonicity the bisection relies on |
| Search.FindMinPmaxLayered | cwu_time_simulation.py:860-893 | searching the layered tank gives a feasible power, with its run, and no feasible power more than the tolerance below it |
| Recommendation.Normalized | cwu_time_simulation.py:174-196 | no rate at all is returned unchanged; an error exactly when a given rate is negative or the horizon is not positive; otherwise both rates present, a given rate kept and the missing one derived as twelve months to the year |
| Recommendation.NormalizedIdempotent | cwu_time_simulation.py:174-196 | normalising normalised parameters changes nothing |
| Recommendation.FinancialImpact | cwu_time_simulation.py:201-255 | fails exactly when the cost parameters do; no saving without a positive difference or a rate; otherwise month and year are the difference times the rates and the total is the year over the horizon, all non-negative |
| Recommendation.YearIsTwelveMonths | cwu_time_simulation.py:201-255 | with only a monthly rate, the yearly cost is twelve monthly costs |
| Recommendation.DecisionColor | cwu_time_simulation.py:257-264 | green, yellow and red correspond one to one to levels A, B and C |
| Recommendation.FinalDecision | cwu_time_simulation.py:266-352 | level A keeps the mixed-model power and B or C take the layered one; the basis is technical-and-financial exactly when the level is not A and both the difference and the yearly cost are positive |
| Recommendation.FinalNotAboveMixed | cwu_time_simulation.py:266-352 | when the layered power is no higher, the final power never exceeds the mixed-model power |
| Recommendation.Mean | cwu_time_simulation.py:355-358 | 0 for an empty series, otherwise the value that times the length gives the sum |
| Recommendation.MaxOf | cwu_time_simulation.py:361-406 | the maximum bounds every sample and is one of them, 0 for an empty profile |
| Recommendation.PeakThreshold | cwu_time_simulation.py:361-406 | the peak threshold is never below the configured minimum |
| Recommendation.PeakRuns | cwu_time_simulation.py:361-406 | one segment per maximal run of peak samples, the segments' lengths adding up to the number of peak samples, each at least 1; the peak sum is the non-negative demand of the peak samples and the total sum that of all samples, the first never above the second |
| Recommendation.ProfilePeakMetrics | cwu_time_simulation.py:361-406 | maximum and mean flow, the threshold, as many peaks as maximal runs above it, the longest run in minutes, and as energy share the peak samples' part of the non-negative demand (0 without demand), which lies in [0, 1] |
| Recommendation.BuildRecommendation | cwu_time_simulation.py:409-529 | A exactly when the difference passes neither threshold; C exactly when it passes one twice over, the peaks are short or carry at least 35 % of the energy, and the tank is large or well stratified; each flag holds exactly when its condition does |
| Recommendation.LevelMonotone | cwu_time_simulation.py:409-529 | a larger difference, in kW and in percent, never gives a lower level |
| Recommendation.StrongIsSignificant | cwu_time_simulation.py:409-529 | with non-negative thresholds a strong difference is a significant one |
| Recommendation.DefaultAbsoluteBoundary | cwu_time_simulation.py:409-529 | with the default thresholds 5 kW is significant and 4.99 kW below 10 % is not |
| Comparison.DeltaPercent | cwu_time_simulation.py:896-1045 | the percentage difference times the layered power is a hundred times the difference, and 0 when the layered power is not positive |
| Comparison.CompareModels | cwu_time_simulation.py:896-1045 | prepass errors first; on success the energy is the delivered energy in kWh with the average power that spreads it over the profile, the loss is `DeriveLossKw` of the caller's statement at that average power, both runs are the simulators' results with that loss at the found powers within the allowed violation, no power more than the tolerance below either is feasible, the difference is their gap, and the percentage, the peak metrics, the recommendation, the financial impact, the final decision and the horizon are `DeltaPercent`, `PeakMetricsOf`, `BuildRecommendation`, `FinancialImpact`, `FinalDecision` and `HorizonOf` of those figures (`Derived`) |
| DemandApi.DaySteps | api.py:55 | the number of steps of a day is the largest count whose duration fits in 86 400 s |
| DemandApi.SetPeak | api.py:58-62 | the samples inside the peak take the peak flow and the others keep theirs |
| DemandApi.DefaultDemandProfile | api.py:43-67 | fails exactly for dt ≤ 0; otherwise one value per step of the day, each given by the two peaks |
| DemandApi.MinuteProfile | api.py:43-67 | at one-minute steps the day has 1440 samples, 60 l/min from 7:00 for 20 minutes, 50 l/min from 19:00 for 20 minutes and 0 elsewhere |
| DemandApi.LevelFromText | api.py:100-102 | "A" and "C" read as themselves and every other text as B |
| DemandApi.LevelTextRoundTrip | api.py:100-102 | reading back the text of a level gives the level |
| DemandApi.ResponseCosts | api.py:96-98 | the monthly cost is the positive part of the difference times the rate, the year twelve months and the horizon the year times the years |
| DemandApi.ResponseMatchesImpact | api.py:96-98 | the endpoint's monthly and yearly costs agree with the simulator's financial impact for a positive difference |
| DemandApi.OrderedPowerEndpoint | api.py:71-114 | a set point not above the fixed 10 °C cold water fails in the prepass, and the endpoint fails exactly when the comparison does, with its error; otherwise the comparison ran with the endpoint's tank, the one-minute default day and the given loss: the mixed and layered powers are feasible with no violation, no power more than 0.1 kW below either is, the difference is their gap, the level is `BuildRecommendation`'s for the comparison's metrics, the final power is the mixed one at level A and the layered one otherwise, and the costs are the endpoint's own for that difference, the rate and the horizon |
| ScheduleTasks.ClampNumber | src/lib/schedule/scheduleEngine.ts:97-100 | a value that is not finite gives the minimum; a finite one is kept inside the range and moved to the nearer bound outside it |
| ScheduleTasks.Quarters | src/lib/schedule/scheduleEngine.ts:102-105 | negative durations become 0; others are rounded to the nearest quarter day, within an eighth of a day |
| ScheduleTasks.QuartersOfDays | src/lib/schedule/scheduleEngine.ts:102-105 | a whole number of quarter days is kept by the rounding |
| ScheduleTasks.QuartersIdempotent | src/lib/schedule/scheduleEngine.ts:102-105 | rounding an already rounded duration changes nothing |
| ScheduleTasks.StaircaseRisers | src/lib/schedule/scheduleEngine.ts:111-113 | a staircase has max(0, piony) risers numbered 1, 2, … |
| ScheduleTasks.TimesIsProduct | src/lib/schedule/scheduleEngine.ts:110-114 | the riser count used by the model is the product of staircases and risers per staircase |
| ScheduleTasks.RiserIds | src/lib/schedule/scheduleEngine.ts:107-116 | one id per staircase and riser in range, exactly those, in staircase-then-riser order |
| ScheduleTasks.RiserIdsDistinct | src/lib/schedule/scheduleEngine.ts:107-116 | no riser id is listed twice |
| ScheduleTasks.Weekday | src/lib/schedule/scheduleEngine.ts:118-128 | the weekday repeats every seven days |
| ScheduleTasks.WeekdayStep | src/lib/schedule/scheduleEngine.ts:118-128 | the next day's weekday follows Saturday with Sunday and otherwise adds one |
| ScheduleTasks.WorkdaysIn | src/lib/schedule/scheduleEngine.ts:124-128 | the working days among n calendar days are at most n |
| ScheduleTasks.WorkdaysMonotone | src/lib/schedule/scheduleEngine.ts:130-144 | more calendar days never hold fewer working days |
| ScheduleTasks.CalendarDays | src/lib/schedule/scheduleEngine.ts:130-144 | the calendar days passed hold exactly ⌈w⌉ working days (none for w ≤ 0), end on a working day and are at least ⌈w⌉ |
| ScheduleTasks.CalendarDaysLeast | src/lib/schedule/scheduleEngine.ts:130-144 | no shorter calendar span ending on a working day holds that many working days |
| ScheduleTasks.ApartmentsPerRiser | src/lib/schedule/scheduleEngine.ts:160 | at least one apartment per riser when there are risers, the raw count otherwise |
| ScheduleTasks.Access | src/lib/schedule/scheduleEngine.ts:155 | the accessibility share lies in [0.1, 1] |
| ScheduleTasks.RestorationFactor | src/lib/schedule/scheduleEngine.ts:173-178 | each restoration standard scales the work by a positive factor |
| ScheduleTasks.PerRiser | src/lib/schedule/scheduleEngine.ts:162-183 | the per-riser durations are non-negative, installation and restoration positive, and testing positive exactly when some water scope is selected |
| ScheduleTasks.MkTask | src/lib/schedule/scheduleEngine.ts:187-199 | a task keeps its id, kind, category, pool, riser and dependencies, with its duration rounded to quarter days |
| ScheduleTasks.CommonTasks | src/lib/schedule/scheduleEngine.ts:201-237 | the preparation of half a day first with no dependency, then the basement and node works when selected, each after the preparation |
| ScheduleTasks.RiserChain | src/lib/schedule/scheduleEngine.ts:240-291 | each riser gets org, install, test and restore, in that order, with the per-riser durations |
| ScheduleTasks.RiserChainShape | src/lib/schedule/scheduleEngine.ts:240-291 | every chain task belongs to its riser, books the right pool and follows the previous step (org after the shared works) |
| ScheduleTasks.RiserBlockShape | src/lib/schedule/scheduleEngine.ts:240-291 | every task of the riser block is a chain task of a listed riser |
| ScheduleTasks.ChainIdsDistinct | src/lib/schedule/scheduleEngine.ts:240-291 | the chains of distinct risers never share an id |
| ScheduleTasks.RiserBlockTests | src/lib/schedule/scheduleEngine.ts:305 | the test tasks of the riser block are the risers' tests, in riser order |
| ScheduleTasks.BufferQuarters | src/lib/schedule/scheduleEngine.ts:295-298 | with a buffer percentage clamped to 0 there is no buffer |
| ScheduleTasks.BufferTask | src/lib/schedule/scheduleEngine.ts:298-309 | the buffer is a common task that waits for every riser test |
| ScheduleTasks.BuildTasks | src/lib/schedule/scheduleEngine.ts:154-312 | one preparation, the selected shared works, four tasks per riser and a buffer exactly when it is positive |
| ScheduleTasks.BuildTasksIds | src/lib/schedule/scheduleEngine.ts:154-312 | the ids come in the order shared works, riser chains, buffer |
| ScheduleTasks.BuildTasksUnique | src/lib/schedule/scheduleEngine.ts:154-312 | no two tasks share an id |
| ScheduleTasks.BuildTasksMembers | src/lib/schedule/scheduleEngine.ts:154-312 | a task is present exactly when its shared work is selected or its riser is in range |
| ScheduleTasks.BuildTasksDeps | src/lib/schedule/scheduleEngine.ts:154-312 | every task depends on what the rules say: nothing for the preparation, the preparation for the shared works, the previous step for riser tasks, all tests for the buffer |
| ScheduleTopo.BuildGraph | src/lib/schedule/scheduleEngine.ts:315-329 | every task id gets an in-degree equal to the number of its dependencies on known tasks and a successor list with one entry per such dependency |
| ScheduleTopo.FirstIds | src/lib/schedule/scheduleEngine.ts:315-322 | the map's keys: each task id once, and only task ids |
| ScheduleTopo.ById | src/lib/schedule/scheduleEngine.ts:315 | the lookup finds a task exactly for a task id, and the task it finds carries that id |
| ScheduleTopo.ByIdUnique | src/lib/schedule/scheduleEngine.ts:315 | with ids unique, looking up a task's id gives that task |
| ScheduleTopo.InitialQueue | src/lib/schedule/scheduleEngine.ts:331-334 | the first queue holds each id with in-degree 0 exactly once |
| ScheduleTopo.Release | src/lib/schedule/scheduleEngine.ts:341-344 | popping a task lowers each successor's in-degree by the number of edges to it and enqueues, once each, exactly the successors that reach 0 |
| ScheduleTopo.TopoSort | src/lib/schedule/scheduleEngine.ts:314-349 | with unique ids and no cycle, the result is a permutation in which every known dependency comes before its task; otherwise the input comes back unchanged |
| ScheduleTopo.TopoOrderAcyclic | src/lib/schedule/scheduleEngine.ts:337-348 | a complete dependency order exists only for tasks with unique ids and no cycle, so the sort's fallback is the only possible answer otherwise |
| ScheduleTopo.StuckMeansCycle | src/lib/schedule/scheduleEngine.ts:337-348 | in tasks without a cycle, if every task not yet taken still waits for an untaken dependency then every task has been taken: the queue can only run dry early on a cycle |
| ScheduleTopo.BuildTasksAcyclic | src/lib/schedule/scheduleEngine.ts:154-312 | the tasks the engine builds have unique ids and no cycle, so the sort never falls back |
| ScheduleTopo.RankedByStage | src/lib/schedule/scheduleEngine.ts:201-309 | ranking tasks by stage (preparation, shared works, org, install, test, restore, buffer) puts every dependency below its task |
| ScheduleLevel.WorkDays | src/lib/schedule/scheduleEngine.ts:395-462 | the booked length in whole days is the duration rounded up |
| ScheduleLevel.WorkDaysIsCeil | src/lib/schedule/scheduleEngine.ts:462 | that length is max(0, ⌈duration⌉), as the source computes it |
| ScheduleLevel.DurationOf | src/lib/schedule/scheduleEngine.ts:359-363 | a finite, non-negative override is used, rounded to a quarter day; any other value leaves the task's own duration |
| ScheduleLevel.CrewsOf | src/lib/schedule/scheduleEngine.ts:369-372 | at least one installation crew, no negative restoration crews and at least one parallel riser, each the configured count whenever that is allowed |
| ScheduleLevel.FindEarliestSlot | src/lib/schedule/scheduleEngine.ts:394-449 | the first start from the earliest day below 10 000 at which the riser limit and the crew pool leave room for every day of the task, or the earliest day itself when none does |
| ScheduleLevel.BookDays | src/lib/schedule/scheduleEngine.ts:466-472 | booking adds one use on each day of the task and nowhere else |
| ScheduleLevel.MarkActive | src/lib/schedule/scheduleEngine.ts:379-384 | marking a riser active adds its days and leaves every other riser as it was |
| ScheduleLevel.DepEnd | src/lib/schedule/scheduleEngine.ts:453-459 | the start bound is 0 or the end of a scheduled dependency, and no scheduled dependency ends after it |
| ScheduleLevel.BookSlot | src/lib/schedule/scheduleEngine.ts:464-476 | booking a placed task records its pool use and, for limited riser work, its riser's activity |
| ScheduleLevel.PlaceAll | src/lib/schedule/scheduleEngine.ts:451-480 | each task in sort order is placed once, with its adjusted duration, after all its dependencies; no slot ends after the work of all tasks done one after another; and the crew and riser limits hold unless a task found no slot, which needs that total work to reach the 10 000-day horizon |
| ScheduleLevel.FitsWhenFree | src/lib/schedule/scheduleEngine.ts:394-449 | from a day on which every booked task has ended, any task finds its crew and riser free on every one of its days |
| ScheduleLevel.WorkPermutation | src/lib/schedule/scheduleEngine.ts:351-495 | the total work of the tasks does not depend on the order they are placed in |
| ScheduleLevel.Report | src/lib/schedule/scheduleEngine.ts:482-495 | one entry per input task, in input order, with its placed start and end, or 0 and its own length when it was never placed, mapped to calendar days |
| ScheduleLevel.LevelInTaskOrder | src/lib/schedule/scheduleEngine.ts:351-495 | one entry per task with its adjusted duration and calendar span; with unique ids each lasts its rounded-up duration and ends within the total work of all tasks, and while that total stays below 10 000 days no task falls back, so no day exceeds the crews or the riser limit; without a cycle each starts after its dependencies end |
| ScheduleLevel.Precedence | src/lib/schedule/scheduleEngine.ts:451-480 | a task placed after its dependency in sort order starts no earlier than that dependency ends |
| ScheduleLevel.CapacityPermutation | src/lib/schedule/scheduleEngine.ts:482-495 | reordering the placed tasks for the report keeps every day within the crew limits |
| ScheduleLevel.InsertByStart | src/lib/schedule/scheduleEngine.ts:497 | inserting into a list ordered by start day, then title, keeps it ordered and adds exactly the one entry |
| ScheduleLevel.SortByStart | src/lib/schedule/scheduleEngine.ts:497 | the sorted list is ordered by start day, then title, and is a permutation of its input |
| ScheduleLevel.SortKeepsSorted | src/lib/schedule/scheduleEngine.ts:497 | sorting an already ordered list leaves it as it is |
| ScheduleLevel.ScheduleWithResources | src/lib/schedule/scheduleEngine.ts:351-499 | the returned schedule is the task-order report, as levelled above (durations, dependencies, total-work bound, and crew limits whenever the total work is below the horizon), reordered by start day and then title |
| ScheduleCpm.EarlyTimes | src/lib/schedule/scheduleEngine.ts:508-512 | each task in sort order gets an early start that is 0 or the latest finish among its dependencies, and an early finish its rounded-up duration later |
| ScheduleCpm.MinLate | src/lib/schedule/scheduleEngine.ts:544 | the smallest late start among the successors, reading a missing one as the project end |
| ScheduleCpm.LateStarts | src/lib/schedule/scheduleEngine.ts:526-547 | every task gets a late start; walking the sort order backwards, each is the project end, or the smallest successor late start, less its duration |
| ScheduleCpm.Slacks | src/lib/schedule/scheduleEngine.ts:549-552 | every task gets a slack, its late start less its early start |
| ScheduleCpm.ProjectEndFacts | src/lib/schedule/scheduleEngine.ts:514 | the project end is the latest early finish, or 0 |
| ScheduleCpm.CriticalExists | src/lib/schedule/scheduleEngine.ts:549-552 | when the late starts are consistent and some task finishes at the project end, a non-empty plan has a task without slack |
| ScheduleCpm.ComputeCpm | src/lib/schedule/scheduleEngine.ts:501-555 | with unique ids and no cycle: early starts are non-negative, tight (0 or a dependency's finish) and after every dependency, the project end is the latest finish, each late start equals the minimum over its successors' late starts (or the project end) less its duration, no late start precedes the early one, and some task has zero slack |
| ScheduleResult.Count | src/lib/schedule/scheduleEngine.ts:667-675 | a count is rounded to the nearest integer and never below its minimum |
| ScheduleResult.Normalise | src/lib/schedule/scheduleEngine.ts:664-681 | counts are whole and at least 1 (restoration crews at least 0), the buffer within [0, 40] and access within [10, 100], and everything else unchanged |
| ScheduleResult.NormaliseFixes | src/lib/schedule/scheduleEngine.ts:664-681 | an input already normalised is left as it is |
| ScheduleResult.NormaliseIdempotent | src/lib/schedule/scheduleEngine.ts:664-681 | normalising twice is normalising once |
| ScheduleResult.LatestEnd | src/lib/schedule/scheduleEngine.ts:571 | the total is the latest end of a scheduled task, or 0 |
| ScheduleResult.OrgWithinWork | src/lib/schedule/scheduleEngine.ts:576-585 | the organisational days never exceed the total work, and equal it when every task is organisational |
| ScheduleResult.LossPct | src/lib/schedule/scheduleEngine.ts:587-588 | the organisational loss is the rounded share in percent, 0 with no work, 100 when all work is organisational, always within [0, 100] |
| ScheduleResult.WorkRange | src/lib/schedule/scheduleEngine.ts:576-578 | the range is the work sum rounded at 90 % and at 125 %, and contains it |
| ScheduleResult.CriticalTasks | src/lib/schedule/scheduleEngine.ts:591 | the critical tasks are exactly the tasks with zero slack |
| ScheduleResult.Stages | src/lib/schedule/scheduleEngine.ts:592-603 | the first eight critical tasks, each with the reason its kind gives |
| ScheduleResult.Bottlenecks | src/lib/schedule/scheduleEngine.ts:606-612 | each bottleneck is reported exactly when its condition holds: one riser at a time, one installation crew, no restoration crew, access below 80 % |
| ScheduleResult.BottleneckIds | src/lib/schedule/scheduleEngine.ts:614-634 | the flagged ids are exactly the tasks some reported bottleneck marks, each once |
| ScheduleResult.Summarise | src/lib/schedule/scheduleEngine.ts:571-588 | the totals bound every task's end and are reached, the calendar spans hold exactly their working days, the range contains the work sum and the organisational loss is within [0, 100] |
| ScheduleResult.Critical | src/lib/schedule/scheduleEngine.ts:590-603 | the critical ids are exactly the zero-slack tasks, the stages their first eight, and for a valid plan the CPM facts hold and some task is critical |
| ScheduleResult.BuildResult | src/lib/schedule/scheduleEngine.ts:557-655 | the result carries the plan, tasks and schedule with consistent statistics, critical path and bottlenecks |
| ScheduleResult.Level | src/lib/schedule/scheduleEngine.ts:569 | the schedule is a permutation, ordered by start day and then title, of a task-order schedule that keeps durations and dependencies, ends within the total work, and keeps the crew limits whenever the total work is below 10 000 days |
| ScheduleResult.GenerateSchedule | src/lib/schedule/scheduleEngine.ts:657-684 | normalises the input, builds the tasks from it, and returns a schedule levelled and sorted as above (within the crew limits whenever the total work is below 10 000 days), with consistent statistics, critical path and bottlenecks, and at least one critical task |
| CostEstimate.Price | src/lib/costing/costEstimateEngine.ts:125 | a price given in the partial list wins over the default, and every default price is positive |
| CostEstimate.ClampInt | src/lib/costing/costEstimateEngine.ts:54-57 | a finite value is rounded and kept within the range; a value that is not finite gives the minimum |
| CostEstimate.ClampPct | src/lib/costing/costEstimateEngine.ts:59-62 | the percentage lies in [0, 100], is kept when already inside, and is 0 when not finite |
| CostEstimate.RoundQty | src/lib/costing/costEstimateEngine.ts:64-67 | quantities are non-negative and within half a hundredth of the positive part of the input |
| CostEstimate.MoneyOf | src/lib/costing/costEstimateEngine.ts:69-72 | money is rounded to the grosz, and a value that is not finite counts as 0 |
| CostEstimate.MoneyInGrosze | src/lib/costing/costEstimateEngine.ts:69-72 | a percentage of a whole number of grosze, rounded to money, is the rounded share in grosze |
| CostEstimate.Share | src/lib/costing/costEstimateEngine.ts:483-520 | a percentage of an amount rounded to the nearest grosz, non-negative for non-negative inputs and 0 of nothing |
| CostEstimate.Line | src/lib/costing/costEstimateEngine.ts:74-81 | a line keeps its code and unit, rounds its quantity and unit price, and its net is quantity times price to the grosz; a price that is not a number gives zero |
| CostEstimate.Sum | src/lib/costing/costEstimateEngine.ts:83-85 | a section's sum is its lines' nets rounded to money, 0 for no lines and non-negative for non-negative lines |
| CostEstimate.NormaliseCostInput | src/lib/costing/costEstimateEngine.ts:91-102 | the counts are clamped to [1, 20], [1, 30], [1, 200] and [1, 2000], the VAT rate to [0, 100], values already in range are kept and the scope is unchanged |
| CostEstimate.PipeCodes | src/lib/costing/costEstimateEngine.ts:173-257 | two pipe lines for cold water, three for hot water and two for circulation |
| CostEstimate.PipeSpecCodes | src/lib/costing/costEstimateEngine.ts:173-257 | the pipe lines come with the codes A1–A7 of the selected media, in order |
| CostEstimate.FittingSpecCodes | src/lib/costing/costEstimateEngine.ts:259-367 | the fittings follow with A8–A17, A14 only with circulation |
| CostEstimate.Materials | src/lib/costing/costEstimateEngine.ts:171-368 | section A carries the pipe and fitting codes of the scope, with elbows and tees counted per riser, storey, system and flat |
| CostEstimate.BalancingValvesWithCirculation | src/lib/costing/costEstimateEngine.ts:325-336 | balancing valves are priced exactly when circulation is in scope |
| CostEstimate.MarkUp | src/lib/costing/costEstimateEngine.ts:478-522 | a mark-up line is one set whose net is the rounded percentage of its base and whose unit price equals that net |
| CostEstimate.MarkUpIsLine | src/lib/costing/costEstimateEngine.ts:478-522 | that mark-up line is exactly what `line` makes of one set at the rounded percentage price |
| CostEstimate.GenerateCostEstimate | src/lib/costing/costEstimateEngine.ts:87-553 | the estimate carries the normalised input and five sections |
| CostEstimate.AssembleTotals | src/lib/costing/costEstimateEngine.ts:461-553 | sections A–E in order with their titles; D holds D1, D2 and E holds E1–E3 as one-set lines; the direct cost is the sum of A, B and C; the mark-ups are 15, 5, 8 and 3 % of it and 10 % of it plus them; subtotal, VAT at the rate and gross add up |
| CostEstimate.EstimateTotals | src/lib/costing/costEstimateEngine.ts:87-553 | every estimate the generator makes satisfies those section and total rules |
| CostEstimate.EmptyScopeCostsNothing | src/lib/costing/costEstimateEngine.ts:136-460 | with no medium selected, sections A, B and C are empty and every total is zero |
| CostEstimate.NonNegativeAmounts | src/lib/costing/costEstimateEngine.ts:87-553 | with no negative price, every line and every total is non-negative |
| CostOverrides.OverrideOf | src/lib/costing/applyOverrides.ts:24-28 | an override is used exactly when it is a finite number, and then as its non-negative part |
| CostOverrides.Grosze | src/lib/costing/applyOverrides.ts:8-11 | `roundMoney`: an amount rounded to the nearest grosz, within half a grosz of it, and non-negative for non-negative amounts |
| CostOverrides.Reprice | src/lib/costing/applyOverrides.ts:23-32 | a re-priced line keeps code and unit, takes the overridden quantity and price or keeps its own, and its net is their product to the grosz |
| CostOverrides.ApplyItem | src/lib/costing/applyOverrides.ts:23-32 | a line keeps its code and unit; as written every line is re-priced, while under the corrected rule a line that no override speaks of is kept unchanged |
| CostOverrides.ApplyItemIdempotent | src/lib/costing/applyOverrides.ts:23-32 | applying the same overrides twice to a line is applying them once |
| CostOverrides.KeepUntouchedWithoutOverrides | src/lib/costing/applyOverrides.ts:51-53 | with the corrected rule, no overrides leave every line as it is |
| CostOverrides.FindSection | src/lib/costing/applyOverrides.ts:34-36 | finds a section with the id exactly when one exists, and it is the first such section |
| CostOverrides.ItemOf | src/lib/costing/applyOverrides.ts:38-40 | a line found by code is in that section and carries the code; a missing section gives none |
| CostOverrides.PctOf | src/lib/costing/applyOverrides.ts:17-21 | the fraction of a positive base, or 0 when the base is not positive |
| CostOverrides.Rescale | src/lib/costing/applyOverrides.ts:73-105 | a present mark-up becomes one unit, keeping code and unit, priced at the new amount times its factor to the grosz; a missing one stays missing |
| CostOverrides.Present | src/lib/costing/applyOverrides.ts:107-108 | `filter(Boolean)`: the present lines, in order, and nothing else |
| CostOverrides.RescaleKeeps | src/lib/costing/applyOverrides.ts:68-84 | a mark-up line rescaled against an unchanged base is left as it was |
| CostOverrides.Retotal | src/lib/costing/applyOverrides.ts:55-113 | the totals are the section sums, the direct cost their sum, overheads the sums of D and E, subtotal, VAT at the kept rate and gross added up |
| CostOverrides.Refill | src/lib/costing/applyOverrides.ts:115-122 | every section keeps its id and title and takes the new lines for its id |
| CostOverrides.MarkUpLines | src/lib/costing/applyOverrides.ts:60-108 | sections D and E are empty when the estimate has no such section |
| CostOverrides.NewMarkUpsRescaled | src/lib/costing/applyOverrides.ts:60-105 | D1, D2, E1 and E2 are rescaled from the old direct cost to the new one and E3 from the old profit base to the new |
| CostOverrides.MarkUpsAfterRefill | src/lib/costing/applyOverrides.ts:60-122 | after the sections are refilled, each mark-up line is its old line rescaled as above, and D and E hold exactly the present ones in code order |
| CostOverrides.ApplyWith | src/lib/costing/applyOverrides.ts:42-139 | the result keeps the input, the VAT rate and every section's id and title, its totals match its lines, A, B and C are the re-priced lines, and D and E are the old mark-ups rescaled to the new direct cost and profit base |
| CostOverrides.ApplyOverridesAsWritten | src/lib/costing/applyOverrides.ts:42-139 | the function as written: the input is kept, every line of A, B and C is re-priced, the mark-ups are rescaled to the new direct cost and profit base, and the totals match the lines |
| CostOverrides.ApplyOverrides | src/lib/costing/applyOverrides.ts:42-139 | the corrected function: as above, except that lines of A, B and C that no override speaks of are kept as they are |
| CostOverrides.EngineEstimateWithoutOverrides | src/lib/costing/applyOverrides.ts:42-139 | an estimate whose totals match its lines comes back unchanged when there are no overrides |
| CostOverrides.NoOverridesKeepEstimate | src/lib/costing/applyOverrides.ts:42-139 | every estimate the engine generates comes back unchanged from the corrected function without overrides |
| CostOverrides.RailFixingRepriced | src/lib/costing/applyOverrides.ts:27-29 | the rail-fixing line of 1.056 m at 12 zł is 12.67 zł as generated and 12.72 zł once re-priced from its rounded quantity |
| CostOverrides.EmptyOverridesChangeEstimate | src/lib/costing/applyOverrides.ts:27-53 | the function as written changes a generated estimate it is given no override for |
| CwuCalc.CirculationLossByUa | src/lib/calc/cwu.ts:11-17 | the loss in GJ, converted back at 277.78 kWh per GJ, is UA × ΔT × hours in Wh |
| CwuCalc.CirculationLossMonotone | src/lib/calc/cwu.ts:11-17 | with a non-negative UA and ΔT the loss is non-negative and grows with the hours of operation |
| CwuCalc.Multiplier | src/lib/calc/cwu.ts:42-46 | the profile multipliers lie between 0.6 and 1 |
| CwuCalc.Simultaneity | src/lib/calc/cwu.ts:35-50 | the simultaneity factor is a number exactly when the flat count is not negative; it then lies in [0.1, 1], and no flats give 1 |
| CwuCalc.SimultaneityMonotone | src/lib/calc/cwu.ts:35-50 | more flats, or a lower profile, never raise the factor |
| CwuCalc.EnergyForHeatingWater | src/lib/calc/cwu.ts:52-65 | the energy is volume × 1000 kg/m³ × 4.186 kJ/kgK × ΔT, and the kWh and GJ figures are the same energy |
| CwuCalc.EnergyScalesWithVolume | src/lib/calc/cwu.ts:52-65 | k times the water takes k times the energy |
| CwuCalc.ResidentCalc | src/lib/calc/cwu.ts:67-101 | the heat bought is the meter reading when there is one, else payments over the price when there is a price, else the heat the water needs; the loss is its percentage share, the useful heat the rest clamped at 0, and the difference is cost minus payments |
| CwuCalc.PricedBillHasNoDifference | src/lib/calc/cwu.ts:88-98 | without a meter reading and with a price, the cost is the payments and the difference is 0 |
| CwuCalc.UsefulAndLossSplitPurchase | src/lib/calc/cwu.ts:95-96 | with a loss percentage in [0, 100] and a non-negative purchase, useful heat and loss add up to the heat bought |
| CwuCalc.BufferEnergy | src/lib/calc/cwu.ts:143 | the buffer stores litres × 4.186 kJ/kgK × its temperature drop |
| CwuCalc.BufferPower | src/lib/calc/cwu.ts:147 | the buffer power is that energy spread over the peak, and a zero-length peak gives +Infinity, −Infinity or NaN by the sign of the energy |
| CwuCalc.NetPower | src/lib/calc/cwu.ts:148 | the net power is the peak power less the buffer power, clamped at 0; an infinite buffer gives 0 or +Infinity and NaN passes through |
| CwuCalc.PeakPower | src/lib/calc/cwu.ts:135-140 | a non-negative draw, factor and temperature rise give a non-negative peak power |
| CwuCalc.OrderedPowerCwu | src/lib/calc/cwu.ts:107-165 | the net power is the peak power less the buffer power clamped at 0 (with the zero-peak cases as above), the factor is shown to three decimals, ΔT is hot minus cold and the buffer energy in kWh is the stored kJ over 3600 |
| CwuCalc.NetPowerWithinPeak | src/lib/calc/cwu.ts:140-148 | with a positive peak and a non-negative buffer, the net power lies between 0 and the peak power, and equals it without a buffer |
| CwuCalc.ModernisationCheck | src/lib/calc/cwu.ts:173-205 | the inputs pass exactly when all three are finite, the loss and energy are not negative and the reduction lies in [0, 100] |
| CwuCalc.Modernise | src/lib/calc/cwu.ts:207-217 | the loss after modernisation is x reduced by the percentage and the energy scales by (1 + x_po/100)/(1 + x/100), so neither grows |
| CwuCalc.ModernisedLossAndEnergy | src/lib/calc/cwu.ts:172-218 | an error exactly when the input check fails, carrying that check's error, and otherwise the modernised loss and energy |
| CwuCalc.NoReductionIsIdentity | src/lib/calc/cwu.ts:207-217 | a reduction of 0 % leaves loss and energy as they were |
| CwuCalc.MoreReductionLessEnergy | src/lib/calc/cwu.ts:207-217 | a larger reduction never needs more energy |
| CwuCalc.ModernisationExample | src/lib/calc/cwu.ts:207-217 | a 74 % loss with 600 GJ becomes 37 % and about 472.41 GJ at a 50 % reduction, and 0 % and about 344.83 GJ at 100 % |
| CwuCalc.NaNArgumentsRejected | src/lib/calc/cwu.ts:173-183 | a NaN in any one argument is rejected with that argument's error |
| CwuCalc.Evaluate | src/lib/calc/cwu.ts:251-263 | a variant's payback is +Infinity exactly when it saves nothing, and is otherwise non-negative; savings and ten-year value are shown to the given decimals |
| CwuCalc.ModernizationVariants | src/lib/calc/cwu.ts:224-265 | three variants with their reduction and outlay, each with an infinite payback exactly when loss times price is not positive |
| CwuCalc.PaybackInfinite | src/lib/calc/cwu.ts:254-255 | for a variant with a positive reduction, the payback is infinite exactly when loss times price is not positive |
| CwuLoss.PriceOrOne | src/lib/calc/calculateCwuLoss.ts:27 | a price of 0 counts as 1, any other price as itself, so the divisor is never 0 |
| CwuLoss.ExactLoss | src/lib/calc/calculateCwuLoss.ts:22-37 | before rounding: the energy per m³ is that of heating 1 m³, the loss per m³ and the theoretical cost add up to the billed price, the energy loss is the money loss over the price, and a year is twelve months |
| CwuLoss.CalculateCwuLoss | src/lib/calc/calculateCwuLoss.ts:22-51 | every figure is the exact one shown to its number of decimals |
| CwuLoss.ShownLossWithinAGrosz | src/lib/calc/calculateCwuLoss.ts:39-50 | the shown loss and theoretical cost add up to the billed price within a grosz, and the yearly loss is within half a grosz of the exact one |
| CwuLoss.FairBillShowsNoLoss | src/lib/calc/calculateCwuLoss.ts:22-51 | a bill priced at exactly the heat the water needs shows no loss |
| OrderedPower.WithDefaults | src/lib/calc/calcOrderedPowerCWU.ts:27-38 | every field given is kept and every missing one takes its default (88 flats, 1.5 persons, 110 L, 18 h, peak factor 2.5, 10 °C and 55 °C, 1000 L, 0.8, 0.5 h) |
| OrderedPower.CubicMetres | src/lib/calc/calcOrderedPowerCWU.ts:47-51 | a finite number of litres is a thousandth as many cubic metres, and an infinity or NaN stays as it is |
| OrderedPower.FlowPower | src/lib/calc/calcOrderedPowerCWU.ts:57-61 | a finite flow in m³/h gives m³/h × 1000 / 3600 × 4.19 × ΔT kW; NaN stays NaN and +Infinity with a positive ΔT gives +Infinity |
| OrderedPower.FlowPowerIsChain | src/lib/calc/calcOrderedPowerCWU.ts:57-61 | the same power as the source's chain of multiplications and divisions with infinities and NaN carried through |
| OrderedPower.DrawPower | src/lib/calc/calcOrderedPowerCWU.ts:47-61 | from an hourly draw in litres: litres / 3600 × 4.19 × ΔT kW, with NaN and +Infinity carried as above |
| OrderedPower.DrawPowerScales | src/lib/calc/calcOrderedPowerCWU.ts:57-61 | k times the draw needs k times the power |
| OrderedPower.TankPower | src/lib/calc/calcOrderedPowerCWU.ts:63-68 | the tank power times the peak time is its usable energy; a zero peak time gives +Infinity, −Infinity or NaN by the sign of that energy |
| OrderedPower.AvgDraw | src/lib/calc/calcOrderedPowerCWU.ts:40-46 | the average hourly draw times the working hours is the daily demand; zero working hours give +Infinity, −Infinity or NaN by the sign of the demand |
| OrderedPower.MaxDraw | src/lib/calc/calcOrderedPowerCWU.ts:50 | the peak draw is the peak factor times the average, with NaN and +Infinity carried |
| OrderedPower.Required | src/lib/calc/calcOrderedPowerCWU.ts:71 | `Math.max`: the required power is the larger of the average power and the peak power less the tank power; a NaN average gives NaN, an infinite tank leaves the average |
| OrderedPower.Compute | src/lib/calc/calcOrderedPowerCWU.ts:39-83 | persons and daily demand are products of the inputs, the draws and powers relate to them as above, the tank energy is 1.163 kWh/m³K × m³ × ΔT, and with non-zero working and peak times the required power is the larger of average power and peak power less tank power |
| OrderedPower.CalculatedOf | src/lib/calc/calcOrderedPowerCWU.ts:39-83 | the calculation's fields meet the shared description above |
| OrderedPower.CalcOrderedPowerCwu | src/lib/calc/calcOrderedPowerCWU.ts:27-84 | the shared calculation on the input with its defaults filled in |
| OrderedPower.ZeroPeakTimeNeedsAveragePower | src/lib/calc/calcOrderedPowerCWU.ts:68-71 | a zero peak time with a positive tank energy makes the tank power +Infinity and the required power the average power |
| OrderedPower.ZeroWorkingTimeNeedsInfinitePower | src/lib/calc/calcOrderedPowerCWU.ts:46-71 | zero working hours with a positive demand make the average draw and the required power +Infinity |
| OrderedPower.NoDemandOverNoTimeIsNaN | src/lib/calc/calcOrderedPowerCWU.ts:46-71 | zero demand over zero hours gives a NaN draw and a NaN required power |
| OrderedPower.LargerTankNeverRaisesPower | src/lib/calc/calcOrderedPowerCWU.ts:63-71 | with everything else equal, a larger tank never raises the required power |
| OrderedPower.TankPowerMonotone | src/lib/calc/calcOrderedPowerCWU.ts:63-68 | a larger tank gives at least as much tank power |
| OrderedPower.DefaultsNeedAveragePower | src/lib/calc/calcOrderedPowerCWU.ts:27-83 | the defaults give 132 persons and 14520 L a day, and the required power is the average power, about 42.25 kW |
| OrderedPower.CalculateCwuWithTank | src/components/CwuSimpleOrderedPowerPanel.tsx:32-73 | the panel's cubic-metre figures are its litre figures over 1000, and with non-zero working and peak times the required power is at least the average power |
| OrderedPower.PanelAgreesWithCalculator | src/components/CwuSimpleOrderedPowerPanel.tsx:32-73 | the panel computes every figure it shares with `calcOrderedPowerCWU` the same way |
| PowerPanel.OrderedPower | src/components/CwuOrderedPowerPanel.tsx:23-45 | the peak flow is persons × litres per hour in m³, the heating power 1.16 × flow × ΔT, the circulation power its percentage share, and the ordered power the least multiple of 5 kW at or above the total with the safety margin |
| PowerPanel.ValidateAsWritten | src/components/CwuOrderedPowerPanel.tsx:61-73 | as written, the cold-water temperature is rejected exactly when it is 0 or below, flats exactly when not positive, and the hot-water temperature exactly when not positive or not above the cold |
| PowerPanel.FreezingColdWaterRejected | src/components/CwuOrderedPowerPanel.tsx:67 | the default form with cold water at 0 °C is rejected for the cold-water field alone |
| PowerPanel.Validate | src/components/CwuOrderedPowerPanel.tsx:61-73 | each field is rejected exactly when its own condition fails, with a cold-water temperature of 0 °C accepted |
| PowerPanel.ValidateDiffersOnlyAtZero | src/components/CwuOrderedPowerPanel.tsx:67 | the two checks agree except at 0 °C cold water, where the check as written adds the cold-water error |
| PowerPanel.Submit | src/components/CwuOrderedPowerPanel.tsx:80-87 | a result exactly when the corrected check passes, and then the ordered-power calculation |
| PowerPanel.SubmitAsWritten | src/components/CwuOrderedPowerPanel.tsx:80-87 | a result exactly when the check as written passes, and then the ordered-power calculation |
| PowerPanel.SubmitDiffersOnlyAtZero | src/components/CwuOrderedPowerPanel.tsx:67-87 | submission as written agrees with the corrected one except at 0 °C cold water, where it never gives a result |
| PowerPanel.FreezingColdWaterGetsNoResult | src/components/CwuOrderedPowerPanel.tsx:67-87 | the default form at 0 °C gets no result as written and a result when corrected |
| PowerPanel.SubmittedPowerCoversDemand | src/components/CwuOrderedPowerPanel.tsx:23-73 | an accepted form gets a positive heating power and an ordered power of at least 5 kW covering the total |
| PeakFlow.UnitFlow | src/lib/calc/calcPeakFlow.ts:4 | 16 L/min per flat with bathtubs and 12 without |
| PeakFlow.Phi | src/lib/calc/calcPeakFlow.ts:6 | the simultaneity factor is 0.20 exactly above 40 flats, and 0.25 otherwise |
| PeakFlow.CalcPeakFlow | src/lib/calc/calcPeakFlow.ts:2-9 | the peak draw of a non-negative number of flats is not negative |
| PeakFlow.BathtubsNeverLowerPeak | src/lib/calc/calcPeakFlow.ts:4-8 | bathtubs never lower the peak draw |
| PeakFlow.PeakNotMonotoneInFlats | src/lib/calc/calcPeakFlow.ts:6-8 | 40 flats draw 120 L/min but 41 flats only 98.4: the peak draw falls where the factor steps down |
| PeakFlow.PeakMonotoneWithinBand | src/lib/calc/calcPeakFlow.ts:6-8 | within either band of the factor, more flats never lower the peak draw |
| AuditorRoute.OrZero | src/app/api/calc/auditor/route.ts:67 | a given non-zero number is itself, a missing or zero one is 0 |
| AuditorRoute.MethodPower | src/app/api/calc/auditor/route.ts:64-75 | the measured-peak method, and only it, gives a power: the full measured peak raised by the margin, a missing margin counting as 0 |
| AuditorRoute.Row | src/app/api/calc/auditor/route.ts:91-97 | a candidate at or above the technical power pays no penalty, one below pays the rounded penalty, the fixed cost is the rounded power charge, and the rounded total is within 1 of their sum |
| AuditorRoute.CostRows | src/app/api/calc/auditor/route.ts:89-98 | the rows are the cost table of the range: the candidates from, from + step, … while they do not pass the upper bound, each with its costs; there are none exactly when from exceeds to |
| AuditorRoute.CostTableUnique | src/app/api/calc/auditor/route.ts:89-98 | a candidate range has one cost table: the terms, bounds and step fix every row |
| AuditorRoute.FirstCheapest | src/app/api/calc/auditor/route.ts:99 | the chosen row costs no more than any row and every earlier row costs strictly more, as the strict comparison in the reduction keeps the first minimum |
| AuditorRoute.CandidateStep | src/app/api/calc/auditor/route.ts:86 | the candidate step is positive |
| AuditorRoute.CostOptimisation | src/app/api/calc/auditor/route.ts:83-110 | an optimisation exactly when the cost method is chosen with both rates and the range is not empty, an error exactly when it is chosen and the range is empty; the rows are the cost table of the range and terms derived from the base power, and the optimum is the first cheapest row |
| AuditorRoute.CirculationGJ | src/app/api/calc/auditor/route.ts:112-123 | the loss from the loop's coefficient when it is positive, else the given share of the purchased heat when both are given and non-zero, else 0 |
| AuditorRoute.ReferenceGJ | src/app/api/calc/auditor/route.ts:161 | the reference heat, the purchased heat or 500 GJ, is positive |
| AuditorRoute.RatingOf | src/app/api/calc/auditor/route.ts:163-165 | very good above 85 %, good above 75 %, average above 65 %, and needing modernisation otherwise |
| AuditorRoute.Efficiency | src/app/api/calc/auditor/route.ts:161 | the efficiency is 100 % less the loss share, clamped to [60, 95] |
| AuditorRoute.AdviceOf | src/app/api/calc/auditor/route.ts:152-156 | strongly recommended above 50 000 zł of savings, recommended above 20 000 zł, and worth considering otherwise |
| AuditorRoute.TechnicalOf | src/app/api/calc/auditor/route.ts:160-180 | the technical section's efficiency lies in [60, 95], its rating follows the efficiency, and pipe replacement is urgent exactly when losses exceed 20 % |
| AuditorRoute.Post | src/app/api/calc/auditor/route.ts:47-204 | input outside the schema is rejected; the only other failure is an empty candidate range of the cost method; a result carries the base ordered power, the power of the chosen method, the circulation loss, the efficiency share and rating of that loss, the three variants for that loss and the heat price with each one's return, the economics of the loss over those variants, and the cost table of the base power with its first cheapest row exactly when the cost method runs |
| AuditorRoute.NoLossRatesVeryGood | src/app/api/calc/auditor/route.ts:161-165 | no circulation loss gives 95 % efficiency and a very good rating |
| AuditorRoute.HeavyLossNeedsModernisation | src/app/api/calc/auditor/route.ts:161-165 | a loss of 40 % or more gives 60 % efficiency and calls for modernisation |
| AuditorRoute.NoPenaltyAboveTechnicalPower | src/app/api/calc/auditor/route.ts:91-97 | above the technical power no candidate pays a penalty, and a larger candidate never has a smaller fixed cost |
| TextInput.TrimStart | src/app/audytor/page.tsx:383 | `trimStart`: a suffix of the string, everything dropped is white space, and it does not start with white space |
| TextInput.TrimEnd | src/app/audytor/page.tsx:383 | `trimEnd`: a prefix of the string, everything dropped is white space, and it does not end with white space |
| TextInput.Trim | src/app/audytor/page.tsx:383 | a trimmed string neither starts nor ends with white space |
| TextInput.TrimEmptyIffBlank | src/app/audytor/page.tsx:383 | trimming leaves nothing exactly when the string is all white space |
| TextInput.RemoveSpaces | src/app/audytor/page.tsx:383 | `replace(/\s+/g, "")` leaves no white space and is empty exactly when the string was blank |
| TextInput.RemoveSpacesIdempotent | src/app/audytor/page.tsx:383 | removing white space twice is removing it once |
| TextInput.NoSpacesKept | src/app/audytor/page.tsx:383 | a string without white space is left as it is |
| TextInput.CommaIndex | src/app/audytor/page.tsx:383 | the position of the first comma, or the length when there is none |
| TextInput.ReplaceFirstComma | src/app/audytor/page.tsx:383 | `replace(",", ".")` turns the first comma, and only it, into a dot |
| TextInput.Normalize | src/app/audytor/page.tsx:383 | the normalised text has no white space and is empty exactly when the input was blank |
| TextInput.CommaReplacedInPlace | src/app/audytor/page.tsx:383 | replacing the comma keeps the length and changes no character except into a dot |
| TextInput.ToFiniteNumber | src/app/audytor/page.tsx:380-389 | a finite number is itself and any other number nothing; a blank string is nothing; another string is its normalised text parsed when that is finite; any other value is nothing |
| TextInput.SpacingIrrelevant | src/app/audytor/page.tsx:383-386 | white space anywhere in a string does not change the number read from it |
| LeadClassifiers.Known | src/app/audytor/page.tsx:143-144 | a field is usable exactly when it is present and finite, and then it is its value |
| LeadClassifiers.ContactStageSortKey | src/app/audytor/page.tsx:86-97 | each contact stage has a sort key below 4 |
| LeadClassifiers.StageAtKey | src/app/audytor/page.tsx:86-97 | a stage exists for exactly the keys 0 to 3 |
| LeadClassifiers.ContactStageSortKeyBijective | src/app/audytor/page.tsx:86-97 | the sort key and the stage at a key undo each other, so sorting by key orders distinct stages strictly |
| LeadClassifiers.PrioritySortKey | src/app/audytor/page.tsx:150-155 | the priority sort keys lie between 1 and 3 |
| LeadClassifiers.LeadPriority | src/app/audytor/page.tsx:135-156 | high exactly when a usable yearly loss exceeds 4000 zł or a usable loss share exceeds 50 %; medium only for a usable yearly loss from 1500 to 4000 zł |
| LeadClassifiers.LeadPriorityMonotone | src/app/audytor/page.tsx:146-155 | a larger yearly loss never lowers the priority |
| LeadClassifiers.UnknownLossRanksAsNone | src/app/audytor/page.tsx:143-155 | an unusable yearly loss ranks as a loss of 0 |
| LeadClassifiers.LeadStatusCode | src/app/audytor/page.tsx:160-175 | audit done exactly when there are completed variants; otherwise ready for audit or new exactly as the audit status says, and new also when there is no status and no request |
| LeadClassifiers.LeadStatusCodeIgnoresContext | src/app/audytor/page.tsx:174 | whether there is a context never changes the status |
| LeadClassifiers.ReductionRange | src/app/audytor/page.tsx:277-286 | each reduction range lies within [10 %, 60 %] and is non-empty |
| LeadClassifiers.ReductionRangesTile | src/app/audytor/page.tsx:277-286 | the three ranges tile 10 % to 60 % without gaps or overlaps |
| LeadClassifiers.BaseMonths | src/app/audytor/page.tsx:300 | the base payback is 8, 4 or 2 months |
| LeadClassifiers.ModelFactor | src/app/audytor/page.tsx:302 | the variant factor lies between 0.85 and 1.25 |
| LeadClassifiers.LimitMonths | src/app/audytor/page.tsx:305-309 | the shown range lies within 1 to 24 months and its lower end does not exceed its upper |
| LeadClassifiers.LimitMonthsMonotone | src/app/audytor/page.tsx:305-309 | longer rounded estimates never shorten the shown range |
| LeadClassifiers.PaybackScale | src/app/audytor/page.tsx:300-302 | the payback scale is positive |
| LeadClassifiers.PaybackScaleMonotone | src/app/audytor/page.tsx:300-302 | a larger yearly loss never lengthens the payback scale |
| LeadClassifiers.MonthsFor | src/app/audytor/page.tsx:305-309 | the range from a scale and a reduction lies within 1 to 24 months |
| LeadClassifiers.PaybackMonths | src/app/audytor/page.tsx:288-312 | a payback range exactly when the yearly loss is usable and positive, and then within 1 to 24 months |
| LeadClassifiers.LargerLossPaysBackNoSlower | src/app/audytor/page.tsx:294-309 | a larger yearly loss never lengthens either end of the range |
| LeadClassifiers.VariantCPaysBackNoSlowerThanA | src/app/audytor/page.tsx:302-309 | variant C never pays back slower than variant A |
| LeadClassifiers.SelectedKeyOf | src/app/audytor/page.tsx:326-333 | B when B is filled or neither A nor C is; A when A is filled and B is not; and a filled key whenever one is filled |
| LeadClassifiers.SelectedVariantKey | src/app/audytor/page.tsx:326-333 | when any variant is described, the selected one is described |
| LeadClassifiers.SelectedVariantKeyBlank | src/app/audytor/page.tsx:326-333 | B is selected when its description is not blank, and a blank B is selected exactly when A and C are blank too |
| LeadClassifiers.RoiLabelFromPaybackYears | src/app/audytor/page.tsx:335-339 | quick payback exactly at 2 years or less, long-term exactly above 5 years, medium in between |
| LeadClassifiers.RoiLabelMonotone | src/app/audytor/page.tsx:335-339 | a longer payback never gives a better label |
| LeadClassifiers.EffectiveLoss | src/app/audytorzy/page.tsx:21 | the loss a classifier uses is never negative and is the loss itself when that is finite and not negative |
| LeadClassifiers.ClassifyLeadRecommendedStep | src/app/audytorzy/page.tsx:20-25 | observation exactly below 10 000 zł a year, a technical audit exactly above 30 000 zł, a conversation in between |
| LeadClassifiers.RecommendedStepMonotone | src/app/audytorzy/page.tsx:20-25 | a larger loss never recommends a lesser step, and an unreadable loss means observation |
| LeadClassifiers.MapRecommendedStepToLeadStatus | src/app/audytorzy/page.tsx:36-40 | a recommended step never maps to the status new |
| LeadClassifiers.RecommendedStepBadge | src/app/audytorzy/page.tsx:27-34 | a green badge exactly for observation and a red one exactly for an audit |
| LeadClassifiers.StepMappingsInjective | src/app/audytorzy/page.tsx:27-40 | different steps get different statuses and different badges |
| LeadClassifiers.OrZeroIfNotFinite | src/app/audytorzy/page.tsx:62-63 | a finite figure is itself and any other counts as 0 |
| LeadClassifiers.ClassifyAuditPotential | src/app/audytorzy/page.tsx:55-72 | high exactly above 35 % or from 20 000 zł a year; medium exactly from 20 % to 35 % with a loss between 5000 and 20 000 zł; low otherwise |
| LeadClassifiers.AuditPotentialMonotone | src/app/audytorzy/page.tsx:68-72 | larger losses never lower the potential, and a share above 35 % is high even with a small money loss |
| LeadClassifiers.UnreadablePotentialIsLow | src/app/audytorzy/page.tsx:62-63 | NaN or infinite figures give a low potential |
| ManagerStatus.BuildingStatusOf | src/app/zarzadca/page.tsx:192-194 | a decision is needed exactly when there are variants, and there is no audit exactly when there is neither an assessment nor variants |
| ManagerStatus.BuildingStatusFromAuditorData | src/app/zarzadca/page.tsx:157-195 | a decision is needed exactly when a stored variant has a non-blank scope, and the audit is in progress exactly when the assessment is valid and there is no such variant |
| ManagerStatus.VariantsOverrideAssessment | src/app/zarzadca/page.tsx:192-194 | with variants the assessment does not matter; without them it decides between in progress and no audit |
| ManagerStatus.VariantsPresentIffNotBlank | src/app/zarzadca/page.tsx:182-185 | variants are present exactly when a stored scope is not all white space |
| ManagerStatus.RowStatusFromBuildingStatus | src/app/zarzadca/page.tsx:197-206 | a row is for decision exactly when the building needs a decision, and ready for audit exactly when it has no audit |
| ManagerStatus.RowStatusRoundTrip | src/app/zarzadca/page.tsx:197-206 | the row status and the building status determine each other |
| ManagerStatus.ManagerRowStatus | src/app/zarzadca/page.tsx:327-339 | a row is ready for audit exactly when the building has no audit |
| ManagerStatus.OperationalOverrideRedundant | src/app/zarzadca/page.tsx:327-339 | the operational override never changes the row status |
| ManagerStatus.SimplifiedStatusForManager | src/app/zarzadca/page.tsx:49-66 | audit done exactly when the building needs a decision; no badge exactly when there is no decision, no status and no request |
| ManagerStatus.ManagerAgreesWithAuditor | src/app/zarzadca/page.tsx:49-66 | the manager's badge and the auditor's status code agree: audit done with audit done, ready with ready or requested, none or new with new |
| ManagerStatus.LossScaleFromYearlyLoss | src/app/zarzadca/page.tsx:150-155 | high exactly for a usable loss from 12 000 zł, medium exactly from 3000 to below 12 000 zł, low otherwise |
| ManagerStatus.LossScaleMonotone | src/app/zarzadca/page.tsx:150-155 | a larger loss never gives a lower scale |
| EnergyPie.ClampPercent | src/app/mieszkancy/components/EnergyPieChart.tsx:52-55 | a non-finite figure shows as 0, and the rest is cut to [0, 100] |
| EnergyPie.NormalizePercents | src/app/mieszkancy/components/EnergyPieChart.tsx:57-70 | nothing to show gives two empty slices; otherwise the slices add up to 100 and keep the ratio of the clamped figures |
| EnergyPie.NormalizedSlicesKept | src/app/mieszkancy/components/EnergyPieChart.tsx:57-70 | slices that already add up to 100 are kept |
| EnergyPie.NormalizeIdempotent | src/app/mieszkancy/components/EnergyPieChart.tsx:57-70 | normalising twice is normalising once |
| WorkSchedule.Insert | src/app/wykonawcy/harmonogram/HarmonogramPracPage.tsx:143-187 | inserting into stages sorted by order keeps them sorted, adds exactly the one stage, and puts it after every stage of no larger order |
| WorkSchedule.SortByOrder | src/app/wykonawcy/harmonogram/HarmonogramPracPage.tsx:143-187 | `sort((a, b) => a.order - b.order)`: a permutation of the stages sorted by order |
| WorkSchedule.SortSorted | src/app/wykonawcy/harmonogram/HarmonogramPracPage.tsx:143 | stages already sorted by order are left as they are |
| WorkSchedule.FindIndex | src/app/wykonawcy/harmonogram/HarmonogramPracPage.tsx:188 | `findIndex`: the first position with the id, or none when no stage has it |
| WorkSchedule.Renumber | src/app/wykonawcy/harmonogram/HarmonogramPracPage.tsx:195 | every stage keeps its fields and takes its position plus one as its order |
| WorkSchedule.TargetIndex | src/app/wykonawcy/harmonogram/HarmonogramPracPage.tsx:190-191 | a target exists only inside the list and differs from the stage's own position |
| WorkSchedule.Swap | src/app/wykonawcy/harmonogram/HarmonogramPracPage.tsx:192-194 | the corrected move: the two positions change places and nothing else changes |
| WorkSchedule.SwapOrders | src/app/wykonawcy/harmonogram/HarmonogramPracPage.tsx:192-194 | the move as written: only the two stages' order fields change and no stage changes position |
| WorkSchedule.MoveAsWrittenInSorted | src/app/wykonawcy/harmonogram/HarmonogramPracPage.tsx:188-195 | as written, a stage that is found and has a neighbour gets its order swapped with it and the list is renumbered by position; otherwise nothing happens |
| WorkSchedule.MoveStageAsWritten | src/app/wykonawcy/harmonogram/HarmonogramPracPage.tsx:185-197 | the function as written keeps the number of stages |
| WorkSchedule.RenumberForgetsOrders | src/app/wykonawcy/harmonogram/HarmonogramPracPage.tsx:192-195 | renumbering by position throws away any order values written before it |
| WorkSchedule.MoveStageNeverReorders | src/app/wykonawcy/harmonogram/HarmonogramPracPage.tsx:192-195 | as written, a move that should happen only renumbers the sorted stages: no stage changes place |
| WorkSchedule.MoveUpDoesNotMove | src/app/wykonawcy/harmonogram/HarmonogramPracPage.tsx:185-197 | moving the second of two stages up leaves both where they were |
| WorkSchedule.MoveStage | src/app/wykonawcy/harmonogram/HarmonogramPracPage.tsx:185-197 | the corrected function keeps the number of stages |
| WorkSchedule.MoveInSorted | src/app/wykonawcy/harmonogram/HarmonogramPracPage.tsx:188-195 | corrected, a stage that is found and has a neighbour changes places with it and the list is renumbered; otherwise nothing happens |
| WorkSchedule.MovedStageLandsAtTarget | src/app/wykonawcy/harmonogram/HarmonogramPracPage.tsx:185-197 | corrected, the moved stage lands one place up or down, its neighbour takes its old place, and orders run 1, 2, … |
| WorkSchedule.FindIndexUnique | src/app/wykonawcy/harmonogram/HarmonogramPracPage.tsx:188 | with distinct ids, every stage is found at its own position |
| WorkSchedule.MoveUpThenDown | src/app/wykonawcy/harmonogram/HarmonogramPracPage.tsx:185-197 | corrected, moving a stage up and then down gives back the sorted, renumbered stages |
| WorkSchedule.Weekday | src/app/wykonawcy/harmonogram/HarmonogramPracPage.tsx:204 | `getDay`: the day of the week, 0 to 6 |
| WorkSchedule.NextWorkday | src/app/wykonawcy/harmonogram/HarmonogramPracPage.tsx:202-208 | the next weekday, at most three days on, with only weekend days in between |
| WorkSchedule.Steps | src/app/wykonawcy/harmonogram/HarmonogramPracPage.tsx:201-207 | the loop takes no steps for a non-positive duration and otherwise the duration rounded up |
| WorkSchedule.AddDaysSkippingWeekends | src/app/wykonawcy/harmonogram/HarmonogramPracPage.tsx:199-210 | the end is at least that many days on, and exactly that many when weekends count |
| WorkSchedule.WorkdaysBetweenSplit | src/app/wykonawcy/harmonogram/HarmonogramPracPage.tsx:199-210 | the weekdays of two adjacent periods add up |
| WorkSchedule.WorkdaysAdded | src/app/wykonawcy/harmonogram/HarmonogramPracPage.tsx:199-210 | skipping weekends, exactly the duration's weekdays pass, and a positive duration ends on a weekday |
| WorkSchedule.Chain | src/app/wykonawcy/harmonogram/HarmonogramPracPage.tsx:225-233 | each stage keeps its fields, the first starts at the given day, each ends its duration after its start, and each next one starts where the previous ended |
| WorkSchedule.GenerateSchedule | src/app/wykonawcy/harmonogram/HarmonogramPracPage.tsx:217-234 | a schedule exactly when there is a start date and every stage lasts at least a day; it starts on the start date and chains the stages end to start |
| WorkSchedule.ScheduledStagesLastTheirDuration | src/app/wykonawcy/harmonogram/HarmonogramPracPage.tsx:199-233 | every scheduled stage spans at least its duration, and exactly that many weekdays when weekends are skipped |
| WorkSchedule.ValidateStep | src/app/wykonawcy/harmonogram/HarmonogramPracPage.tsx:104-113 | a step is allowed exactly when a project is chosen for step 1 on, a stage exists for step 2 on, and from step 3 the start date, every stage's dates and durations of at least a day are there |
| WorkSchedule.ValidateStepMonotone | src/app/wykonawcy/harmonogram/HarmonogramPracPage.tsx:104-113 | a step that is allowed allows every earlier step |
| WorkSchedule.GeneratedSchedulePassesValidation | src/app/wykonawcy/harmonogram/HarmonogramPracPage.tsx:104-234 | a generated schedule of a chosen project passes every step's check |
| WorkSchedule.SumProgressBounds | src/app/wykonawcy/harmonogram/HarmonogramPracPage.tsx:161 | the progress sum lies between the count times the lowest and the highest value |
| WorkSchedule.OverallProgress | src/app/wykonawcy/harmonogram/HarmonogramPracPage.tsx:159-163 | no stages show 0 %, and progress figures within 0 to 100 give an overall figure within 0 to 100 |
| WorkSchedule.UniformProgressShown | src/app/wykonawcy/harmonogram/HarmonogramPracPage.tsx:159-163 | stages that all show p % give p % overall |
| QuickEstimate.Priced | src/app/wykonawcy/SzybkaWycenaWizard.tsx:85-118 | an option that is not ticked costs nothing, and a ticked one has labour between 0 and material for the rates used |
| QuickEstimate.PricedMonotone | src/app/wykonawcy/SzybkaWycenaWizard.tsx:85-118 | ticking an option or raising its quantity never lowers its material or labour |
| QuickEstimate.Parts | src/app/wykonawcy/SzybkaWycenaWizard.tsx:84-122 | eight priced parts, the last one the per-floor amounts, each with labour between 0 and material for a form without negative figures |
| QuickEstimate.SumsOfBoundedParts | src/app/wykonawcy/SzybkaWycenaWizard.tsx:81-122 | the labour total lies between 0 and the material total, and each part is at most its total |
| QuickEstimate.SumsMonotone | src/app/wykonawcy/SzybkaWycenaWizard.tsx:81-122 | larger parts give larger totals |
| QuickEstimate.SumsOfUpdate | src/app/wykonawcy/SzybkaWycenaWizard.tsx:81-122 | replacing one part changes the totals by exactly its difference |
| QuickEstimate.CalculateEstimate | src/app/wykonawcy/SzybkaWycenaWizard.tsx:73-129 | the total is material plus labour, and for a form without negative figures material covers at least the floors at 500 zł, and labour lies between the floors at 200 zł and the material |
| QuickEstimate.EmptyScopeCostsFloorsOnly | src/app/wykonawcy/SzybkaWycenaWizard.tsx:120-128 | with nothing ticked only the floors are priced, 700 zł each in all |
| QuickEstimate.OptimalSwitchNotPriced | src/app/wykonawcy/SzybkaWycenaWizard.tsx:73-129 | the optimal-variant switch never changes the price |
| QuickEstimate.InsulationLinear | src/app/wykonawcy/SzybkaWycenaWizard.tsx:105-108 | each further insulation option adds 1200 zł of material and 600 zł of labour |
| QuickEstimate.ModernisationLinear | src/app/wykonawcy/SzybkaWycenaWizard.tsx:110-113 | each further modernisation option adds 1500 zł of material and 800 zł of labour |
| QuickEstimate.ExtrasLinear | src/app/wykonawcy/SzybkaWycenaWizard.tsx:115-118 | each further extra adds 500 zł of material and 300 zł of labour |
| QuickEstimate.BasementLevelsNeedLength | src/app/wykonawcy/SzybkaWycenaWizard.tsx:95-98 | without a level length, basement-level replacement adds nothing |
| QuickEstimate.WiderScopeCostsMore | src/app/wykonawcy/SzybkaWycenaWizard.tsx:73-129 | a scope that includes another never costs less, in material or in labour |
| QuickEstimate.IsStep1Valid | src/app/wykonawcy/SzybkaWycenaWizard.tsx:138-142 | the first step passes when flats, risers, floors and the year of construction are all positive, so no priced figure is negative unless the level length is |
| QuickEstimate.ValidBuildingHasPositiveCost | src/app/wykonawcy/SzybkaWycenaWizard.tsx:120-142 | a building that passes the first step costs at least 700 zł per floor, which is positive |
| QuickEstimate.RemoveAll | src/app/wykonawcy/SzybkaWycenaWizard.tsx:152 | `filter(v => v !== value)`: the value is gone, every other option keeps its count, and the length drops by the value's count |
| QuickEstimate.Toggle | src/app/wykonawcy/SzybkaWycenaWizard.tsx:151-153 | the value is present afterwards exactly when it was absent before, and other options are untouched |
| QuickEstimate.HandleScopeChange | src/app/wykonawcy/SzybkaWycenaWizard.tsx:145-156 | the optimal-variant switch is ignored; any other group has the option toggled and every other group is kept |
| QuickEstimate.ToggleTwiceRestoresMembership | src/app/wykonawcy/SzybkaWycenaWizard.tsx:151-153 | toggling twice restores which options are ticked |
| QuickEstimate.ToggleKeepsOptionsDistinct | src/app/wykonawcy/SzybkaWycenaWizard.tsx:151-153 | toggling keeps every option at most once |
| QuickEstimate.DoubleToggleKeepsEstimate | src/app/wykonawcy/SzybkaWycenaWizard.tsx:73-156 | ticking and unticking an option gives back the same estimate |
| OfferTotals.CostOrZero | src/app/wykonawcy/generator-ofert/GeneratorOfertWizard.tsx:168 | a finite cost counts as itself and any other as 0 |
| OfferTotals.Included | src/app/wykonawcy/generator-ofert/GeneratorOfertWizard.tsx:168 | `filter(i => i.included)`: only included items of the list, and no more of them |
| OfferTotals.FilterThenSum | src/app/wykonawcy/generator-ofert/GeneratorOfertWizard.tsx:168 | filtering and then summing equals summing each item's cost when it is included |
| OfferTotals.TotalsOf | src/app/wykonawcy/generator-ofert/GeneratorOfertWizard.tsx:169-171 | VAT is the rate's share of the net rounded to the nearest złoty, and gross is net plus VAT |
| OfferTotals.CalculateTotals | src/app/wykonawcy/generator-ofert/GeneratorOfertWizard.tsx:166-172 | the totals of the active variant's included items |
| OfferTotals.NetAdditive | src/app/wykonawcy/generator-ofert/GeneratorOfertWizard.tsx:168 | the net of two lists joined is the sum of their nets |
| OfferTotals.ExcludedItemAddsNothing | src/app/wykonawcy/generator-ofert/GeneratorOfertWizard.tsx:168 | an excluded item anywhere in the list adds nothing to the net |
| OfferTotals.ExcludedItemIgnored | src/app/wykonawcy/generator-ofert/GeneratorOfertWizard.tsx:166-172 | adding an excluded item to the active variant leaves the totals as they were |
| OfferTotals.OtherVariantsIgnored | src/app/wykonawcy/generator-ofert/GeneratorOfertWizard.tsx:167 | changing another variant leaves the totals as they were |
| OfferTotals.NetNonNegative | src/app/wykonawcy/generator-ofert/GeneratorOfertWizard.tsx:168 | non-negative costs give a non-negative net |
| OfferTotals.GrossCoversNet | src/app/wykonawcy/generator-ofert/GeneratorOfertWizard.tsx:166-172 | with non-negative costs and rate, the net is not negative and the gross covers it |
| Numbers.Round | src/app/api/calc/auditor/route.ts:97 | `Math.round`: the nearest integer, with halves rounded up |
| Numbers.ToFixed | src/lib/calc/calculateCwuLoss.ts:40-49 | `Number(x.toFixed(d))`: within half a unit of the last decimal of x, with the sign of x |
| Numbers.RoundMoney | src/lib/costing/costEstimateEngine.ts:69-72 | an amount rounded to the grosz lies within half a grosz of it and is not negative for a non-negative amount |
| Numbers.RoundMoneyIdempotent | src/lib/costing/costEstimateEngine.ts:69-72 | rounding an amount to the grosz twice is rounding it once |
| Numbers.NumDiv | src/lib/calc/calcOrderedPowerCWU.ts:46-68 | floating-point division: a finite quotient for a non-zero divisor; a non-zero number over 0 is an infinity of its sign and 0 over 0 is NaN; NaN spreads; a number over an infinity is 0 |
| Numbers.NumMul | src/lib/calc/calcOrderedPowerCWU.ts:50-61 | floating-point multiplication: finite products are exact, NaN spreads, and an infinity times a non-zero value is an infinity of the product's sign while times 0 it is NaN |

## Left out

- Floating point is exact: no rounding error, no signed zero and no `decimal.js` precision. NaN and ±Infinity are modelled only where the source tests or produces them (`Numbers.Num`).
- Parsing and I/O are not modelled: zod and pydantic schemas become predicates over the parsed records, and HTTP, JSON, FastAPI, `localStorage`, fetch and React state are left out.
- Rendering is not modelled: narrative and label strings, plot series, the PDF reports and the UI are left out. Where a text is selected by a branch, the branch or enum that selects it is modelled.
- Calendar dates are day numbers with weekday = (start weekday + day) mod 7, Sunday 0, the JavaScript `getDay` convention. ISO strings and time zones are not modelled.
- `Number(...)` applied to user text, `Math.sqrt` and `String.localeCompare` come in as parameters: `parse`, `root` with root > 0 and root² equal to its argument, and `titleRank`.
- The engineering commentary, `handleOptimalVariant`, and the `installationType` and `hasCirculation` fields of the estimate input are left out; none of them is priced.
- `allowed_violation_min` is accepted and ignored by both simulators, as in the source.
- MixedTank.ViolationMonotone: monotonicity in power is proved for hysteresis 0, the default; a positive hysteresis band makes the heater state path-dependent and is not covered.
- LayeredTank.ViolationMonotone: as for the mixed tank, proved for hysteresis 0 only.
- TankPhysics.ValidateLoss: a negative UA or ΔT is accepted, as in the source, because only the direct loss and the percentage are checked. The simulators then reject the negative loss (`LossNegative`), so a run never uses it.
- ScheduleLevel.SortByStart: the final sort is proved to give a permutation ordered by start day and then title; its stability (equal keys keep their input order) is not proved.
- ScheduleLevel.ScheduleWithResources: when no slot is found below the horizon of 10000 work days, the source falls back to the earliest start; the crew-capacity guarantee is stated for runs without such a fallback, and the model proves a fallback needs the total work of all tasks to reach the horizon, but does not characterise exactly which larger plans fall back.
- WorkSchedule.OverallProgress: a NaN progress value (`progress` falsy) is not modelled; progress values are finite.
- OfferTotals.CostOrZero: an infinite cost counts as 0, whereas the source's `cost`-or-0 keeps ±Infinity (GeneratorOfertWizard.tsx:168) and makes the totals infinite.
- OfferTotals.CalculateTotals: the model requires a valid active-variant index; the page would throw on an index outside the list.
- PeakFlow.CalcPeakFlow: the function's own contract states only non-negativity; the formula is pinned by its partner lemmas.

## Findings

| source | as written | input that shows it | evidently intended | confidence | as-written member | corrected member |
|---|---|---|---|---|---|---|
| cwu_time_simulation.py:874-878 | `_find_min_pmax` starts doubling from `max(0, start)`; from 0, doubling leaves 0 and the loop never ends when 0 kW is infeasible | start 0 with a profile that 0 kW cannot serve | the search always stops: a zero start that cannot serve the profile is reported as an error (`SearchDiverges`) instead of doubling 0 | not executed | Search.DoublingAsWritten, Search.DoublingFromZeroNeverEnds | Search.FindMinPmax, Search.FoundWithinTolerance |
| src/app/wykonawcy/harmonogram/HarmonogramPracPage.tsx:192-195 | `moveStage` swaps the two `order` fields, then renumbers by position in the already sorted list, which undoes the swap | two stages s1, s2: moving s2 up leaves s1 first | the moved stage changes place with its neighbour | not executed | WorkSchedule.MoveStageAsWritten, WorkSchedule.MoveStageNeverReorders, WorkSchedule.MoveUpDoesNotMove | WorkSchedule.MoveStage, WorkSchedule.MovedStageLandsAtTarget, WorkSchedule.MoveUpThenDown |
| src/lib/costing/applyOverrides.ts:27-53 | every A/B/C line is re-priced (lines 27-29 and 51-53) from its rounded quantity, even with no override for it | one riser, cold water only: rail fixing A16, 1.056 m at 12 zł, is 12.67 zł when generated and 12.72 zł after applying empty overrides | a line without an override keeps its net | not executed | CostOverrides.ApplyOverridesAsWritten, CostOverrides.EmptyOverridesChangeEstimate, CostOverrides.RailFixingRepriced | CostOverrides.ApplyOverrides, CostOverrides.NoOverridesKeepEstimate |
| src/components/CwuOrderedPowerPanel.tsx:67-87 | `!input.tempZimnej` (line 67, used by the submit handler at 80-87) treats a cold-water temperature of 0 as missing, so the form shows an error and no result | the default form with cold water set to 0 °C | 0 °C is accepted, because the rule's own message asks for a number ≥ 0 | not executed | PowerPanel.ValidateAsWritten, PowerPanel.FreezingColdWaterRejected, PowerPanel.SubmitAsWritten, PowerPanel.FreezingColdWaterGetsNoResult | PowerPanel.Validate, PowerPanel.Submit, PowerPanel.ValidateDiffersOnlyAtZero, PowerPanel.SubmitDiffersOnlyAtZero |

=== FILE: auditor_route.dfy ===
/** The arithmetic of the auditor calculation endpoint
    (`src/app/api/calc/auditor/route.ts`): the base ordered power, the power
    of the measured-peak method, the cost-optimisation table, the
    circulation loss, the modernisation economics and the efficiency rating.
    Request parsing is reduced to the schema's constraints on an already
    parsed record with its defaults filled in. */
module AuditorRoute {
  import opened Outcomes
  import opened Numbers
  import opened CwuCalc

  datatype SizingMethod =
    | PnEn806 | Pn92B01706 | EnergyBalance | PowerDrawTime
    | PeakDemand | SeasonalCurve | CostBased | SimulationBased

  /** The request after parsing, with the schema's defaults applied. */
  datatype AuditorData = AuditorData(
    flats: int, risers: int, coldTempC: real, hotTempC: real, drawPeakLpm: real,
    simultProfile: Profile, bufferL: real, bufferDeltaC: real, peakDurationSec: real,
    circulationPct: Option<real>, purchasedGJ: Option<real>, uaWK: Option<real>,
    dTCirc: real, hoursCirc: real, pricePerGJ: real, sizing: SizingMethod,
    costPowerRate: Option<real>, penaltyRate: Option<real>,
    expectedExceedHours: Option<real>, avgExceedKW: Option<real>,
    candidateFromKW: Option<real>, candidateToKW: Option<real>, candidateStepKW: Option<real>,
    peakMarginPct: Option<real>)

  predicate Positive(o: Option<real>) { o.Some? ==> o.value > 0.0 }
  predicate NonNegative(o: Option<real>) { o.Some? ==> o.value >= 0.0 }

  /** The request schema's range constraints. */
  predicate SchemaValid(d: AuditorData) {
    && d.flats > 0 && d.risers > 0 && d.drawPeakLpm > 0.0
    && d.bufferL >= 0.0 && d.bufferDeltaC >= 0.0 && d.peakDurationSec > 0.0
    && (d.circulationPct.Some? ==> 0.0 <= d.circulationPct.value <= 100.0)
    && Positive(d.purchasedGJ) && NonNegative(d.uaWK)
    && d.dTCirc >= 0.0 && d.hoursCirc > 0.0 && d.pricePerGJ > 0.0
    && Positive(d.costPowerRate) && Positive(d.penaltyRate)
    && NonNegative(d.expectedExceedHours) && NonNegative(d.avgExceedKW)
    && NonNegative(d.candidateFromKW) && NonNegative(d.candidateToKW)
    && Positive(d.candidateStepKW) && NonNegative(d.peakMarginPct)
  }

  /** JavaScript truthiness of an optional number. */
  predicate Truthy(o: Option<real>) { o.Some? && o.value != 0.0 }

  /** `x || 0` for an optional number. */
  function OrZero(o: Option<real>): (r: real)
    ensures Truthy(o) ==> r == o.value
    ensures !Truthy(o) ==> r == 0.0
  {
    if Truthy(o) then o.value else 0.0
  }

  function PowerParamsOf(d: AuditorData): PowerParams {
    PowerParams(d.flats as real, d.risers as real, d.coldTempC, d.hotTempC, d.drawPeakLpm,
                d.simultProfile, d.bufferL, d.bufferDeltaC, d.peakDurationSec)
  }

  // ---------------------------------------------------------------------
  // Measured-peak method
  // ---------------------------------------------------------------------

  /** Heating power of the full measured peak, without simultaneity, kW. */
  function MeasuredPeakKw(d: AuditorData): real {
    d.drawPeakLpm / 60.0 * Density * SpecificHeat * (d.hotTempC - d.coldTempC) / 3600.0
  }

  /** The power of the measured-peak method, present only for that method:
      the measured peak raised by the margin, a missing margin counting as 0. */
  function MethodPower(d: AuditorData): (r: Option<real>)
    ensures r.Some? <==> d.sizing == PeakDemand
    ensures r.Some? ==> r.value == MeasuredPeakKw(d) * (1.0 + OrZero(d.peakMarginPct) / 100.0)
  {
    if d.sizing == PeakDemand then Some(MeasuredPeakKw(d) * (1.0 + OrZero(d.peakMarginPct) / 100.0))
    else None
  }

  // ---------------------------------------------------------------------
  // Cost-optimisation table
  // ---------------------------------------------------------------------

  datatype CostRow = CostRow(p: real, costFixed: int, costPenalty: int, costTotal: int)

  datatype CostTerms = CostTerms(
    basePkW: real, powerRate: real, penaltyRate: real, exceedHours: real, avgExceedKW: real)

  /** One candidate power: the yearly fixed charge plus, when the candidate
      is below the technical power, the expected penalty. */
  function Row(t: CostTerms, p: real): (r: CostRow)
    ensures p >= t.basePkW ==> r.costPenalty == 0
    ensures p < t.basePkW ==> r.costPenalty == Round(t.avgExceedKW * t.penaltyRate * t.exceedHours)
    ensures r.costFixed == Round(p * t.powerRate)
    ensures r.p == ToFixed(p, 1)
    ensures r.costFixed + r.costPenalty - 1 <= r.costTotal <= r.costFixed + r.costPenalty + 1
  {
    var exceed := Max(t.basePkW - p, 0.0);
    var fixed := p * t.powerRate;
    var occur := if exceed > 0.0 then t.avgExceedKW else 0.0;
    var penalty := occur * t.penaltyRate * t.exceedHours;
    assert occur == 0.0 ==> penalty == 0.0;
    CostRow(ToFixed(p, 1), Round(fixed), Round(penalty), Round(fixed + penalty))
  }

  /** The k-th candidate power. */
  function Candidate(from: real, step: real, k: nat): real {
    from + k as real * step
  }

  /** The cost table of a candidate range: the candidates from, from + step,
      ... while they do not pass `to`, each with its costs. */
  ghost predicate CostTable(rows: seq<CostRow>, t: CostTerms, from: real, to: real, step: real) {
    (forall k :: 0 <= k < |rows| ==> rows[k] == Row(t, Candidate(from, step, k)))
    && Candidate(from, step, |rows|) > to
    && (|rows| > 0 ==> Candidate(from, step, |rows| - 1) <= to)
  }

  /** Later candidates are larger. */
  lemma CandidateMonotone(from: real, step: real, i: nat, j: nat)
    requires step > 0.0 && i <= j
    ensures Candidate(from, step, i) <= Candidate(from, step, j)
  {
    MulMonotone(i as real, j as real, step);
  }

  /** A range has one cost table: the terms and the range fix every row. */
  lemma CostTableUnique(a: seq<CostRow>, b: seq<CostRow>, t: CostTerms, from: real, to: real, step: real)
    requires step > 0.0 && CostTable(a, t, from, to, step) && CostTable(b, t, from, to, step)
    ensures a == b
  {
    if |a| < |b| {
      CandidateMonotone(from, step, |a|, |b| - 1);
    } else if |b| < |a| {
      CandidateMonotone(from, step, |b|, |a| - 1);
    }
    assert |a| == |b|;
    assert forall k :: 0 <= k < |a| ==> a[k] == b[k];
  }

  /** The candidate powers `from`, `from + step`, ... up to `to`, each with its
      costs; the powers are exact multiples of the step. */
  method CostRows(t: CostTerms, from: real, to: real, step: real) returns (rows: seq<CostRow>)
    requires step > 0.0
    ensures CostTable(rows, t, from, to, step)
    ensures |rows| == 0 <==> from > to
  {
    rows := [];
    var p := from;
    while p <= to
      invariant p == Candidate(from, step, |rows|)
      invariant forall k :: 0 <= k < |rows| ==> rows[k] == Row(t, Candidate(from, step, k))
      invariant |rows| > 0 ==> Candidate(from, step, |rows| - 1) <= to
      invariant |rows| > 0 ==> from <= to
      decreases Floor((to - p) / step) + 1
    {
      DivShift(to - p, step);
      NextCandidate(from, step, |rows|);
      rows := rows + [Row(t, p)];
      p := p + step;
    }
  }

  lemma NextCandidate(from: real, step: real, k: nat)
    ensures Candidate(from, step, k + 1) == Candidate(from, step, k) + step
  {
  }

  /** One step less of the range is one unit less of the quotient. */
  lemma DivShift(a: real, s: real)
    requires s > 0.0
    ensures (a - s) / s == a / s - 1.0
  {
    var q := a / s - 1.0;
    assert a / s * s == a;
    assert q * s == a - s;
    MulDivCancel(q, s);
  }

  /** Position of the first row of least total cost, as `reduce` with a
      strict comparison finds it. */
  method FirstCheapest(rows: seq<CostRow>) returns (best: nat)
    requires |rows| > 0
    ensures best < |rows|
    ensures forall j :: 0 <= j < |rows| ==> rows[best].costTotal <= rows[j].costTotal
    ensures forall j :: 0 <= j < best ==> rows[j].costTotal > rows[best].costTotal
  {
    best := 0;
    var k := 0;
    while k < |rows|
      invariant 0 <= k <= |rows| && best < |rows| && (best < k || best == k == 0)
      invariant forall j :: 0 <= j < k ==> rows[best].costTotal <= rows[j].costTotal
      invariant forall j :: 0 <= j < best ==> rows[j].costTotal > rows[best].costTotal
    {
      if rows[k].costTotal < rows[best].costTotal {
        best := k;
      }
      k := k + 1;
    }
  }

  datatype CostOptimization = CostOptimization(rows: seq<CostRow>, optimumP: real, optimumCost: int)

  datatype RouteError = InvalidInput | EmptyCostRange

  /** The cost method runs when it is chosen and both rates are given. */
  predicate CostMethodActive(d: AuditorData) {
    d.sizing == CostBased && Truthy(d.costPowerRate) && Truthy(d.penaltyRate)
  }

  /** The candidate range: given bounds, else half and one and a half times
      the base power (at least 5 kW from below), and a given step, else a
      twentieth of the range (at least 1 kW). */
  function CandidateFrom(d: AuditorData, basePkW: real): real {
    d.candidateFromKW.GetOr(MaxInt(5, Round(basePkW * 0.5)) as real)
  }

  function CandidateTo(d: AuditorData, basePkW: real): real {
    d.candidateToKW.GetOr(Round(basePkW * 1.5) as real)
  }

  function CandidateStep(d: AuditorData, basePkW: real): (r: real)
    requires Positive(d.candidateStepKW)
    ensures r > 0.0
  {
    d.candidateStepKW.GetOr(
      MaxInt(1, Round((CandidateTo(d, basePkW) - CandidateFrom(d, basePkW)) / 20.0)) as real)
  }

  function TermsOf(d: AuditorData, basePkW: real): CostTerms
    requires CostMethodActive(d)
  {
    CostTerms(basePkW, d.costPowerRate.value, d.penaltyRate.value,
              d.expectedExceedHours.GetOr(50.0), d.avgExceedKW.GetOr(Max(0.0, basePkW * 0.1)))
  }

  /** The cost table and its optimum; an empty range makes the source read a
      field of `undefined`, which the handler answers with status 400. */
  method CostOptimisation(d: AuditorData, basePkW: real) returns (r: Result<Option<CostOptimization>, RouteError>)
    requires Positive(d.candidateStepKW)
    ensures !CostMethodActive(d) ==> r == Ok(None)
    ensures CostMethodActive(d) ==>
      (r.Err? <==> CandidateFrom(d, basePkW) > CandidateTo(d, basePkW))
    ensures r.Err? ==> r.error == EmptyCostRange
    ensures CostMethodActive(d) && r.Ok? ==> r.value.Some?
    ensures r.Ok? && r.value.Some? ==>
      CostMethodActive(d) && CheapestRow(r.value.value)
      && CostTable(r.value.value.rows, TermsOf(d, basePkW), CandidateFrom(d, basePkW), CandidateTo(d, basePkW),
                   CandidateStep(d, basePkW))
  {
    if !CostMethodActive(d) {
      return Ok(None);
    }
    var from, to := CandidateFrom(d, basePkW), CandidateTo(d, basePkW);
    var rows := CostRows(TermsOf(d, basePkW), from, to, CandidateStep(d, basePkW));
    if |rows| == 0 {
      return Err(EmptyCostRange);
    }
    var best := FirstCheapest(rows);
    r := Ok(Some(CostOptimization(rows, rows[best].p, rows[best].costTotal)));
  }

  /** The reported optimum is the power and cost of the first cheapest row. */
  predicate CheapestRow(c: CostOptimization) {
    exists i :: 0 <= i < |c.rows|
      && c.optimumP == c.rows[i].p && c.optimumCost == c.rows[i].costTotal
      && (forall j :: 0 <= j < |c.rows| ==> c.rows[i].costTotal <= c.rows[j].costTotal)
      && (forall j :: 0 <= j < i ==> c.rows[j].costTotal > c.rows[i].costTotal)
  }

  // ---------------------------------------------------------------------
  // Circulation loss, economics and rating
  // ---------------------------------------------------------------------

  /** Yearly circulation loss in GJ: from the loop's coefficient when it is
      positive, else the given share of the purchased heat when both are
      given and non-zero, else 0. */
  function CirculationGJ(d: AuditorData): (r: real)
    ensures Truthy(d.uaWK) && d.uaWK.value > 0.0 ==> r == CirculationLossByUa(d.uaWK.value, d.dTCirc, d.hoursCirc)
    ensures !(Truthy(d.uaWK) && d.uaWK.value > 0.0) && Truthy(d.circulationPct) && Truthy(d.purchasedGJ)
      ==> r == d.purchasedGJ.value * (d.circulationPct.value / 100.0)
    ensures !(Truthy(d.uaWK) && d.uaWK.value > 0.0) && !(Truthy(d.circulationPct) && Truthy(d.purchasedGJ))
      ==> r == 0.0
  {
    if Truthy(d.uaWK) && d.uaWK.value > 0.0 then CirculationLossByUa(d.uaWK.value, d.dTCirc, d.hoursCirc)
    else if Truthy(d.circulationPct) && Truthy(d.purchasedGJ) then d.purchasedGJ.value * (d.circulationPct.value / 100.0)
    else 0.0
  }

  /** `purchasedGJ || 500`: the heat the loss is compared with. */
  function ReferenceGJ(d: AuditorData): (r: real)
    requires Positive(d.purchasedGJ)
    ensures r > 0.0
  {
    if Truthy(d.purchasedGJ) then d.purchasedGJ.value else 500.0
  }

  datatype Rating = VeryGood | Good | Average | NeedsModernisation

  /** The rating thresholds, each strict: above 85, 75 and 65 per cent. */
  function RatingOf(efficiency: real): (r: Rating)
    ensures r == VeryGood <==> efficiency > 85.0
    ensures r == Good <==> 75.0 < efficiency <= 85.0
    ensures r == Average <==> 65.0 < efficiency <= 75.0
    ensures r == NeedsModernisation <==> efficiency <= 65.0
  {
    if efficiency > 85.0 then VeryGood
    else if efficiency > 75.0 then Good
    else if efficiency > 65.0 then Average
    else NeedsModernisation
  }

  /** System efficiency: 100 minus the loss share in per cent, kept in
      [60, 95]. */
  function Efficiency(circGJ: real, referenceGJ: real): (r: real)
    requires referenceGJ > 0.0
    ensures 60.0 <= r <= 95.0
    ensures 60.0 <= 100.0 - circGJ / referenceGJ * 100.0 <= 95.0 ==> r == 100.0 - circGJ / referenceGJ * 100.0
  {
    Max(60.0, Min(95.0, 100.0 - circGJ / referenceGJ * 100.0))
  }

  datatype Advice = StronglyRecommended | Recommended | Consider

  /** Investment advice from the average variant savings: above 50000 and
      above 20000 PLN. */
  function AdviceOf(savingsPLN: int): (r: Advice)
    ensures r == StronglyRecommended <==> savingsPLN > 50000
    ensures r == Recommended <==> 20000 < savingsPLN <= 50000
    ensures r == Consider <==> savingsPLN <= 20000
  {
    if savingsPLN > 50000 then StronglyRecommended
    else if savingsPLN > 20000 then Recommended
    else Consider
  }

  datatype Economics = Economics(currentCostPLN: int, potentialSavingsPLN: int, advice: Advice, co2ReductionKg: int)

  datatype Technical = Technical(efficiency: real, heatLosses: real, rating: Rating, urgentPipeReplacement: bool)

  datatype AuditorResult = AuditorResult(
    power: OrderedPower, chosenPkW: real, efficiencyPct: int,
    circGJ: real, variants: seq<Variant>, roi: seq<real>,
    economics: Economics, technical: Technical,
    costOptimization: Option<CostOptimization>)

  function SumSavings(vs: seq<Variant>): (r: real)
    ensures |vs| == 0 ==> r == 0.0
  {
    if |vs| == 0 then 0.0 else SumSavings(vs[..|vs| - 1]) + vs[|vs| - 1].savingsPLN
  }

  /** The return on a variant's investment in per cent, to one decimal. */
  function RoiPct(v: Variant): real
    requires v.capexPLN != 0.0
  {
    Round(v.savingsPLN / v.capexPLN * 100.0 * 10.0) as real / 10.0
  }

  /** The return of each variant, in order. */
  function Rois(vs: seq<Variant>): (r: seq<real>)
    requires forall k :: 0 <= k < |vs| ==> vs[k].capexPLN != 0.0
    ensures |r| == |vs| && forall k :: 0 <= k < |vs| ==> r[k] == RoiPct(vs[k])
  {
    seq(|vs|, k requires 0 <= k < |vs| => RoiPct(vs[k]))
  }

  /** The economics of the circulation loss at a heat price: its yearly
      cost, the savings of the average variant, the advice those savings
      call for and the CO2 a removed loss would save. */
  function EconomicsOf(circGJ: real, pricePerGJ: real, vs: seq<Variant>): (e: Economics)
    requires |vs| > 0
    ensures e.currentCostPLN == Round(circGJ * pricePerGJ)
    ensures e.potentialSavingsPLN == Round(SumSavings(vs) / |vs| as real)
    ensures e.advice == AdviceOf(e.potentialSavingsPLN)
    ensures e.co2ReductionKg == Round(circGJ * 0.2 * 1000.0)
  {
    var savings := Round(SumSavings(vs) / |vs| as real);
    Economics(Round(circGJ * pricePerGJ), savings, AdviceOf(savings), Round(circGJ * 0.2 * 1000.0))
  }

  function TechnicalOf(circGJ: real, referenceGJ: real): (r: Technical)
    requires referenceGJ > 0.0
    ensures 60.0 <= r.efficiency <= 95.0
    ensures r.rating == RatingOf(Efficiency(circGJ, referenceGJ))
    ensures r.urgentPipeReplacement <==> circGJ / referenceGJ * 100.0 > 20.0
  {
    var eff := Efficiency(circGJ, referenceGJ);
    var losses := circGJ / referenceGJ * 100.0;
    var shown := Round(eff * 10.0) as real / 10.0;
    assert 600.0 <= eff * 10.0 <= 950.0;
    assert 600 <= Round(eff * 10.0) <= 950;
    Technical(shown, Round(losses * 10.0) as real / 10.0, RatingOf(eff), losses > 20.0)
  }

  /** The request handler: a request outside the schema and an empty cost
      range are answered with status 400; otherwise the base power (replaced
      by the measured-peak power for that method), the circulation loss, the
      three variants priced at the request's heat price with their returns,
      the economics drawn from the variants, the technical rating, and the
      cost table of the base power exactly when the cost method runs. */
  method Post(d: AuditorData, root: real) returns (r: Result<AuditorResult, RouteError>)
    requires IsRoot(d.flats as real, root)
    ensures !SchemaValid(d) ==> r == Err(InvalidInput)
    ensures SchemaValid(d) && r.Err? ==> r.error == EmptyCostRange && CostMethodActive(d)
    ensures r.Ok? ==> SchemaValid(d)
    ensures r.Ok? ==> r.value.chosenPkW == MethodPower(d).GetOr(r.value.power.PkW)
    ensures r.Ok? ==> r.value.power == OrderedPowerCwu(PowerParamsOf(d), root)
    ensures r.Ok? ==> r.value.circGJ == CirculationGJ(d)
    ensures r.Ok? ==> 60.0 <= r.value.technical.efficiency <= 95.0
    ensures r.Ok? ==> r.value.technical.rating == RatingOf(Efficiency(CirculationGJ(d), ReferenceGJ(d)))
    ensures r.Ok? ==> r.value.technical == TechnicalOf(CirculationGJ(d), ReferenceGJ(d))
    ensures r.Ok? ==> r.value.efficiencyPct == Round((1.0 - CirculationGJ(d) / ReferenceGJ(d)) * 100.0)
    ensures r.Ok? ==> r.value.variants == ModernizationVariants(CirculationGJ(d), d.pricePerGJ)
    ensures r.Ok? ==> r.value.roi == Rois(r.value.variants)
    ensures r.Ok? ==> r.value.economics == EconomicsOf(CirculationGJ(d), d.pricePerGJ, r.value.variants)
    ensures r.Ok? ==> (r.value.costOptimization.Some? <==> CostMethodActive(d))
    ensures r.Ok? && r.value.costOptimization.Some? ==>
      var c, p := r.value.costOptimization.value, r.value.power.PkW;
      SchemaValid(d) && CostMethodActive(d) && CheapestRow(c)
      && CostTable(c.rows, TermsOf(d, p), CandidateFrom(d, p), CandidateTo(d, p), CandidateStep(d, p))
  {
    if !SchemaValid(d) {
      return Err(InvalidInput);
    }
    var base := OrderedPowerCwu(PowerParamsOf(d), root);
    var cost := CostOptimisation(d, base.PkW);
    if cost.Err? {
      return Err(cost.error);
    }
    var circ := CirculationGJ(d);
    var reference := ReferenceGJ(d);
    var variants := ModernizationVariants(circ, d.pricePerGJ);
    var roi := Rois(variants);
    var economics := EconomicsOf(circ, d.pricePerGJ, variants);
    var efficiencyPct := Round((1.0 - circ / reference) * 100.0);
    r := Ok(AuditorResult(base, MethodPower(d).GetOr(base.PkW), efficiencyPct, circ, variants, roi,
                          economics, TechnicalOf(circ, reference), cost.value));
  }

  /** Without any circulation loss the system rates very good at 95 %. */
  lemma NoLossRatesVeryGood(d: AuditorData)
    requires Positive(d.purchasedGJ) && CirculationGJ(d) == 0.0
    ensures Efficiency(CirculationGJ(d), ReferenceGJ(d)) == 95.0
    ensures RatingOf(Efficiency(CirculationGJ(d), ReferenceGJ(d))) == VeryGood
  {
  }

  /** A loss of at least 40 % of the reference heat is clamped to 60 % and
      always calls for modernisation. */
  lemma HeavyLossNeedsModernisation(circGJ: real, referenceGJ: real)
    requires referenceGJ > 0.0 && circGJ >= 0.4 * referenceGJ
    ensures Efficiency(circGJ, referenceGJ) == 60.0
    ensures RatingOf(Efficiency(circGJ, referenceGJ)) == NeedsModernisation
  {
    DivMonotone(0.4 * referenceGJ, circGJ, referenceGJ);
    assert 0.4 * referenceGJ / referenceGJ == 0.4;
  }

  /** Candidates at or above the technical power never pay a penalty, so
      among them the cheapest is the smallest. */
  lemma NoPenaltyAboveTechnicalPower(t: CostTerms, p: real, q: real)
    requires t.basePkW <= p <= q && t.powerRate >= 0.0
    ensures Row(t, p).costPenalty == 0 && Row(t, q).costPenalty == 0
    ensures Row(t, p).costFixed <= Row(t, q).costFixed
  {
    var rp, rq := Row(t, p), Row(t, q);
    assert rp.costFixed == Round(p * t.powerRate);
    assert rq.costFixed == Round(q * t.powerRate);
    MulMonotone(p, q, t.powerRate);
    RoundMonotone(p * t.powerRate, q * t.powerRate);
  }
}

=== FILE: comparison.dfy ===
/** compare_models in cwu_time_simulation.py, numeric fields only: the
    pre-pass, the loss, the peak metrics, the minimal power of each model, their
    difference, the recommendation, the financial impact and the final choice. */
module Comparison {
  import opened Outcomes
  import opened Numbers
  import opened TankPhysics
  import LayeredTank
  import opened Search
  import opened Recommendation

  /** The default layered parameters (LayeredParams()). */
  const DefaultLayered := LayeredTank.LayeredParams(0.3, 3600.0, "by_volume")

  /** Why a comparison gives no result. */
  datatype CompareError = PrepassFailed(SimError) | LossRejected(LossError) | MixedSearchFailed(SearchError)
                        | LayeredSearchFailed(SearchError) | CostRejected(SimError)

  datatype ComparisonResult = ComparisonResult(
    pAvgKw: real, eKwh: real, lossKw: real,
    mix: RunResult, layered: RunResult,
    deltaPKw: real, deltaPPercent: real,
    recommendation: Advice, metrics: PeakMetrics,
    impact: Impact, decision: Decision, horizonYears: Option<int>)

  /** The search bounds compare_models uses unless told otherwise. */
  datatype SearchBounds = SearchBounds(start: real, ceiling: real, tol: real)

  const DefaultBounds := SearchBounds(10.0, 5000.0, 0.1)

  /** The relative difference in percent of the layered power, 0 when the
      layered power is not positive. */
  function DeltaPercent(deltaPKw: real, pLayerKw: real): (r: real)
    ensures pLayerKw > 0.0 ==> r * pLayerKw == deltaPKw * 100.0
    ensures pLayerKw <= 0.0 ==> r == 0.0
  {
    if pLayerKw > 0.0 then deltaPKw / pLayerKw * 100.0 else 0.0
  }

  /** The horizon a comparison reports: the normalised one when some rate is
      given, none otherwise. */
  function HorizonOf(n: CostParams): (r: Option<int>)
    ensures r.Some? <==> n.yearRate.Some? || n.monthRate.Some?
    ensures r.Some? ==> r.value == n.horizonYears
  {
    if n.yearRate.Some? || n.monthRate.Some? then Some(n.horizonYears) else None
  }

  /** The figures of a comparison that follow from its two runs: the energy
      and average power of the pre-pass, the loss derived from the caller's
      statement with that average power, the peak metrics of the profile, the
      percentage difference, the recommendation, the financial impact, the
      final decision and the reported horizon. */
  ghost predicate Derived(tank: TankParams, profile: seq<real>, loss: LossInput, lp: LayeredTank.LayeredParams,
                          thr: Thresholds, cost: CostParams, c: ComparisonResult)
    requires tank.dt > 0 && tank.tSet > tank.tCold && Normalized(cost).Ok?
  {
    c.eKwh == DeliveredJ(profile, tank.dt, tank.tSet - tank.tCold) / 3600000.0
    && AveragePower(profile, tank.dt, c.pAvgKw, c.eKwh)
    && DeriveLossKw(loss, c.pAvgKw) == Ok(c.lossKw)
    && (exists segments :: PeakMetricsOf(profile, tank.dt, thr, c.metrics, segments))
    && c.deltaPPercent == DeltaPercent(c.deltaPKw, c.layered.pzamKw)
    && c.recommendation == BuildRecommendation(tank.volumeL, lp.mixingTauS, thr, c.metrics, c.deltaPKw, c.deltaPPercent)
    && FinancialImpact(c.deltaPKw, cost) == Ok(c.impact)
    && c.decision == FinalDecision(c.recommendation.level, c.mix.pzamKw, c.layered.pzamKw, c.deltaPKw, c.impact.year)
    && c.horizonYears == HorizonOf(Normalized(cost).value)
  }

  /** compare_models: errors of the pre-pass, the loss, each search and the cost
      parameters are reported in that order. A result holds two feasible runs
      whose powers the final decision chooses between, their difference, and,
      for each model, a power no more than the tolerance above any feasible
      power. The energy and average power are the pre-pass's, the loss is
      the one derived from the caller's statement, and the percentage, the
      peak metrics, the recommendation, the financial impact and the final
      decision are computed from them as the helpers define. */
  method CompareModels(tank: TankParams, profile: seq<real>, loss: LossInput, allowed: real,
                       lp: LayeredTank.LayeredParams, thr: Thresholds, cost: CostParams, bounds: SearchBounds)
    returns (r: Result<ComparisonResult, CompareError>)
    ensures tank.dt <= 0 ==> r == Err(PrepassFailed(DtNotPositive))
    ensures tank.dt > 0 && |profile| == 0 ==> r == Err(PrepassFailed(EmptyProfile))
    ensures tank.dt > 0 && |profile| > 0 && tank.tSet <= tank.tCold ==> r == Err(PrepassFailed(DeliveryNotAboveCold))
    ensures r.Ok? ==> tank.dt > 0 && |profile| > 0 && tank.tSet > tank.tCold
    ensures r.Ok? ==> ValidateLoss(loss).None?
    ensures r.Ok? ==> Normalized(cost).Ok?
    ensures r.Ok? ==> Derived(tank, profile, loss, lp, thr, cost, r.value)
    ensures r.Ok? ==>
      var c := r.value;
      c.mix.model == Mixed && c.layered.model == Layered2Zone
      && c.mix.violationMinutes <= allowed && c.layered.violationMinutes <= allowed
      && MixedSimulator(tank, profile, c.lossKw, 0.0)(c.mix.pzamKw) == Ok(c.mix)
      && LayeredSimulator(tank, lp, profile, c.lossKw)(c.layered.pzamKw) == Ok(c.layered)
      && c.deltaPKw == c.mix.pzamKw - c.layered.pzamKw
      && (c.decision.pFinalKw == c.mix.pzamKw || c.decision.pFinalKw == c.layered.pzamKw)
      && (c.recommendation.level == A <==> !Significant(thr, c.deltaPKw, c.deltaPPercent))
      && (c.recommendation.level == A ==> c.decision.pFinalKw == c.mix.pzamKw)
      && (c.recommendation.level != A ==> c.decision.pFinalKw == c.layered.pzamKw)
      && c.impact.month >= 0.0 && c.impact.year >= 0.0 && c.impact.total >= 0.0
    ensures r.Ok? ==>
      forall p :: 0.0 <= p < r.value.mix.pzamKw - bounds.tol ==>
        !Feasible(MixedSimulator(tank, profile, r.value.lossKw, 0.0), allowed, p)
    ensures r.Ok? ==>
      forall p :: 0.0 <= p < r.value.layered.pzamKw - bounds.tol ==>
        !Feasible(LayeredSimulator(tank, lp, profile, r.value.lossKw), allowed, p)
  {
    var pre := Prepass(profile, tank.dt, tank.tCold, tank.tSet);
    if pre.Err? {
      return Err(PrepassFailed(pre.error));
    }
    var eKwh, pAvg := pre.value.0, pre.value.1;
    var lossR := DeriveLossKw(loss, pAvg);
    if lossR.Err? {
      return Err(LossRejected(lossR.error));
    }
    var lossKw := lossR.value;
    var metrics, segments := ProfilePeakMetrics(profile, tank.dt, thr);

    var mixFound := FindMinPmaxMixed(tank, profile, lossKw, bounds.start, bounds.ceiling, bounds.tol, allowed);
    if mixFound.Err? {
      return Err(MixedSearchFailed(mixFound.error));
    }
    var layerFound := FindMinPmaxLayered(tank, lp, profile, lossKw, bounds.start, bounds.ceiling, bounds.tol, allowed);
    if layerFound.Err? {
      return Err(LayeredSearchFailed(layerFound.error));
    }
    var mix := mixFound.value.run;
    var layered := layerFound.value.run;
    assert mix.pzamKw == mixFound.value.pHi;
    assert layered.pzamKw == layerFound.value.pHi;

    var deltaP := mix.pzamKw - layered.pzamKw;
    var deltaPct := DeltaPercent(deltaP, layered.pzamKw);
    var rec := BuildRecommendation(tank.volumeL, lp.mixingTauS, thr, metrics, deltaP, deltaPct);
    var impact := FinancialImpact(deltaP, cost);
    if impact.Err? {
      return Err(CostRejected(impact.error));
    }
    var n := Normalized(cost).value;
    var horizon := HorizonOf(n);
    var decision := FinalDecision(rec.level, mix.pzamKw, layered.pzamKw, deltaP, impact.value.year);
    assert PeakMetricsOf(profile, tank.dt, thr, metrics, segments);
    var c := ComparisonResult(pAvg, eKwh, lossKw, mix, layered, deltaP, deltaPct, rec, metrics,
                              impact.value, decision, horizon);
    assert Derived(tank, profile, loss, lp, thr, cost, c);
    return Ok(c);
  }
}

=== FILE: cost_estimate.dfy ===
/** The bill of quantities of costEstimateEngine.ts: quantities follow from
    the building counts and the selected media (cold water ZW, hot water
    CWU, circulation), every line is priced from a base price list, and the
    direct cost is marked up by overheads, organisation, risk, warranty and
    profit before VAT. Money is rounded to grosze after every step, so
    every amount is held here as a whole number of grosze (hundredths of a
    zloty); RoundMoneyExact shows that the source's rounding of a sum of
    such amounts changes nothing, and MoneyInGrosze that a share of an
    amount rounded in grosze is the source's rounded share. */
module CostEstimate {
  import opened Outcomes
  import opened Numbers

  // ---------------------------------------------------------------------------
  // Data

  /** Which installations the estimate covers. */
  datatype Scope = Scope(zw: bool, cwu: bool, cyrkulacja: bool) {

    predicate Any() {
      zw || cwu || cyrkulacja
    }

    /** Installations with risers: cold water, hot water and circulation. */
    function VerticalSystems(): nat {
      (if zw then 1 else 0) + (if cwu then 1 else 0) + (if cyrkulacja then 1 else 0)
    }

    /** Installations with branches into the flats: cold and hot water. */
    function BranchSystems(): nat {
      (if zw then 1 else 0) + (if cwu then 1 else 0)
    }
  }

  /** The estimate input after normalisation. */
  datatype CostInput = CostInput(klatki: int, kondygnacje: int, piony: int, lokale: int, scope: Scope,
                                 vatRatePct: real)

  /** The estimate input as entered. */
  datatype RawCostInput = RawCostInput(klatki: Num, kondygnacje: Num, piony: Num, lokale: Num, scope: Scope,
                                       vatRatePct: Num)

  datatype Unit = M | Szt | Kpl | Lok | Pion

  /** A line of the bill: net in grosze. */
  datatype Item = Item(code: string, unit: Unit, qty: real, unitNet: real, net: int)

  datatype SectionId = A | B | C | D | E

  datatype Section = Section(id: SectionId, title: string, items: seq<Item>)

  /** The totals in grosze, with the VAT rate in percent. */
  datatype Totals = Totals(
    materialsNet: int, laborNet: int, toolsNet: int, directNet: int, overheadsNet: int,
    subtotalNet: int, vatRatePct: real, vatNet: int, gross: int)

  datatype Estimate = Estimate(input: CostInput, sections: seq<Section>, totals: Totals)

  /** The entries of the base price list. */
  datatype PriceKey =
    | Pipe25 | Pipe20 | Pipe16 | Insulation | Elbow | Tee | Coupling | Reducer
    | BallValve | RiserValve | BalanceValve | PipeClamp | RailFixing | SealingConsumables

  /** The default net unit prices (basePriceList.ts). */
  function DefaultPrice(k: PriceKey): (r: real)
    ensures r > 0.0
  {
    match k
    case Pipe25 => 4.8
    case Pipe20 => 3.05
    case Pipe16 => 2.4
    case Insulation => 12.6
    case Elbow => 1.5
    case Tee => 2.0
    case Coupling => 1.2
    case Reducer => 1.5
    case BallValve => 85.0
    case RiserValve => 140.0
    case BalanceValve => 220.0
    case PipeClamp => 6.5
    case RailFixing => 12.0
    case SealingConsumables => 1800.0
  }

  /** A partial price list spread over the defaults: a given entry wins,
      even one that is not a finite number. */
  function Price(partial: map<PriceKey, Num>, k: PriceKey): (r: Num)
    ensures k !in partial ==> r == Finite(DefaultPrice(k))
    ensures k in partial ==> r == partial[k]
  {
    if k in partial then partial[k] else Finite(DefaultPrice(k))
  }

  /** Every price the list yields is a non-negative finite number or not a
      number at all. */
  predicate PricesNonNegative(partial: map<PriceKey, Num>) {
    forall k :: k in partial && partial[k].Finite? ==> partial[k].v >= 0.0
  }

  // ---------------------------------------------------------------------------
  // Rounding

  /** clampInt: a finite value rounded, otherwise the minimum, then clamped. */
  function ClampInt(value: Num, min: int, max: int): (r: int)
    ensures min <= max ==> min <= r <= max
    ensures value.Finite? && min <= Round(value.v) <= max ==> r == Round(value.v)
    ensures !value.Finite? && min <= max ==> r == min
  {
    var v := if value.Finite? then Round(value.v) else min;
    MinInt(max, MaxInt(min, v))
  }

  /** clampPct: a percentage within [0, 100]; not a number gives 0. */
  function ClampPct(value: Num): (r: real)
    ensures 0.0 <= r <= 100.0
    ensures value.Finite? && 0.0 <= value.v <= 100.0 ==> r == value.v
    ensures !value.Finite? ==> r == 0.0
  {
    if !value.Finite? then 0.0 else Clamp(value.v, 0.0, 100.0)
  }

  /** roundQty: a quantity, at least 0, to two decimals. */
  function RoundQty(v: real): (r: real)
    ensures r >= 0.0
    ensures Max(0.0, v) - 0.005 < r <= Max(0.0, v) + 0.005
  {
    RoundMoney(Max(0.0, v))
  }

  /** roundMoney on a number that may not be finite: such a number counts as 0. */
  function MoneyOf(n: Num): (r: real)
    ensures n.Finite? ==> n.v - 0.005 < r <= n.v + 0.005
    ensures n.Finite? && n.v >= 0.0 ==> r >= 0.0
    ensures !n.Finite? ==> r == 0.0
  {
    if n.Finite? then RoundMoney(n.v) else 0.0
  }

  /** A finite quantity times a price; a price that is not finite gives a
      product that is not finite either (its sign does not matter here). */
  function Times(q: real, p: Num): (r: Num)
    ensures r.Finite? <==> p.Finite?
    ensures p.Finite? ==> r.v == q * p.v
  {
    if p.Finite? then Finite(q * p.v) else NaN
  }

  /** An amount in grosze, in zloty. */
  function Zl(c: int): real {
    c as real / 100.0
  }

  lemma RoundOfWhole(n: int)
    ensures Round(n as real) == n
  {
  }

  /** Rounding an amount already in whole grosze changes nothing: sums of
      rounded amounts are exact, as the source's sum and totals assume. */
  lemma RoundMoneyExact(c: int)
    ensures RoundMoney(Zl(c)) == Zl(c)
  {
    assert Zl(c) * 100.0 == c as real;
    RoundOfWhole(c);
  }

  /** The source's rounded share of an amount, `roundMoney(amount * pct / 100)`,
      is the share of the amount in grosze rounded to whole grosze. */
  lemma MoneyInGrosze(c: int, pct: real)
    ensures RoundMoney(Zl(c) * pct / 100.0) == Zl(Round(c as real * pct / 100.0))
  {
    var x := Zl(c) * pct / 100.0;
    var y := c as real * pct / 100.0;
    assert x * 100.0 == y;
    assert RoundMoney(x) == Round(y) as real / 100.0;
  }

  /** A share in grosze: `pct` percent of `c`, rounded half up. */
  function Share(c: int, pct: real): (r: int)
    ensures c as real * pct / 100.0 - 0.5 < r as real <= c as real * pct / 100.0 + 0.5
    ensures c >= 0 && pct >= 0.0 ==> r >= 0
    ensures c == 0 ==> r == 0
  {
    Round(c as real * pct / 100.0)
  }

  // ---------------------------------------------------------------------------
  // Lines and sums

  /** line: the quantity and the unit price rounded for display, the net
      amount rounded, in grosze, from the unrounded quantity and price. */
  function Line(code: string, unit: Unit, qty: real, price: Num): (r: Item)
    ensures r.code == code && r.unit == unit
    ensures r.qty >= 0.0 && Max(0.0, qty) - 0.005 < r.qty <= Max(0.0, qty) + 0.005
    ensures price.Finite? ==> qty * price.v - 0.005 < Zl(r.net) <= qty * price.v + 0.005
    ensures price.Finite? ==> price.v - 0.005 < r.unitNet <= price.v + 0.005
    ensures !price.Finite? ==> r.unitNet == 0.0 && r.net == 0
    ensures price.Finite? && price.v >= 0.0 && qty >= 0.0 ==> r.unitNet >= 0.0 && r.net >= 0
  {
    var net := if price.Finite? then MulNonNegative(qty, price.v); Round(qty * price.v * 100.0) else 0;
    Item(code, unit, RoundQty(qty), MoneyOf(price), net)
  }

  /** A whole quantity is shown as it is. */
  lemma WholeQty(n: int)
    ensures n >= 0 ==> RoundQty(n as real) == n as real
  {
    if n >= 0 {
      assert Max(0.0, n as real) == n as real;
      assert (n as real) * 100.0 == (100 * n) as real;
      RoundOfWhole(100 * n);
    }
  }

  /** The nets of the items added up, in grosze. */
  function NetSum(items: seq<Item>): int {
    if |items| == 0 then 0 else NetSum(items[..|items| - 1]) + items[|items| - 1].net
  }

  /** All nets are at least 0. */
  predicate NetsNonNegative(items: seq<Item>) {
    forall it :: it in items ==> it.net >= 0
  }

  lemma {:induction false} NetSumNonNegative(items: seq<Item>)
    ensures NetsNonNegative(items) ==> NetSum(items) >= 0
  {
    if |items| > 0 {
      assert forall it :: it in items[..|items| - 1] ==> it in items;
      NetSumNonNegative(items[..|items| - 1]);
      assert items[|items| - 1] in items;
    }
  }

  /** sum: the nets added up and rounded; the rounding is exact. */
  function Sum(items: seq<Item>): (r: int)
    ensures RoundMoney(Zl(NetSum(items))) == Zl(r)
    ensures NetsNonNegative(items) ==> r >= 0
    ensures items == [] ==> r == 0
  {
    NetSumNonNegative(items);
    RoundMoneyExact(NetSum(items));
    NetSum(items)
  }

  /** The first item with a code, if any. */
  function FindItem(items: seq<Item>, code: string): (r: Option<Item>)
    ensures r.Some? ==> r.value in items && r.value.code == code
    ensures r.None? <==> forall it :: it in items ==> it.code != code
  {
    if |items| == 0 then None
    else if items[0].code == code then Some(items[0])
    else
      assert forall it :: it in items ==> it == items[0] || it in items[1..];
      FindItem(items[1..], code)
  }

  /** The codes of the items, in order. */
  function Codes(items: seq<Item>): (r: seq<string>)
    ensures |r| == |items| && forall i :: 0 <= i < |items| ==> r[i] == items[i].code
  {
    seq(|items|, i requires 0 <= i < |items| => items[i].code)
  }

  // ---------------------------------------------------------------------------
  // Normalisation and quantities

  /** The input as generateCostEstimate uses it: counts rounded and clamped
      to their ranges, the VAT rate a percentage. */
  function NormaliseCostInput(raw: RawCostInput): (r: CostInput)
    ensures 1 <= r.klatki <= 20 && 1 <= r.kondygnacje <= 30 && 1 <= r.piony <= 200 && 1 <= r.lokale <= 2000
    ensures 0.0 <= r.vatRatePct <= 100.0 && r.scope == raw.scope
    ensures raw.piony.Finite? && 1 <= Round(raw.piony.v) <= 200 ==> r.piony == Round(raw.piony.v)
    ensures raw.vatRatePct.Finite? && 0.0 <= raw.vatRatePct.v <= 100.0 ==> r.vatRatePct == raw.vatRatePct.v
  {
    CostInput(ClampInt(raw.klatki, 1, 20), ClampInt(raw.kondygnacje, 1, 30), ClampInt(raw.piony, 1, 200),
              ClampInt(raw.lokale, 1, 2000), raw.scope, ClampPct(raw.vatRatePct))
  }

  /** The storey height and the branch length per flat and medium. */
  const FloorHeightM: real := 2.8
  const BranchPerFlatM: real := 6.0

  /** The length of one riser: storeys times the storey height. */
  function RiserVerticalM(input: CostInput): real {
    input.kondygnacje as real * FloorHeightM
  }

  /** Metres of riser pipe per installation with risers. */
  function Vertical25M(input: CostInput): real {
    input.piony as real * RiserVerticalM(input)
  }

  /** Metres of branch pipe per installation with branches. */
  function Branch20M(input: CostInput): real {
    input.lokale as real * BranchPerFlatM
  }

  /** Metres of pipe of all selected installations. */
  function TotalPipeM(input: CostInput): real {
    (if input.scope.zw then Vertical25M(input) + Branch20M(input) else 0.0)
    + (if input.scope.cwu then Vertical25M(input) + Branch20M(input) else 0.0)
    + (if input.scope.cyrkulacja then Vertical25M(input) else 0.0)
  }

  /** Elbows: two per riser and storey for each installation with risers. */
  function Elbows(input: CostInput): int {
    input.piony * input.kondygnacje * 2 * input.scope.VerticalSystems()
  }

  /** Tees: one per flat for each installation with branches. */
  function Tees(input: CostInput): int {
    input.lokale * input.scope.BranchSystems()
  }

  // ---------------------------------------------------------------------------
  // Sections A, B, C

  /** A line before pricing: its code, unit, unrounded quantity and price. */
  datatype LineSpec = LineSpec(code: string, unit: Unit, qty: real, price: Num)

  function LineOf(sp: LineSpec): Item {
    Line(sp.code, sp.unit, sp.qty, sp.price)
  }

  /** Every spec priced by line, in order. */
  function Lines(specs: seq<LineSpec>): (r: seq<Item>)
    ensures |r| == |specs| && forall i :: 0 <= i < |r| ==> r[i] == LineOf(specs[i])
  {
    if |specs| == 0 then [] else Lines(specs[..|specs| - 1]) + [LineOf(specs[|specs| - 1])]
  }

  /** The codes of the specs, in order. */
  function SpecCodes(specs: seq<LineSpec>): (r: seq<string>)
    ensures |r| == |specs| && forall i :: 0 <= i < |specs| ==> r[i] == specs[i].code
  {
    seq(|specs|, i requires 0 <= i < |specs| => specs[i].code)
  }

  /** Pricing keeps the codes. */
  lemma LinesCodes(specs: seq<LineSpec>)
    ensures Codes(Lines(specs)) == SpecCodes(specs)
  {
  }

  /** Quantities and finite prices at least 0. */
  predicate SpecsNonNegative(specs: seq<LineSpec>) {
    forall sp :: sp in specs ==> sp.qty >= 0.0 && (sp.price.Finite? ==> sp.price.v >= 0.0)
  }

  /** Lines priced from non-negative specs are non-negative. */
  lemma LinesNonNegative(specs: seq<LineSpec>)
    requires SpecsNonNegative(specs)
    ensures forall it :: it in Lines(specs) ==> it.net >= 0 && it.unitNet >= 0.0 && it.qty >= 0.0
  {
    var r := Lines(specs);
    forall it | it in r
      ensures it.net >= 0 && it.unitNet >= 0.0 && it.qty >= 0.0
    {
      var i :| 0 <= i < |r| && r[i] == it;
      assert specs[i] in specs;
    }
  }

  /** The pipes of cold water, hot water and circulation. */
  function PipeSpecs(input: CostInput, partial: map<PriceKey, Num>): seq<LineSpec> {
    var s := input.scope;
    var v := Vertical25M(input);
    var b := Branch20M(input);
    (if s.zw then [LineSpec("A1", M, v, Price(partial, Pipe25)), LineSpec("A2", M, b, Price(partial, Pipe20))]
     else [])
    + (if s.cwu then [LineSpec("A3", M, v, Price(partial, Pipe25)), LineSpec("A4", M, b, Price(partial, Pipe20)),
                      LineSpec("A5", M, v, Price(partial, Insulation))] else [])
    + (if s.cyrkulacja then [LineSpec("A6", M, v, Price(partial, Pipe20)),
                             LineSpec("A7", M, v, Price(partial, Insulation))] else [])
  }

  /** Elbows, tees, couplings, reducers and the flat and riser valves. */
  function RiserFittingSpecs(input: CostInput, partial: map<PriceKey, Num>): seq<LineSpec> {
    var s := input.scope;
    var piony := input.piony as real;
    var n := s.VerticalSystems() as real;
    [LineSpec("A8", Szt, Elbows(input) as real, Price(partial, Elbow)),
     LineSpec("A9", Szt, Tees(input) as real, Price(partial, Tee)),
     LineSpec("A10", Szt, piony * input.kondygnacje as real * n, Price(partial, Coupling)),
     LineSpec("A11", Szt, piony * 0.5 * n, Price(partial, Reducer)),
     LineSpec("A12", Szt, input.lokale as real * Max(0.0, s.BranchSystems() as real), Price(partial, BallValve)),
     LineSpec("A13", Szt, piony * n, Price(partial, RiserValve))]
  }

  /** One balancing valve per riser, for circulation only. */
  function BalanceValveSpecs(input: CostInput, partial: map<PriceKey, Num>): seq<LineSpec> {
    if input.scope.cyrkulacja then [LineSpec("A14", Szt, input.piony as real, Price(partial, BalanceValve))] else []
  }

  /** Clamps and rail fixings by pipe length, and one set of consumables. */
  function FixingSpecs(input: CostInput, partial: map<PriceKey, Num>): seq<LineSpec> {
    var pipe := TotalPipeM(input);
    [LineSpec("A15", Szt, pipe * 1.5, Price(partial, PipeClamp)),
     LineSpec("A16", M, Max(1.0, pipe * 0.12), Price(partial, RailFixing)),
     LineSpec("A17", Kpl, 1.0, Price(partial, SealingConsumables))]
  }

  /** Fittings, valves, fixings and consumables of any selected installation. */
  function FittingSpecs(input: CostInput, partial: map<PriceKey, Num>): seq<LineSpec> {
    RiserFittingSpecs(input, partial) + BalanceValveSpecs(input, partial) + FixingSpecs(input, partial)
  }

  /** The material lines: pipes, then fittings, when any installation is selected. */
  function MaterialSpecs(input: CostInput, partial: map<PriceKey, Num>): seq<LineSpec> {
    if input.scope.Any() then PipeSpecs(input, partial) + FittingSpecs(input, partial) else []
  }

  /** The pipe codes for a scope: two for cold water, three for hot water,
      two for circulation. */
  function PipeCodes(s: Scope): (r: seq<string>)
    ensures |r| == (if s.zw then 2 else 0) + (if s.cwu then 3 else 0) + (if s.cyrkulacja then 2 else 0)
  {
    (if s.zw then ["A1", "A2"] else []) + (if s.cwu then ["A3", "A4", "A5"] else [])
    + (if s.cyrkulacja then ["A6", "A7"] else [])
  }

  /** The fitting codes, with the balancing valves A14 only for circulation. */
  function FittingCodes(s: Scope): seq<string> {
    ["A8", "A9", "A10", "A11", "A12", "A13"] + (if s.cyrkulacja then ["A14"] else []) + ["A15", "A16", "A17"]
  }

  /** The material codes for a scope: pipes, then fittings, when any
      installation is selected. */
  function MaterialCodes(s: Scope): seq<string> {
    if s.Any() then PipeCodes(s) + FittingCodes(s) else []
  }

  lemma SpecCodesAppend(a: seq<LineSpec>, b: seq<LineSpec>)
    ensures SpecCodes(a + b) == SpecCodes(a) + SpecCodes(b)
  {
  }

  lemma PipeSpecCodes(input: CostInput, partial: map<PriceKey, Num>)
    ensures SpecCodes(PipeSpecs(input, partial)) == PipeCodes(input.scope)
  {
    var s := input.scope;
    var v := Vertical25M(input);
    var b := Branch20M(input);
    var z := if s.zw then [LineSpec("A1", M, v, Price(partial, Pipe25)), LineSpec("A2", M, b, Price(partial, Pipe20))]
             else [];
    var w := if s.cwu then [LineSpec("A3", M, v, Price(partial, Pipe25)), LineSpec("A4", M, b, Price(partial, Pipe20)),
                            LineSpec("A5", M, v, Price(partial, Insulation))] else [];
    var c := if s.cyrkulacja then [LineSpec("A6", M, v, Price(partial, Pipe20)),
                                   LineSpec("A7", M, v, Price(partial, Insulation))] else [];
    SpecCodesAppend(z, w);
    SpecCodesAppend(z + w, c);
  }

  lemma FittingSpecCodes(input: CostInput, partial: map<PriceKey, Num>)
    ensures SpecCodes(FittingSpecs(input, partial)) == FittingCodes(input.scope)
  {
    var six := RiserFittingSpecs(input, partial);
    var valve := BalanceValveSpecs(input, partial);
    SpecCodesAppend(six, valve);
    SpecCodesAppend(six + valve, FixingSpecs(input, partial));
  }

  /** The number of pipe lines for a scope. */
  function PipeCount(s: Scope): nat {
    |PipeCodes(s)|
  }

  /** Section A, materials: the codes follow the scope, and the elbow and
      tee lines, right after the pipes, count the fittings exactly. */
  function Materials(input: CostInput, partial: map<PriceKey, Num>): (r: seq<Item>)
    ensures Codes(r) == MaterialCodes(input.scope)
    ensures input.scope.Any() ==> |r| > PipeCount(input.scope) + 1
    ensures input.scope.Any() && Elbows(input) >= 0 ==> r[PipeCount(input.scope)].qty == Elbows(input) as real
    ensures input.scope.Any() && Tees(input) >= 0 ==> r[PipeCount(input.scope) + 1].qty == Tees(input) as real
  {
    var specs := MaterialSpecs(input, partial);
    LinesCodes(specs);
    WholeQty(Elbows(input));
    WholeQty(Tees(input));
    if input.scope.Any() then
      var pipes := PipeSpecs(input, partial);
      PipeSpecCodes(input, partial);
      FittingSpecCodes(input, partial);
      SpecCodesAppend(pipes, FittingSpecs(input, partial));
      assert |pipes| == |SpecCodes(pipes)| == PipeCount(input.scope);
      assert specs[|pipes|] == FittingSpecs(input, partial)[0];
      assert specs[|pipes| + 1] == FittingSpecs(input, partial)[1];
      Lines(specs)
    else Lines(specs)
  }

  /** The balancing valves are in the bill exactly when circulation is. */
  lemma BalancingValvesWithCirculation(s: Scope)
    ensures "A14" in MaterialCodes(s) <==> s.cyrkulacja
  {
    if s.Any() && !s.cyrkulacja {
      assert "A14" !in PipeCodes(s);
      assert "A14" !in FittingCodes(s);
    }
  }

  /** The labour lines at their fixed rates. */
  function LabourSpecs(input: CostInput): seq<LineSpec> {
    if input.scope.Any() then
      [LineSpec("B1", Pion, input.piony as real, Finite(520.0)),
       LineSpec("B2", Pion, input.piony as real, Finite(1850.0)),
       LineSpec("B3", Lok, input.lokale as real, Finite(420.0)),
       LineSpec("B4", Kpl, 1.0, Finite(2600.0)),
       LineSpec("B5", Kpl, 1.0, Finite(6900.0)),
       LineSpec("B6", Lok, input.lokale as real, Finite(260.0))]
    else []
  }

  /** The equipment lines at their fixed rates. */
  function ToolSpecs(input: CostInput): seq<LineSpec> {
    if input.scope.Any() then [LineSpec("C1", Kpl, 1.0, Finite(3200.0)), LineSpec("C2", Kpl, 1.0, Finite(2400.0))]
    else []
  }

  // ---------------------------------------------------------------------------
  // Mark-ups

  const OverheadPct: real := 15.0
  const OrgPct: real := 5.0
  const RiskPct: real := 8.0
  const WarrantyPct: real := 3.0
  const ProfitPct: real := 10.0

  /** A lump-sum mark-up: one unit whose price and net are the share of the
      base, rounded once. */
  function MarkUp(code: string, base: int, pct: real): (r: Item)
    ensures r.code == code && r.unit == Kpl && r.qty == 1.0
    ensures r.net == Share(base, pct) && r.unitNet == Zl(r.net)
  {
    Item(code, Kpl, 1.0, Zl(Share(base, pct)), Share(base, pct))
  }

  /** A mark-up is the line the source builds for it: one unit priced at the
      rounded share; pricing it again rounds nothing away. */
  lemma MarkUpIsLine(code: string, base: int, pct: real)
    ensures MarkUp(code, base, pct) == Line(code, Kpl, 1.0, Finite(RoundMoney(Zl(base) * pct / 100.0)))
  {
    var c := Share(base, pct);
    MoneyInGrosze(base, pct);
    WholeQty(1);
    assert 1.0 * Zl(c) * 100.0 == c as real;
    RoundOfWhole(c);
    RoundMoneyExact(c);
  }

  // ---------------------------------------------------------------------------
  // generateCostEstimate

  const TitleA: string := "A. Materiały"
  const TitleB: string := "B. Robocizna"
  const TitleC: string := "C. Sprzęt i narzędzia"
  const TitleD: string := "D. Koszty pośrednie"
  const TitleE: string := "E. Narzuty i ryzyka"

  /** The sections and totals of an estimate from its first three sections. */
  function Assemble(input: CostInput, materials: seq<Item>, labour: seq<Item>, tools: seq<Item>): (e: Estimate)
    ensures e.input == input && e.totals.vatRatePct == input.vatRatePct
    ensures |e.sections| == 5
    ensures e.sections[0] == Section(A, TitleA, materials) && e.sections[1] == Section(B, TitleB, labour)
    ensures e.sections[2] == Section(C, TitleC, tools)
  {
    var m := Sum(materials);
    var l := Sum(labour);
    var t := Sum(tools);
    var direct := m + l + t;
    var d1 := MarkUp("D1", direct, OverheadPct);
    var d2 := MarkUp("D2", direct, OrgPct);
    var e1 := MarkUp("E1", direct, RiskPct);
    var e2 := MarkUp("E2", direct, WarrantyPct);
    var e3 := MarkUp("E3", direct + d1.net + d2.net + e1.net + e2.net, ProfitPct);
    var overheads := d1.net + d2.net + e1.net + e2.net + e3.net;
    var subtotal := direct + overheads;
    var vat := Share(subtotal, input.vatRatePct);
    Estimate(input,
             [Section(A, TitleA, materials), Section(B, TitleB, labour), Section(C, TitleC, tools),
              Section(D, TitleD, [d1, d2]), Section(E, TitleE, [e1, e2, e3])],
             Totals(m, l, t, direct, overheads, subtotal, input.vatRatePct, vat, subtotal + vat))
  }

  /** generateCostEstimate. */
  function GenerateCostEstimate(raw: RawCostInput, partial: map<PriceKey, Num>): (e: Estimate)
    ensures e.input == NormaliseCostInput(raw)
    ensures |e.sections| == 5
  {
    var input := NormaliseCostInput(raw);
    Assemble(input, Materials(input, partial), Lines(LabourSpecs(input)), Lines(ToolSpecs(input)))
  }

  /** The sections come in the order A, B, C, D, E with their titles. */
  predicate SectionsInOrder(e: Estimate) {
    |e.sections| == 5
    && e.sections[0].id == A && e.sections[1].id == B && e.sections[2].id == C
    && e.sections[3].id == D && e.sections[4].id == E
    && e.sections[0].title == TitleA && e.sections[1].title == TitleB && e.sections[2].title == TitleC
    && e.sections[3].title == TitleD && e.sections[4].title == TitleE
  }

  /** A mark-up line: one set, priced at its own net. */
  predicate UnitLine(it: Item) {
    it.qty == 1.0 && it.unitNet == Zl(it.net) && it.unit == Kpl
  }

  /** The mark-up lines: D holds D1 and D2, E holds E1, E2 and E3, each one
      unit whose price is its net. */
  predicate MarkUpShape(e: Estimate)
    requires |e.sections| == 5
  {
    var d := e.sections[3].items;
    var x := e.sections[4].items;
    |d| == 2 && |x| == 3
    && d[0].code == "D1" && d[1].code == "D2" && x[0].code == "E1" && x[1].code == "E2" && x[2].code == "E3"
    && UnitLine(d[0]) && UnitLine(d[1]) && UnitLine(x[0]) && UnitLine(x[1]) && UnitLine(x[2])
  }

  /** The direct cost adds the sums of materials, labour and tools. */
  predicate DirectHolds(e: Estimate)
    requires |e.sections| == 5
  {
    var t := e.totals;
    t.materialsNet == Sum(e.sections[0].items) && t.laborNet == Sum(e.sections[1].items)
    && t.toolsNet == Sum(e.sections[2].items)
    && t.directNet == t.materialsNet + t.laborNet + t.toolsNet
  }

  /** D1, D2, E1 and E2 are 15, 5, 8 and 3 percent of the direct cost, and
      E3 is 10 percent of the direct cost with those four. */
  predicate MarkUpsHold(e: Estimate)
    requires |e.sections| == 5 && MarkUpShape(e)
  {
    var direct := e.totals.directNet;
    var d := e.sections[3].items;
    var x := e.sections[4].items;
    d[0].net == Share(direct, 15.0) && d[1].net == Share(direct, 5.0)
    && x[0].net == Share(direct, 8.0) && x[1].net == Share(direct, 3.0)
    && x[2].net == Share(direct + d[0].net + d[1].net + x[0].net + x[1].net, 10.0)
  }

  /** The mark-ups add up to the overheads, the subtotal adds them to the
      direct cost, VAT is the rate of the subtotal, gross adds VAT. */
  predicate SubtotalHolds(e: Estimate)
    requires |e.sections| == 5 && MarkUpShape(e)
  {
    var t := e.totals;
    var d := e.sections[3].items;
    var x := e.sections[4].items;
    t.overheadsNet == d[0].net + d[1].net + x[0].net + x[1].net + x[2].net
    && t.subtotalNet == t.directNet + t.overheadsNet
    && t.vatNet == Share(t.subtotalNet, t.vatRatePct)
    && t.gross == t.subtotalNet + t.vatNet
  }

  /** The totals follow from the sections. */
  predicate TotalsHold(e: Estimate)
    requires |e.sections| == 5 && MarkUpShape(e)
  {
    DirectHolds(e) && MarkUpsHold(e) && SubtotalHolds(e)
  }

  /** The shape Assemble gives any three sections. */
  lemma AssembleShape(input: CostInput, materials: seq<Item>, labour: seq<Item>, tools: seq<Item>)
    ensures var e := Assemble(input, materials, labour, tools);
      SectionsInOrder(e) && e.totals.vatRatePct == e.input.vatRatePct && MarkUpShape(e)
  {
  }

  /** The totals Assemble gives any three sections. */
  lemma AssembleTotals(input: CostInput, materials: seq<Item>, labour: seq<Item>, tools: seq<Item>)
    ensures var e := Assemble(input, materials, labour, tools);
      SectionsInOrder(e) && e.totals.vatRatePct == e.input.vatRatePct && MarkUpShape(e) && TotalsHold(e)
  {
    AssembleShape(input, materials, labour, tools);
  }

  /** Every estimate the engine produces has its sections in order, the
      clamped VAT rate, and mark-ups and totals that follow from the first
      three sections. */
  lemma EstimateTotals(raw: RawCostInput, partial: map<PriceKey, Num>)
    ensures var e := GenerateCostEstimate(raw, partial);
      SectionsInOrder(e) && e.totals.vatRatePct == e.input.vatRatePct && MarkUpShape(e) && TotalsHold(e)
  {
    var input := NormaliseCostInput(raw);
    AssembleTotals(input, Materials(input, partial), Lines(LabourSpecs(input)), Lines(ToolSpecs(input)));
  }

  /** With no installation selected, the sections A, B and C are empty and
      every amount is 0. */
  lemma EmptyScopeCostsNothing(raw: RawCostInput, partial: map<PriceKey, Num>)
    requires !raw.scope.Any()
    ensures var e := GenerateCostEstimate(raw, partial);
      e.sections[0].items == [] && e.sections[1].items == [] && e.sections[2].items == []
      && e.totals.materialsNet == 0 && e.totals.laborNet == 0 && e.totals.toolsNet == 0
      && e.totals.directNet == 0 && e.totals.overheadsNet == 0 && e.totals.subtotalNet == 0
      && e.totals.vatNet == 0 && e.totals.gross == 0
  {
    EstimateTotals(raw, partial);
  }

  /** Every line and every total of an estimate is at least 0. */
  /** A line of no negative amount, price or quantity. */
  predicate ItemNonNegative(it: Item) {
    it.net >= 0 && it.unitNet >= 0.0 && it.qty >= 0.0
  }

  predicate ItemsNonNegative(items: seq<Item>) {
    forall it :: it in items ==> ItemNonNegative(it)
  }

  ghost predicate AmountsNonNegative(e: Estimate) {
    (forall s, it :: s in e.sections && it in s.items ==> ItemNonNegative(it))
    && e.totals.materialsNet >= 0 && e.totals.laborNet >= 0 && e.totals.toolsNet >= 0
    && e.totals.directNet >= 0 && e.totals.overheadsNet >= 0 && e.totals.subtotalNet >= 0
    && e.totals.vatNet >= 0 && e.totals.gross >= 0
  }

  /** Items of no negative amount make an estimate of no negative amount. */
  lemma AssembleNonNegative(input: CostInput, materials: seq<Item>, labour: seq<Item>, tools: seq<Item>)
    requires input.vatRatePct >= 0.0
    requires ItemsNonNegative(materials) && ItemsNonNegative(labour) && ItemsNonNegative(tools)
    ensures AmountsNonNegative(Assemble(input, materials, labour, tools))
  {
    AssembleTotals(input, materials, labour, tools);
    BalancedNonNegative(Assemble(input, materials, labour, tools));
  }

  /** An estimate whose totals follow from its sections has no negative
      amount when its first three sections and its VAT rate have none. */
  lemma BalancedNonNegative(e: Estimate)
    requires SectionsInOrder(e) && MarkUpShape(e) && TotalsHold(e) && e.totals.vatRatePct >= 0.0
    requires ItemsNonNegative(e.sections[0].items) && ItemsNonNegative(e.sections[1].items)
    requires ItemsNonNegative(e.sections[2].items)
    ensures AmountsNonNegative(e)
  {
    DirectNonNegative(e);
    MarkUpsNonNegative(e);
    forall s, it | s in e.sections && it in s.items
      ensures ItemNonNegative(it)
    {
      var k :| 0 <= k < 5 && s == e.sections[k];
    }
  }

  lemma DirectNonNegative(e: Estimate)
    requires |e.sections| == 5 && DirectHolds(e)
    requires ItemsNonNegative(e.sections[0].items) && ItemsNonNegative(e.sections[1].items)
    requires ItemsNonNegative(e.sections[2].items)
    ensures e.totals.materialsNet >= 0 && e.totals.laborNet >= 0 && e.totals.toolsNet >= 0
    ensures e.totals.directNet >= 0
  {
    assert NetsNonNegative(e.sections[0].items) && NetsNonNegative(e.sections[1].items);
    assert NetsNonNegative(e.sections[2].items);
  }

  /** Mark-ups of a non-negative direct cost are non-negative lines. */
  lemma MarkUpsNonNegative(e: Estimate)
    requires |e.sections| == 5 && MarkUpShape(e) && MarkUpsHold(e) && e.totals.directNet >= 0
    ensures ItemsNonNegative(e.sections[3].items) && ItemsNonNegative(e.sections[4].items)
  {
    var d := e.sections[3].items;
    var x := e.sections[4].items;
    assert d[0].net >= 0 && d[1].net >= 0 && x[0].net >= 0 && x[1].net >= 0 && x[2].net >= 0;
    assert forall it :: it in d ==> it == d[0] || it == d[1];
    assert forall it :: it in x ==> it == x[0] || it == x[1] || it == x[2];
  }

  /** A price read from non-negative partial prices is non-negative when finite. */
  lemma PriceNonNegative(partial: map<PriceKey, Num>, k: PriceKey)
    requires PricesNonNegative(partial)
    ensures Price(partial, k).Finite? ==> Price(partial, k).v >= 0.0
  {
  }

  lemma SpecsNonNegativeAppend(a: seq<LineSpec>, b: seq<LineSpec>)
    requires SpecsNonNegative(a) && SpecsNonNegative(b)
    ensures SpecsNonNegative(a + b)
  {
  }

  /** Non-negative counts and prices give non-negative pipe specs. */
  lemma PipeSpecsNonNegative(input: CostInput, partial: map<PriceKey, Num>)
    requires input.kondygnacje >= 0 && input.piony >= 0 && input.lokale >= 0
    requires PricesNonNegative(partial)
    ensures SpecsNonNegative(PipeSpecs(input, partial))
  {
    var s := input.scope;
    var v := Vertical25M(input);
    var b := Branch20M(input);
    assert RiserVerticalM(input) >= 0.0;
    assert v >= 0.0 && b >= 0.0;
    PriceNonNegative(partial, Pipe25);
    PriceNonNegative(partial, Pipe20);
    PriceNonNegative(partial, Insulation);
    var zw := if s.zw then [LineSpec("A1", M, v, Price(partial, Pipe25)), LineSpec("A2", M, b, Price(partial, Pipe20))]
      else [];
    var cwu := if s.cwu then [LineSpec("A3", M, v, Price(partial, Pipe25)), LineSpec("A4", M, b, Price(partial, Pipe20)),
      LineSpec("A5", M, v, Price(partial, Insulation))] else [];
    var cyrk := if s.cyrkulacja then [LineSpec("A6", M, v, Price(partial, Pipe20)),
      LineSpec("A7", M, v, Price(partial, Insulation))] else [];
    assert SpecsNonNegative(zw);
    assert SpecsNonNegative(cwu);
    assert SpecsNonNegative(cyrk);
    SpecsNonNegativeAppend(zw, cwu);
    SpecsNonNegativeAppend(zw + cwu, cyrk);
    assert PipeSpecs(input, partial) == zw + cwu + cyrk;
  }

  /** Non-negative counts give non-negative fitting quantities. */
  lemma FittingQuantitiesNonNegative(input: CostInput)
    requires input.kondygnacje >= 0 && input.piony >= 0 && input.lokale >= 0
    ensures Elbows(input) >= 0 && Tees(input) >= 0 && TotalPipeM(input) >= 0.0
    ensures input.piony as real * input.kondygnacje as real * input.scope.VerticalSystems() as real >= 0.0
    ensures input.piony as real * 0.5 * input.scope.VerticalSystems() as real >= 0.0
    ensures input.piony as real * input.scope.VerticalSystems() as real >= 0.0
    ensures input.lokale as real * Max(0.0, input.scope.BranchSystems() as real) >= 0.0
  {
    var piony := input.piony as real;
    var kond := input.kondygnacje as real;
    var n := input.scope.VerticalSystems() as real;
    assert RiserVerticalM(input) >= 0.0;
    assert Vertical25M(input) >= 0.0 && Branch20M(input) >= 0.0;
    assert piony * kond >= 0.0;
    assert input.piony * input.kondygnacje >= 0;
  }

  /** Non-negative counts and prices give non-negative fitting specs. */
  lemma FittingSpecsNonNegative(input: CostInput, partial: map<PriceKey, Num>)
    requires input.kondygnacje >= 0 && input.piony >= 0 && input.lokale >= 0
    requires PricesNonNegative(partial)
    ensures SpecsNonNegative(FittingSpecs(input, partial))
  {
    var first := RiserFittingSpecs(input, partial);
    var balance := BalanceValveSpecs(input, partial);
    var last := FixingSpecs(input, partial);
    RiserFittingSpecsNonNegative(input, partial);
    PriceNonNegative(partial, BalanceValve);
    PriceNonNegative(partial, PipeClamp);
    PriceNonNegative(partial, RailFixing);
    PriceNonNegative(partial, SealingConsumables);
    FittingQuantitiesNonNegative(input);
    assert SpecsNonNegative(balance);
    assert SpecsNonNegative(last);
    SpecsNonNegativeAppend(first, balance);
    SpecsNonNegativeAppend(first + balance, last);
  }

  lemma RiserFittingSpecsNonNegative(input: CostInput, partial: map<PriceKey, Num>)
    requires input.kondygnacje >= 0 && input.piony >= 0 && input.lokale >= 0
    requires PricesNonNegative(partial)
    ensures SpecsNonNegative(RiserFittingSpecs(input, partial))
  {
    var f := RiserFittingSpecs(input, partial);
    FittingQuantitiesNonNegative(input);
    forall i | 0 <= i < |f|
      ensures f[i].qty >= 0.0
    {
    }
    forall i | 0 <= i < |f|
      ensures f[i].price.Finite? ==> f[i].price.v >= 0.0
    {
      PriceNonNegative(partial, Elbow);
      PriceNonNegative(partial, Tee);
      PriceNonNegative(partial, Coupling);
      PriceNonNegative(partial, Reducer);
      PriceNonNegative(partial, BallValve);
      PriceNonNegative(partial, RiserValve);
    }
  }

  /** Non-negative counts give non-negative labour and equipment lines. */
  lemma LabourToolsNonNegative(input: CostInput)
    requires input.piony >= 0 && input.lokale >= 0
    ensures forall it :: it in Lines(LabourSpecs(input)) ==> it.net >= 0 && it.unitNet >= 0.0 && it.qty >= 0.0
    ensures forall it :: it in Lines(ToolSpecs(input)) ==> it.net >= 0 && it.unitNet >= 0.0 && it.qty >= 0.0
  {
    assert SpecsNonNegative(LabourSpecs(input));
    assert SpecsNonNegative(ToolSpecs(input));
    LinesNonNegative(LabourSpecs(input));
    LinesNonNegative(ToolSpecs(input));
  }

  /** Non-negative prices give non-negative amounts throughout. */
  lemma NonNegativeAmounts(raw: RawCostInput, partial: map<PriceKey, Num>)
    requires PricesNonNegative(partial)
    ensures AmountsNonNegative(GenerateCostEstimate(raw, partial))
  {
    var input := NormaliseCostInput(raw);
    assert forall k :: Price(partial, k).Finite? ==> Price(partial, k).v >= 0.0;
    PipeSpecsNonNegative(input, partial);
    FittingSpecsNonNegative(input, partial);
    assert SpecsNonNegative(MaterialSpecs(input, partial));
    LinesNonNegative(MaterialSpecs(input, partial));
    LabourToolsNonNegative(input);
    AssembleNonNegative(input, Materials(input, partial), Lines(LabourSpecs(input)), Lines(ToolSpecs(input)));
  }
}

=== FILE: cost_overrides.dfy ===
/** applyOverrides.ts: an estimate re-priced with quantities and unit prices
    entered by hand. The lines of sections A, B and C take the overrides of
    their code; the mark-ups of D and E keep the fraction of the new direct
    cost that they were of the old one; the totals follow. Amounts are held
    in grosze as in CostEstimate. */
module CostOverrides {
  import opened Outcomes
  import opened Numbers
  import opened CostEstimate

  // ---------------------------------------------------------------------------
  // Overrides of single lines

  /** Quantities and unit prices entered by hand, by item code. A code with
      no entry, or with an entry that is not a finite number, keeps the
      estimate's figure. */
  datatype Overrides = Overrides(qtyByCode: map<string, Num>, unitNetByCode: map<string, Num>)

  const NoOverrides: Overrides := Overrides(map[], map[])

  /** The override of a code, when it is a finite number; a negative one
      counts as 0. */
  function OverrideOf(m: map<string, Num>, code: string): (r: Option<real>)
    ensures r.Some? <==> code in m && m[code].Finite?
    ensures r.Some? ==> r.value >= 0.0 && r.value == Max(0.0, m[code].v)
  {
    if code in m && m[code].Finite? then Some(Max(0.0, m[code].v)) else None
  }

  /** The overrides say something about the code. */
  predicate Touches(o: Overrides, code: string) {
    OverrideOf(o.qtyByCode, code).Some? || OverrideOf(o.unitNetByCode, code).Some?
  }

  /** roundMoney of an amount in zloty, as a whole number of grosze. */
  function Grosze(x: real): (r: int)
    ensures Zl(r) == RoundMoney(x)
    ensures x - 0.005 < Zl(r) <= x + 0.005
    ensures x >= 0.0 ==> r >= 0
  {
    Round(x * 100.0)
  }

  /** A line re-priced from the overridden quantity and unit price, or the
      line's own where there is no override; the net is the product rounded
      to grosze. */
  function Reprice(item: Item, o: Overrides): (r: Item)
    ensures r.code == item.code && r.unit == item.unit
    ensures r.qty == OverrideOf(o.qtyByCode, item.code).GetOr(item.qty)
    ensures r.unitNet == OverrideOf(o.unitNetByCode, item.code).GetOr(item.unitNet)
    ensures r.qty * r.unitNet - 0.005 < Zl(r.net) <= r.qty * r.unitNet + 0.005
  {
    var qty := OverrideOf(o.qtyByCode, item.code).GetOr(item.qty);
    var unitNet := OverrideOf(o.unitNetByCode, item.code).GetOr(item.unitNet);
    Item(item.code, item.unit, qty, unitNet, Grosze(qty * unitNet))
  }

  /** Which lines are re-priced. */
  datatype ItemRule =
    | RecomputeEvery  // every line, overridden or not, as applyItemOverrides does
    | KeepUntouched   // only the lines the overrides speak of

  /** applyItemOverrides under a rule. */
  function ApplyItem(rule: ItemRule, item: Item, o: Overrides): (r: Item)
    ensures r.code == item.code && r.unit == item.unit
    ensures rule == KeepUntouched && !Touches(o, item.code) ==> r == item
    ensures rule == RecomputeEvery || Touches(o, item.code) ==> r == Reprice(item, o)
  {
    if rule == KeepUntouched && !Touches(o, item.code) then item else Reprice(item, o)
  }

  /** Every line of a section under a rule, in order. */
  function ApplyItems(rule: ItemRule, items: seq<Item>, o: Overrides): (r: seq<Item>)
    ensures |r| == |items| && forall i :: 0 <= i < |items| ==> r[i] == ApplyItem(rule, items[i], o)
  {
    seq(|items|, i requires 0 <= i < |items| => ApplyItem(rule, items[i], o))
  }

  /** Re-pricing a line twice with the same overrides is re-pricing it once. */
  lemma ApplyItemIdempotent(rule: ItemRule, item: Item, o: Overrides)
    ensures ApplyItem(rule, ApplyItem(rule, item, o), o) == ApplyItem(rule, item, o)
  {
    var r := ApplyItem(rule, item, o);
    if rule == RecomputeEvery || Touches(o, item.code) {
      var q := OverrideOf(o.qtyByCode, item.code);
      var u := OverrideOf(o.unitNetByCode, item.code);
      assert Reprice(r, o).qty == r.qty by {
        if q.Some? {
        }
      }
      assert Reprice(r, o).unitNet == r.unitNet by {
        if u.Some? {
        }
      }
    }
  }

  /** With no overrides, the rule that keeps untouched lines changes nothing. */
  lemma KeepUntouchedWithoutOverrides(items: seq<Item>)
    ensures ApplyItems(KeepUntouched, items, NoOverrides) == items
  {
    var r := ApplyItems(KeepUntouched, items, NoOverrides);
    forall i | 0 <= i < |items|
      ensures r[i] == items[i]
    {
      assert !Touches(NoOverrides, items[i].code);
    }
  }

  // ---------------------------------------------------------------------------
  // Sections

  /** The first section with an id (findSection). */
  function FindSection(sections: seq<Section>, id: SectionId): (r: Option<Section>)
    ensures r.Some? ==> r.value in sections && r.value.id == id
    ensures r.Some? ==> exists k :: 0 <= k < |sections| && sections[k] == r.value
                          && forall j :: 0 <= j < k ==> sections[j].id != id
    ensures r.None? <==> forall s :: s in sections ==> s.id != id
  {
    if |sections| == 0 then None
    else if sections[0].id == id then Some(sections[0])
    else
      assert forall s :: s in sections ==> s == sections[0] || s in sections[1..];
      var r := FindSection(sections[1..], id);
      if r.Some? then
        var k :| 0 <= k < |sections[1..]| && sections[1..][k] == r.value
                 && forall j :: 0 <= j < k ==> sections[1..][j].id != id;
        assert sections[k + 1] == r.value;
        assert forall j :: 0 <= j < k + 1 ==> sections[j].id != id by {
          forall j | 0 <= j < k + 1 ensures sections[j].id != id {
            if j > 0 { assert sections[j] == sections[1..][j - 1]; }
          }
        }
        r
      else r
  }

  /** The lines of the first section with an id, none when there is none. */
  function SectionItems(sections: seq<Section>, id: SectionId): seq<Item> {
    match FindSection(sections, id)
    case None => []
    case Some(s) => s.items
  }

  /** findItemByCode in the first section with an id. */
  function ItemOf(sections: seq<Section>, id: SectionId, code: string): (r: Option<Item>)
    ensures r.Some? ==> r.value.code == code && r.value in SectionItems(sections, id)
    ensures FindSection(sections, id).None? ==> r.None?
  {
    match FindSection(sections, id)
    case None => None
    case Some(s) => FindItem(s.items, code)
  }

  /** The new lines of the five sections. */
  datatype Contents = Contents(a: seq<Item>, b: seq<Item>, c: seq<Item>, d: seq<Item>, e: seq<Item>) {
    function For(id: SectionId): seq<Item> {
      match id
      case A => a
      case B => b
      case C => c
      case D => d
      case E => e
    }
  }

  /** Every section given the new lines of its id, keeping its id and title. */
  function Refill(sections: seq<Section>, lines: Contents): (r: seq<Section>)
    ensures |r| == |sections|
    ensures forall i :: 0 <= i < |sections| ==>
      r[i] == Section(sections[i].id, sections[i].title, lines.For(sections[i].id))
  {
    if |sections| == 0 then []
    else [Section(sections[0].id, sections[0].title, lines.For(sections[0].id))] + Refill(sections[1..], lines)
  }

  /** The first section of an id after refilling is the first before, with
      the new lines. */
  lemma {:induction false} RefillFind(sections: seq<Section>, lines: Contents, id: SectionId)
    ensures FindSection(Refill(sections, lines), id)
      == match FindSection(sections, id)
         case None => None
         case Some(s) => Some(Section(s.id, s.title, lines.For(id)))
  {
    if |sections| > 0 && sections[0].id != id {
      RefillFind(sections[1..], lines, id);
      assert Refill(sections, lines)[1..] == Refill(sections[1..], lines);
    }
  }

  /** A section list that has an id keeps it after refilling, with the new
      lines; one that has not still has not. */
  lemma RefillItems(sections: seq<Section>, lines: Contents, id: SectionId)
    ensures SectionItems(Refill(sections, lines), id)
      == if FindSection(sections, id).Some? then lines.For(id) else []
  {
    RefillFind(sections, lines, id);
  }

  // ---------------------------------------------------------------------------
  // Mark-ups

  /** getPctOf: the fraction a value is of a positive base; 0 otherwise. */
  function PctOf(base: real, value: real): (r: real)
    ensures base <= 0.0 ==> r == 0.0
    ensures base > 0.0 ==> r * base == value
  {
    if base <= 0.0 then 0.0 else value / base
  }

  /** The fraction a mark-up line's price is of its base; 0 with no line. */
  function Factor(base: real, it: Option<Item>): real {
    match it
    case None => 0.0
    case Some(b) => PctOf(base, b.unitNet)
  }

  /** A mark-up line re-priced: one unit at the fraction of the new base. */
  function Rescale(it: Option<Item>, amount: real, factor: real): (r: Option<Item>)
    ensures r.Some? <==> it.Some?
    ensures r.Some? ==> r.value.code == it.value.code && r.value.unit == it.value.unit
    ensures r.Some? ==> r.value.qty == 1.0 && r.value.unitNet == Zl(r.value.net)
    ensures r.Some? ==> amount * factor - 0.005 < Zl(r.value.net) <= amount * factor + 0.005
  {
    match it
    case None => None
    case Some(b) =>
      var n := Grosze(amount * factor);
      Some(Item(b.code, b.unit, 1.0, Zl(n), n))
  }

  /** `line?.net ?? 0`. */
  function NetOr0(it: Option<Item>): int {
    match it
    case None => 0
    case Some(b) => b.net
  }

  /** The lines that are there, in order (`filter(Boolean)`). */
  function Present(its: seq<Option<Item>>): (r: seq<Item>)
    ensures |r| <= |its|
    ensures forall x :: x in r <==> Some(x) in its
    ensures (forall i :: 0 <= i < |its| ==> its[i].None?) ==> r == []
  {
    if |its| == 0 then []
    else
      assert forall x :: Some(x) in its <==> Some(x) == its[0] || Some(x) in its[1..];
      (if its[0].Some? then [its[0].value] else []) + Present(its[1..])
  }

  /** A mark-up line of one unit priced at its own net, re-priced against
      the base it was computed from, is unchanged, provided the base is not
      negative and a zero base carried a zero mark-up. */
  lemma RescaleKeeps(b: Item, base: int)
    requires b.qty == 1.0 && b.unitNet == Zl(b.net)
    requires base >= 0 && (base == 0 ==> b.net == 0)
    ensures Rescale(Some(b), Zl(base), Factor(Zl(base), Some(b))) == Some(b)
  {
    var f := Factor(Zl(base), Some(b));
    if base > 0 {
      assert f * Zl(base) == Zl(b.net);
      assert Zl(base) * f * 100.0 == b.net as real;
      RoundOfWhole(b.net);
      assert Grosze(Zl(base) * f) == b.net;
    } else {
      assert Zl(base) * f * 100.0 == 0.0;
      RoundOfWhole(0);
      assert Grosze(Zl(base) * f) == b.net;
    }
    assert b == Item(b.code, b.unit, 1.0, Zl(b.net), b.net);
    var n := Grosze(Zl(base) * f);
    var r := Rescale(Some(b), Zl(base), f);
    assert r.Some?;
    assert r.value.net == n;
    assert r.value.code == b.code;
    assert r.value.unitNet == Zl(n);
  }

  // ---------------------------------------------------------------------------
  // The re-priced estimate

  /** The direct cost of new lines: what sections A, B and C add. */
  function DirectCost(a: seq<Item>, b: seq<Item>, c: seq<Item>): int {
    Sum(a) + Sum(b) + Sum(c)
  }

  /** The totals from the new lines; `roundMoney` of sums of grosze and the
      VAT share are exact in grosze (RoundMoneyExact, MoneyInGrosze). */
  function Retotal(lines: Contents, vatRatePct: real): (t: Totals)
    ensures t.vatRatePct == vatRatePct
    ensures t.materialsNet == Sum(lines.a) && t.laborNet == Sum(lines.b) && t.toolsNet == Sum(lines.c)
    ensures t.directNet == t.materialsNet + t.laborNet + t.toolsNet == DirectCost(lines.a, lines.b, lines.c)
    ensures t.overheadsNet == Sum(lines.d) + Sum(lines.e)
    ensures t.subtotalNet == t.directNet + t.overheadsNet
    ensures t.vatNet == Share(t.subtotalNet, vatRatePct)
    ensures t.gross == t.subtotalNet + t.vatNet
  {
    var m := Sum(lines.a);
    var l := Sum(lines.b);
    var t := Sum(lines.c);
    var overheads := Sum(lines.d) + Sum(lines.e);
    var subtotal := m + l + t + overheads;
    var vat := Share(subtotal, vatRatePct);
    Totals(m, l, t, m + l + t, overheads, subtotal, vatRatePct, vat, subtotal + vat)
  }

  /** The lines of the first section of every id. */
  function ContentsOf(sections: seq<Section>): Contents {
    Contents(SectionItems(sections, A), SectionItems(sections, B), SectionItems(sections, C),
             SectionItems(sections, D), SectionItems(sections, E))
  }

  /** The totals follow from the sections as Retotal computes them: the
      direct cost adds the first sections A, B and C; the mark-ups add the
      first sections D and E; the subtotal adds both, VAT is the rate of the
      subtotal, gross adds VAT. */
  predicate Balanced(e: Estimate) {
    e.totals == Retotal(ContentsOf(e.sections), e.totals.vatRatePct)
  }

  /** The new lines of every section from new lines of A, B and C: D and E
      hold the mark-ups re-priced against the direct cost those three add. */
  function MarkedContents(sections: seq<Section>, oldDirect: int, a: seq<Item>, b: seq<Item>, c: seq<Item>)
    : (r: Contents)
    ensures r.a == a && r.b == b && r.c == c
    ensures FindSection(sections, D).None? ==> r.d == []
    ensures FindSection(sections, E).None? ==> r.e == []
    ensures r.d == MarkUpLines(sections, oldDirect, DirectCost(r.a, r.b, r.c)).0
    ensures r.e == MarkUpLines(sections, oldDirect, DirectCost(r.a, r.b, r.c)).1
  {
    Contents(a, b, c, MarkUpLines(sections, oldDirect, DirectCost(a, b, c)).0,
             MarkUpLines(sections, oldDirect, DirectCost(a, b, c)).1)
  }

  /** The new lines of every section: A, B and C under the rule, then D1,
      D2, E1 and E2 at their old fraction of the new direct cost, and E3 at
      its old fraction of the new direct cost with those four. */
  function NewContents(rule: ItemRule, base: Estimate, o: Overrides): (r: Contents)
    ensures r.a == ApplyItems(rule, SectionItems(base.sections, A), o)
    ensures r.b == ApplyItems(rule, SectionItems(base.sections, B), o)
    ensures r.c == ApplyItems(rule, SectionItems(base.sections, C), o)
    ensures FindSection(base.sections, D).None? ==> r.d == []
    ensures FindSection(base.sections, E).None? ==> r.e == []
  {
    MarkedContents(base.sections, base.totals.directNet,
                   ApplyItems(rule, SectionItems(base.sections, A), o),
                   ApplyItems(rule, SectionItems(base.sections, B), o),
                   ApplyItems(rule, SectionItems(base.sections, C), o))
  }

  /** A mark-up line of a section at its old fraction of the old base, now
      of the new base. */
  function Rescaled(sections: seq<Section>, id: SectionId, code: string, oldBase: int, newBase: int)
    : (r: Option<Item>)
    ensures FindSection(sections, id).None? ==> r.None?
  {
    var it := ItemOf(sections, id, code);
    Rescale(it, Zl(newBase), Factor(Zl(oldBase), it))
  }

  /** The base of the profit: the direct cost with the four mark-ups
      before it, those that are there. */
  function ProfitBase(direct: int, d1: Option<Item>, d2: Option<Item>, e1: Option<Item>, e2: Option<Item>): int {
    direct + NetOr0(d1) + NetOr0(d2) + NetOr0(e1) + NetOr0(e2)
  }

  /** The five re-priced mark-up lines, each absent when the old one is. */
  datatype MarkUps = MarkUps(d1: Option<Item>, d2: Option<Item>, e1: Option<Item>, e2: Option<Item>, e3: Option<Item>)

  /** D1, D2, E1 and E2 at their old fraction of the new direct cost, E3 at
      its old fraction of the new direct cost with those four. */
  function NewMarkUps(sections: seq<Section>, oldDirect: int, direct: int): MarkUps {
    var d1 := Rescaled(sections, D, "D1", oldDirect, direct);
    var d2 := Rescaled(sections, D, "D2", oldDirect, direct);
    var e1 := Rescaled(sections, E, "E1", oldDirect, direct);
    var e2 := Rescaled(sections, E, "E2", oldDirect, direct);
    var oldProfitBase := ProfitBase(oldDirect, ItemOf(sections, D, "D1"), ItemOf(sections, D, "D2"),
                                    ItemOf(sections, E, "E1"), ItemOf(sections, E, "E2"));
    var profitBase := ProfitBase(direct, d1, d2, e1, e2);
    MarkUps(d1, d2, e1, e2, Rescaled(sections, E, "E3", oldProfitBase, profitBase))
  }

  /** The new lines of D and E: the re-priced mark-ups that are there. */
  function MarkUpLines(sections: seq<Section>, oldDirect: int, direct: int): (r: (seq<Item>, seq<Item>))
    ensures FindSection(sections, D).None? ==> r.0 == []
    ensures FindSection(sections, E).None? ==> r.1 == []
  {
    var n := NewMarkUps(sections, oldDirect, direct);
    (Present([n.d1, n.d2]), Present([n.e1, n.e2, n.e3]))
  }

  /** New lines that leave the sections the estimate lacks empty, with
      totals taken from them, make a balanced estimate. */
  lemma RefillBalanced(input: CostInput, sections: seq<Section>, lines: Contents, vatRatePct: real)
    requires FindSection(sections, A).None? ==> lines.a == []
    requires FindSection(sections, B).None? ==> lines.b == []
    requires FindSection(sections, C).None? ==> lines.c == []
    requires FindSection(sections, D).None? ==> lines.d == []
    requires FindSection(sections, E).None? ==> lines.e == []
    ensures Balanced(Estimate(input, Refill(sections, lines), Retotal(lines, vatRatePct)))
  {
    RefillContents(sections, lines);
  }

  /** Refilled sections hold exactly the new lines. */
  lemma RefillContents(sections: seq<Section>, lines: Contents)
    requires FindSection(sections, A).None? ==> lines.a == []
    requires FindSection(sections, B).None? ==> lines.b == []
    requires FindSection(sections, C).None? ==> lines.c == []
    requires FindSection(sections, D).None? ==> lines.d == []
    requires FindSection(sections, E).None? ==> lines.e == []
    ensures ContentsOf(Refill(sections, lines)) == lines
  {
    RefillSection(sections, lines, A);
    RefillSection(sections, lines, B);
    RefillSection(sections, lines, C);
    RefillSection(sections, lines, D);
    RefillSection(sections, lines, E);
    assert ContentsOf(Refill(sections, lines)) == lines;
  }

  lemma RefillSection(sections: seq<Section>, lines: Contents, id: SectionId)
    requires FindSection(sections, id).None? ==> lines.For(id) == []
    ensures SectionItems(Refill(sections, lines), id) == lines.For(id)
  {
    RefillItems(sections, lines, id);
  }

  /** A section whose new lines are its old ones under the rule holds them
      after refilling, and stays empty when the estimate lacks it. */
  lemma RefillApplied(rule: ItemRule, sections: seq<Section>, lines: Contents, o: Overrides, id: SectionId)
    requires lines.For(id) == ApplyItems(rule, SectionItems(sections, id), o)
    ensures SectionItems(Refill(sections, lines), id) == ApplyItems(rule, SectionItems(sections, id), o)
  {
    RefillItems(sections, lines, id);
  }

  /** After refilling, sections A, B and C hold their old lines under the rule. */
  lemma RefilledUnderRule(rule: ItemRule, base: Estimate, o: Overrides)
    ensures var sections := Refill(base.sections, NewContents(rule, base, o));
      SectionItems(sections, A) == ApplyItems(rule, SectionItems(base.sections, A), o)
      && SectionItems(sections, B) == ApplyItems(rule, SectionItems(base.sections, B), o)
      && SectionItems(sections, C) == ApplyItems(rule, SectionItems(base.sections, C), o)
  {
    RefilledSection(rule, base, o, A);
    RefilledSection(rule, base, o, B);
    RefilledSection(rule, base, o, C);
  }

  /** One of sections A, B and C after refilling holds its old lines under the rule. */
  lemma RefilledSection(rule: ItemRule, base: Estimate, o: Overrides, id: SectionId)
    requires id == A || id == B || id == C
    ensures SectionItems(Refill(base.sections, NewContents(rule, base, o)), id)
         == ApplyItems(rule, SectionItems(base.sections, id), o)
  {
    var lines := NewContents(rule, base, o);
    assert lines.For(id) == ApplyItems(rule, SectionItems(base.sections, id), o);
    RefillApplied(rule, base.sections, lines, o, id);
  }

  /** A mark-up line after re-pricing: there exactly when it was there
      before, with the same code and unit, one unit whose price is its net,
      and a net of the new base times the fraction the old line's unit price
      was of the old base (0 when the old base was not positive), rounded to
      grosze. */
  predicate MarkedUp(was: Option<Item>, now: Option<Item>, oldBase: int, newBase: int) {
    (now.Some? <==> was.Some?)
    && (now.Some? ==>
          now.value.code == was.value.code && now.value.unit == was.value.unit
          && now.value.qty == 1.0 && now.value.unitNet == Zl(now.value.net)
          && now.value.net == Grosze(Zl(newBase) * PctOf(Zl(oldBase), was.value.unitNet)))
  }

  /** The mark-up line of a code in section D or E of an estimate. */
  function MarkUpOf(e: Estimate, id: SectionId, code: string): Option<Item> {
    ItemOf(e.sections, id, code)
  }

  /** The mark-ups of `after` are those of `before` re-priced: D1, D2, E1
      and E2 against the direct cost, E3 against the direct cost with those
      four; sections D and E hold exactly the lines that are there, in code
      order. */
  predicate MarkUpsRescaled(before: Estimate, after: Estimate) {
    var oldDirect, direct := before.totals.directNet, after.totals.directNet;
    MarkedUp(MarkUpOf(before, D, "D1"), MarkUpOf(after, D, "D1"), oldDirect, direct)
    && MarkedUp(MarkUpOf(before, D, "D2"), MarkUpOf(after, D, "D2"), oldDirect, direct)
    && MarkedUp(MarkUpOf(before, E, "E1"), MarkUpOf(after, E, "E1"), oldDirect, direct)
    && MarkedUp(MarkUpOf(before, E, "E2"), MarkUpOf(after, E, "E2"), oldDirect, direct)
    && MarkedUp(MarkUpOf(before, E, "E3"), MarkUpOf(after, E, "E3"),
                ProfitBase(oldDirect, MarkUpOf(before, D, "D1"), MarkUpOf(before, D, "D2"),
                           MarkUpOf(before, E, "E1"), MarkUpOf(before, E, "E2")),
                ProfitBase(direct, MarkUpOf(after, D, "D1"), MarkUpOf(after, D, "D2"),
                           MarkUpOf(after, E, "E1"), MarkUpOf(after, E, "E2")))
    && SectionItems(after.sections, D) == Present([MarkUpOf(after, D, "D1"), MarkUpOf(after, D, "D2")])
    && SectionItems(after.sections, E)
       == Present([MarkUpOf(after, E, "E1"), MarkUpOf(after, E, "E2"), MarkUpOf(after, E, "E3")])
  }

  lemma RescaledMarkedUp(sections: seq<Section>, id: SectionId, code: string, oldBase: int, newBase: int)
    ensures MarkedUp(ItemOf(sections, id, code), Rescaled(sections, id, code, oldBase, newBase), oldBase, newBase)
  {
  }

  /** The lines present, from one or two optional lines. */
  lemma PresentOfTwo(a: Option<Item>, b: Option<Item>)
    ensures Present([a, b]) == (if a.Some? then [a.value] else []) + (if b.Some? then [b.value] else [])
  {
    assert [a, b][1..] == [b];
    assert [b][1..] == [];
  }

  /** Among two lines that are there, each with its own code, the search for
      a code finds the line of that code. */
  lemma FindPresentTwo(a: Option<Item>, b: Option<Item>, ca: string, cb: string)
    requires ca != cb && (a.Some? ==> a.value.code == ca) && (b.Some? ==> b.value.code == cb)
    ensures FindItem(Present([a, b]), ca) == a && FindItem(Present([a, b]), cb) == b
  {
    PresentOfTwo(a, b);
    var tail := if b.Some? then [b.value] else [];
    if a.Some? {
      assert Present([a, b]) == [a.value] + tail;
      assert ([a.value] + tail)[1..] == tail;
    }
  }

  /** The same for three lines. */
  lemma FindPresentThree(a: Option<Item>, b: Option<Item>, c: Option<Item>, ca: string, cb: string, cc: string)
    requires ca != cb && ca != cc && cb != cc
    requires (a.Some? ==> a.value.code == ca) && (b.Some? ==> b.value.code == cb) && (c.Some? ==> c.value.code == cc)
    ensures FindItem(Present([a, b, c]), ca) == a
    ensures FindItem(Present([a, b, c]), cb) == b && FindItem(Present([a, b, c]), cc) == c
  {
    assert [a, b, c][1..] == [b, c];
    var rest := Present([b, c]);
    assert Present([a, b, c]) == (if a.Some? then [a.value] else []) + rest;
    FindPresentTwo(b, c, cb, cc);
    PresentOfTwo(b, c);
    assert forall x :: x in rest ==> x.code != ca;
    if a.Some? {
      assert ([a.value] + rest)[1..] == rest;
    }
  }

  /** The line of a code in the first section of an id after refilling is
      the one among the new lines of that id, when the section was there. */
  lemma ItemAfterRefill(sections: seq<Section>, lines: Contents, id: SectionId, code: string)
    ensures ItemOf(Refill(sections, lines), id, code)
      == if FindSection(sections, id).Some? then FindItem(lines.For(id), code) else None
  {
    RefillFind(sections, lines, id);
  }

  /** Each re-priced mark-up is its old line re-priced against its new base. */
  lemma NewMarkUpsRescaled(sections: seq<Section>, oldDirect: int, direct: int)
    ensures MarkedUp(ItemOf(sections, D, "D1"), NewMarkUps(sections, oldDirect, direct).d1, oldDirect, direct)
    ensures MarkedUp(ItemOf(sections, D, "D2"), NewMarkUps(sections, oldDirect, direct).d2, oldDirect, direct)
    ensures MarkedUp(ItemOf(sections, E, "E1"), NewMarkUps(sections, oldDirect, direct).e1, oldDirect, direct)
    ensures MarkedUp(ItemOf(sections, E, "E2"), NewMarkUps(sections, oldDirect, direct).e2, oldDirect, direct)
    ensures MarkedUp(ItemOf(sections, E, "E3"), NewMarkUps(sections, oldDirect, direct).e3,
                     ProfitBase(oldDirect, ItemOf(sections, D, "D1"), ItemOf(sections, D, "D2"),
                                ItemOf(sections, E, "E1"), ItemOf(sections, E, "E2")),
                     ProfitBase(direct, NewMarkUps(sections, oldDirect, direct).d1,
                                NewMarkUps(sections, oldDirect, direct).d2,
                                NewMarkUps(sections, oldDirect, direct).e1,
                                NewMarkUps(sections, oldDirect, direct).e2))
  {
    var n := NewMarkUps(sections, oldDirect, direct);
    RescaledMarkedUp(sections, D, "D1", oldDirect, direct);
    RescaledMarkedUp(sections, D, "D2", oldDirect, direct);
    RescaledMarkedUp(sections, E, "E1", oldDirect, direct);
    RescaledMarkedUp(sections, E, "E2", oldDirect, direct);
    RescaledMarkedUp(sections, E, "E3",
                     ProfitBase(oldDirect, ItemOf(sections, D, "D1"), ItemOf(sections, D, "D2"),
                                ItemOf(sections, E, "E1"), ItemOf(sections, E, "E2")),
                     ProfitBase(direct, n.d1, n.d2, n.e1, n.e2));
  }

  /** The re-priced mark-ups carry their codes, and are absent when their
      section is. */
  lemma NewMarkUpsCodes(sections: seq<Section>, oldDirect: int, direct: int)
    ensures PlaceableMarkUps(sections, NewMarkUps(sections, oldDirect, direct))
  {
  }

  /** The mark-up line of a code after refilling, from the new lines of its
      section. */
  lemma MarkUpAt(base: Estimate, lines: Contents, after: Estimate, id: SectionId, code: string, line: Option<Item>)
    requires after.sections == Refill(base.sections, lines)
    requires FindSection(base.sections, id).Some? ==> FindItem(lines.For(id), code) == line
    requires FindSection(base.sections, id).None? ==> line.None?
    ensures MarkUpOf(after, id, code) == line
  {
    ItemAfterRefill(base.sections, lines, id, code);
  }

  /** Mark-up lines carrying their codes, absent when their section is. */
  predicate PlaceableMarkUps(sections: seq<Section>, m: MarkUps) {
    (m.d1.Some? ==> m.d1.value.code == "D1") && (m.d2.Some? ==> m.d2.value.code == "D2")
    && (m.e1.Some? ==> m.e1.value.code == "E1") && (m.e2.Some? ==> m.e2.value.code == "E2")
    && (m.e3.Some? ==> m.e3.value.code == "E3")
    && (FindSection(sections, D).None? ==> m.d1.None? && m.d2.None?)
    && (FindSection(sections, E).None? ==> m.e1.None? && m.e2.None? && m.e3.None?)
  }

  /** Refilling D and E with the mark-up lines that are there puts each
      mark-up where its code is looked up. */
  lemma MarkUpsPlaced(base: Estimate, lines: Contents, after: Estimate, m: MarkUps)
    requires after.sections == Refill(base.sections, lines)
    requires lines.d == Present([m.d1, m.d2]) && lines.e == Present([m.e1, m.e2, m.e3])
    requires PlaceableMarkUps(base.sections, m)
    ensures MarkUpOf(after, D, "D1") == m.d1 && MarkUpOf(after, D, "D2") == m.d2
    ensures MarkUpOf(after, E, "E1") == m.e1 && MarkUpOf(after, E, "E2") == m.e2
    ensures MarkUpOf(after, E, "E3") == m.e3
    ensures SectionItems(after.sections, D) == Present([m.d1, m.d2])
    ensures SectionItems(after.sections, E) == Present([m.e1, m.e2, m.e3])
  {
    PlacedInD(base, lines, after, m);
    PlacedInE(base, lines, after, m);
  }

  /** The D half of MarkUpsPlaced. */
  lemma PlacedInD(base: Estimate, lines: Contents, after: Estimate, m: MarkUps)
    requires after.sections == Refill(base.sections, lines)
    requires lines.d == Present([m.d1, m.d2])
    requires PlaceableMarkUps(base.sections, m)
    ensures MarkUpOf(after, D, "D1") == m.d1 && MarkUpOf(after, D, "D2") == m.d2
    ensures SectionItems(after.sections, D) == Present([m.d1, m.d2])
  {
    assert lines.For(D) == lines.d;
    FindPresentTwo(m.d1, m.d2, "D1", "D2");
    MarkUpAt(base, lines, after, D, "D1", m.d1);
    MarkUpAt(base, lines, after, D, "D2", m.d2);
    RefillItems(base.sections, lines, D);
  }

  /** The E half of MarkUpsPlaced. */
  lemma PlacedInE(base: Estimate, lines: Contents, after: Estimate, m: MarkUps)
    requires after.sections == Refill(base.sections, lines)
    requires lines.e == Present([m.e1, m.e2, m.e3])
    requires PlaceableMarkUps(base.sections, m)
    ensures MarkUpOf(after, E, "E1") == m.e1 && MarkUpOf(after, E, "E2") == m.e2
    ensures MarkUpOf(after, E, "E3") == m.e3
    ensures SectionItems(after.sections, E) == Present([m.e1, m.e2, m.e3])
  {
    assert lines.For(E) == lines.e;
    FindPresentThree(m.e1, m.e2, m.e3, "E1", "E2", "E3");
    MarkUpAt(base, lines, after, E, "E1", m.e1);
    MarkUpAt(base, lines, after, E, "E2", m.e2);
    MarkUpAt(base, lines, after, E, "E3", m.e3);
    RefillItems(base.sections, lines, E);
  }

  /** Refilled sections whose D and E lines are the re-priced mark-ups hold
      those mark-ups. */
  lemma MarkUpsAfterRefill(base: Estimate, lines: Contents, after: Estimate)
    requires after.sections == Refill(base.sections, lines)
    requires lines.d == MarkUpLines(base.sections, base.totals.directNet, after.totals.directNet).0
    requires lines.e == MarkUpLines(base.sections, base.totals.directNet, after.totals.directNet).1
    ensures MarkUpsRescaled(base, after)
  {
    var n := NewMarkUps(base.sections, base.totals.directNet, after.totals.directNet);
    NewMarkUpsCodes(base.sections, base.totals.directNet, after.totals.directNet);
    MarkUpsPlaced(base, lines, after, n);
    NewMarkUpsRescaled(base.sections, base.totals.directNet, after.totals.directNet);
  }

  /** The same for the new lines of every section under a rule. */
  lemma MarkUpsApplied(rule: ItemRule, base: Estimate, o: Overrides, after: Estimate)
    requires after.sections == Refill(base.sections, NewContents(rule, base, o))
    requires after.totals == Retotal(NewContents(rule, base, o), base.totals.vatRatePct)
    ensures MarkUpsRescaled(base, after)
  {
    var a := ApplyItems(rule, SectionItems(base.sections, A), o);
    var b := ApplyItems(rule, SectionItems(base.sections, B), o);
    var c := ApplyItems(rule, SectionItems(base.sections, C), o);
    var lines := MarkedContents(base.sections, base.totals.directNet, a, b, c);
    assert lines == NewContents(rule, base, o);
    assert after.totals.directNet == DirectCost(lines.a, lines.b, lines.c);
    MarkUpsAfterRefill(base, lines, after);
  }

  /** applyCostEstimateOverrides under a rule: the input, the section ids
      and titles and the VAT rate are kept, the lines of A, B and C are the
      old ones under the rule, the mark-up lines of D and E are re-priced
      against the new direct cost, and the totals follow from the new
      sections. */
  function ApplyWith(rule: ItemRule, base: Estimate, o: Overrides): (r: Estimate)
    ensures r.input == base.input && r.totals.vatRatePct == base.totals.vatRatePct
    ensures |r.sections| == |base.sections|
    ensures forall i :: 0 <= i < |base.sections| ==>
      r.sections[i].id == base.sections[i].id && r.sections[i].title == base.sections[i].title
    ensures Balanced(r)
    ensures SectionItems(r.sections, A) == ApplyItems(rule, SectionItems(base.sections, A), o)
    ensures SectionItems(r.sections, B) == ApplyItems(rule, SectionItems(base.sections, B), o)
    ensures SectionItems(r.sections, C) == ApplyItems(rule, SectionItems(base.sections, C), o)
    ensures MarkUpsRescaled(base, r)
  {
    var lines := NewContents(rule, base, o);
    var sections := Refill(base.sections, lines);
    var r := Estimate(base.input, sections, Retotal(lines, base.totals.vatRatePct));
    RefilledUnderRule(rule, base, o);
    MarkUpsApplied(rule, base, o, r);
    assert Balanced(r) by {
      RefillBalanced(base.input, base.sections, lines, base.totals.vatRatePct);
    }
    r
  }

  /** applyCostEstimateOverrides exactly as written: every line of A, B and
      C is re-priced, with or without an override of its own. */
  function ApplyOverridesAsWritten(base: Estimate, o: Overrides): (r: Estimate)
    ensures Balanced(r) && r.input == base.input
    ensures SectionItems(r.sections, A) == ApplyItems(RecomputeEvery, SectionItems(base.sections, A), o)
    ensures SectionItems(r.sections, B) == ApplyItems(RecomputeEvery, SectionItems(base.sections, B), o)
    ensures SectionItems(r.sections, C) == ApplyItems(RecomputeEvery, SectionItems(base.sections, C), o)
    ensures MarkUpsRescaled(base, r)
  {
    ApplyWith(RecomputeEvery, base, o)
  }

  /** applyCostEstimateOverrides with the lines no override speaks of kept
      as they are. */
  function ApplyOverrides(base: Estimate, o: Overrides): (r: Estimate)
    ensures Balanced(r) && r.input == base.input
    ensures SectionItems(r.sections, A) == ApplyItems(KeepUntouched, SectionItems(base.sections, A), o)
    ensures SectionItems(r.sections, B) == ApplyItems(KeepUntouched, SectionItems(base.sections, B), o)
    ensures SectionItems(r.sections, C) == ApplyItems(KeepUntouched, SectionItems(base.sections, C), o)
    ensures MarkUpsRescaled(base, r)
  {
    ApplyWith(KeepUntouched, base, o)
  }

  // ---------------------------------------------------------------------------
  // No overrides

  lemma FindSkip(sections: seq<Section>, id: SectionId)
    requires |sections| > 0 && sections[0].id != id
    ensures FindSection(sections, id) == FindSection(sections[1..], id)
  {
  }

  /** In the engine's section order, the first section of each id is the
      one in its place. */
  lemma FindInOrder(e: Estimate)
    requires SectionsInOrder(e)
    ensures ContentsOf(e.sections) == Contents(e.sections[0].items, e.sections[1].items, e.sections[2].items,
                                               e.sections[3].items, e.sections[4].items)
  {
    var s := e.sections;
    assert s[1..][1..] == s[2..] && s[2..][1..] == s[3..] && s[3..][1..] == s[4..];
    FindSkip(s, B);
    FindSkip(s, C);
    FindSkip(s[1..], C);
    FindSkip(s, D);
    FindSkip(s[1..], D);
    FindSkip(s[2..], D);
    FindSkip(s, E);
    FindSkip(s[1..], E);
    FindSkip(s[2..], E);
    FindSkip(s[3..], E);
  }

  lemma SumTwo(x: Item, y: Item)
    ensures Sum([x, y]) == x.net + y.net
  {
    assert [x, y][..1] == [x];
    assert [x][..0] == [];
    assert NetSum([x]) == x.net;
    assert NetSum([x, y]) == x.net + y.net;
  }

  lemma SumThree(x: Item, y: Item, z: Item)
    ensures Sum([x, y, z]) == x.net + y.net + z.net
  {
    assert [x, y, z][..2] == [x, y];
    SumTwo(x, y);
    assert NetSum([x, y, z]) == NetSum([x, y]) + z.net;
  }

  lemma FindItemSkip(items: seq<Item>, code: string)
    requires |items| > 0 && items[0].code != code
    ensures FindItem(items, code) == FindItem(items[1..], code)
  {
  }

  /** The mark-up lines of an engine estimate, looked up by code. */
  lemma MarkUpsFound(e: Estimate)
    requires SectionsInOrder(e) && MarkUpShape(e)
    ensures var d := e.sections[3].items; var x := e.sections[4].items;
      ItemOf(e.sections, D, "D1") == Some(d[0]) && ItemOf(e.sections, D, "D2") == Some(d[1])
      && ItemOf(e.sections, E, "E1") == Some(x[0]) && ItemOf(e.sections, E, "E2") == Some(x[1])
      && ItemOf(e.sections, E, "E3") == Some(x[2])
  {
    var d := e.sections[3].items;
    var x := e.sections[4].items;
    FindInOrder(e);
    assert SectionItems(e.sections, D) == d && SectionItems(e.sections, E) == x;
    FindItemSkip(d, "D2");
    FindItemSkip(x, "E2");
    FindItemSkip(x, "E3");
    FindItemSkip(x[1..], "E3");
  }

  lemma PresentTwo(a: Item, b: Item)
    ensures Present([Some(a), Some(b)]) == [a, b]
  {
    assert [Some(a), Some(b)][1..] == [Some(b)];
  }

  lemma PresentThree(a: Item, b: Item, c: Item)
    ensures Present([Some(a), Some(b), Some(c)]) == [a, b, c]
  {
    assert [Some(a), Some(b), Some(c)][1..] == [Some(b), Some(c)];
    PresentTwo(b, c);
  }

  /** A mark-up line found by its code, re-priced against the base it was
      computed from, is unchanged. */
  lemma RescaledKept(sections: seq<Section>, id: SectionId, code: string, base: int, b: Item)
    requires ItemOf(sections, id, code) == Some(b)
    requires b.qty == 1.0 && b.unitNet == Zl(b.net)
    requires base >= 0 && (base == 0 ==> b.net == 0)
    ensures Rescaled(sections, id, code, base, base) == Some(b)
  {
    RescaleKeeps(b, base);
  }

  /** Mark-up lines of one unit priced at their own nets, re-priced against
      the bases they were computed from, are unchanged. */
  lemma MarkUpLinesKept(sections: seq<Section>, direct: int, d1: Item, d2: Item, e1: Item, e2: Item, e3: Item)
    requires ItemOf(sections, D, "D1") == Some(d1) && ItemOf(sections, D, "D2") == Some(d2)
    requires ItemOf(sections, E, "E1") == Some(e1) && ItemOf(sections, E, "E2") == Some(e2)
    requires ItemOf(sections, E, "E3") == Some(e3)
    requires d1.qty == 1.0 && d1.unitNet == Zl(d1.net) && d2.qty == 1.0 && d2.unitNet == Zl(d2.net)
    requires e1.qty == 1.0 && e1.unitNet == Zl(e1.net) && e2.qty == 1.0 && e2.unitNet == Zl(e2.net)
    requires e3.qty == 1.0 && e3.unitNet == Zl(e3.net)
    requires direct >= 0 && (direct == 0 ==> d1.net == 0 && d2.net == 0 && e1.net == 0 && e2.net == 0)
    requires var p := direct + d1.net + d2.net + e1.net + e2.net; p >= 0 && (p == 0 ==> e3.net == 0)
    ensures MarkUpLines(sections, direct, direct) == ([d1, d2], [e1, e2, e3])
  {
    RescaledKept(sections, D, "D1", direct, d1);
    RescaledKept(sections, D, "D2", direct, d2);
    RescaledKept(sections, E, "E1", direct, e1);
    RescaledKept(sections, E, "E2", direct, e2);
    var p := ProfitBase(direct, Some(d1), Some(d2), Some(e1), Some(e2));
    RescaledKept(sections, E, "E3", p, e3);
    PresentTwo(d1, d2);
    PresentThree(e1, e2, e3);
  }

  /** The engine's mark-ups of a direct cost that is not negative are not
      negative, and are 0 when their base is. */
  lemma SharesOfNonNegative(direct: int, d1: int, d2: int, e1: int, e2: int, e3: int)
    requires direct >= 0
    requires d1 == Share(direct, 15.0) && d2 == Share(direct, 5.0)
    requires e1 == Share(direct, 8.0) && e2 == Share(direct, 3.0)
    requires e3 == Share(direct + d1 + d2 + e1 + e2, 10.0)
    ensures direct == 0 ==> d1 == 0 && d2 == 0 && e1 == 0 && e2 == 0
    ensures direct + d1 + d2 + e1 + e2 >= 0 && (direct + d1 + d2 + e1 + e2 == 0 ==> e3 == 0)
  {
  }

  /** The mark-up lines of an engine estimate, re-priced against a direct
      cost that has not changed, are the lines the engine gave. */
  lemma MarkUpsKept(e: Estimate)
    requires SectionsInOrder(e) && MarkUpShape(e) && MarkUpsHold(e)
    requires e.totals.directNet >= 0
    ensures MarkUpLines(e.sections, e.totals.directNet, e.totals.directNet)
      == (e.sections[3].items, e.sections[4].items)
  {
    var direct := e.totals.directNet;
    var d := e.sections[3].items;
    var x := e.sections[4].items;
    MarkUpsFound(e);
    SharesOfNonNegative(direct, d[0].net, d[1].net, x[0].net, x[1].net, x[2].net);
    MarkUpLinesKept(e.sections, direct, d[0], d[1], x[0], x[1], x[2]);
    PairShape(d);
    TripleShape(x);
  }

  lemma PairShape(d: seq<Item>)
    requires |d| == 2
    ensures d == [d[0], d[1]]
  {
  }

  lemma TripleShape(x: seq<Item>)
    requires |x| == 3
    ensures x == [x[0], x[1], x[2]]
  {
  }

  /** Sections whose lines are already the new lines of their id come back
      unchanged from refilling. */
  lemma RefillSame(sections: seq<Section>, lines: Contents)
    requires forall i :: 0 <= i < |sections| ==> lines.For(sections[i].id) == sections[i].items
    ensures Refill(sections, lines) == sections
  {
  }

  /** The new lines of an engine estimate under no overrides are its own. */
  lemma NewContentsKept(e: Estimate)
    requires SectionsInOrder(e) && MarkUpShape(e) && DirectHolds(e) && MarkUpsHold(e)
    requires e.totals.directNet >= 0
    ensures NewContents(KeepUntouched, e, NoOverrides) == ContentsOf(e.sections)
  {
    FindInOrder(e);
    var a := SectionItems(e.sections, A);
    var b := SectionItems(e.sections, B);
    var c := SectionItems(e.sections, C);
    KeepUntouchedWithoutOverrides(a);
    KeepUntouchedWithoutOverrides(b);
    KeepUntouchedWithoutOverrides(c);
    var direct := Sum(ApplyItems(KeepUntouched, a, NoOverrides)) + Sum(ApplyItems(KeepUntouched, b, NoOverrides))
                  + Sum(ApplyItems(KeepUntouched, c, NoOverrides));
    assert direct == e.totals.directNet;
    MarkUpsKept(e);
    assert MarkUpLines(e.sections, e.totals.directNet, direct) == (e.sections[3].items, e.sections[4].items);
  }

  /** The totals of an engine estimate are those Retotal computes from its
      sections. */
  lemma RetotalKept(e: Estimate)
    requires SectionsInOrder(e) && MarkUpShape(e) && DirectHolds(e) && SubtotalHolds(e)
    ensures Retotal(ContentsOf(e.sections), e.totals.vatRatePct) == e.totals
  {
    FindInOrder(e);
    var d := e.sections[3].items;
    var x := e.sections[4].items;
    PairShape(d);
    TripleShape(x);
    SumTwo(d[0], d[1]);
    SumThree(x[0], x[1], x[2]);
    var t := Retotal(ContentsOf(e.sections), e.totals.vatRatePct);
    assert t.materialsNet == e.totals.materialsNet && t.laborNet == e.totals.laborNet;
    assert t.toolsNet == e.totals.toolsNet && t.directNet == e.totals.directNet;
    assert t.overheadsNet == e.totals.overheadsNet && t.subtotalNet == e.totals.subtotalNet;
  }

  /** The engine's sections refilled with their own lines are unchanged. */
  lemma RefillInOrder(e: Estimate)
    requires SectionsInOrder(e)
    ensures Refill(e.sections, ContentsOf(e.sections)) == e.sections
  {
    var lines := ContentsOf(e.sections);
    FindInOrder(e);
    forall i | 0 <= i < |e.sections|
      ensures lines.For(e.sections[i].id) == e.sections[i].items
    {
      if i == 0 {
      } else if i == 1 {
      } else if i == 2 {
      } else if i == 3 {
      } else {
        assert i == 4;
      }
    }
    RefillSame(e.sections, lines);
  }

  /** Applying no overrides to an estimate with the engine's sections, mark-ups
      and totals, whose direct cost is not negative, gives it back. */
  lemma EngineEstimateWithoutOverrides(e: Estimate)
    requires SectionsInOrder(e) && MarkUpShape(e) && TotalsHold(e)
    requires e.totals.directNet >= 0
    ensures ApplyOverrides(e, NoOverrides) == e
  {
    var lines := NewContents(KeepUntouched, e, NoOverrides);
    NewContentsKept(e);
    RetotalKept(e);
    RefillInOrder(e);
    assert Retotal(lines, e.totals.vatRatePct) == e.totals;
    assert ApplyOverrides(e, NoOverrides) == Estimate(e.input, Refill(e.sections, lines), Retotal(lines, e.totals.vatRatePct));
  }

  /** Applying no overrides to an assembled estimate whose direct cost is not
      negative gives the estimate back. */
  lemma AssembleWithoutOverrides(input: CostInput, materials: seq<Item>, labour: seq<Item>, tools: seq<Item>)
    requires Sum(materials) + Sum(labour) + Sum(tools) >= 0
    ensures ApplyOverrides(Assemble(input, materials, labour, tools), NoOverrides)
      == Assemble(input, materials, labour, tools)
  {
    AssembleTotals(input, materials, labour, tools);
    EngineEstimateWithoutOverrides(Assemble(input, materials, labour, tools));
  }

  /** With list prices and no negative amount, applying no overrides gives
      every estimate the engine produces back. */
  lemma NoOverridesKeepEstimate(raw: RawCostInput, partial: map<PriceKey, Num>)
    requires PricesNonNegative(partial)
    ensures ApplyOverrides(GenerateCostEstimate(raw, partial), NoOverrides) == GenerateCostEstimate(raw, partial)
  {
    var e := GenerateCostEstimate(raw, partial);
    NonNegativeAmounts(raw, partial);
    EstimateTotals(raw, partial);
    EngineEstimateWithoutOverrides(e);
  }

  // ---------------------------------------------------------------------------
  // The lines re-priced as written

  /** One staircase, storey, riser and flat, cold water only, 23 percent VAT. */
  const OneRiserColdWater: RawCostInput :=
    RawCostInput(Finite(1.0), Finite(1.0), Finite(1.0), Finite(1.0), Scope(true, false, false), Finite(23.0))

  lemma OneRiserInput()
    ensures NormaliseCostInput(OneRiserColdWater) == CostInput(1, 1, 1, 1, Scope(true, false, false), 23.0)
  {
    RoundOfWhole(1);
  }

  /** Its rail fixings: 8.8 m of pipe need 1.056 m of rail at 12 zloty. */
  lemma RailFixingLine()
    ensures var input := CostInput(1, 1, 1, 1, Scope(true, false, false), 23.0);
      var m := Materials(input, map[]);
      |m| > 9 && m[9] == Line("A16", M, 1.056, Finite(12.0))
  {
    var input := CostInput(1, 1, 1, 1, Scope(true, false, false), 23.0);
    var pipes := PipeSpecs(input, map[]);
    var fittings := FittingSpecs(input, map[]);
    assert |pipes| == 2;
    assert |RiserFittingSpecs(input, map[])| == 6 && BalanceValveSpecs(input, map[]) == [];
    assert TotalPipeM(input) == 8.8;
    assert fittings[7] == FixingSpecs(input, map[])[1];
    var specs := MaterialSpecs(input, map[]);
    assert specs[9] == fittings[7];
    assert specs[9] == LineSpec("A16", M, 1.056, Finite(12.0));
  }

  /** That line is 1267 grosze; re-priced from its shown quantity of 1.06 m
      it is 1272 grosze. */
  lemma RailFixingRepriced()
    ensures Line("A16", M, 1.056, Finite(12.0)).net == 1267
    ensures Reprice(Line("A16", M, 1.056, Finite(12.0)), NoOverrides).net == 1272
  {
    var it := Line("A16", M, 1.056, Finite(12.0));
    assert Max(0.0, 1.056) == 1.056;
    assert it.qty == 1.06;
    assert it.unitNet == 12.0;
    assert Reprice(it, NoOverrides).qty == 1.06;
    assert 1.06 * 12.0 * 100.0 == 1272.0;
    RoundOfWhole(1272);
  }

  /** An estimate with a material line whose net differs from its shown
      quantity times its shown price is changed by re-pricing every line. */
  lemma RepricedLineChangesEstimate(e: Estimate, k: int)
    requires SectionsInOrder(e) && 0 <= k < |e.sections[0].items|
    requires Reprice(e.sections[0].items[k], NoOverrides).net != e.sections[0].items[k].net
    ensures ApplyOverridesAsWritten(e, NoOverrides) != e
  {
    FindInOrder(e);
    var m := e.sections[0].items;
    var r := ApplyOverridesAsWritten(e, NoOverrides);
    assert SectionItems(r.sections, A)[k] == Reprice(m[k], NoOverrides);
  }

  /** applyCostEstimateOverrides as written changes an estimate it is given
      no override for: the rail fixings of OneRiserColdWater move from 1267
      to 1272 grosze. */
  lemma EmptyOverridesChangeEstimate()
    ensures var e := GenerateCostEstimate(OneRiserColdWater, map[]);
      ApplyOverridesAsWritten(e, NoOverrides) != e
  {
    var input := CostInput(1, 1, 1, 1, Scope(true, false, false), 23.0);
    OneRiserInput();
    var m := Materials(input, map[]);
    var e := Assemble(input, m, Lines(LabourSpecs(input)), Lines(ToolSpecs(input)));
    assert GenerateCostEstimate(OneRiserColdWater, map[]) == e;
    AssembleShape(input, m, Lines(LabourSpecs(input)), Lines(ToolSpecs(input)));
    RailFixingLine();
    RailFixingRepriced();
    RepricedLineChangesEstimate(e, 9);
  }
}

=== FILE: cwu_calc.dfy ===
/** The hot-water calculators of `src/lib/calc/cwu.ts`: circulation loss from
    a heat-transfer coefficient, the simultaneity coefficient, the energy to
    heat a volume of water, the resident's bill breakdown, the ordered power
    with a buffer tank, the modernised loss and energy of PN-EN 15316-3-2, and
    the three modernisation variants.

    `decimal.js` arithmetic is exact here, like every other float. */
module CwuCalc {
  import opened Outcomes
  import opened Numbers

  /** Specific heat of water used throughout the file, kJ/(kg K). */
  const SpecificHeat: real := 4.186
  /** Density of water, kg/m3. */
  const Density: real := 1000.0
  /** kWh in one GJ, as the source rounds it. */
  const KwhPerGj: real := 277.78

  // ---------------------------------------------------------------------
  // Circulation loss and unit conversions
  // ---------------------------------------------------------------------

  /** Loss of a circulation loop with coefficient `ua` (W/K) over `hours` at a
      temperature difference `deltaT`, in GJ. */
  function CirculationLossByUa(ua: real, deltaT: real, hours: real): (r: real)
    ensures r * KwhPerGj * 1000.0 == ua * deltaT * hours
  {
    ua * deltaT * hours / 1000.0 / KwhPerGj
  }

  /** The loss is non-negative for non-negative inputs and grows with the
      operating time. */
  lemma CirculationLossMonotone(ua: real, deltaT: real, h1: real, h2: real)
    requires ua >= 0.0 && deltaT >= 0.0 && 0.0 <= h1 <= h2
    ensures 0.0 <= CirculationLossByUa(ua, deltaT, h1) <= CirculationLossByUa(ua, deltaT, h2)
  {
    MulNonNegative(ua, deltaT);
    MulMonotone(h1, h2, ua * deltaT);
    MulNonNegative(ua * deltaT, h1);
    DivMonotone(ua * deltaT * h1, ua * deltaT * h2, 1000.0);
    DivMonotone(ua * deltaT * h1 / 1000.0, ua * deltaT * h2 / 1000.0, KwhPerGj);
  }

  // ---------------------------------------------------------------------
  // Simultaneity coefficient
  // ---------------------------------------------------------------------

  datatype Profile = Low | Med | High

  function Multiplier(p: Profile): (r: real)
    ensures 0.6 <= r <= 1.0
  {
    match p
    case Low => 0.6
    case Med => 0.8
    case High => 1.0
  }

  /** `root` is the value of `Math.sqrt(flats)`, which the caller supplies. */
  predicate IsRoot(flats: real, root: real) {
    flats > 0.0 ==> root > 0.0 && root * root == flats
  }

  /** `fJednoczesnosci`: the profile multiplier over the square root of the
      number of flats, clamped to [0.1, 1]. No flats means 1 / 0 = Infinity,
      which the clamp turns into 1; a negative count has a NaN square root,
      which passes through `Math.max` and `Math.min`. */
  function Simultaneity(flats: real, root: real, p: Profile): (r: Num)
    requires IsRoot(flats, root)
    ensures r.Finite? <==> flats >= 0.0
    ensures r.Finite? ==> 0.1 <= r.v <= 1.0
    ensures flats == 0.0 ==> r == Finite(1.0)
  {
    if flats < 0.0 then NaN
    else if flats == 0.0 then Finite(1.0)
    else Finite(Clamp(Multiplier(p) / root, 0.1, 1.0))
  }

  /** More flats never raise the coefficient, and a heavier profile never
      lowers it. */
  lemma SimultaneityMonotone(f1: real, r1: real, f2: real, r2: real, p: Profile, q: Profile)
    requires IsRoot(f1, r1) && IsRoot(f2, r2) && 0.0 < f1 <= f2
    requires Multiplier(p) <= Multiplier(q)
    ensures Simultaneity(f2, r2, p).v <= Simultaneity(f1, r1, q).v
  {
    SquareMonotone(r1, r2);
    DivDenominatorMonotone(Multiplier(p), r1, r2);
    DivMonotone(Multiplier(p), Multiplier(q), r1);
  }

  /** Square roots keep the order of their squares. */
  lemma SquareMonotone(a: real, b: real)
    requires a > 0.0 && b > 0.0 && a * a <= b * b
    ensures a <= b
  {
    if a > b {
      MulPositive(a - b, a + b);
      assert false;
    }
  }

  /** A non-negative numerator over a larger denominator gives a smaller result. */
  lemma DivDenominatorMonotone(x: real, a: real, b: real)
    requires x >= 0.0 && 0.0 < a <= b
    ensures x / b <= x / a
  {
    DivMonotone(0.0, x, a);
    MulMonotone(a, b, x / a);
    assert x / a * a == x;
    DivMonotone(x, b * (x / a), b);
    assert b * (x / a) / b == x / a;
  }

  // ---------------------------------------------------------------------
  // Energy to heat water and the resident's breakdown
  // ---------------------------------------------------------------------

  datatype Energy = Energy(kWh: real, GJ: real)

  /** `energyForHeatingWater`: the heat to raise `waterM3` cubic metres from
      `cold` to `hot`, in kWh and in GJ. */
  function EnergyForHeatingWater(waterM3: real, cold: real, hot: real): (r: Energy)
    ensures r.kWh * 3600.0 == r.GJ * 1000000.0
    ensures r.GJ * 1000000.0 == waterM3 * Density * SpecificHeat * (hot - cold)
  {
    var kJ := waterM3 * Density * SpecificHeat * (hot - cold);
    Energy(kJ / 3600.0, kJ / 1000000.0)
  }

  /** The energy is proportional to the volume. */
  lemma EnergyScalesWithVolume(v: real, k: real, cold: real, hot: real)
    ensures EnergyForHeatingWater(k * v, cold, hot).GJ == k * EnergyForHeatingWater(v, cold, hot).GJ
  {
    var e := EnergyForHeatingWater(v, cold, hot);
    assert e.GJ * 1000000.0 == v * Density * SpecificHeat * (hot - cold);
    assert (k * v) * Density * SpecificHeat * (hot - cold)
        == k * (v * Density * SpecificHeat * (hot - cold));
  }

  /** A heat-meter reading: absent (`null`/`undefined`), NaN, or a number.
      Infinite readings are not modelled. */
  datatype Reading = Missing | NotANumber | Reading(v: real)

  datatype ResidentInput = ResidentInput(
    waterM3: real, coldTempC: real, hotTempC: real,
    mpecHeatGJ: Reading,
    pricePerGJ: Option<real>,
    residentPaymentsPLN: real,
    circulationLossPct: Option<real>)

  datatype ResidentResult = ResidentResult(
    needGJ: real, purchasedGJ: real, circGJ: real,
    usefulGJ: real, costPLN: real, diffPLN: real)

  /** `pricePerGJ` is truthy: given and not zero. */
  predicate HasPrice(i: ResidentInput) {
    i.pricePerGJ.Some? && i.pricePerGJ.value != 0.0
  }

  /** `residentCalc`. The purchased heat is the meter reading when there is
      one, else the payments divided by the price when there is a price, else
      the heat the water needs. A missing loss percentage counts as 0. */
  function ResidentCalc(i: ResidentInput): (r: ResidentResult)
    ensures r.needGJ == EnergyForHeatingWater(i.waterM3, i.coldTempC, i.hotTempC).GJ
    ensures i.mpecHeatGJ.Reading? ==> r.purchasedGJ == i.mpecHeatGJ.v
    ensures !i.mpecHeatGJ.Reading? && HasPrice(i) ==> r.purchasedGJ * i.pricePerGJ.value == i.residentPaymentsPLN
    ensures !i.mpecHeatGJ.Reading? && !HasPrice(i) ==> r.purchasedGJ == r.needGJ
    ensures r.usefulGJ >= 0.0 && r.usefulGJ >= r.purchasedGJ - r.circGJ
    ensures r.usefulGJ == 0.0 || r.usefulGJ == r.purchasedGJ - r.circGJ
    ensures r.circGJ == r.purchasedGJ * (i.circulationLossPct.GetOr(0.0) / 100.0)
    ensures !HasPrice(i) ==> r.costPLN == 0.0
    ensures r.diffPLN + i.residentPaymentsPLN == r.costPLN
  {
    var need := EnergyForHeatingWater(i.waterM3, i.coldTempC, i.hotTempC).GJ;
    var purchased :=
      if i.mpecHeatGJ.Reading? then i.mpecHeatGJ.v
      else if HasPrice(i) then i.residentPaymentsPLN / i.pricePerGJ.value
      else need;
    var circ := purchased * (i.circulationLossPct.GetOr(0.0) / 100.0);
    var useful := Max(purchased - circ, 0.0);
    var cost := if HasPrice(i) then purchased * i.pricePerGJ.value else 0.0;
    ResidentResult(need, purchased, circ, useful, cost, cost - i.residentPaymentsPLN)
  }

  /** Without a meter reading, a priced bill is reconstructed from the
      payments, so the computed cost equals the payments and the difference
      is zero. */
  lemma PricedBillHasNoDifference(i: ResidentInput)
    requires !i.mpecHeatGJ.Reading? && HasPrice(i)
    ensures ResidentCalc(i).costPLN == i.residentPaymentsPLN
    ensures ResidentCalc(i).diffPLN == 0.0
  {
  }

  /** With a percentage in [0, 100] and non-negative purchased heat, the
      circulation loss and the useful heat split the purchased heat. */
  lemma UsefulAndLossSplitPurchase(i: ResidentInput)
    requires i.circulationLossPct.Some? ==> 0.0 <= i.circulationLossPct.value <= 100.0
    requires ResidentCalc(i).purchasedGJ >= 0.0
    ensures ResidentCalc(i).usefulGJ + ResidentCalc(i).circGJ == ResidentCalc(i).purchasedGJ
    ensures 0.0 <= ResidentCalc(i).circGJ <= ResidentCalc(i).purchasedGJ
  {
    var r := ResidentCalc(i);
    var f := i.circulationLossPct.GetOr(0.0) / 100.0;
    assert 0.0 <= f <= 1.0;
    ShareWithin(r.purchasedGJ, f);
    assert r.circGJ == r.purchasedGJ * f;
    assert r.purchasedGJ - r.circGJ >= 0.0;
    assert r.usefulGJ == r.purchasedGJ - r.circGJ;
  }

  /** A share f in [0, 1] of a non-negative amount lies between 0 and the amount. */
  lemma ShareWithin(amount: real, f: real)
    requires amount >= 0.0 && 0.0 <= f <= 1.0
    ensures 0.0 <= amount * f <= amount
  {
    MulMonotone(f, 1.0, amount);
    MulNonNegative(amount, f);
    assert f * amount == amount * f;
  }

  // ---------------------------------------------------------------------
  // Ordered power with a buffer tank
  // ---------------------------------------------------------------------

  datatype PowerParams = PowerParams(
    flats: real, risers: real, coldTempC: real, hotTempC: real,
    drawPeakLpm: real, simultProfile: Profile,
    bufferL: real, bufferDeltaC: real, peakDurationSec: real)

  /** The result of `orderedPowerCWU`. The net power is a `Num`: a zero peak
      duration divides by zero. */
  datatype OrderedPower = OrderedPower(
    PkW: real, PnetkW: Num, jednocz: real, dT: real, EbuforKWh: real)

  /** Energy the buffer tank holds, kJ (one kilogram per litre). */
  function BufferEnergy(p: PowerParams): (r: real)
    ensures r == SpecificHeat * (p.bufferL * p.bufferDeltaC)
  {
    p.bufferL * 1.0 * SpecificHeat * p.bufferDeltaC
  }

  /** Power the buffer tank supplies over the peak, kW. The division is
      decimal.js's: by a zero peak duration it gives an infinity of the
      energy's sign, or NaN for no energy. */
  function BufferPower(p: PowerParams): (r: Num)
    ensures r.Finite? <==> p.peakDurationSec != 0.0
    ensures r.Finite? ==> r.v * p.peakDurationSec * 3600.0 == BufferEnergy(p)
    ensures r.Finite? && p.bufferL * p.bufferDeltaC >= 0.0 && p.peakDurationSec > 0.0 ==> r.v >= 0.0
    ensures p.peakDurationSec == 0.0 ==>
      (r == PosInf <==> BufferEnergy(p) > 0.0) && (r == NegInf <==> BufferEnergy(p) < 0.0)
      && (r == NaN <==> BufferEnergy(p) == 0.0)
  {
    var kJ := BufferEnergy(p);
    if p.peakDurationSec != 0.0 then
      MulNonNegative(SpecificHeat, p.bufferL * p.bufferDeltaC);
      Finite(kJ / p.peakDurationSec / 3600.0)
    else if kJ > 0.0 then PosInf
    else if kJ < 0.0 then NegInf
    else NaN
  }

  /** `Decimal.max(P_kW.minus(buforPower_kW), 0)`: the peak power less the
      buffer's, never below 0; an infinite buffer leaves 0 or +Infinity and
      NaN stays NaN. */
  function NetPower(pkW: real, buffer: Num): (r: Num)
    ensures buffer.Finite? ==> r.Finite? && r.v >= 0.0 && r.v >= pkW - buffer.v
    ensures buffer.Finite? ==> r.v == 0.0 || r.v == pkW - buffer.v
    ensures buffer == PosInf ==> r == Finite(0.0)
    ensures buffer == NegInf ==> r == PosInf
    ensures buffer == NaN ==> r == NaN
  {
    NumMax(NumSub(Finite(pkW), buffer), Finite(0.0))
  }

  /** Peak heating power of the simultaneous draw, kW. */
  function PeakPower(p: PowerParams, j: real): (r: real)
    ensures p.drawPeakLpm >= 0.0 && j >= 0.0 && p.hotTempC >= p.coldTempC ==> r >= 0.0
  {
    var flowLps := p.drawPeakLpm / 60.0;
    var mDot := flowLps * j * Density;
    MulNonNegative(flowLps, j);
    MulNonNegative(flowLps * j, Density);
    MulNonNegative(mDot, SpecificHeat);
    MulNonNegative(mDot * SpecificHeat, p.hotTempC - p.coldTempC);
    mDot * SpecificHeat * (p.hotTempC - p.coldTempC) / 3600.0
  }

  /** `orderedPowerCWU`: the peak power of the simultaneous draw, and the net
      power once the buffer tank covers part of the peak. With a zero peak
      duration a buffer holding energy leaves a net power of 0, one holding
      negative energy +Infinity, and an empty one NaN. */
  function OrderedPowerCwu(p: PowerParams, root: real): (r: OrderedPower)
    requires p.flats >= 0.0 && IsRoot(p.flats, root)
    ensures p.peakDurationSec != 0.0 ==>
      r.PnetkW.Finite? && r.PnetkW.v >= 0.0 && r.PnetkW.v >= r.PkW - BufferPower(p).v
      && (r.PnetkW.v == 0.0 || r.PnetkW.v == r.PkW - BufferPower(p).v)
    ensures p.peakDurationSec == 0.0 ==>
      (r.PnetkW == Finite(0.0) <==> BufferEnergy(p) > 0.0) && (r.PnetkW == PosInf <==> BufferEnergy(p) < 0.0)
      && (r.PnetkW == NaN <==> BufferEnergy(p) == 0.0)
    ensures r.jednocz == ToFixed(Simultaneity(p.flats, root, p.simultProfile).v, 3)
    ensures r.dT == p.hotTempC - p.coldTempC
    ensures r.EbuforKWh * 3600.0 == p.bufferL * SpecificHeat * p.bufferDeltaC
  {
    var j := Simultaneity(p.flats, root, p.simultProfile).v;
    var pkW := PeakPower(p, j);
    OrderedPower(pkW, NetPower(pkW, BufferPower(p)), ToFixed(j, 3),
                 p.hotTempC - p.coldTempC, BufferEnergy(p) / 3600.0)
  }

  /** With a hot side at least as warm as the cold side, a non-negative draw
      and a non-negative buffer over a positive peak, the net power lies
      between 0 and the peak power; with no buffer it is the peak power. */
  lemma NetPowerWithinPeak(p: PowerParams, root: real)
    requires p.flats >= 0.0 && IsRoot(p.flats, root) && p.peakDurationSec > 0.0
    requires p.hotTempC >= p.coldTempC && p.drawPeakLpm >= 0.0
    requires p.bufferL * p.bufferDeltaC >= 0.0
    ensures OrderedPowerCwu(p, root).PnetkW.Finite?
    ensures 0.0 <= OrderedPowerCwu(p, root).PnetkW.v <= OrderedPowerCwu(p, root).PkW
    ensures p.bufferL * p.bufferDeltaC == 0.0 ==> OrderedPowerCwu(p, root).PnetkW.v == OrderedPowerCwu(p, root).PkW
  {
    var j := Simultaneity(p.flats, root, p.simultProfile).v;
    assert j >= 0.0;
    var r := OrderedPowerCwu(p, root);
    assert r.PkW >= 0.0;
    assert BufferPower(p).v >= 0.0;
    if p.bufferL * p.bufferDeltaC == 0.0 {
      assert BufferEnergy(p) == 0.0;
      assert BufferPower(p).v * p.peakDurationSec * 3600.0 == 0.0;
      assert BufferPower(p).v == 0.0;
    }
  }

  // ---------------------------------------------------------------------
  // Modernised loss and energy (PN-EN 15316-3-2)
  // ---------------------------------------------------------------------

  datatype ModernisationError =
    | LossNotFinite | ReductionNotFinite | EnergyNotFinite
    | NegativeLoss | ReductionOutOfRange | NegativeEnergy

  datatype Modernised = Modernised(xPo: real, ePo: real)

  /** The first check that rejects the arguments, in the source's order. */
  function ModernisationCheck(x: Num, redukcja: Num, eDzis: Num): (r: Option<ModernisationError>)
    ensures r.None? <==> x.Finite? && redukcja.Finite? && eDzis.Finite?
                         && x.v >= 0.0 && 0.0 <= redukcja.v <= 100.0 && eDzis.v >= 0.0
  {
    if !x.Finite? then Some(LossNotFinite)
    else if !redukcja.Finite? then Some(ReductionNotFinite)
    else if !eDzis.Finite? then Some(EnergyNotFinite)
    else if x.v < 0.0 then Some(NegativeLoss)
    else if redukcja.v < 0.0 || redukcja.v > 100.0 then Some(ReductionOutOfRange)
    else if eDzis.v < 0.0 then Some(NegativeEnergy)
    else None
  }

  /** The ratio of (1 + loss) after a reduction of `redukcja` percent and before. */
  function ReductionRatio(x: real, redukcja: real): real
    requires x >= 0.0
  {
    (1.0 + x * (1.0 - redukcja / 100.0) / 100.0) / (1.0 + x / 100.0)
  }

  /** The arithmetic of `calcModernizedLossAndEnergy` on accepted arguments:
      the loss percentage `x` reduced by `redukcja` percent, and today's
      energy `eDzis` scaled by the ratio of (1 + loss) after and before. */
  function Modernise(x: real, redukcja: real, eDzis: real): (m: Modernised)
    requires x >= 0.0 && 0.0 <= redukcja <= 100.0 && eDzis >= 0.0
    ensures 0.0 <= m.xPo <= x && 0.0 <= m.ePo <= eDzis
    ensures m.xPo == x * (1.0 - redukcja / 100.0)
    ensures m.ePo * (1.0 + x / 100.0) == eDzis * (1.0 + m.xPo / 100.0)
  {
    var xPo := x * (1.0 - redukcja / 100.0);
    MulMonotone(1.0 - redukcja / 100.0, 1.0, x);
    MulNonNegative(x, 1.0 - redukcja / 100.0);
    var ratio := ReductionRatio(x, redukcja);
    DivMonotone(1.0 + xPo / 100.0, 1.0 + x / 100.0, 1.0 + x / 100.0);
    MulMonotone(ratio, 1.0, eDzis);
    MulNonNegative(eDzis, ratio);
    Modernised(xPo, eDzis * ratio)
  }

  /** `calcModernizedLossAndEnergy`: the first failed check, or the
      modernised figures. The second validation block of the source rejects
      nothing the first has let through. */
  function ModernisedLossAndEnergy(x: Num, redukcja: Num, eDzis: Num): (r: Result<Modernised, ModernisationError>)
    ensures r.Err? <==> ModernisationCheck(x, redukcja, eDzis).Some?
    ensures r.Err? ==> r.error == ModernisationCheck(x, redukcja, eDzis).value
    ensures r.Ok? ==> x.Finite? && redukcja.Finite? && eDzis.Finite?
                      && r.value == Modernise(x.v, redukcja.v, eDzis.v)
  {
    match ModernisationCheck(x, redukcja, eDzis)
    case Some(e) => Err(e)
    case None => Ok(Modernise(x.v, redukcja.v, eDzis.v))
  }

  /** A zero reduction changes nothing. */
  lemma NoReductionIsIdentity(x: real, eDzis: real)
    requires x >= 0.0 && eDzis >= 0.0
    ensures ModernisedLossAndEnergy(Finite(x), Finite(0.0), Finite(eDzis)) == Ok(Modernised(x, eDzis))
  {
    var r := ModernisedLossAndEnergy(Finite(x), Finite(0.0), Finite(eDzis));
    assert r.value.xPo == x;
    assert (1.0 + x / 100.0) / (1.0 + x / 100.0) == 1.0;
  }

  /** A larger reduction never needs more energy. */
  lemma MoreReductionLessEnergy(x: real, red1: real, red2: real, eDzis: real)
    requires x >= 0.0 && eDzis >= 0.0 && 0.0 <= red1 <= red2 <= 100.0
    ensures ModernisedLossAndEnergy(Finite(x), Finite(red2), Finite(eDzis)).value.ePo
         <= ModernisedLossAndEnergy(Finite(x), Finite(red1), Finite(eDzis)).value.ePo
  {
    assert ModernisedLossAndEnergy(Finite(x), Finite(red1), Finite(eDzis)) == Ok(Modernise(x, red1, eDzis));
    assert ModernisedLossAndEnergy(Finite(x), Finite(red2), Finite(eDzis)) == Ok(Modernise(x, red2, eDzis));
    ModernisedEnergyMonotone(x, red1, red2, eDzis);
  }

  lemma ModernisedEnergyMonotone(x: real, red1: real, red2: real, eDzis: real)
    requires x >= 0.0 && eDzis >= 0.0 && 0.0 <= red1 <= red2 <= 100.0
    ensures Modernise(x, red2, eDzis).ePo <= Modernise(x, red1, eDzis).ePo
  {
    ModernisedEnergy(x, red1, eDzis);
    ModernisedEnergy(x, red2, eDzis);
    RatioMonotone(x, red1, red2);
    MulMonotone(ReductionRatio(x, red2), ReductionRatio(x, red1), eDzis);
  }

  /** The modernised energy is the energy of today scaled by the ratio of
      (1 + loss) after and before. */
  lemma ModernisedEnergy(x: real, red: real, eDzis: real)
    requires x >= 0.0 && 0.0 <= red <= 100.0 && eDzis >= 0.0
    ensures Modernise(x, red, eDzis).ePo == ReductionRatio(x, red) * eDzis
  {
  }

  /** A larger reduction gives a smaller ratio of (1 + loss) after and before. */
  lemma RatioMonotone(x: real, red1: real, red2: real)
    requires x >= 0.0 && red1 <= red2
    ensures ReductionRatio(x, red2) <= ReductionRatio(x, red1)
  {
    var d := 1.0 + x / 100.0;
    var a1, a2 := 1.0 + x * (1.0 - red1 / 100.0) / 100.0, 1.0 + x * (1.0 - red2 / 100.0) / 100.0;
    ReducedLossMonotone(x, red1, red2);
    DivMonotone(a2, a1, d);
  }

  /** A larger reduction leaves a smaller loss percentage. */
  lemma ReducedLossMonotone(x: real, red1: real, red2: real)
    requires x >= 0.0 && red1 <= red2
    ensures x * (1.0 - red2 / 100.0) <= x * (1.0 - red1 / 100.0)
  {
    MulMonotone(1.0 - red2 / 100.0, 1.0 - red1 / 100.0, x);
  }

  /** The worked example accompanying the source: 74 % loss halved with
      600 GJ today gives 37 % and 600 * 1.37 / 1.74, about 472.41 GJ; a full
      reduction gives 0 % and about 344.83 GJ. */
  lemma ModernisationExample()
    ensures var r := ModernisedLossAndEnergy(Finite(74.0), Finite(50.0), Finite(600.0));
      r.Ok? && r.value.xPo == 37.0 && 472.40 < r.value.ePo < 472.42
    ensures var r := ModernisedLossAndEnergy(Finite(74.0), Finite(100.0), Finite(600.0));
      r.Ok? && r.value.xPo == 0.0 && 344.82 < r.value.ePo < 344.83
  {
    var r := ModernisedLossAndEnergy(Finite(74.0), Finite(50.0), Finite(600.0));
    assert r.value.xPo == 37.0;
    assert r.value.ePo * 1.74 == 600.0 * 1.37;
    var s := ModernisedLossAndEnergy(Finite(74.0), Finite(100.0), Finite(600.0));
    assert s.value.xPo == 0.0;
    assert s.value.ePo * 1.74 == 600.0;
  }

  /** Every invalid argument is rejected, NaN included. */
  lemma NaNArgumentsRejected(a: real, b: real)
    ensures ModernisedLossAndEnergy(NaN, Finite(a), Finite(b)) == Err(LossNotFinite)
    ensures ModernisedLossAndEnergy(Finite(a), NaN, Finite(b)) == Err(ReductionNotFinite)
    ensures ModernisedLossAndEnergy(Finite(a), Finite(b), NaN) == Err(EnergyNotFinite)
  {
  }

  // ---------------------------------------------------------------------
  // Modernisation variants
  // ---------------------------------------------------------------------

  datatype VariantPlan = VariantPlan(reductionPct: real, capexPLN: real)

  const VariantPlans: seq<VariantPlan> :=
    [VariantPlan(15.0, 30000.0), VariantPlan(30.0, 80000.0), VariantPlan(45.0, 150000.0)]

  datatype Variant = Variant(
    reductionPct: real, capexPLN: real,
    savingsGJ: real, savingsPLN: real, paybackYears: Num, npv10years: real)

  /** Yearly value of the heat a plan saves, PLN, before rounding. */
  function SavingsValue(plan: VariantPlan, circLossGJ: real, pricePerGJ: real): real {
    circLossGJ * (plan.reductionPct / 100.0) * pricePerGJ
  }

  /** One variant: the saved share of the circulation loss, its value, the
      payback time (Infinity without savings) and the ten-year net value. */
  function Evaluate(plan: VariantPlan, circLossGJ: real, pricePerGJ: real): (r: Variant)
    requires plan.capexPLN > 0.0
    ensures r.paybackYears.PosInf? <==> SavingsValue(plan, circLossGJ, pricePerGJ) <= 0.0
    ensures r.paybackYears.Finite? ==> r.paybackYears.v >= 0.0
    ensures r.savingsGJ == ToFixed(circLossGJ * (plan.reductionPct / 100.0), 3)
    ensures r.savingsPLN == ToFixed(SavingsValue(plan, circLossGJ, pricePerGJ), 0)
    ensures r.npv10years == ToFixed(SavingsValue(plan, circLossGJ, pricePerGJ) * 10.0 - plan.capexPLN, 0)
  {
    var pln := SavingsValue(plan, circLossGJ, pricePerGJ);
    var payback :=
      if pln > 0.0 then DivMonotone(0.0, plan.capexPLN, pln); Finite(ToFixed(plan.capexPLN / pln, 1))
      else PosInf;
    Variant(plan.reductionPct, plan.capexPLN, ToFixed(circLossGJ * (plan.reductionPct / 100.0), 3),
            ToFixed(pln, 0), payback, ToFixed(pln * 10.0 - plan.capexPLN, 0))
  }

  /** `modernizationVariants`: the three fixed plans, evaluated in order. */
  function ModernizationVariants(circLossGJ: real, pricePerGJ: real): (r: seq<Variant>)
    ensures |r| == 3
    ensures forall k :: 0 <= k < 3 ==>
      r[k].reductionPct == VariantPlans[k].reductionPct && r[k].capexPLN == VariantPlans[k].capexPLN
    ensures forall k :: 0 <= k < 3 ==>
      (r[k].paybackYears.PosInf? <==> circLossGJ * pricePerGJ <= 0.0)
  {
    PaybackInfinite(VariantPlans[0], circLossGJ, pricePerGJ);
    PaybackInfinite(VariantPlans[1], circLossGJ, pricePerGJ);
    PaybackInfinite(VariantPlans[2], circLossGJ, pricePerGJ);
    [Evaluate(VariantPlans[0], circLossGJ, pricePerGJ),
     Evaluate(VariantPlans[1], circLossGJ, pricePerGJ),
     Evaluate(VariantPlans[2], circLossGJ, pricePerGJ)]
  }

  /** A plan pays back in finite time exactly when the loss and the price
      have the same strict sign. */
  lemma PaybackInfinite(plan: VariantPlan, circLossGJ: real, pricePerGJ: real)
    requires plan.capexPLN > 0.0 && plan.reductionPct > 0.0
    ensures Evaluate(plan, circLossGJ, pricePerGJ).paybackYears.PosInf? <==> circLossGJ * pricePerGJ <= 0.0
  {
    var f := plan.reductionPct / 100.0;
    assert SavingsValue(plan, circLossGJ, pricePerGJ) == circLossGJ * f * pricePerGJ;
    SavingsSign(circLossGJ, f, pricePerGJ);
  }

  /** A positive share does not change the sign of loss times price. */
  lemma SavingsSign(c: real, f: real, p: real)
    requires f > 0.0
    ensures c * f * p <= 0.0 <==> c * p <= 0.0
  {
    assert c * f * p == f * (c * p);
    if c * p > 0.0 { MulPositive(f, c * p); }
    else { MulMonotone(c * p, 0.0, f); }
  }
}

=== FILE: cwu_loss.dfy ===
/** `calculateCwuLoss` (`src/lib/calc/calculateCwuLoss.ts`): what part of the
    hot-water price on a resident's bill is not explained by the heat needed
    to warm the water, per cubic metre, per month and per year. */
module CwuLoss {
  import opened Numbers
  import CwuCalc

  datatype LossInputs = LossInputs(
    cwuPriceFromBill: real, monthlyConsumption: real,
    coldTempC: real, hotTempC: real, heatPriceFromCity: real)

  datatype LossResult = LossResult(
    energyLossPerM3: real, lossPerM3: real,
    monthlyFinancialLoss: real, monthlyEnergyLoss: real,
    yearlyFinancialLoss: real, yearlyEnergyLoss: real,
    theoreticalCostPerM3: real, theoreticalMonthlyPayment: real,
    actualMonthlyPayment: real, energyPerM3: real)

  /** `Number(heatPriceFromCity) || 1`: a zero price is replaced by 1. */
  function PriceOrOne(i: LossInputs): (r: real)
    ensures r != 0.0
    ensures i.heatPriceFromCity != 0.0 ==> r == i.heatPriceFromCity
  {
    if i.heatPriceFromCity != 0.0 then i.heatPriceFromCity else 1.0
  }

  /** The quantities before the final rounding. */
  function ExactLoss(i: LossInputs): (r: LossResult)
    ensures r.energyPerM3 == CwuCalc.EnergyForHeatingWater(1.0, i.coldTempC, i.hotTempC).GJ
    ensures r.theoreticalCostPerM3 == r.energyPerM3 * i.heatPriceFromCity
    ensures r.lossPerM3 + r.theoreticalCostPerM3 == i.cwuPriceFromBill
    ensures r.energyLossPerM3 * PriceOrOne(i) == r.lossPerM3
    ensures r.monthlyFinancialLoss == r.actualMonthlyPayment - r.theoreticalMonthlyPayment
    ensures r.yearlyFinancialLoss == 12.0 * r.monthlyFinancialLoss
    ensures r.yearlyEnergyLoss == 12.0 * r.monthlyEnergyLoss
    ensures r.monthlyEnergyLoss * PriceOrOne(i) == r.monthlyFinancialLoss
  {
    var energyPerM3 := 0.004186 * (i.hotTempC - i.coldTempC);
    var theoretical := energyPerM3 * i.heatPriceFromCity;
    var loss := i.cwuPriceFromBill - theoretical;
    var energyLoss := loss / PriceOrOne(i);
    var m := i.monthlyConsumption;
    var monthly := loss * m;
    var monthlyEnergy := energyLoss * m;
    UnitEnergy(i.coldTempC, i.hotTempC);
    QuotientTimes(loss, PriceOrOne(i), m);
    Distribute(i.cwuPriceFromBill, theoretical, m);
    LossResult(energyLoss, loss, monthly, monthlyEnergy, monthly * 12.0, monthlyEnergy * 12.0,
               theoretical, theoretical * m, i.cwuPriceFromBill * m, energyPerM3)
  }

  /** One cubic metre needs 0.004186 GJ per kelvin. */
  lemma UnitEnergy(cold: real, hot: real)
    ensures CwuCalc.EnergyForHeatingWater(1.0, cold, hot).GJ == 0.004186 * (hot - cold)
  {
  }

  lemma QuotientTimes(a: real, b: real, m: real)
    requires b != 0.0
    ensures a / b * b == a
    ensures a / b * m * b == a * m
  {
    assert a / b * m * b == (a / b * b) * m;
  }

  lemma Distribute(a: real, b: real, m: real)
    ensures (a - b) * m == a * m - b * m
  {
  }

  /** `calculateCwuLoss`: the exact quantities rounded as the resident page
      shows them, energy per cubic metre to 4 decimals, monthly and yearly
      energy to 3, money to 2. */
  function CalculateCwuLoss(i: LossInputs): (r: LossResult)
    ensures var e := ExactLoss(i);
      && r.energyLossPerM3 == ToFixed(e.energyLossPerM3, 4)
      && r.energyPerM3 == ToFixed(e.energyPerM3, 4)
      && r.monthlyEnergyLoss == ToFixed(e.monthlyEnergyLoss, 3)
      && r.yearlyEnergyLoss == ToFixed(e.yearlyEnergyLoss, 3)
      && r.lossPerM3 == ToFixed(e.lossPerM3, 2)
      && r.monthlyFinancialLoss == ToFixed(e.monthlyFinancialLoss, 2)
      && r.yearlyFinancialLoss == ToFixed(e.yearlyFinancialLoss, 2)
      && r.theoreticalCostPerM3 == ToFixed(e.theoreticalCostPerM3, 2)
      && r.theoreticalMonthlyPayment == ToFixed(e.theoreticalMonthlyPayment, 2)
      && r.actualMonthlyPayment == ToFixed(e.actualMonthlyPayment, 2)
  {
    var e := ExactLoss(i);
    LossResult(ToFixed(e.energyLossPerM3, 4), ToFixed(e.lossPerM3, 2),
               ToFixed(e.monthlyFinancialLoss, 2), ToFixed(e.monthlyEnergyLoss, 3),
               ToFixed(e.yearlyFinancialLoss, 2), ToFixed(e.yearlyEnergyLoss, 3),
               ToFixed(e.theoreticalCostPerM3, 2), ToFixed(e.theoreticalMonthlyPayment, 2),
               ToFixed(e.actualMonthlyPayment, 2), ToFixed(e.energyPerM3, 4))
  }

  /** Each shown amount of money is within half a grosz of the exact one, so
      the shown loss per cubic metre and the shown theoretical cost add up to
      the billed price within one grosz. */
  lemma ShownLossWithinAGrosz(i: LossInputs)
    ensures var r := CalculateCwuLoss(i);
      i.cwuPriceFromBill - 0.01 <= r.lossPerM3 + r.theoreticalCostPerM3 <= i.cwuPriceFromBill + 0.01
    ensures var r := CalculateCwuLoss(i);
      var e := ExactLoss(i);
      e.yearlyFinancialLoss - 0.005 <= r.yearlyFinancialLoss <= e.yearlyFinancialLoss + 0.005
  {
    var e := ExactLoss(i);
    assert Pow10(2) == 100;
  }

  /** A bill that charges exactly the heat the water needs shows no loss. */
  lemma FairBillShowsNoLoss(i: LossInputs)
    requires i.cwuPriceFromBill == 0.004186 * (i.hotTempC - i.coldTempC) * i.heatPriceFromCity
    ensures ExactLoss(i).lossPerM3 == 0.0
    ensures ExactLoss(i).yearlyFinancialLoss == 0.0
    ensures CalculateCwuLoss(i).yearlyFinancialLoss == 0.0
  {
  }
}

=== FILE: demand_api.dfy ===
/** The arithmetic of the HTTP endpoint in api.py: the built-in 24-hour demand
    profile and the response derived from a model comparison. */
module DemandApi {
  import opened Outcomes
  import opened Numbers
  import opened TankPhysics
  import LayeredTank
  import opened Search
  import opened Recommendation
  import opened Comparison

  /** One peak of the default profile: start minute, duration in minutes and flow. */
  datatype Peak = Peak(startMin: int, durationMin: int, lpm: real)

  const MorningPeak := Peak(7 * 60, 20, 60.0)
  const EveningPeak := Peak(19 * 60, 20, 50.0)

  /** Number of steps of length `dt` in a day (Python int() of the quotient). */
  function DaySteps(dt: int): (r: nat)
    requires dt > 0
    ensures r * dt <= 86400 < (r + 1) * dt
  {
    86400 / dt
  }

  /** Sample `i` lies in the steps a peak covers, clipped to the day. */
  predicate InPeak(p: Peak, dt: int, steps: int, i: int)
    requires dt > 0
  {
    MaxInt(0, (p.startMin * 60) / dt) <= i < MinInt(steps, ((p.startMin + p.durationMin) * 60) / dt)
  }

  /** The value a sample of the default profile ends with: the evening peak is
      written last, so it wins over the morning one. */
  function ProfileValue(dt: int, steps: int, i: int): real
    requires dt > 0
  {
    if InPeak(EveningPeak, dt, steps, i) then EveningPeak.lpm
    else if InPeak(MorningPeak, dt, steps, i) then MorningPeak.lpm
    else 0.0
  }

  /** Overwrite the steps a peak covers with its flow. */
  method SetPeak(prof: seq<real>, p: Peak, dt: int) returns (r: seq<real>)
    requires dt > 0
    ensures |r| == |prof|
    ensures forall i :: 0 <= i < |r| ==> r[i] == if InPeak(p, dt, |prof|, i) then p.lpm else prof[i]
  {
    r := prof;
    var lo := MaxInt(0, (p.startMin * 60) / dt);
    var hi := MinInt(|prof|, ((p.startMin + p.durationMin) * 60) / dt);
    var i := lo;
    while i < hi
      invariant lo <= i <= MaxInt(lo, hi)
      invariant |r| == |prof|
      invariant forall k :: 0 <= k < |r| ==> r[k] == if lo <= k < i then p.lpm else prof[k]
    {
      r := r[i := p.lpm];
      i := i + 1;
    }
    forall k | 0 <= k < |r|
      ensures r[k] == if InPeak(p, dt, |prof|, k) then p.lpm else prof[k]
    {
      assert InPeak(p, dt, |prof|, k) <==> lo <= k < hi;
    }
  }

  /** _default_demand_profile_24h_lpm: refused for a non-positive step;
      otherwise one sample per step of the day, 60 l/min for twenty minutes
      from 7:00, 50 l/min for twenty minutes from 19:00 and none otherwise. */
  method DefaultDemandProfile(dt: int) returns (r: Result<seq<real>, SimError>)
    ensures dt <= 0 <==> r == Err(DtNotPositive)
    ensures r.Ok? <==> dt > 0
    ensures r.Ok? ==> |r.value| == DaySteps(dt)
    ensures r.Ok? ==> forall i :: 0 <= i < |r.value| ==> r.value[i] == ProfileValue(dt, |r.value|, i)
  {
    if dt <= 0 {
      return Err(DtNotPositive);
    }
    var steps := DaySteps(dt);
    var prof := seq(steps, _ => 0.0);
    prof := SetPeak(prof, MorningPeak, dt);
    prof := SetPeak(prof, EveningPeak, dt);
    return Ok(prof);
  }

  /** With one-minute steps the day has 1440 samples; samples 420 to 439 carry
      60 l/min, samples 1140 to 1159 carry 50 l/min and all others are zero. */
  lemma MinuteProfile(i: int)
    requires 0 <= i < DaySteps(60)
    ensures DaySteps(60) == 1440
    ensures 420 <= i < 440 ==> ProfileValue(60, 1440, i) == 60.0
    ensures 1140 <= i < 1160 ==> ProfileValue(60, 1440, i) == 50.0
    ensures !(420 <= i < 440) && !(1140 <= i < 1160) ==> ProfileValue(60, 1440, i) == 0.0
  {
  }

  /** The level text of the response: any text other than "A", "B" or "C" is read as B. */
  function LevelFromText(s: string): (r: Level)
    ensures s == "A" ==> r == A
    ensures s == "C" ==> r == C
    ensures s != "A" && s != "C" ==> r == B
  {
    if s == "A" then A else if s == "C" then C else B
  }

  function LevelText(l: Level): string {
    match l
    case A => "A"
    case B => "B"
    case C => "C"
  }

  /** Reading back the text of a level gives the level. */
  lemma LevelTextRoundTrip(l: Level)
    ensures LevelFromText(LevelText(l)) == l
  {
  }

  /** The extra capacity cost the endpoint reports for a difference `deltaP`. */
  datatype Costs = Costs(month: real, year: real, horizon: real)

  /** The endpoint's own cost arithmetic: the monthly cost is clipped at zero,
      a year is twelve months and the horizon is that many years. */
  function ResponseCosts(deltaP: real, costKwMonth: real, horizonYears: int): (r: Costs)
    requires costKwMonth >= 0.0 && horizonYears >= 1
    ensures r.month >= 0.0 && r.year >= 0.0 && r.horizon >= 0.0
    ensures r.year == 12.0 * r.month
    ensures r.horizon == r.year * horizonYears as real
    ensures deltaP <= 0.0 ==> r == Costs(0.0, 0.0, 0.0)
    ensures deltaP > 0.0 ==> r.month == deltaP * costKwMonth
  {
    var month := Max(0.0, deltaP * costKwMonth);
    var year := month * 12.0;
    if deltaP <= 0.0 then
      MulMonotone(deltaP, 0.0, costKwMonth);
      Costs(month, year, year * horizonYears as real)
    else
      MulMonotone(0.0, deltaP, costKwMonth);
      MulMonotone(0.0, year, horizonYears as real);
      Costs(month, year, year * horizonYears as real)
  }

  /** When the endpoint's monthly rate is the one the comparison used and the
      difference is positive, its monthly cost agrees with the comparison's. */
  lemma ResponseMatchesImpact(deltaP: real, costKwMonth: real, horizonYears: int)
    requires costKwMonth >= 0.0 && horizonYears >= 1 && deltaP > 0.0
    ensures FinancialImpact(deltaP, CostParams(Some(costKwMonth), None, horizonYears)).Ok?
    ensures ResponseCosts(deltaP, costKwMonth, horizonYears).month
         == FinancialImpact(deltaP, CostParams(Some(costKwMonth), None, horizonYears)).value.month
    ensures ResponseCosts(deltaP, costKwMonth, horizonYears).year
         == FinancialImpact(deltaP, CostParams(Some(costKwMonth), None, horizonYears)).value.year
  {
    YearIsTwelveMonths(deltaP, CostParams(Some(costKwMonth), None, horizonYears));
  }

  datatype Response = Response(
    pFinal: real, pMix: real, pLayer: real, deltaP: real, costs: Costs, level: Level)

  /** The day's demand at one-minute steps, as the endpoint builds it. */
  function MinuteDemand(): (r: seq<real>)
    ensures |r| == DaySteps(60) == 1440
    ensures forall i :: 0 <= i < |r| ==> r[i] == ProfileValue(60, 1440, i)
  {
    seq(1440, i => ProfileValue(60, 1440, i))
  }

  /** The endpoint's tank: filled at its set point over 10 C cold water, with
      one-minute steps. */
  function EndpointTank(vTankL: int, tSet: real, tMin: real): TankParams {
    TankParams(vTankL as real, tSet, tSet, 10.0, tMin, 60)
  }

  /** The endpoint's loss statement: the direct loss power alone. */
  function DirectLoss(lossKw: real): LossInput {
    LossInput(Some(lossKw), None, None, None)
  }

  /** The endpoint: a tank filled at its set point over 10 C cold water, one-minute
      steps, the default profile, a direct loss power, no violation allowed and
      the default layered parameters; the costs come from the endpoint's own
      monthly rate, not from the comparison. The powers, the difference and
      the level are the comparison's (`cmp`), run with the endpoint's own
      loss: each power is feasible without violation and no power more than
      the search tolerance below it is. Inputs are those the request schema
      lets through. */
  method OrderedPowerEndpoint(vTankL: int, tSet: real, tMin: real, lossKw: real, costKwMonth: real,
                              horizonYears: int)
    returns (r: Result<Response, CompareError>, ghost cmp: Result<ComparisonResult, CompareError>)
    requires vTankL >= 1 && lossKw >= 0.0 && costKwMonth >= 0.0 && horizonYears >= 1
    ensures tSet <= 10.0 ==> r == Err(PrepassFailed(DeliveryNotAboveCold))
    ensures r.Err? <==> cmp.Err?
    ensures r.Err? ==> r.error == cmp.error
    ensures r.Ok? ==>
      var v, c := r.value, cmp.value;
      v.pMix == c.mix.pzamKw && v.pLayer == c.layered.pzamKw && v.pFinal == c.decision.pFinalKw
      && v.deltaP == c.deltaPKw && v.level == c.recommendation.level
      && v.costs == ResponseCosts(v.deltaP, costKwMonth, horizonYears)
    ensures r.Ok? ==>
      var v := r.value;
      v.deltaP == v.pMix - v.pLayer
      && (v.pFinal == v.pMix || v.pFinal == v.pLayer)
      && v.costs.year == 12.0 * v.costs.month && v.costs.month >= 0.0
      && (v.level == A ==> v.pFinal == v.pMix)
      && (v.level != A ==> v.pFinal == v.pLayer)
    ensures r.Ok? ==> tSet > 10.0 && cmp.value.lossKw == lossKw
    ensures r.Ok? ==>
      Derived(EndpointTank(vTankL, tSet, tMin), MinuteDemand(), DirectLoss(lossKw), DefaultLayered,
              DefaultThresholds, DefaultCostParams, cmp.value)
    ensures r.Ok? ==>
      r.value.level == BuildRecommendation(vTankL as real, DefaultLayered.mixingTauS, DefaultThresholds,
                                           cmp.value.metrics, r.value.deltaP, cmp.value.deltaPPercent).level
    ensures r.Ok? ==>
      Feasible(MixedSimulator(EndpointTank(vTankL, tSet, tMin), MinuteDemand(), lossKw, 0.0), 0.0, r.value.pMix)
      && Feasible(LayeredSimulator(EndpointTank(vTankL, tSet, tMin), DefaultLayered, MinuteDemand(), lossKw),
                  0.0, r.value.pLayer)
    ensures r.Ok? ==>
      forall p :: 0.0 <= p < r.value.pMix - DefaultBounds.tol ==>
        !Feasible(MixedSimulator(EndpointTank(vTankL, tSet, tMin), MinuteDemand(), lossKw, 0.0), 0.0, p)
    ensures r.Ok? ==>
      forall p :: 0.0 <= p < r.value.pLayer - DefaultBounds.tol ==>
        !Feasible(LayeredSimulator(EndpointTank(vTankL, tSet, tMin), DefaultLayered, MinuteDemand(), lossKw), 0.0, p)
  {
    var tank := EndpointTank(vTankL, tSet, tMin);
    var profile := DefaultDemandProfile(60);
    assert profile.value == MinuteDemand();
    var res := CompareModels(tank, profile.value, DirectLoss(lossKw), 0.0, DefaultLayered,
                             DefaultThresholds, DefaultCostParams, DefaultBounds);
    cmp := res;
    if res.Err? {
      r := Err(res.error);
      return;
    }
    var c := res.value;
    var costs := ResponseCosts(c.deltaPKw, costKwMonth, horizonYears);
    var level := LevelFromText(LevelText(c.recommendation.level));
    LevelTextRoundTrip(c.recommendation.level);
    r := Ok(Response(c.decision.pFinalKw, c.mix.pzamKw, c.layered.pzamKw, c.deltaPKw, costs, level));
  }
}

=== FILE: energy_pie.dfy ===
/** The residents' energy pie chart (`src/app/mieszkancy/components/EnergyPieChart.tsx`):
    the loss and useful-energy percentages are clamped to [0, 100] and then
    rescaled so that the two slices always add up to 100 %. */
module EnergyPie {
  import opened Numbers

  /** `clampPercent`: a non-finite value shows as 0, the rest is cut to [0, 100]. */
  function ClampPercent(v: Num): (r: real)
    ensures 0.0 <= r <= 100.0
    ensures !v.Finite? ==> r == 0.0
    ensures v.Finite? && 0.0 <= v.v <= 100.0 ==> r == v.v
    ensures v.Finite? && v.v > 100.0 ==> r == 100.0
    ensures v.Finite? && v.v < 0.0 ==> r == 0.0
  {
    if !v.Finite? then 0.0 else Min(100.0, Max(0.0, v.v))
  }

  datatype Slices = Slices(loss: real, useful: real)

  /** `normalizePercents`. */
  function NormalizePercents(lossPercent: Num, usefulEnergyPercent: Num): (r: Slices)
    ensures var l, u := ClampPercent(lossPercent), ClampPercent(usefulEnergyPercent);
      l + u <= 0.0 ==> r == Slices(0.0, 0.0)
    ensures var l, u := ClampPercent(lossPercent), ClampPercent(usefulEnergyPercent);
      l + u > 0.0 ==>
        r.loss + r.useful == 100.0 && 0.0 <= r.loss <= 100.0 && r.loss * u == r.useful * l
  {
    var loss := ClampPercent(lossPercent);
    var useful := ClampPercent(usefulEnergyPercent);
    var sum := loss + useful;
    if sum <= 0.0 then Slices(0.0, 0.0)
    else
      var lossN := loss / sum * 100.0;
      ShareOfSum(loss, useful);
      Slices(lossN, 100.0 - lossN)
  }

  /** The share of the first part of a positive sum, in percent, lies in
      [0, 100], and the two shares keep the ratio of the parts. */
  lemma ShareOfSum(a: real, b: real)
    requires a >= 0.0 && b >= 0.0 && a + b > 0.0
    ensures var p := a / (a + b) * 100.0; 0.0 <= p <= 100.0 && p * b == (100.0 - p) * a
  {
    var s := a + b;
    var q := a / s;
    DivMonotone(0.0, a, s);
    DivMonotone(a, s, s);
    MulDivCancel(1.0, s);
    assert 0.0 <= q <= 1.0;
    assert q * s == a;
    assert (100.0 - q * 100.0) * a == 100.0 * (s - a) * q;
  }

  /** Slices that already add up to 100 % are shown as they are. */
  lemma NormalizedSlicesKept(loss: real, useful: real)
    requires 0.0 <= loss <= 100.0 && 0.0 <= useful <= 100.0 && loss + useful == 100.0
    ensures NormalizePercents(Finite(loss), Finite(useful)) == Slices(loss, useful)
  {
    assert loss / 100.0 * 100.0 == loss;
  }

  /** Normalising twice gives what normalising once gives. */
  lemma NormalizeIdempotent(lossPercent: Num, usefulEnergyPercent: Num)
    ensures var r := NormalizePercents(lossPercent, usefulEnergyPercent);
      ClampPercent(lossPercent) + ClampPercent(usefulEnergyPercent) > 0.0 ==>
        NormalizePercents(Finite(r.loss), Finite(r.useful)) == r
  {
    var r := NormalizePercents(lossPercent, usefulEnergyPercent);
    if ClampPercent(lossPercent) + ClampPercent(usefulEnergyPercent) > 0.0 {
      NormalizedSlicesKept(r.loss, r.useful);
    }
  }
}

=== FILE: layered_tank.dfy ===
/** The two-zone stratified tank (simulate_layered_2zone in
    cwu_time_simulation.py). The upper (hot) zone holds `hotFraction` of the
    volume. Each step: hot water leaves from the hot zone, which is refilled by
    plug flow from the cold zone; the constant loss is split between the zones;
    the zones relax toward their common equilibrium temperature with time
    constant `mixingTauS`; the thermostat watches the hot zone only, the heater
    feeds the hot zone only, and comfort is judged on the hot zone. */
module LayeredTank {
  import opened Outcomes
  import opened Numbers
  import opened TankPhysics

  datatype LayeredParams = LayeredParams(hotFraction: real, mixingTauS: real, lossesSplit: string)

  /** Stored energy of each zone, in joules above cold water. */
  datatype Zones = Zones(hot: real, cold: real) {
    function Total(): real { hot + cold }
  }

  /** Zone volumes and the hot zone's set-point capacity. */
  datatype Geometry = Geometry(vTotal: real, vHot: real, vCold: real, hotCap: real)

  datatype State = State(
    zones: Zones, heaterOn: bool, violationS: int,
    tMinReached: real, tMinTempS: int,
    timeS: seq<int>, tHot: seq<real>, tColdZone: seq<real>, pIn: seq<real>, tEnd: seq<real>)

  /** The inputs under which the simulator runs instead of raising. */
  predicate Accepts(tank: TankParams, lp: LayeredParams, pKw: real, lossKw: real) {
    tank.volumeL > 0.0 && pKw >= 0.0 && lossKw >= 0.0 && tank.dt > 0
    && 0.05 <= lp.hotFraction <= 0.95
  }

  function GeometryOf(tank: TankParams, lp: LayeredParams): (g: Geometry)
    ensures g.vHot + g.vCold == g.vTotal == tank.volumeL
    ensures tank.volumeL > 0.0 && 0.05 <= lp.hotFraction <= 0.95 ==>
      g.vHot > 0.0 && g.vCold > 0.0 && g.hotCap >= 0.0
  {
    var vHot := tank.volumeL * lp.hotFraction;
    var vCold := tank.volumeL - vHot;
    var g := Geometry(tank.volumeL, vHot, vCold, EnergyCapacity(vHot, tank.tSet, tank.tCold));
    if tank.volumeL > 0.0 && 0.05 <= lp.hotFraction <= 0.95 then
      SplitPositive(tank.volumeL, lp.hotFraction);
      g
    else g
  }

  /** Both parts of a positive volume split at a fraction strictly inside
      (0, 1) are positive. */
  lemma SplitPositive(v: real, f: real)
    requires v > 0.0 && 0.0 < f < 1.0
    ensures v * f > 0.0 && v - v * f > 0.0
  {
    MulPositive(v, f);
    MulPositive(v, 1.0 - f);
    assert v - v * f == v * (1.0 - f);
  }

  predicate ValidGeometry(g: Geometry) {
    g.vHot > 0.0 && g.vCold > 0.0 && g.vTotal == g.vHot + g.vCold && g.hotCap >= 0.0
  }

  /** Energy the cold zone would hold at the set point. */
  function ColdCap(tank: TankParams, g: Geometry): real {
    EnergyCapacity(g.vCold, tank.tSet, tank.tCold)
  }

  predicate NonNegative(z: Zones) {
    z.hot >= 0.0 && z.cold >= 0.0
  }

  /** Hot water leaves the hot zone, and the volume it frees is refilled from
      the cold zone, which hands over the matching share of its energy; the hot
      zone never exceeds its set-point capacity through the refill. */
  function Outflow(tank: TankParams, g: Geometry, z: Zones, lpm: real): (r: Zones)
    requires tank.dt > 0 && ValidGeometry(g) && NonNegative(z)
    ensures NonNegative(r)
    ensures r.Total() <= z.Total()
    ensures z.hot <= g.hotCap ==> r.hot <= g.hotCap
    ensures r.cold <= z.cold
    ensures lpm <= 0.0 ==> r == z
  {
    Drain(g, z, DrawVolume(tank, lpm), EnergyCapacity(DrawVolume(tank, lpm), tank.tSet, tank.tCold))
  }

  /** Litres drawn in one step at `lpm` litres per minute (none when the
      demand is not positive). */
  function DrawVolume(tank: TankParams, lpm: real): (v: real)
    requires tank.dt > 0
    ensures v >= 0.0
    ensures lpm <= 0.0 <==> v == 0.0
  {
    var v := Max(0.0, lpm) * (tank.dt as real / 60.0);
    if lpm > 0.0 then
      MulPositive(lpm, tank.dt as real / 60.0);
      v
    else v
  }

  /** The draw of `vL` litres carrying `eOut` joules, and the refill of the
      freed volume from the cold zone. */
  function Drain(g: Geometry, z: Zones, vL: real, eOut: real): (r: Zones)
    requires ValidGeometry(g) && NonNegative(z) && vL >= 0.0 && eOut >= 0.0
    ensures NonNegative(r)
    ensures r.Total() <= z.Total()
    ensures z.hot <= g.hotCap ==> r.hot <= g.hotCap
    ensures r.cold <= z.cold
    ensures vL == 0.0 && eOut == 0.0 ==> r == z
  {
    var hot := Max(0.0, z.hot - eOut);
    if vL > 0.0 then
      var frac := Min(1.0, vL / g.vCold);
      assert frac >= 0.0 by {
        DivMonotone(0.0, vL, g.vCold);
      }
      Refill(g.hotCap, hot, z.cold, frac)
    else Zones(hot, z.cold)
  }

  /** The plug-flow refill: the share `frac` of the cold zone's energy moves
      up, and the hot zone is capped at `hotCap`. */
  function Refill(hotCap: real, hot: real, cold: real, frac: real): (r: Zones)
    requires hotCap >= 0.0 && hot >= 0.0 && cold >= 0.0 && 0.0 <= frac <= 1.0
    ensures NonNegative(r) && r.Total() <= hot + cold
    ensures r.hot <= hotCap && r.cold <= cold
  {
    RemainderMonotone(0.0, cold, frac);
    var moved := cold * frac;
    Zones(Min(hotCap, hot + moved), Max(0.0, cold - moved))
  }

  /** The refill keeps the order of two pairs of zone energies. */
  lemma RefillMonotone(hotCap: real, h1: real, c1: real, h2: real, c2: real, frac: real)
    requires hotCap >= 0.0 && 0.0 <= h1 <= h2 && 0.0 <= c1 <= c2 && 0.0 <= frac <= 1.0
    ensures Below(Refill(hotCap, h1, c1, frac), Refill(hotCap, h2, c2, frac))
  {
    RemainderMonotone(c1, c2, frac);
    CappedMonotone(hotCap, h1, c1 * frac, c1, h2, c2 * frac, c2);
  }

  /** Capping the raised hot zone and flooring the lowered cold zone keep
      their order. */
  lemma CappedMonotone(hotCap: real, h1: real, m1: real, c1: real, h2: real, m2: real, c2: real)
    requires h1 <= h2 && m1 <= m2 && c1 - m1 <= c2 - m2
    ensures Min(hotCap, h1 + m1) <= Min(hotCap, h2 + m2)
    ensures Max(0.0, c1 - m1) <= Max(0.0, c2 - m2)
  {
  }

  /** The constant loss of one step, split by zone volume (the default for any
      other setting) or charged entirely to the hot zone. */
  function Losses(tank: TankParams, g: Geometry, split: string, lossKw: real, z: Zones): (r: Zones)
    requires tank.dt > 0 && ValidGeometry(g) && lossKw >= 0.0 && NonNegative(z)
    ensures NonNegative(r) && r.hot <= z.hot && r.cold <= z.cold
    ensures lossKw == 0.0 ==> r == z
  {
    var lossJ := lossKw * 1000.0 * tank.dt as real;
    assert lossJ >= 0.0;
    var byVolume := split != "all_hot";
    var lossHot := if byVolume then lossJ * (g.vHot / g.vTotal) else lossJ;
    var lossCold := if byVolume then lossJ * (g.vCold / g.vTotal) else 0.0;
    assert lossHot >= 0.0 && lossCold >= 0.0;
    Zones(Max(0.0, z.hot - lossHot), Max(0.0, z.cold - lossCold))
  }

  /** Relaxing both zones toward the equilibrium temperature keeps the
      volume-weighted heat content. */
  lemma RelaxationKeepsHeat(vh: real, vc: real, v: real, th: real, tc: real, alpha: real)
    requires vh > 0.0 && vc > 0.0 && v == vh + vc
    ensures var teq := (th * vh + tc * vc) / v;
      vh * (th + alpha * (teq - th)) + vc * (tc + alpha * (teq - tc)) == vh * th + vc * tc
  {
    var teq := (th * vh + tc * vc) / v;
    assert v * teq == th * vh + tc * vc;
    calc {
      vh * (th + alpha * (teq - th)) + vc * (tc + alpha * (teq - tc));
      vh * th + vc * tc + alpha * (vh * teq + vc * teq - vh * th - vc * tc);
      vh * th + vc * tc + alpha * (v * teq - vh * th - vc * tc);
    }
  }

  /** A point moved a fraction `alpha` of the way from `a` toward `b` stays between them. */
  lemma Between(a: real, b: real, alpha: real)
    requires 0.0 <= alpha <= 1.0
    ensures Min(a, b) <= a + alpha * (b - a) <= Max(a, b)
  {
    if a <= b {
      MulNonNegative(alpha, b - a);
      MulNonNegative(1.0 - alpha, b - a);
    } else {
      MulNonNegative(alpha, a - b);
      MulNonNegative(1.0 - alpha, a - b);
    }
  }

  /** The volume-weighted mean of two temperatures lies between them. */
  lemma MeanBetween(vh: real, vc: real, v: real, th: real, tc: real)
    requires vh > 0.0 && vc > 0.0 && v == vh + vc
    ensures Min(th, tc) <= (th * vh + tc * vc) / v <= Max(th, tc)
  {
    var lo, hi := Min(th, tc), Max(th, tc);
    MulMonotone(lo, th, vh);
    MulMonotone(lo, tc, vc);
    MulMonotone(th, hi, vh);
    MulMonotone(tc, hi, vc);
    assert lo * v == lo * vh + lo * vc;
    assert hi * v == hi * vh + hi * vc;
    DivMonotone(lo * v, th * vh + tc * vc, v);
    DivMonotone(th * vh + tc * vc, hi * v, v);
    MulDivCancel(lo, v);
    MulDivCancel(hi, v);
  }

  /** Both zone temperatures moved a fraction `alpha` toward their
      volume-weighted mean: each stays between the two old temperatures and the
      volume-weighted heat content is unchanged. */
  function Relax(vh: real, vc: real, v: real, th: real, tc: real, alpha: real): (r: (real, real))
    requires vh > 0.0 && vc > 0.0 && v == vh + vc && 0.0 <= alpha <= 1.0
    ensures Min(th, tc) <= r.0 <= Max(th, tc) && Min(th, tc) <= r.1 <= Max(th, tc)
    ensures vh * r.0 + vc * r.1 == vh * th + vc * tc
  {
    var teq := Mean(vh, vc, v, th, tc);
    MeanBetween(vh, vc, v, th, tc);
    Between(th, teq, alpha);
    Between(tc, teq, alpha);
    RelaxationKeepsHeat(vh, vc, v, th, tc, alpha);
    (Toward(th, teq, alpha), Toward(tc, teq, alpha))
  }

  /** The volume-weighted mean temperature of the two zones. */
  function Mean(vh: real, vc: real, v: real, th: real, tc: real): real
    requires v > 0.0
  {
    (th * vh + tc * vc) / v
  }

  /** `a` moved the fraction `alpha` of the way toward `b`. */
  function Toward(a: real, b: real, alpha: real): real {
    a + alpha * (b - a)
  }

  /** The relaxation factor of one step. */
  function Alpha(tank: TankParams, tau: real): (r: real)
    requires tau > 0.0
    ensures 0.0 <= r <= 1.0
  {
    Max(0.0, Min(1.0, tank.dt as real / tau))
  }

  /** Slow mixing between the zones when `mixingTauS` is positive; the hot zone
      is capped at its set-point capacity afterwards. */
  function Mix(tank: TankParams, g: Geometry, tau: real, z: Zones): (r: Zones)
    requires ValidGeometry(g) && NonNegative(z)
    ensures NonNegative(r)
    ensures tau > 0.0 ==> r.hot <= g.hotCap
    ensures tau <= 0.0 ==> r == z
  {
    if tau > 0.0 then
      var th := TempFromEnergy(z.hot, g.vHot, tank.tCold);
      var tc := TempFromEnergy(z.cold, g.vCold, tank.tCold);
      var t2 := Relax(g.vHot, g.vCold, g.vTotal, th, tc, Alpha(tank, tau));
      Zones(Min(g.hotCap, EnergyCapacity(g.vHot, t2.0, tank.tCold)),
            EnergyCapacity(g.vCold, t2.1, tank.tCold))
    else z
  }

  /** A zone holding no more than its set-point capacity is no hotter than the
      set point (or the cold water, if that is hotter). */
  lemma ZoneTempBelowTop(tank: TankParams, v: real, e: real, cap: real)
    requires v > 0.0 && 0.0 <= e <= cap && cap == EnergyCapacity(v, tank.tSet, tank.tCold)
    ensures TempFromEnergy(e, v, tank.tCold) <= Max(tank.tSet, tank.tCold)
  {
    TempMonotone(e, cap, v, tank.tCold);
    if tank.tSet >= tank.tCold {
      TempOfCapacity(v, tank.tSet, tank.tCold);
    } else {
      assert cap == 0.0;
    }
  }

  /** Energy of a zone at temperature `t` between the cold water and `tTop`,
      measured linearly from the cold water. */
  lemma ZoneEnergyLinear(v: real, t: real, tCold: real, tTop: real)
    requires v > 0.0 && tCold <= t <= tTop
    ensures EnergyCapacity(v, t, tCold) == v * Cp * (t - tCold)
    ensures EnergyCapacity(v, t, tCold) <= v * Cp * (tTop - tCold)
  {
    MulMonotone(t - tCold, tTop - tCold, v * Cp);
  }

  /** Before and after relaxation, both zone temperatures lie between the cold
      water and the set point when neither zone is above the set point. */
  lemma MixTempsInRange(tank: TankParams, g: Geometry, tau: real, z: Zones)
    requires tau > 0.0 && ValidGeometry(g) && NonNegative(z)
    requires g.hotCap == EnergyCapacity(g.vHot, tank.tSet, tank.tCold)
    requires z.hot <= g.hotCap && z.cold <= ColdCap(tank, g)
    ensures var th := TempFromEnergy(z.hot, g.vHot, tank.tCold);
      var tc := TempFromEnergy(z.cold, g.vCold, tank.tCold);
      var t2 := Relax(g.vHot, g.vCold, g.vTotal, th, tc, Alpha(tank, tau));
      var tTop := Max(tank.tSet, tank.tCold);
      tank.tCold <= th <= tTop && tank.tCold <= tc <= tTop
      && tank.tCold <= t2.0 <= tTop && tank.tCold <= t2.1 <= tTop
  {
    ZoneTempBelowTop(tank, g.vHot, z.hot, g.hotCap);
    ZoneTempBelowTop(tank, g.vCold, z.cold, ColdCap(tank, g));
  }

  /** Equal volume-weighted heat content means equal total energy above the
      cold water, for temperatures not below it. */
  lemma EnergyFromTemps(vh: real, vc: real, v: real, th: real, tc: real, th2: real, tc2: real, t0: real)
    requires vh > 0.0 && vc > 0.0 && v == vh + vc
    requires th >= t0 && tc >= t0 && th2 >= t0 && tc2 >= t0
    requires vh * th2 + vc * tc2 == vh * th + vc * tc
    ensures EnergyCapacity(vh, th2, t0) + EnergyCapacity(vc, tc2, t0)
         == EnergyCapacity(vh, th, t0) + EnergyCapacity(vc, tc, t0)
  {
    assert vh * Cp * (th2 - t0) + vc * Cp * (tc2 - t0) == Cp * (vh * th2 + vc * tc2) - Cp * v * t0;
    assert vh * Cp * (th - t0) + vc * Cp * (tc - t0) == Cp * (vh * th + vc * tc) - Cp * v * t0;
  }

  /** Relaxing two zones above the cold-water temperature keeps their energy. */
  lemma RelaxKeepsEnergy(vh: real, vc: real, v: real, th: real, tc: real, alpha: real, t0: real)
    requires vh > 0.0 && vc > 0.0 && v == vh + vc && 0.0 <= alpha <= 1.0
    requires th >= t0 && tc >= t0
    ensures var t2 := Relax(vh, vc, v, th, tc, alpha);
      EnergyCapacity(vh, t2.0, t0) + EnergyCapacity(vc, t2.1, t0)
        == EnergyCapacity(vh, th, t0) + EnergyCapacity(vc, tc, t0)
  {
    var t2 := Relax(vh, vc, v, th, tc, alpha);
    EnergyFromTemps(vh, vc, v, th, tc, t2.0, t2.1, t0);
  }

  /** More temperature in the same volume means more energy. */
  lemma CapacityMonotone(v: real, t1: real, t2: real, t0: real)
    requires v >= 0.0 && t1 <= t2
    ensures EnergyCapacity(v, t1, t0) <= EnergyCapacity(v, t2, t0)
  {
    MulMonotone(Max(0.0, t1 - t0), Max(0.0, t2 - t0), v * Cp);
  }

  /** Relaxation of zones at or below the set point leaves both at or below
      their set-point capacities. */
  lemma RelaxedWithinCaps(tank: TankParams, g: Geometry, tau: real, z: Zones)
    requires tau > 0.0 && ValidGeometry(g) && NonNegative(z)
    requires g.hotCap == EnergyCapacity(g.vHot, tank.tSet, tank.tCold)
    requires z.hot <= g.hotCap && z.cold <= ColdCap(tank, g)
    ensures var th := TempFromEnergy(z.hot, g.vHot, tank.tCold);
      var tc := TempFromEnergy(z.cold, g.vCold, tank.tCold);
      var t2 := Relax(g.vHot, g.vCold, g.vTotal, th, tc, Alpha(tank, tau));
      EnergyCapacity(g.vHot, t2.0, tank.tCold) <= g.hotCap
      && EnergyCapacity(g.vCold, t2.1, tank.tCold) <= ColdCap(tank, g)
  {
    var th := TempFromEnergy(z.hot, g.vHot, tank.tCold);
    var tc := TempFromEnergy(z.cold, g.vCold, tank.tCold);
    var t2 := Relax(g.vHot, g.vCold, g.vTotal, th, tc, Alpha(tank, tau));
    var tTop := Max(tank.tSet, tank.tCold);
    MixTempsInRange(tank, g, tau, z);
    CapacityMonotone(g.vHot, t2.0, tTop, tank.tCold);
    CapacityMonotone(g.vCold, t2.1, tTop, tank.tCold);
  }

  /** Relaxation of zones at or below the set point keeps their total energy. */
  lemma RelaxedKeepsTotal(tank: TankParams, g: Geometry, tau: real, z: Zones)
    requires tau > 0.0 && ValidGeometry(g) && NonNegative(z)
    requires g.hotCap == EnergyCapacity(g.vHot, tank.tSet, tank.tCold)
    requires z.hot <= g.hotCap && z.cold <= ColdCap(tank, g)
    ensures var th := TempFromEnergy(z.hot, g.vHot, tank.tCold);
      var tc := TempFromEnergy(z.cold, g.vCold, tank.tCold);
      var t2 := Relax(g.vHot, g.vCold, g.vTotal, th, tc, Alpha(tank, tau));
      EnergyCapacity(g.vHot, t2.0, tank.tCold) + EnergyCapacity(g.vCold, t2.1, tank.tCold)
        == z.hot + z.cold
  {
    var th := TempFromEnergy(z.hot, g.vHot, tank.tCold);
    var tc := TempFromEnergy(z.cold, g.vCold, tank.tCold);
    var t2 := Relax(g.vHot, g.vCold, g.vTotal, th, tc, Alpha(tank, tau));
    MixTempsInRange(tank, g, tau, z);
    RelaxKeepsEnergy(g.vHot, g.vCold, g.vTotal, th, tc, Alpha(tank, tau), tank.tCold);
    CapacityOfTemp(z.hot, g.vHot, tank.tCold);
    CapacityOfTemp(z.cold, g.vCold, tank.tCold);
  }

  /** When neither zone is above the set point, mixing loses no energy: the
      hot-zone cap does not bite and the total is conserved, and both zones
      remain at or below the set point. */
  lemma MixConserves(tank: TankParams, g: Geometry, tau: real, z: Zones)
    requires ValidGeometry(g) && NonNegative(z)
    requires g.hotCap == EnergyCapacity(g.vHot, tank.tSet, tank.tCold)
    requires z.hot <= g.hotCap && z.cold <= ColdCap(tank, g)
    ensures Mix(tank, g, tau, z).Total() == z.Total()
    ensures Mix(tank, g, tau, z).hot <= g.hotCap
    ensures Mix(tank, g, tau, z).cold <= ColdCap(tank, g)
  {
    if tau > 0.0 {
      RelaxedWithinCaps(tank, g, tau, z);
      RelaxedKeepsTotal(tank, g, tau, z);
    }
  }

  /** Hot-zone energy after adding the heater's input, capped at its set-point capacity. */
  function HeatHot(g: Geometry, z: Zones, heatJ: real): (r: Zones)
    ensures r.hot <= g.hotCap && r.hot <= z.hot + heatJ && r.cold == z.cold
    ensures z.hot + heatJ <= g.hotCap ==> r.hot == z.hot + heatJ
  {
    Zones(Min(g.hotCap, z.hot + heatJ), z.cold)
  }

  function StepJ(tank: TankParams, kw: real): (r: real)
    requires tank.dt > 0
    ensures kw >= 0.0 ==> r >= 0.0
    ensures kw == 0.0 ==> r == 0.0
  {
    kw * 1000.0 * tank.dt as real
  }

  function HotTemp(tank: TankParams, g: Geometry, z: Zones): real {
    TempFromEnergy(z.hot, g.vHot, tank.tCold)
  }

  function Init(tank: TankParams, g: Geometry): State {
    var z := Zones(EnergyCapacity(g.vHot, tank.tInit, tank.tCold),
                   EnergyCapacity(g.vCold, tank.tInit, tank.tCold));
    var t := HotTemp(tank, g, z);
    State(z, t < tank.tSet, 0, t, 0, [], [], [], [], [])
  }

  /** The zones after the draw, the losses and the mixing of one step, before heating. */
  function BeforeHeating(tank: TankParams, lp: LayeredParams, g: Geometry, lossKw: real, z: Zones, lpm: real)
    : (r: Zones)
    requires tank.dt > 0 && ValidGeometry(g) && lossKw >= 0.0 && NonNegative(z)
    ensures NonNegative(r)
    ensures lp.mixingTauS > 0.0 || z.hot <= g.hotCap ==> r.hot <= g.hotCap
  {
    var z1 := Outflow(tank, g, z, lpm);
    var z2 := Losses(tank, g, lp.lossesSplit, lossKw, z1);
    Mix(tank, g, lp.mixingTauS, z2)
  }

  /** One simulation step for sample `i` with demand `lpm`. */
  function Step(tank: TankParams, lp: LayeredParams, g: Geometry, pKw: real, lossKw: real, hysteresis: real,
                s: State, i: int, lpm: real): (r: State)
    requires tank.dt > 0 && ValidGeometry(g) && lossKw >= 0.0 && NonNegative(s.zones)
    ensures r.timeS == s.timeS + [i * tank.dt]
    ensures |r.tHot| == |s.tHot| + 1 && |r.tColdZone| == |s.tColdZone| + 1 && |r.pIn| == |s.pIn| + 1
    ensures r.tHot[..|s.tHot|] == s.tHot && r.tColdZone[..|s.tColdZone|] == s.tColdZone
    ensures r.pIn[..|s.pIn|] == s.pIn && (r.pIn[|s.pIn|] == 0.0 || r.pIn[|s.pIn|] == pKw)
    ensures r.tHot[|s.tHot|] == HotTemp(tank, g, s.zones)
    ensures s.violationS <= r.violationS <= s.violationS + tank.dt
    ensures r.tEnd == s.tEnd + [HotTemp(tank, g, r.zones)]
    ensures r.violationS == s.violationS + (if HotTemp(tank, g, r.zones) < tank.tMin then tank.dt else 0)
  {
    var tS := i * tank.dt;
    var z3 := BeforeHeating(tank, lp, g, lossKw, s.zones, lpm);
    var on := HeaterControl(s.heaterOn, HotTemp(tank, g, z3), tank.tSet, hysteresis);
    var p := if on then pKw else 0.0;
    var z4 := HeatHot(g, z3, StepJ(tank, p));
    var tEnd := HotTemp(tank, g, z4);
    var colder := tEnd < s.tMinReached;
    State(z4, on,
          if tEnd < tank.tMin then s.violationS + tank.dt else s.violationS,
          if colder then tEnd else s.tMinReached,
          if colder then tS + tank.dt else s.tMinTempS,
          s.timeS + [tS],
          s.tHot + [HotTemp(tank, g, s.zones)],
          s.tColdZone + [TempFromEnergy(s.zones.cold, g.vCold, tank.tCold)],
          s.pIn + [p], s.tEnd + [tEnd])
  }

  /** The state after running the whole profile, with the zones' energies
      non-negative at every step. */
  function Trace(tank: TankParams, lp: LayeredParams, g: Geometry, pKw: real, lossKw: real, hysteresis: real,
                 profile: seq<real>): (s: State)
    requires tank.dt > 0 && ValidGeometry(g) && lossKw >= 0.0 && pKw >= 0.0
    ensures NonNegative(s.zones)
    ensures |profile| > 0 ==> s.zones.hot <= g.hotCap
    decreases |profile|
  {
    if |profile| == 0 then Init(tank, g)
    else
      var n := |profile| - 1;
      var prev := Trace(tank, lp, g, pKw, lossKw, hysteresis, profile[..n]);
      Step(tank, lp, g, pKw, lossKw, hysteresis, prev, n, profile[n])
  }

  /** Shape of a run: one record per sample, with heater input zero or the
      full power. */
  lemma {:induction false} TraceShape(tank: TankParams, lp: LayeredParams, g: Geometry, pKw: real, lossKw: real,
                                      hysteresis: real, profile: seq<real>)
    requires tank.dt > 0 && ValidGeometry(g) && lossKw >= 0.0 && pKw >= 0.0
    ensures var s := Trace(tank, lp, g, pKw, lossKw, hysteresis, profile);
      |s.timeS| == |s.tHot| == |s.tColdZone| == |s.pIn| == |profile|
      && (forall i :: 0 <= i < |profile| ==> s.pIn[i] == 0.0 || s.pIn[i] == pKw)
    decreases |profile|
  {
    if |profile| > 0 {
      TraceShape(tank, lp, g, pKw, lossKw, hysteresis, profile[..|profile| - 1]);
    }
  }

  /** Records are taken at times 0, dt, 2dt, ... */
  lemma {:induction false} TraceTimes(tank: TankParams, lp: LayeredParams, g: Geometry, pKw: real, lossKw: real,
                                      hysteresis: real, profile: seq<real>)
    requires tank.dt > 0 && ValidGeometry(g) && lossKw >= 0.0 && pKw >= 0.0
    ensures var s := Trace(tank, lp, g, pKw, lossKw, hysteresis, profile);
      |s.timeS| == |profile| && forall i :: 0 <= i < |profile| ==> s.timeS[i] == i * tank.dt
    decreases |profile|
  {
    if |profile| > 0 {
      TraceTimes(tank, lp, g, pKw, lossKw, hysteresis, profile[..|profile| - 1]);
    }
  }

  /** Violation time is counted in whole steps: at most one step per sample. */
  lemma {:induction false} TraceViolation(tank: TankParams, lp: LayeredParams, g: Geometry, pKw: real, lossKw: real,
                                          hysteresis: real, profile: seq<real>)
    requires tank.dt > 0 && ValidGeometry(g) && lossKw >= 0.0 && pKw >= 0.0
    ensures var s := Trace(tank, lp, g, pKw, lossKw, hysteresis, profile);
      0 <= s.violationS <= |profile| * tank.dt
    decreases |profile|
  {
    if |profile| > 0 {
      var n := |profile| - 1;
      TraceViolation(tank, lp, g, pKw, lossKw, hysteresis, profile[..n]);
      MulSucc(n, tank.dt);
    }
  }

  /** Each step records the hot-zone temperature it ends at: the temperature
      the next step starts from, or the final one for the last step. */
  lemma {:induction false} TraceEnds(tank: TankParams, lp: LayeredParams, g: Geometry, pKw: real, lossKw: real,
                                     hysteresis: real, profile: seq<real>)
    requires tank.dt > 0 && ValidGeometry(g) && lossKw >= 0.0 && pKw >= 0.0
    ensures var s := Trace(tank, lp, g, pKw, lossKw, hysteresis, profile);
      |s.tEnd| == |s.tHot| == |profile|
      && (|profile| > 0 ==> s.tEnd == s.tHot[1..] + [HotTemp(tank, g, s.zones)])
    decreases |profile|
  {
    if |profile| > 0 {
      TraceEnds(tank, lp, g, pKw, lossKw, hysteresis, profile[..|profile| - 1]);
    }
  }

  /** A step keeps the violation time equal to one step per recorded end
      temperature below `tMin`. */
  lemma StepCounted(tank: TankParams, lp: LayeredParams, g: Geometry, pKw: real, lossKw: real, hysteresis: real,
                    prev: State, i: int, lpm: real)
    requires tank.dt > 0 && ValidGeometry(g) && lossKw >= 0.0 && NonNegative(prev.zones)
    requires prev.violationS == tank.dt * CountBelow(prev.tEnd, tank.tMin)
    ensures var s := Step(tank, lp, g, pKw, lossKw, hysteresis, prev, i, lpm);
      s.violationS == tank.dt * CountBelow(s.tEnd, tank.tMin)
  {
    var s := Step(tank, lp, g, pKw, lossKw, hysteresis, prev, i, lpm);
    var c := CountBelow(prev.tEnd, tank.tMin);
    var below := HotTemp(tank, g, s.zones) < tank.tMin;
    assert s.tEnd[..|s.tEnd| - 1] == prev.tEnd;
    assert CountBelow(s.tEnd, tank.tMin) == c + (if below then 1 else 0);
    CountedStep(tank.dt, c, prev.violationS, s.violationS, below);
  }

  /** The violation time is one step for every step whose hot zone ends below `tMin`. */
  lemma {:induction false} TraceViolationCount(tank: TankParams, lp: LayeredParams, g: Geometry, pKw: real,
                                               lossKw: real, hysteresis: real, profile: seq<real>)
    requires tank.dt > 0 && ValidGeometry(g) && lossKw >= 0.0 && pKw >= 0.0
    ensures var s := Trace(tank, lp, g, pKw, lossKw, hysteresis, profile);
      s.violationS == tank.dt * CountBelow(s.tEnd, tank.tMin)
    decreases |profile|
  {
    if |profile| > 0 {
      var n := |profile| - 1;
      TraceViolationCount(tank, lp, g, pKw, lossKw, hysteresis, profile[..n]);
      StepCounted(tank, lp, g, pKw, lossKw, hysteresis, Trace(tank, lp, g, pKw, lossKw, hysteresis, profile[..n]),
                  n, profile[n]);
    }
  }

  /** The starting energies are within the set-point capacities when the tank
      starts no hotter than the set point. */
  lemma InitWithinCaps(tank: TankParams, g: Geometry)
    requires ValidGeometry(g) && g.hotCap == EnergyCapacity(g.vHot, tank.tSet, tank.tCold)
    requires tank.tInit <= tank.tSet
    ensures Init(tank, g).zones.hot <= g.hotCap
    ensures Init(tank, g).zones.cold <= ColdCap(tank, g)
  {
    CapacityMonotone(g.vHot, tank.tInit, tank.tSet, tank.tCold);
    CapacityMonotone(g.vCold, tank.tInit, tank.tSet, tank.tCold);
  }

  /** Every temperature of `temps` lies between the cold water and the set
      point (or the cold water itself, if the set point is below it). */
  predicate HotTempsInRange(tank: TankParams, temps: seq<real>) {
    forall k :: 0 <= k < |temps| ==> tank.tCold <= temps[k] <= Max(tank.tSet, tank.tCold)
  }

  /** One step records the hot-zone temperature it started from, which lies
      between the cold water and the set point while the zone is within its cap. */
  lemma StepHotTemps(tank: TankParams, lp: LayeredParams, g: Geometry, pKw: real, lossKw: real, hysteresis: real,
                     s: State, i: int, lpm: real)
    requires tank.dt > 0 && ValidGeometry(g) && lossKw >= 0.0 && NonNegative(s.zones)
    requires g.hotCap == EnergyCapacity(g.vHot, tank.tSet, tank.tCold) && s.zones.hot <= g.hotCap
    requires HotTempsInRange(tank, s.tHot)
    ensures HotTempsInRange(tank, Step(tank, lp, g, pKw, lossKw, hysteresis, s, i, lpm).tHot)
  {
    var r := Step(tank, lp, g, pKw, lossKw, hysteresis, s, i, lpm);
    var n := |s.tHot|;
    ZoneTempBelowTop(tank, g.vHot, s.zones.hot, g.hotCap);
    forall k | 0 <= k < |r.tHot|
      ensures tank.tCold <= r.tHot[k] <= Max(tank.tSet, tank.tCold)
    {
      if k < n {
        assert r.tHot[k] == r.tHot[..n][k];
      }
    }
  }

  /** When the tank starts no hotter than the set point, every recorded hot-zone
      temperature lies between the cold water and the set point (or the cold
      water itself, if the set point is below it). */
  lemma {:induction false} TraceHotTemps(tank: TankParams, lp: LayeredParams, g: Geometry, pKw: real, lossKw: real,
                                         hysteresis: real, profile: seq<real>)
    requires tank.dt > 0 && ValidGeometry(g) && lossKw >= 0.0 && pKw >= 0.0
    requires g.hotCap == EnergyCapacity(g.vHot, tank.tSet, tank.tCold)
    requires tank.tInit <= tank.tSet
    ensures HotTempsInRange(tank, Trace(tank, lp, g, pKw, lossKw, hysteresis, profile).tHot)
    decreases |profile|
  {
    if |profile| == 0 {
      assert Trace(tank, lp, g, pKw, lossKw, hysteresis, profile).tHot == [];
    } else {
      var n := |profile| - 1;
      var prev := Trace(tank, lp, g, pKw, lossKw, hysteresis, profile[..n]);
      TraceHotTemps(tank, lp, g, pKw, lossKw, hysteresis, profile[..n]);
      if n == 0 {
        InitWithinCaps(tank, g);
      }
      assert prev.zones.hot <= g.hotCap;
      StepHotTemps(tank, lp, g, pKw, lossKw, hysteresis, prev, n, profile[n]);
      assert Trace(tank, lp, g, pKw, lossKw, hysteresis, profile)
          == Step(tank, lp, g, pKw, lossKw, hysteresis, prev, n, profile[n]);
    }
  }

  /** An idle step (no draw, no loss, no heater power) keeps the total stored
      energy when neither zone is above the set point, and keeps them there. */
  lemma IdleStepConserves(tank: TankParams, lp: LayeredParams, g: Geometry, hysteresis: real,
                          s: State, i: int, lpm: real)
    requires tank.dt > 0 && ValidGeometry(g) && NonNegative(s.zones) && lpm <= 0.0
    requires g.hotCap == EnergyCapacity(g.vHot, tank.tSet, tank.tCold)
    requires s.zones.hot <= g.hotCap && s.zones.cold <= ColdCap(tank, g)
    ensures var s' := Step(tank, lp, g, 0.0, 0.0, hysteresis, s, i, lpm);
      s'.zones.Total() == s.zones.Total()
      && s'.zones.hot <= g.hotCap && s'.zones.cold <= ColdCap(tank, g)
  {
    MixConserves(tank, g, lp.mixingTauS, s.zones);
  }

  /** With no demand, no loss and no heater power, a tank that starts no hotter
      than its set point keeps exactly its initial energy through the whole run. */
  lemma {:induction false} IdleRunConserves(tank: TankParams, lp: LayeredParams, g: Geometry, hysteresis: real,
                                            profile: seq<real>)
    requires tank.dt > 0 && ValidGeometry(g) && tank.tInit <= tank.tSet
    requires g.hotCap == EnergyCapacity(g.vHot, tank.tSet, tank.tCold)
    requires forall i :: 0 <= i < |profile| ==> profile[i] <= 0.0
    ensures var s := Trace(tank, lp, g, 0.0, 0.0, hysteresis, profile);
      s.zones.Total() == Init(tank, g).zones.Total()
      && s.zones.hot <= g.hotCap && s.zones.cold <= ColdCap(tank, g)
    decreases |profile|
  {
    if |profile| == 0 {
      InitWithinCaps(tank, g);
    } else {
      var n := |profile| - 1;
      IdleRunConserves(tank, lp, g, hysteresis, profile[..n]);
      var prev := Trace(tank, lp, g, 0.0, 0.0, hysteresis, profile[..n]);
      IdleStepConserves(tank, lp, g, hysteresis, prev, n, profile[n]);
    }
  }

  /** Capacity grows strictly with the target temperature above the cold water. */
  lemma CapacityStrictMonotone(v: real, t1: real, t2: real, t0: real)
    requires v > 0.0 && t1 < t2 && t0 < t2
    ensures EnergyCapacity(v, t1, t0) < EnergyCapacity(v, t2, t0)
  {
    var m := v * Cp;
    MulPositive(v, Cp);
    if t1 <= t0 {
      MulPositive(m, t2 - t0);
    } else {
      MulPositive(m, t2 - t1);
      assert m * (t2 - t0) == m * (t1 - t0) + m * (t2 - t1);
    }
  }

  /** Mixing two zones already at the same temperature only applies the hot-zone cap. */
  lemma MixUniform(tank: TankParams, g: Geometry, tau: real, t: real)
    requires ValidGeometry(g) && tau > 0.0 && t >= tank.tCold
    ensures var z := Zones(EnergyCapacity(g.vHot, t, tank.tCold), EnergyCapacity(g.vCold, t, tank.tCold));
      Mix(tank, g, tau, z) == Zones(Min(g.hotCap, z.hot), z.cold)
  {
    var z := Zones(EnergyCapacity(g.vHot, t, tank.tCold), EnergyCapacity(g.vCold, t, tank.tCold));
    TempOfCapacity(g.vHot, t, tank.tCold);
    TempOfCapacity(g.vCold, t, tank.tCold);
    var t2 := Relax(g.vHot, g.vCold, g.vTotal, t, t, Alpha(tank, tau));
    assert t2.0 == t;
    assert t2.1 == t;
  }

  /** The hot-zone cap applied after mixing discards energy: a tank that starts
      above its set point and idles for one step (no draw, no loss, no heater
      power) ends the step with less stored energy than it started with. */
  lemma ClampLosesEnergy(tank: TankParams, lp: LayeredParams, g: Geometry, hysteresis: real, lpm: real)
    requires tank.dt > 0 && ValidGeometry(g) && lp.mixingTauS > 0.0 && lpm <= 0.0
    requires g.hotCap == EnergyCapacity(g.vHot, tank.tSet, tank.tCold)
    requires tank.tInit > tank.tSet && tank.tInit > tank.tCold
    ensures var s0 := Init(tank, g);
      Step(tank, lp, g, 0.0, 0.0, hysteresis, s0, 0, lpm).zones.Total() < s0.zones.Total()
  {
    var s0 := Init(tank, g);
    var z := s0.zones;
    CapacityStrictMonotone(g.vHot, tank.tSet, tank.tInit, tank.tCold);
    assert Outflow(tank, g, z, lpm) == z;
    assert Losses(tank, g, lp.lossesSplit, 0.0, z) == z;
    MixUniform(tank, g, lp.mixingTauS, tank.tInit);
    var z3 := BeforeHeating(tank, lp, g, 0.0, z, lpm);
    assert z3 == Zones(g.hotCap, z.cold);
    var s1 := Step(tank, lp, g, 0.0, 0.0, hysteresis, s0, 0, lpm);
    assert s1.zones.hot == g.hotCap;
    assert s1.zones.cold == z.cold;
  }

  /** simulate_layered_2zone: the same checks as the mixed model except that the
      set point is not compared with the cold water and the hot fraction must lie
      in [0.05, 0.95]; the primary series is the hot zone, the secondary series
      the cold zone. */
  function Simulate(tank: TankParams, lp: LayeredParams, profile: seq<real>, pKw: real, lossKw: real,
                    hysteresis: real): (r: Result<RunResult, SimError>)
    ensures tank.volumeL <= 0.0 ==> r == Err(VolumeNotPositive)
    ensures tank.volumeL > 0.0 && pKw < 0.0 ==> r == Err(PowerNegative)
    ensures tank.volumeL > 0.0 && pKw >= 0.0 && lossKw < 0.0 ==> r == Err(LossNegative)
    ensures tank.volumeL > 0.0 && pKw >= 0.0 && lossKw >= 0.0 && tank.dt <= 0 ==> r == Err(DtNotPositive)
    ensures tank.volumeL > 0.0 && pKw >= 0.0 && lossKw >= 0.0 && tank.dt > 0 && !(0.05 <= lp.hotFraction <= 0.95)
      ==> r == Err(HotFractionOutOfRange)
    ensures r.Ok? <==> Accepts(tank, lp, pKw, lossKw)
    ensures r.Ok? ==> r.value.model == Layered2Zone && r.value.pzamKw == pKw && r.value.lossKw == lossKw
    ensures r.Ok? ==> |r.value.timeS| == |r.value.tPrimary| == |r.value.pIn| == |profile|
    ensures r.Ok? ==> forall i :: 0 <= i < |profile| ==> r.value.timeS[i] == i * tank.dt
    ensures r.Ok? ==> forall i :: 0 <= i < |profile| ==> r.value.pIn[i] == 0.0 || r.value.pIn[i] == pKw
    ensures r.Ok? ==> 0.0 <= r.value.violationMinutes <= (|profile| * tank.dt) as real / 60.0
    ensures r.Ok? && tank.tInit <= tank.tSet ==>
      forall i :: 0 <= i < |profile| ==> tank.tCold <= r.value.tPrimary[i] <= Max(tank.tSet, tank.tCold)
    ensures r.Ok? ==> r.value.tSecondary.Some? && |r.value.tSecondary.value| == |profile|
  {
    if tank.volumeL <= 0.0 then Err(VolumeNotPositive)
    else if pKw < 0.0 then Err(PowerNegative)
    else if lossKw < 0.0 then Err(LossNegative)
    else if tank.dt <= 0 then Err(DtNotPositive)
    else if !(0.05 <= lp.hotFraction <= 0.95) then Err(HotFractionOutOfRange)
    else
      var g := GeometryOf(tank, lp);
      var s := Trace(tank, lp, g, pKw, lossKw, hysteresis, profile);
      TraceShape(tank, lp, g, pKw, lossKw, hysteresis, profile);
      TraceTimes(tank, lp, g, pKw, lossKw, hysteresis, profile);
      TraceViolation(tank, lp, g, pKw, lossKw, hysteresis, profile);
      DivMonotone(s.violationS as real, (|profile| * tank.dt) as real, 60.0);
      if tank.tInit <= tank.tSet then
        TraceHotTemps(tank, lp, g, pKw, lossKw, hysteresis, profile);
        Report(tank, g, s, pKw, lossKw)
      else
        Report(tank, g, s, pKw, lossKw)
  }

  /** The hot-zone temperatures the steps of a run end at. */
  function EndTemps(tank: TankParams, lp: LayeredParams, profile: seq<real>, pKw: real, lossKw: real,
                    hysteresis: real): seq<real>
    requires Accepts(tank, lp, pKw, lossKw)
  {
    Trace(tank, lp, GeometryOf(tank, lp), pKw, lossKw, hysteresis, profile).tEnd
  }

  /** The reported violation time is dt/60 minutes for every step whose hot
      zone ends below `tMin`; a step ends at the temperature recorded for the
      next one. */
  lemma ViolationCounted(tank: TankParams, lp: LayeredParams, profile: seq<real>, pKw: real, lossKw: real,
                         hysteresis: real)
    requires Accepts(tank, lp, pKw, lossKw)
    ensures var r := Simulate(tank, lp, profile, pKw, lossKw, hysteresis);
      var ends := EndTemps(tank, lp, profile, pKw, lossKw, hysteresis);
      r.Ok? && |ends| == |profile|
      && (forall k :: 0 <= k < |profile| - 1 ==> ends[k] == r.value.tPrimary[k + 1])
      && r.value.violationMinutes == (tank.dt * CountBelow(ends, tank.tMin)) as real / 60.0
  {
    var g := GeometryOf(tank, lp);
    var s := Trace(tank, lp, g, pKw, lossKw, hysteresis, profile);
    TraceEnds(tank, lp, g, pKw, lossKw, hysteresis, profile);
    TraceViolationCount(tank, lp, g, pKw, lossKw, hysteresis, profile);
    if |profile| > 0 {
      forall k | 0 <= k < |profile| - 1
        ensures s.tEnd[k] == s.tHot[k + 1]
      {
        assert s.tEnd[k] == (s.tHot[1..] + [HotTemp(tank, g, s.zones)])[k];
      }
    }
  }

  // ---------------------------------------------------------------------------
  // Monotonicity in the heater power

  /** Zone energies no larger, zone by zone. */
  predicate Below(z1: Zones, z2: Zones) {
    z1.hot <= z2.hot && z1.cold <= z2.cold
  }

  /** The shares of two amounts differ by no more than the amounts. */
  lemma ShareGapAtMost(a1: real, a2: real, f: real)
    requires a1 <= a2 && 0.0 <= f <= 1.0
    ensures a2 * f - a1 * f <= a2 - a1
  {
    MulMonotone(f, 1.0, a2 - a1);
  }

  /** Taking the same fraction from a smaller amount takes no more and leaves no more. */
  lemma RemainderMonotone(a1: real, a2: real, f: real)
    requires a1 <= a2 && 0.0 <= f <= 1.0
    ensures a1 * f <= a2 * f && a1 - a1 * f <= a2 - a2 * f
  {
    MulMonotone(a1, a2, f);
    ShareGapAtMost(a1, a2, f);
  }

  /** The draw and the plug-flow refill keep the order of two states. */
  lemma OutflowMonotone(tank: TankParams, g: Geometry, z1: Zones, z2: Zones, lpm: real)
    requires tank.dt > 0 && ValidGeometry(g) && NonNegative(z1) && Below(z1, z2)
    ensures Below(Outflow(tank, g, z1, lpm), Outflow(tank, g, z2, lpm))
  {
    var vL := DrawVolume(tank, lpm);
    DrainMonotone(g, z1, z2, vL, EnergyCapacity(vL, tank.tSet, tank.tCold));
  }

  lemma DrainMonotone(g: Geometry, z1: Zones, z2: Zones, vL: real, eOut: real)
    requires ValidGeometry(g) && NonNegative(z1) && Below(z1, z2) && vL >= 0.0 && eOut >= 0.0
    ensures Below(Drain(g, z1, vL, eOut), Drain(g, z2, vL, eOut))
  {
    var h1, h2 := Max(0.0, z1.hot - eOut), Max(0.0, z2.hot - eOut);
    if vL > 0.0 {
      var frac := Min(1.0, vL / g.vCold);
      assert frac >= 0.0 by {
        DivMonotone(0.0, vL, g.vCold);
      }
      RefillMonotone(g.hotCap, h1, z1.cold, h2, z2.cold, frac);
    }
  }



  /** A point moved a fraction `alpha` toward a target keeps the order of
      points and targets. */
  lemma TowardMonotone(a1: real, b1: real, a2: real, b2: real, alpha: real)
    requires a1 <= a2 && b1 <= b2 && 0.0 <= alpha <= 1.0
    ensures Toward(a1, b1, alpha) <= Toward(a2, b2, alpha)
  {
    TowardGap(a1, b1, a2, b2, alpha);
    MulNonNegative(1.0 - alpha, a2 - a1);
    MulNonNegative(alpha, b2 - b1);
  }

  /** The gap between two moved points, split into the gap between the points
      and the gap between the targets. */
  lemma TowardGap(a1: real, b1: real, a2: real, b2: real, alpha: real)
    ensures Toward(a2, b2, alpha) - Toward(a1, b1, alpha) == (1.0 - alpha) * (a2 - a1) + alpha * (b2 - b1)
  {
  }


  /** Relaxation toward the equilibrium temperature keeps the order of two
      pairs of zone temperatures. */
  lemma RelaxMonotone(vh: real, vc: real, v: real, th1: real, tc1: real, th2: real, tc2: real, alpha: real)
    requires vh > 0.0 && vc > 0.0 && v == vh + vc && 0.0 <= alpha <= 1.0
    requires th1 <= th2 && tc1 <= tc2
    ensures Relax(vh, vc, v, th1, tc1, alpha).0 <= Relax(vh, vc, v, th2, tc2, alpha).0
    ensures Relax(vh, vc, v, th1, tc1, alpha).1 <= Relax(vh, vc, v, th2, tc2, alpha).1
  {
    MeanMonotone(vh, vc, v, th1, tc1, th2, tc2);
    var e1, e2 := Mean(vh, vc, v, th1, tc1), Mean(vh, vc, v, th2, tc2);
    TowardMonotone(th1, e1, th2, e2, alpha);
    TowardMonotone(tc1, e1, tc2, e2, alpha);
  }

  /** The volume-weighted mean temperature keeps the order of the zone temperatures. */
  lemma MeanMonotone(vh: real, vc: real, v: real, th1: real, tc1: real, th2: real, tc2: real)
    requires vh > 0.0 && vc > 0.0 && v > 0.0 && th1 <= th2 && tc1 <= tc2
    ensures Mean(vh, vc, v, th1, tc1) <= Mean(vh, vc, v, th2, tc2)
  {
    MulMonotone(th1, th2, vh);
    MulMonotone(tc1, tc2, vc);
    DivMonotone(th1 * vh + tc1 * vc, th2 * vh + tc2 * vc, v);
  }

  /** Mixing keeps the order of two states. */
  lemma MixMonotone(tank: TankParams, g: Geometry, tau: real, z1: Zones, z2: Zones)
    requires ValidGeometry(g) && NonNegative(z1) && Below(z1, z2)
    ensures Below(Mix(tank, g, tau, z1), Mix(tank, g, tau, z2))
  {
    if tau > 0.0 {
      var th1, tc1 := TempFromEnergy(z1.hot, g.vHot, tank.tCold), TempFromEnergy(z1.cold, g.vCold, tank.tCold);
      var th2, tc2 := TempFromEnergy(z2.hot, g.vHot, tank.tCold), TempFromEnergy(z2.cold, g.vCold, tank.tCold);
      TempMonotone(z1.hot, z2.hot, g.vHot, tank.tCold);
      TempMonotone(z1.cold, z2.cold, g.vCold, tank.tCold);
      var a := Alpha(tank, tau);
      RelaxMonotone(g.vHot, g.vCold, g.vTotal, th1, tc1, th2, tc2, a);
      var r1, r2 := Relax(g.vHot, g.vCold, g.vTotal, th1, tc1, a), Relax(g.vHot, g.vCold, g.vTotal, th2, tc2, a);
      CapacityMonotone(g.vHot, r1.0, r2.0, tank.tCold);
      CapacityMonotone(g.vCold, r1.1, r2.1, tank.tCold);
    }
  }

  /** Draw, losses and mixing keep the order of two states. */
  lemma BeforeHeatingMonotone(tank: TankParams, lp: LayeredParams, g: Geometry, lossKw: real,
                              z1: Zones, z2: Zones, lpm: real)
    requires tank.dt > 0 && ValidGeometry(g) && lossKw >= 0.0 && NonNegative(z1) && Below(z1, z2)
    ensures Below(BeforeHeating(tank, lp, g, lossKw, z1, lpm), BeforeHeating(tank, lp, g, lossKw, z2, lpm))
  {
    OutflowMonotone(tank, g, z1, z2, lpm);
    var o1, o2 := Outflow(tank, g, z1, lpm), Outflow(tank, g, z2, lpm);
    var l1, l2 := Losses(tank, g, lp.lossesSplit, lossKw, o1), Losses(tank, g, lp.lossesSplit, lossKw, o2);
    assert Below(l1, l2);
    MixMonotone(tank, g, lp.mixingTauS, l1, l2);
  }

  lemma StepJMonotone(tank: TankParams, k1: real, k2: real)
    requires tank.dt > 0 && k1 <= k2
    ensures StepJ(tank, k1) <= StepJ(tank, k2)
  {
    MulMonotone(k1, k2, 1000.0 * tank.dt as real);
  }

  /** One step without hysteresis is monotone in the starting zones and the
      heater power: more of either never ends the step with less energy in a
      zone, and never counts a violation the other run does not. */
  lemma StepMonotone(tank: TankParams, lp: LayeredParams, g: Geometry, p1: real, p2: real, lossKw: real,
                     hysteresis: real, s1: State, s2: State, i: int, lpm: real)
    requires tank.dt > 0 && ValidGeometry(g) && lossKw >= 0.0 && 0.0 <= p1 <= p2 && hysteresis <= 0.0
    requires g.hotCap == EnergyCapacity(g.vHot, tank.tSet, tank.tCold)
    requires NonNegative(s1.zones) && Below(s1.zones, s2.zones)
    ensures var r1, r2 := Step(tank, lp, g, p1, lossKw, hysteresis, s1, i, lpm),
                          Step(tank, lp, g, p2, lossKw, hysteresis, s2, i, lpm);
      Below(r1.zones, r2.zones) && r1.violationS - s1.violationS >= r2.violationS - s2.violationS
  {
    var z1, z2 := BeforeHeating(tank, lp, g, lossKw, s1.zones, lpm), BeforeHeating(tank, lp, g, lossKw, s2.zones, lpm);
    BeforeHeatingMonotone(tank, lp, g, lossKw, s1.zones, s2.zones, lpm);
    TempBelowIff(z1.hot, g.vHot, tank.tSet, tank.tCold);
    TempBelowIff(z2.hot, g.vHot, tank.tSet, tank.tCold);
    StepJMonotone(tank, p1, p2);
    var r1, r2 := Step(tank, lp, g, p1, lossKw, hysteresis, s1, i, lpm),
                  Step(tank, lp, g, p2, lossKw, hysteresis, s2, i, lpm);
    assert Below(r1.zones, r2.zones);
    TempMonotone(r1.zones.hot, r2.zones.hot, g.vHot, tank.tCold);
  }

  /** Without hysteresis, more heater power never leaves less energy in either
      zone and never adds violation time: the run is monotone in the power. */
  lemma {:induction false} TraceMonotone(tank: TankParams, lp: LayeredParams, g: Geometry, p1: real, p2: real,
                                          lossKw: real, hysteresis: real, profile: seq<real>)
    requires tank.dt > 0 && ValidGeometry(g) && lossKw >= 0.0 && 0.0 <= p1 <= p2 && hysteresis <= 0.0
    requires g.hotCap == EnergyCapacity(g.vHot, tank.tSet, tank.tCold)
    ensures var s1, s2 := Trace(tank, lp, g, p1, lossKw, hysteresis, profile),
                          Trace(tank, lp, g, p2, lossKw, hysteresis, profile);
      Below(s1.zones, s2.zones) && s1.violationS >= s2.violationS
    decreases |profile|
  {
    if |profile| > 0 {
      var n := |profile| - 1;
      TraceMonotone(tank, lp, g, p1, p2, lossKw, hysteresis, profile[..n]);
      StepMonotone(tank, lp, g, p1, p2, lossKw, hysteresis,
                   Trace(tank, lp, g, p1, lossKw, hysteresis, profile[..n]),
                   Trace(tank, lp, g, p2, lossKw, hysteresis, profile[..n]), n, profile[n]);
    }
  }

  /** The violation time reported by simulate_layered_2zone without hysteresis
      never grows when the heater power grows. */
  lemma ViolationMonotone(tank: TankParams, lp: LayeredParams, profile: seq<real>, p1: real, p2: real,
                          lossKw: real, hysteresis: real)
    requires Accepts(tank, lp, p1, lossKw) && p1 <= p2 && hysteresis <= 0.0
    ensures Simulate(tank, lp, profile, p1, lossKw, hysteresis).Ok?
    ensures Simulate(tank, lp, profile, p2, lossKw, hysteresis).Ok?
    ensures Simulate(tank, lp, profile, p2, lossKw, hysteresis).value.violationMinutes
         <= Simulate(tank, lp, profile, p1, lossKw, hysteresis).value.violationMinutes
  {
    var g := GeometryOf(tank, lp);
    TraceMonotone(tank, lp, g, p1, p2, lossKw, hysteresis, profile);
    var v1 := Trace(tank, lp, g, p1, lossKw, hysteresis, profile).violationS;
    var v2 := Trace(tank, lp, g, p2, lossKw, hysteresis, profile).violationS;
    DivMonotone(v2 as real, v1 as real, 60.0);
  }

  /** The result record of a finished run. */
  function Report(tank: TankParams, g: Geometry, s: State, pKw: real, lossKw: real): (r: Result<RunResult, SimError>)
    requires tank.dt > 0 && |s.timeS| == |s.tHot|
    ensures r.Ok? && r.value.tPrimary == s.tHot && r.value.timeS == s.timeS && r.value.pIn == s.pIn
    ensures r.value.violationMinutes == s.violationS as real / 60.0
    ensures r.value.tSecondary == Some(s.tColdZone)
    ensures r.value.model == Layered2Zone && r.value.pzamKw == pKw && r.value.lossKw == lossKw
  {
    Ok(RunResult(
      Layered2Zone, pKw, lossKw, s.timeS, s.tHot, s.pIn,
      s.violationS as real / 60.0,
      RegenTime(s.timeS, s.tHot, s.tMinTempS, tank.tMin, tank.dt),
      RegenTime(s.timeS, s.tHot, s.tMinTempS, tank.tSet, tank.dt),
      s.tMinTempS, s.tMinReached, Some(s.tColdZone)))
  }
}

=== FILE: lead_classifiers.dfy ===
/** The lead classifiers of the auditor workspace (`src/app/audytor/page.tsx`)
    and of the auditors' landing page (`src/app/audytorzy/page.tsx`): how a
    resident's report is ranked, which status and contact stage it shows, how
    long a modernisation is said to pay back, and which next step an
    auditor is advised to take. */
module LeadClassifiers {
  import opened Outcomes
  import opened Numbers
  import TextInput

  /** A `number | null` field: present and finite, or not usable. */
  function Known(x: Option<Num>): (r: Option<real>)
    ensures r.Some? <==> x.Some? && x.value.Finite?
    ensures r.Some? ==> r.value == x.value.v
  {
    if x.Some? && x.value.Finite? then Some(x.value.v) else None
  }

  // ---------------------------------------------------------------- contact stage

  datatype ContactStage = NotContacted | Contacted | TalkDone | OfferSent

  /** `contactStageSortKey`: the position of a stage in the contact pipeline. */
  function ContactStageSortKey(s: ContactStage): (k: nat)
    ensures k < 4
  {
    match s
    case NotContacted => 0
    case Contacted => 1
    case TalkDone => 2
    case OfferSent => 3
  }

  /** The stage at a pipeline position, if any. */
  function StageAtKey(k: int): (r: Option<ContactStage>)
    ensures r.Some? <==> 0 <= k < 4
  {
    if k == 0 then Some(NotContacted)
    else if k == 1 then Some(Contacted)
    else if k == 2 then Some(TalkDone)
    else if k == 3 then Some(OfferSent)
    else None
  }

  /** The sort key is a bijection between the four stages and 0..3. */
  lemma ContactStageSortKeyBijective(s: ContactStage, k: int)
    ensures StageAtKey(ContactStageSortKey(s)) == Some(s)
    ensures StageAtKey(k) == Some(s) ==> ContactStageSortKey(s) == k
  {
  }

  // ---------------------------------------------------------------- lead priority

  datatype Priority = LowPriority | MediumPriority | HighPriority

  /** The `sortKey` that goes with each priority label. */
  function PrioritySortKey(p: Priority): (k: int)
    ensures 1 <= k <= 3
  {
    match p
    case LowPriority => 1
    case MediumPriority => 2
    case HighPriority => 3
  }

  /** `leadPriority`: high for a yearly loss above 4000 PLN or a loss share
      above 50 %, medium for a yearly loss between 1500 and 4000 PLN, low
      otherwise; a missing or non-finite figure takes no part. */
  function LeadPriority(yearlyLoss: Option<Num>, lossPercent: Option<Num>): (r: Priority)
    ensures var l, p := Known(yearlyLoss), Known(lossPercent);
      r == HighPriority <==> (l.Some? && l.value > 4000.0) || (p.Some? && p.value > 50.0)
    ensures var l := Known(yearlyLoss);
      r == MediumPriority ==> l.Some? && 1500.0 <= l.value <= 4000.0
  {
    var l, p := Known(yearlyLoss), Known(lossPercent);
    var isHigh := (l.Some? && l.value > 4000.0) || (p.Some? && p.value > 50.0);
    if isHigh then HighPriority
    else if l.Some? && l.value >= 1500.0 && l.value <= 4000.0 then MediumPriority
    else LowPriority
  }

  /** A larger yearly loss never lowers a lead's priority. */
  lemma LeadPriorityMonotone(a: real, b: real, lossPercent: Option<Num>)
    requires 0.0 <= a <= b
    ensures PrioritySortKey(LeadPriority(Some(Finite(a)), lossPercent))
      <= PrioritySortKey(LeadPriority(Some(Finite(b)), lossPercent))
  {
  }

  /** A missing or unreadable yearly loss ranks as a loss of nothing. */
  lemma UnknownLossRanksAsNone(yearlyLoss: Option<Num>, lossPercent: Option<Num>)
    requires Known(yearlyLoss).None?
    ensures LeadPriority(yearlyLoss, lossPercent) == LeadPriority(Some(Finite(0.0)), lossPercent)
  {
  }

  // ---------------------------------------------------------------- lead status code

  /** The stored audit status of a resident's request. */
  datatype AuditStatus = StatusNew | ReadyForAudit | AuditRequested

  datatype LeadCode = CodeNew | CodeReadyForAudit | CodeAuditRequested | CodeAuditDone

  /** `leadStatusCode`: prepared variants mean the audit is done; otherwise
      the stored audit status decides, then a stored request, then NEW. */
  function LeadStatusCode(auditStatus: Option<AuditStatus>, requested: bool,
                          hasAuditDoneVariants: bool, hasContext: bool): (r: LeadCode)
    ensures r == CodeAuditDone <==> hasAuditDoneVariants
    ensures r == CodeReadyForAudit <==> !hasAuditDoneVariants && auditStatus == Some(ReadyForAudit)
    ensures r == CodeNew <==>
      (!hasAuditDoneVariants && (auditStatus == Some(StatusNew) || (auditStatus.None? && !requested)))
  {
    if hasAuditDoneVariants then CodeAuditDone
    else match auditStatus
      case Some(StatusNew) => CodeNew
      case Some(ReadyForAudit) => CodeReadyForAudit
      case Some(AuditRequested) => CodeAuditRequested
      case None => if requested then CodeAuditRequested else if hasContext then CodeNew else CodeNew
  }

  /** Whether a resident context exists never changes the code. */
  lemma LeadStatusCodeIgnoresContext(auditStatus: Option<AuditStatus>, requested: bool, done: bool)
    ensures LeadStatusCode(auditStatus, requested, done, true) == LeadStatusCode(auditStatus, requested, done, false)
  {
  }

  // ---------------------------------------------------------------- payback

  datatype ReductionPotential = Potential10To20 | Potential20To40 | Potential40To60

  datatype ReductionShare = ReductionShare(minPct: real, maxPct: real)

  /** `reductionRange`: the share of the loss a potential class removes. */
  function ReductionRange(p: ReductionPotential): (r: ReductionShare)
    ensures 0.1 <= r.minPct < r.maxPct <= 0.6
  {
    match p
    case Potential10To20 => ReductionShare(0.1, 0.2)
    case Potential20To40 => ReductionShare(0.2, 0.4)
    case Potential40To60 => ReductionShare(0.4, 0.6)
  }

  /** The three classes cover 10 % to 60 % without gaps or overlaps. */
  lemma ReductionRangesTile()
    ensures ReductionRange(Potential10To20).minPct == 0.1
    ensures ReductionRange(Potential10To20).maxPct == ReductionRange(Potential20To40).minPct
    ensures ReductionRange(Potential20To40).maxPct == ReductionRange(Potential40To60).minPct
    ensures ReductionRange(Potential40To60).maxPct == 0.6
  {
  }

  /** The three modernisation variants an auditor prepares. */
  datatype VariantKey = VariantA | VariantB | VariantC

  datatype MonthsRange = MonthsRange(minMonths: int, maxMonths: int)

  /** Months of payback at the smallest yearly losses, halved twice as the
      loss grows past 3000 and 12000 PLN. */
  function BaseMonths(yearlyLoss: real): (r: real)
    ensures r == 2.0 || r == 4.0 || r == 8.0
  {
    if yearlyLoss < 3000.0 then 8.0 else if yearlyLoss < 12000.0 then 4.0 else 2.0
  }

  function ModelFactor(model: VariantKey): (r: real)
    ensures 0.85 <= r <= 1.25
  {
    match model
    case VariantA => 1.25
    case VariantB => 1.0
    case VariantC => 0.85
  }

  /** The months of the best case, before the limits, per unit of scale. */
  function BestRatio(share: ReductionShare): (r: real)
    requires share.maxPct > 0.0
    ensures r > 0.0
  {
    0.25 / share.maxPct
  }

  /** The months of the worst case, before the limits, per unit of scale. */
  function WorstRatio(share: ReductionShare): (r: real)
    requires share.minPct > 0.0
    ensures r > 0.0
  {
    0.35 / share.minPct
  }

  /** The limits applied to the rounded best and worst cases: at least one
      month, the worst case no shorter than the best, both at most 24. */
  function LimitMonths(bestRounded: int, worstRounded: int): (r: MonthsRange)
    ensures 1 <= r.minMonths <= r.maxMonths <= 24
  {
    var best := MaxInt(1, bestRounded);
    var worst := MaxInt(best, worstRounded);
    MonthsRange(MinInt(24, MaxInt(1, MinInt(best, worst))), MinInt(24, MaxInt(1, MaxInt(best, worst))))
  }

  lemma LimitMonthsMonotone(b1: int, w1: int, b2: int, w2: int)
    requires b1 <= b2 && w1 <= w2
    ensures LimitMonths(b1, w1).minMonths <= LimitMonths(b2, w2).minMonths
    ensures LimitMonths(b1, w1).maxMonths <= LimitMonths(b2, w2).maxMonths
  {
  }

  /** The best case in months, rounded, before the limits. */
  function RoundedBest(scale: real, share: ReductionShare): int
    requires share.maxPct > 0.0
  {
    Round(scale * BestRatio(share))
  }

  /** The worst case in months, rounded, before the limits. */
  function RoundedWorst(scale: real, share: ReductionShare): int
    requires share.minPct > 0.0
  {
    Round(scale * WorstRatio(share))
  }

  /** The scale of the payback heuristics for a yearly loss and a variant. */
  function PaybackScale(yearlyLoss: real, model: VariantKey): (r: real)
    ensures r > 0.0
  {
    BaseMonths(yearlyLoss) * ModelFactor(model)
  }

  /** A larger yearly loss never raises the scale. */
  lemma PaybackScaleMonotone(a: real, b: real, model: VariantKey)
    requires a <= b
    ensures PaybackScale(b, model) <= PaybackScale(a, model)
  {
    MulMonotone(BaseMonths(b), BaseMonths(a), ModelFactor(model));
  }

  /** The month range for a scale `base * factor` of the payback heuristics. */
  function MonthsFor(scale: real, share: ReductionShare): (r: MonthsRange)
    requires share.minPct > 0.0 && share.maxPct > 0.0
    ensures 1 <= r.minMonths <= r.maxMonths <= 24
  {
    LimitMonths(RoundedBest(scale, share), RoundedWorst(scale, share))
  }

  /** `paybackMonthsLabel`, as the two month bounds it prints: nothing unless
      the yearly loss is a finite positive number. */
  function PaybackMonths(yearlyLoss: Option<Num>, potential: ReductionPotential, model: VariantKey): (r: Option<MonthsRange>)
    ensures r.Some? <==> Known(yearlyLoss).Some? && Known(yearlyLoss).value > 0.0
    ensures r.Some? ==> 1 <= r.value.minMonths <= r.value.maxMonths <= 24
  {
    var l := Known(yearlyLoss);
    if l.None? || l.value <= 0.0 then None
    else Some(MonthsFor(PaybackScale(l.value, model), ReductionRange(potential)))
  }

  lemma RoundedMonotone(s: real, t: real, share: ReductionShare)
    requires s <= t && share.minPct > 0.0 && share.maxPct > 0.0
    ensures RoundedBest(s, share) <= RoundedBest(t, share)
    ensures RoundedWorst(s, share) <= RoundedWorst(t, share)
  {
    var b, w := BestRatio(share), WorstRatio(share);
    MulMonotone(s, t, b);
    RoundMonotone(s * b, t * b);
    MulMonotone(s, t, w);
    RoundMonotone(s * w, t * w);
  }

  /** A larger heuristic scale never gives a shorter payback. */
  lemma MonthsForMonotone(s: real, t: real, share: ReductionShare)
    requires 0.0 <= s <= t && share.minPct > 0.0 && share.maxPct > 0.0
    ensures MonthsFor(s, share).minMonths <= MonthsFor(t, share).minMonths
    ensures MonthsFor(s, share).maxMonths <= MonthsFor(t, share).maxMonths
  {
    RoundedMonotone(s, t, share);
    LimitMonthsMonotone(RoundedBest(s, share), RoundedWorst(s, share), RoundedBest(t, share), RoundedWorst(t, share));
  }

  /** A larger yearly loss never lengthens the quoted payback. */
  lemma LargerLossPaysBackNoSlower(a: real, b: real, potential: ReductionPotential, model: VariantKey)
    requires 0.0 < a <= b
    ensures var ra, rb := PaybackMonths(Some(Finite(a)), potential, model), PaybackMonths(Some(Finite(b)), potential, model);
      rb.value.minMonths <= ra.value.minMonths && rb.value.maxMonths <= ra.value.maxMonths
  {
    PaybackScaleMonotone(a, b, model);
    MonthsForMonotone(PaybackScale(b, model), PaybackScale(a, model), ReductionRange(potential));
  }

  /** Variant C is never quoted a longer payback than variant A. */
  lemma VariantCPaysBackNoSlowerThanA(yearlyLoss: real, potential: ReductionPotential)
    requires yearlyLoss > 0.0
    ensures var ra, rc := PaybackMonths(Some(Finite(yearlyLoss)), potential, VariantA),
                          PaybackMonths(Some(Finite(yearlyLoss)), potential, VariantC);
      rc.value.minMonths <= ra.value.minMonths && rc.value.maxMonths <= ra.value.maxMonths
  {
    MulMonotone(0.85, 1.25, BaseMonths(yearlyLoss));
    MonthsForMonotone(PaybackScale(yearlyLoss, VariantC), PaybackScale(yearlyLoss, VariantA), ReductionRange(potential));
  }

  // ---------------------------------------------------------------- selected variant

  /** The scope descriptions of the three variants. */
  datatype VariantScopes = VariantScopes(a: string, b: string, c: string)

  function ScopeOf(v: VariantScopes, k: VariantKey): string {
    match k
    case VariantA => v.a
    case VariantB => v.b
    case VariantC => v.c
  }

  /** A variant counts as filled when its trimmed description is not empty. */
  predicate Filled(v: VariantScopes, k: VariantKey) {
    |TextInput.Trim(ScopeOf(v, k))| > 0
  }

  /** `selectedVariantKeyFromState` over the three filled flags: the keys
      whose description is filled, in the order A, B, C, decide. */
  function SelectedKeyOf(filledA: bool, filledB: bool, filledC: bool): (r: VariantKey)
    ensures r == VariantB <==> filledB || (!filledA && !filledC)
    ensures r == VariantA <==> filledA && !filledB
    ensures filledA || filledB || filledC ==>
      (r == VariantA && filledA) || (r == VariantB && filledB) || (r == VariantC && filledC)
  {
    var filled := (if filledA then [VariantA] else []) + (if filledB then [VariantB] else [])
      + (if filledC then [VariantC] else []);
    if |filled| == 1 then filled[0]
    else if |filled| == 0 then VariantB
    else if VariantB in filled then VariantB
    else filled[0]
  }

  /** `selectedVariantKeyFromState`. */
  function SelectedVariantKey(v: VariantScopes): (r: VariantKey)
    ensures Filled(v, VariantA) || Filled(v, VariantB) || Filled(v, VariantC) ==> Filled(v, r)
  {
    SelectedKeyOf(Filled(v, VariantA), Filled(v, VariantB), Filled(v, VariantC))
  }

  /** The variant shown is the one with a non-blank description when exactly
      one has one; B wins whenever it is described or none is. */
  lemma SelectedVariantKeyBlank(v: VariantScopes)
    ensures TextInput.Blank(v.b) ==> (SelectedVariantKey(v) == VariantB <==> TextInput.Blank(v.a) && TextInput.Blank(v.c))
    ensures !TextInput.Blank(v.b) ==> SelectedVariantKey(v) == VariantB
  {
    TextInput.TrimEmptyIffBlank(v.a);
    TextInput.TrimEmptyIffBlank(v.b);
    TextInput.TrimEmptyIffBlank(v.c);
    assert Filled(v, VariantA) <==> !TextInput.Blank(v.a);
    assert Filled(v, VariantB) <==> !TextInput.Blank(v.b);
    assert Filled(v, VariantC) <==> !TextInput.Blank(v.c);
  }

  // ---------------------------------------------------------------- ROI label

  datatype RoiLabel = PaysBackQuickly | MediumPayback | LongTermInvestment

  function RoiRank(l: RoiLabel): int {
    match l
    case PaysBackQuickly => 0
    case MediumPayback => 1
    case LongTermInvestment => 2
  }

  /** `roiLabelFromPaybackYears`: at most 2 years, at most 5 years, longer. */
  function RoiLabelFromPaybackYears(paybackYearsMax: real): (r: RoiLabel)
    ensures r == PaysBackQuickly <==> paybackYearsMax <= 2.0
    ensures r == LongTermInvestment <==> paybackYearsMax > 5.0
  {
    if paybackYearsMax <= 2.0 then PaysBackQuickly
    else if paybackYearsMax <= 5.0 then MediumPayback
    else LongTermInvestment
  }

  /** A longer payback never gets a quicker label. */
  lemma RoiLabelMonotone(x: real, y: real)
    requires x <= y
    ensures RoiRank(RoiLabelFromPaybackYears(x)) <= RoiRank(RoiLabelFromPaybackYears(y))
  {
  }

  // ---------------------------------------------------------------- auditors' page

  datatype RecommendedStep = Observation | Conversation | TechnicalAudit

  function StepRank(s: RecommendedStep): int {
    match s
    case Observation => 0
    case Conversation => 1
    case TechnicalAudit => 2
  }

  /** The loss a classifier works with: a negative loss counts as none and a
      non-finite one as none. */
  function EffectiveLoss(loss: Num): (r: real)
    ensures r >= 0.0
    ensures loss.Finite? && loss.v >= 0.0 ==> r == loss.v
  {
    if loss.Finite? then Max(0.0, loss.v) else 0.0
  }

  /** `classifyLeadRecommendedStep`: observation below 10000 PLN a year, a
      conversation up to 30000 PLN, a technical audit above. */
  function ClassifyLeadRecommendedStep(lossesPlnPerYear: Num): (r: RecommendedStep)
    ensures r == Observation <==> EffectiveLoss(lossesPlnPerYear) < 10000.0
    ensures r == TechnicalAudit <==> EffectiveLoss(lossesPlnPerYear) > 30000.0
  {
    var loss := EffectiveLoss(lossesPlnPerYear);
    if loss < 10000.0 then Observation
    else if loss <= 30000.0 then Conversation
    else TechnicalAudit
  }

  /** A larger loss never recommends a lesser step, and an unreadable loss is
      only observed. */
  lemma RecommendedStepMonotone(a: Num, b: Num)
    requires EffectiveLoss(a) <= EffectiveLoss(b)
    ensures StepRank(ClassifyLeadRecommendedStep(a)) <= StepRank(ClassifyLeadRecommendedStep(b))
    ensures !a.Finite? ==> ClassifyLeadRecommendedStep(a) == Observation
  {
  }

  /** The CRM statuses a lead can hold. */
  datatype LeadStatus = LeadNew | LeadObservation | LeadContact | LeadReadyForAudit

  /** `mapRecommendedStepToLeadStatus`. */
  function MapRecommendedStepToLeadStatus(s: RecommendedStep): (r: LeadStatus)
    ensures r != LeadNew
  {
    match s
    case Observation => LeadObservation
    case Conversation => LeadContact
    case TechnicalAudit => LeadReadyForAudit
  }

  datatype BadgeVariant = Success | Warning | Destructive

  datatype Badge = Badge(text: string, variant: BadgeVariant)

  /** `recommendedStepBadge`. */
  function RecommendedStepBadge(s: RecommendedStep): (r: Badge)
    ensures r.variant == Success <==> s == Observation
    ensures r.variant == Destructive <==> s == TechnicalAudit
  {
    match s
    case Observation => Badge("Obserwacja", Success)
    case Conversation => Badge("Rozmowa z zarządcą", Warning)
    case TechnicalAudit => Badge("Audyt techniczny", Destructive)
  }

  /** Different steps give different statuses and different badges. */
  lemma StepMappingsInjective(s: RecommendedStep, t: RecommendedStep)
    ensures MapRecommendedStepToLeadStatus(s) == MapRecommendedStepToLeadStatus(t) ==> s == t
    ensures RecommendedStepBadge(s) == RecommendedStepBadge(t) ==> s == t
  {
  }

  datatype AuditPotential = LowPotential | MediumPotential | HighPotential

  function PotentialRank(p: AuditPotential): int {
    match p
    case LowPotential => 0
    case MediumPotential => 1
    case HighPotential => 2
  }

  /** A non-finite figure counts as 0. */
  function OrZeroIfNotFinite(x: Num): (r: real)
    ensures x.Finite? ==> r == x.v
    ensures !x.Finite? ==> r == 0.0
  {
    if x.Finite? then x.v else 0.0
  }

  /** `classifyAuditPotential`: high for a loss share above 35 % or a loss of
      at least 20000 PLN a year, checked before low (a share below 20 % or
      at most 5000 PLN a year); medium in between. */
  function ClassifyAuditPotential(lossesPercent: Num, lossesPlnPerYear: Num): (r: AuditPotential)
    ensures var pct, pln := OrZeroIfNotFinite(lossesPercent), OrZeroIfNotFinite(lossesPlnPerYear);
      r == HighPotential <==> pct > 35.0 || pln >= 20000.0
    ensures var pct, pln := OrZeroIfNotFinite(lossesPercent), OrZeroIfNotFinite(lossesPlnPerYear);
      r == MediumPotential <==> 20.0 <= pct <= 35.0 && 5000.0 < pln < 20000.0
  {
    var pct := OrZeroIfNotFinite(lossesPercent);
    var pln := OrZeroIfNotFinite(lossesPlnPerYear);
    var isLow := pct < 20.0 || pln <= 5000.0;
    var isHigh := pct > 35.0 || pln >= 20000.0;
    if isHigh then HighPotential
    else if isLow then LowPotential
    else MediumPotential
  }

  /** Larger losses, in share or in money, never lower the potential; a
      figure that is both high and low counts as high. */
  lemma AuditPotentialMonotone(p1: real, m1: real, p2: real, m2: real)
    requires p1 <= p2 && m1 <= m2
    ensures PotentialRank(ClassifyAuditPotential(Finite(p1), Finite(m1)))
      <= PotentialRank(ClassifyAuditPotential(Finite(p2), Finite(m2)))
    ensures p1 > 35.0 && m1 <= 5000.0 ==> ClassifyAuditPotential(Finite(p1), Finite(m1)) == HighPotential
  {
  }

  /** Unreadable figures classify as low. */
  lemma UnreadablePotentialIsLow()
    ensures ClassifyAuditPotential(NaN, NaN) == LowPotential
    ensures ClassifyAuditPotential(PosInf, PosInf) == LowPotential
  {
  }
}

=== FILE: manager_status.dfy ===
/** The building manager's view (`src/app/zarzadca/page.tsx`): the status of
    the building's audit, the status badge and row status of each resident
    report, and the scale of the reported yearly loss. */
module ManagerStatus {
  import opened Outcomes
  import opened Numbers
  import TextInput
  import opened LeadClassifiers

  datatype BuildingStatus = NoAudit | AuditInProgress | NeedsDecision

  /** Whether the stored technical assessment is usable: a known risk level
      and a checklist object. */
  predicate AssessmentValid(riskLevel: Option<string>, checklistIsObject: bool) {
    riskLevel in {Some("niska"), Some("srednia"), Some("wysoka")} && checklistIsObject
  }

  /** Whether any stored variant has a scope description that is a string
      with a character other than white space. */
  predicate VariantsPresent(a: Option<string>, b: Option<string>, c: Option<string>) {
    (a.Some? && |TextInput.Trim(a.value)| > 0)
    || (b.Some? && |TextInput.Trim(b.value)| > 0)
    || (c.Some? && |TextInput.Trim(c.value)| > 0)
  }

  /** The decision at the end of `buildingStatusFromAuditorData`. */
  function BuildingStatusOf(hasAssessment: bool, hasVariants: bool): (r: BuildingStatus)
    ensures r == NeedsDecision <==> hasVariants
    ensures r == NoAudit <==> !hasAssessment && !hasVariants
  {
    if !hasAssessment && !hasVariants then NoAudit
    else if hasVariants then NeedsDecision
    else AuditInProgress
  }

  /** `buildingStatusFromAuditorData` over the stored assessment and the
      stored variants' scope descriptions. */
  function BuildingStatusFromAuditorData(riskLevel: Option<string>, checklistIsObject: bool,
                                         a: Option<string>, b: Option<string>, c: Option<string>): (r: BuildingStatus)
    ensures r == NeedsDecision <==> VariantsPresent(a, b, c)
    ensures r == AuditInProgress <==> AssessmentValid(riskLevel, checklistIsObject) && !VariantsPresent(a, b, c)
  {
    BuildingStatusOf(AssessmentValid(riskLevel, checklistIsObject), VariantsPresent(a, b, c))
  }

  /** Prepared variants need a decision whether or not an assessment was
      stored: the assessment only separates "no audit" from "in progress". */
  lemma VariantsOverrideAssessment(hasAssessment: bool)
    ensures BuildingStatusOf(hasAssessment, true) == BuildingStatusOf(!hasAssessment, true)
    ensures BuildingStatusOf(hasAssessment, false) == (if hasAssessment then AuditInProgress else NoAudit)
  {
  }

  /** Variants count as present exactly when some description, given as
      text, is not blank. */
  lemma VariantsPresentIffNotBlank(a: Option<string>, b: Option<string>, c: Option<string>)
    ensures VariantsPresent(a, b, c) <==>
      (a.Some? && !TextInput.Blank(a.value)) || (b.Some? && !TextInput.Blank(b.value))
      || (c.Some? && !TextInput.Blank(c.value))
  {
    if a.Some? { TextInput.TrimEmptyIffBlank(a.value); }
    if b.Some? { TextInput.TrimEmptyIffBlank(b.value); }
    if c.Some? { TextInput.TrimEmptyIffBlank(c.value); }
  }

  datatype RowStatus = ReadyForAuditRow | AfterAuditRow | ForDecisionRow

  /** `rowStatusFromBuildingStatus`. */
  function RowStatusFromBuildingStatus(b: BuildingStatus): (r: RowStatus)
    ensures r == ForDecisionRow <==> b == NeedsDecision
    ensures r == ReadyForAuditRow <==> b == NoAudit
  {
    match b
    case NoAudit => ReadyForAuditRow
    case AuditInProgress => AfterAuditRow
    case NeedsDecision => ForDecisionRow
  }

  /** The building status a row status came from. */
  function BuildingStatusOfRow(r: RowStatus): BuildingStatus {
    match r
    case ReadyForAuditRow => NoAudit
    case AfterAuditRow => AuditInProgress
    case ForDecisionRow => NeedsDecision
  }

  /** The row status determines the building status and back. */
  lemma RowStatusRoundTrip(b: BuildingStatus, r: RowStatus)
    ensures BuildingStatusOfRow(RowStatusFromBuildingStatus(b)) == b
    ensures RowStatusFromBuildingStatus(BuildingStatusOfRow(r)) == r
  {
  }

  /** The status of a manager's table row: an operational request on a
      building without an audit shows as ready for audit. */
  function ManagerRowStatus(b: BuildingStatus, operationalReady: bool): (r: RowStatus)
    ensures r == ReadyForAuditRow <==> b == NoAudit
  {
    if b == NoAudit && operationalReady then ReadyForAuditRow
    else RowStatusFromBuildingStatus(b)
  }

  /** The operational override repeats what the building status already gives. */
  lemma OperationalOverrideRedundant(b: BuildingStatus, operationalReady: bool)
    ensures ManagerRowStatus(b, operationalReady) == RowStatusFromBuildingStatus(b)
  {
  }

  datatype SimplifiedStatus = SimplifiedNew | SimplifiedReady | SimplifiedAuditDone

  /** `simplifiedStatusForManager`. */
  function SimplifiedStatusForManager(requested: bool, auditStatus: Option<AuditStatus>,
                                      building: BuildingStatus): (r: Option<SimplifiedStatus>)
    ensures r == Some(SimplifiedAuditDone) <==> building == NeedsDecision
    ensures r.None? <==> building != NeedsDecision && auditStatus.None? && !requested
  {
    if building == NeedsDecision then Some(SimplifiedAuditDone)
    else match auditStatus
      case Some(StatusNew) => Some(SimplifiedNew)
      case Some(_) => Some(SimplifiedReady)
      case None => if requested then Some(SimplifiedReady) else None
  }

  /** The manager's badge and the auditor's status code agree: an audit is
      done exactly when variants exist, and a request is ready for audit on
      the manager's page exactly when the auditor sees it as ready or
      requested. */
  lemma ManagerAgreesWithAuditor(requested: bool, auditStatus: Option<AuditStatus>,
                                 hasAssessment: bool, hasVariants: bool, hasContext: bool)
    ensures var m := SimplifiedStatusForManager(requested, auditStatus, BuildingStatusOf(hasAssessment, hasVariants));
      var a := LeadStatusCode(auditStatus, requested, hasVariants, hasContext);
      (m == Some(SimplifiedAuditDone) <==> a == CodeAuditDone)
      && (m == Some(SimplifiedReady) <==> a == CodeReadyForAudit || a == CodeAuditRequested)
      && (m.None? || m == Some(SimplifiedNew) <==> a == CodeNew)
  {
  }

  datatype LossScale = LowLoss | MediumLoss | HighLoss

  function LossScaleRank(s: LossScale): int {
    match s
    case LowLoss => 0
    case MediumLoss => 1
    case HighLoss => 2
  }

  /** `lossScaleFromYearlyLoss`: low below 3000 PLN a year (and for a missing,
      non-finite or non-positive figure), medium below 12000 PLN, high from
      there. */
  function LossScaleFromYearlyLoss(yearlyLoss: Option<Num>): (r: LossScale)
    ensures var l := Known(yearlyLoss);
      r == HighLoss <==> l.Some? && l.value >= 12000.0
    ensures var l := Known(yearlyLoss);
      r == MediumLoss <==> l.Some? && 3000.0 <= l.value < 12000.0
  {
    if yearlyLoss.None? || !yearlyLoss.value.Finite? || yearlyLoss.value.v <= 0.0 then LowLoss
    else if yearlyLoss.value.v < 3000.0 then LowLoss
    else if yearlyLoss.value.v < 12000.0 then MediumLoss
    else HighLoss
  }

  /** A larger yearly loss never shows a smaller scale. */
  lemma LossScaleMonotone(a: real, b: real)
    requires a <= b
    ensures LossScaleRank(LossScaleFromYearlyLoss(Some(Finite(a))))
      <= LossScaleRank(LossScaleFromYearlyLoss(Some(Finite(b))))
  {
  }
}

=== FILE: mixed_tank.dfy ===
/** The fully mixed tank (simulate_mixed in cwu_time_simulation.py): one
    temperature for the whole volume. Each step records the time and the
    temperature, removes the delivered hot water and the constant loss, lets the
    thermostat decide, adds the heater's energy up to the set-point capacity and
    counts the step as a comfort violation when the tank ends below `tMin`. */
module MixedTank {
  import opened Outcomes
  import opened Numbers
  import opened TankPhysics

  /** Simulator state between steps, including the series recorded so far. */
  datatype State = State(
    energy: real, heaterOn: bool, violationS: int,
    tMinReached: real, tMinTempS: int,
    timeS: seq<int>, temps: seq<real>, pIn: seq<real>, tEnd: seq<real>)

  /** The inputs under which the simulator runs instead of raising. */
  predicate Accepts(tank: TankParams, pKw: real, lossKw: real) {
    tank.volumeL > 0.0 && pKw >= 0.0 && lossKw >= 0.0 && tank.dt > 0 && tank.tSet > tank.tCold
  }

  function Temp(tank: TankParams, e: real): real {
    TempFromEnergy(e, tank.volumeL, tank.tCold)
  }

  /** Energy the tank holds at the set point. */
  function Capacity(tank: TankParams): (r: real)
    ensures tank.volumeL > 0.0 && tank.tSet > tank.tCold ==> r > 0.0
  {
    EnergyCapacity(tank.volumeL, tank.tSet, tank.tCold)
  }

  function Init(tank: TankParams): State {
    var e := EnergyCapacity(tank.volumeL, tank.tInit, tank.tCold);
    var t := Temp(tank, e);
    State(e, t < tank.tSet, 0, t, 0, [], [], [], [])
  }

  /** Energy after a step's draw and loss; each subtraction stops at zero. */
  function Drain(e: real, drawJ: real, lossJ: real): (r: real)
    ensures r >= 0.0
    ensures drawJ >= 0.0 && lossJ >= 0.0 && e >= 0.0 ==> r <= e
  {
    Max(0.0, Max(0.0, e - drawJ) - lossJ)
  }

  /** Energy leaving with one step's delivered water, drawn at the set point. */
  function DrawJ(tank: TankParams, lpm: real): (r: real)
    requires tank.dt > 0
    ensures r >= 0.0
  {
    var vL := Max(0.0, lpm) * (tank.dt as real / 60.0);
    assert vL >= 0.0;
    EnergyCapacity(vL, tank.tSet, tank.tCold)
  }

  /** Energy of a power in kW sustained for one step. */
  function StepJ(tank: TankParams, kw: real): (r: real)
    requires tank.dt > 0
    ensures kw >= 0.0 ==> r >= 0.0
    ensures kw == 0.0 ==> r == 0.0
  {
    kw * 1000.0 * tank.dt as real
  }

  /** Energy after adding the heater's input, capped at the set-point capacity. */
  function Heat(tank: TankParams, e: real, heatJ: real): (r: real)
    ensures r <= Capacity(tank) && r <= e + heatJ
    ensures e + heatJ <= Capacity(tank) ==> r == e + heatJ
  {
    Min(Capacity(tank), e + heatJ)
  }

  /** One simulation step for sample `i` with demand `lpm`. */
  function Step(tank: TankParams, pKw: real, lossKw: real, hysteresis: real, s: State, i: int, lpm: real)
    : (r: State)
    requires Accepts(tank, pKw, lossKw)
    ensures r.timeS == s.timeS + [i * tank.dt] && r.temps == s.temps + [Temp(tank, s.energy)]
    ensures |r.pIn| == |s.pIn| + 1 && r.pIn[..|s.pIn|] == s.pIn && (r.pIn[|s.pIn|] == 0.0 || r.pIn[|s.pIn|] == pKw)
    ensures s.violationS <= r.violationS <= s.violationS + tank.dt
    ensures r.tEnd == s.tEnd + [Temp(tank, r.energy)]
    ensures r.violationS == s.violationS + (if Temp(tank, r.energy) < tank.tMin then tank.dt else 0)
  {
    var tS := i * tank.dt;
    var e1 := Drain(s.energy, DrawJ(tank, lpm), StepJ(tank, lossKw));
    var on := HeaterControl(s.heaterOn, Temp(tank, e1), tank.tSet, hysteresis);
    var p := if on then pKw else 0.0;
    var e2 := Heat(tank, e1, StepJ(tank, p));
    var tEnd := Temp(tank, e2);
    var colder := tEnd < s.tMinReached;
    State(e2, on,
          if tEnd < tank.tMin then s.violationS + tank.dt else s.violationS,
          if colder then tEnd else s.tMinReached,
          if colder then tS + tank.dt else s.tMinTempS,
          s.timeS + [tS], s.temps + [Temp(tank, s.energy)], s.pIn + [p], s.tEnd + [tEnd])
  }

  /** The state after running the whole `profile`. */
  function Trace(tank: TankParams, pKw: real, lossKw: real, hysteresis: real, profile: seq<real>)
    : State
    requires Accepts(tank, pKw, lossKw)
    decreases |profile|
  {
    if |profile| == 0 then Init(tank)
    else
      var n := |profile| - 1;
      Step(tank, pKw, lossKw, hysteresis, Trace(tank, pKw, lossKw, hysteresis, profile[..n]), n, profile[n])
  }

  /** Shape of a run: one record per sample, and the heater input is either
      zero or the full power. */
  lemma {:induction false} TraceShape(tank: TankParams, pKw: real, lossKw: real, hysteresis: real, profile: seq<real>)
    requires Accepts(tank, pKw, lossKw)
    ensures var s := Trace(tank, pKw, lossKw, hysteresis, profile);
      |s.timeS| == |s.temps| == |s.pIn| == |profile|
      && (forall i :: 0 <= i < |profile| ==> s.pIn[i] == 0.0 || s.pIn[i] == pKw)
    decreases |profile|
  {
    if |profile| > 0 {
      TraceShape(tank, pKw, lossKw, hysteresis, profile[..|profile| - 1]);
    }
  }

  /** Records are taken at times 0, dt, 2dt, ... */
  lemma {:induction false} TraceTimes(tank: TankParams, pKw: real, lossKw: real, hysteresis: real, profile: seq<real>)
    requires Accepts(tank, pKw, lossKw)
    ensures var s := Trace(tank, pKw, lossKw, hysteresis, profile);
      |s.timeS| == |profile| && forall i :: 0 <= i < |profile| ==> s.timeS[i] == i * tank.dt
    decreases |profile|
  {
    if |profile| > 0 {
      TraceTimes(tank, pKw, lossKw, hysteresis, profile[..|profile| - 1]);
    }
  }

  /** Violation time is counted in whole steps: at most one step per sample. */
  lemma {:induction false} TraceViolation(tank: TankParams, pKw: real, lossKw: real, hysteresis: real,
                                          profile: seq<real>)
    requires Accepts(tank, pKw, lossKw)
    ensures var s := Trace(tank, pKw, lossKw, hysteresis, profile);
      0 <= s.violationS <= |profile| * tank.dt
    decreases |profile|
  {
    if |profile| > 0 {
      var n := |profile| - 1;
      TraceViolation(tank, pKw, lossKw, hysteresis, profile[..n]);
      MulSucc(n, tank.dt);
    }
  }

  /** Each step records the temperature it ends at: the temperature the next
      step starts from, or the final one for the last step. */
  lemma {:induction false} TraceEnds(tank: TankParams, pKw: real, lossKw: real, hysteresis: real, profile: seq<real>)
    requires Accepts(tank, pKw, lossKw)
    ensures var s := Trace(tank, pKw, lossKw, hysteresis, profile);
      |s.tEnd| == |s.temps| == |profile|
      && (|profile| > 0 ==> s.tEnd == s.temps[1..] + [Temp(tank, s.energy)])
    decreases |profile|
  {
    if |profile| > 0 {
      var n := |profile| - 1;
      TraceEnds(tank, pKw, lossKw, hysteresis, profile[..n]);
    }
  }

  /** The violation time is one step for every step that ends below `tMin`. */
  lemma {:induction false} TraceViolationCount(tank: TankParams, pKw: real, lossKw: real, hysteresis: real,
                                               profile: seq<real>)
    requires Accepts(tank, pKw, lossKw)
    ensures var s := Trace(tank, pKw, lossKw, hysteresis, profile);
      s.violationS == tank.dt * CountBelow(s.tEnd, tank.tMin)
    decreases |profile|
  {
    if |profile| > 0 {
      var n := |profile| - 1;
      TraceViolationCount(tank, pKw, lossKw, hysteresis, profile[..n]);
      StepCounted(tank, pKw, lossKw, hysteresis, Trace(tank, pKw, lossKw, hysteresis, profile[..n]), n, profile[n]);
    }
  }

  /** A step keeps the violation time equal to one step per recorded end
      temperature below `tMin`. */
  lemma StepCounted(tank: TankParams, pKw: real, lossKw: real, hysteresis: real, prev: State, i: int, lpm: real)
    requires Accepts(tank, pKw, lossKw)
    requires prev.violationS == tank.dt * CountBelow(prev.tEnd, tank.tMin)
    ensures var s := Step(tank, pKw, lossKw, hysteresis, prev, i, lpm);
      s.violationS == tank.dt * CountBelow(s.tEnd, tank.tMin)
  {
    var s := Step(tank, pKw, lossKw, hysteresis, prev, i, lpm);
    var c := CountBelow(prev.tEnd, tank.tMin);
    var below := Temp(tank, s.energy) < tank.tMin;
    assert s.tEnd[..|s.tEnd| - 1] == prev.tEnd;
    assert CountBelow(s.tEnd, tank.tMin) == c + (if below then 1 else 0);
    CountedStep(tank.dt, c, prev.violationS, s.violationS, below);
  }

  /** The initial energy is within the set-point capacity when the tank starts
      no hotter than the set point. */
  lemma InitWithinCapacity(tank: TankParams)
    requires tank.volumeL > 0.0 && tank.tInit <= tank.tSet
    ensures 0.0 <= Init(tank).energy <= Capacity(tank)
  {
    var m := tank.volumeL * Cp;
    assert m > 0.0;
    var a, b := Max(0.0, tank.tInit - tank.tCold), Max(0.0, tank.tSet - tank.tCold);
    assert a <= b;
    assert m * a <= m * b;
    assert Init(tank).energy == EnergyCapacity(tank.volumeL, tank.tInit, tank.tCold) == m * a;
    assert Capacity(tank) == m * b;
  }

  /** After any step the stored energy lies between zero and the set-point capacity. */
  lemma {:induction false} TraceEnergy(tank: TankParams, pKw: real, lossKw: real, hysteresis: real, profile: seq<real>)
    requires Accepts(tank, pKw, lossKw)
    ensures var s := Trace(tank, pKw, lossKw, hysteresis, profile);
      s.energy >= 0.0 && (|profile| > 0 || tank.tInit <= tank.tSet ==> s.energy <= Capacity(tank))
    decreases |profile|
  {
    if |profile| > 0 {
      TraceEnergy(tank, pKw, lossKw, hysteresis, profile[..|profile| - 1]);
    } else if tank.tInit <= tank.tSet {
      InitWithinCapacity(tank);
    }
  }

  /** When the tank starts no hotter than the set point, every recorded
      temperature lies between the cold-water and the set-point temperature. */
  lemma {:induction false} TraceTemps(tank: TankParams, pKw: real, lossKw: real, hysteresis: real, profile: seq<real>)
    requires Accepts(tank, pKw, lossKw)
    ensures var s := Trace(tank, pKw, lossKw, hysteresis, profile);
      |s.temps| == |profile|
      && (tank.tInit <= tank.tSet ==> forall i :: 0 <= i < |profile| ==> tank.tCold <= s.temps[i] <= tank.tSet)
    decreases |profile|
  {
    TraceShape(tank, pKw, lossKw, hysteresis, profile);
    if |profile| > 0 && tank.tInit <= tank.tSet {
      var prev := Trace(tank, pKw, lossKw, hysteresis, profile[..|profile| - 1]);
      TraceTemps(tank, pKw, lossKw, hysteresis, profile[..|profile| - 1]);
      TraceEnergy(tank, pKw, lossKw, hysteresis, profile[..|profile| - 1]);
      TempMonotone(prev.energy, Capacity(tank), tank.volumeL, tank.tCold);
      TempOfCapacity(tank.volumeL, tank.tSet, tank.tCold);
    }
  }

  /** Within one step the tank never gains more than the heater put in. */
  lemma StepGainBounded(tank: TankParams, pKw: real, lossKw: real, hysteresis: real, s: State, i: int, lpm: real)
    requires Accepts(tank, pKw, lossKw) && s.energy >= 0.0
    ensures var s' := Step(tank, pKw, lossKw, hysteresis, s, i, lpm);
      s'.energy <= s.energy + StepJ(tank, s'.pIn[|s'.pIn| - 1])
  {
  }

  /** One step without hysteresis is monotone in the starting energy and the
      heater power: a larger power or a fuller tank never ends the step emptier. */
  lemma StepMonotone(tank: TankParams, p1: real, p2: real, lossKw: real, hysteresis: real,
                     s1: State, s2: State, i: int, lpm: real)
    requires Accepts(tank, p1, lossKw) && p1 <= p2 && hysteresis <= 0.0
    requires 0.0 <= s1.energy <= s2.energy
    ensures Step(tank, p1, lossKw, hysteresis, s1, i, lpm).energy
         <= Step(tank, p2, lossKw, hysteresis, s2, i, lpm).energy
  {
    var a1 := Drain(s1.energy, DrawJ(tank, lpm), StepJ(tank, lossKw));
    var a2 := Drain(s2.energy, DrawJ(tank, lpm), StepJ(tank, lossKw));
    assert a1 <= a2;
    TempBelowIff(a1, tank.volumeL, tank.tSet, tank.tCold);
    TempBelowIff(a2, tank.volumeL, tank.tSet, tank.tCold);
    StepJMonotone(tank, p1, p2);
  }

  lemma StepJMonotone(tank: TankParams, k1: real, k2: real)
    requires tank.dt > 0 && k1 <= k2
    ensures StepJ(tank, k1) <= StepJ(tank, k2)
  {
    assert (k2 - k1) * (1000.0 * tank.dt as real) >= 0.0;
  }

  /** Without hysteresis, more heater power never leaves less energy in the tank
      and never adds violation time: the run is monotone in the power. */
  lemma {:induction false} TraceMonotone(tank: TankParams, p1: real, p2: real, lossKw: real, hysteresis: real,
                                          profile: seq<real>)
    requires Accepts(tank, p1, lossKw) && p1 <= p2 && hysteresis <= 0.0
    ensures Trace(tank, p1, lossKw, hysteresis, profile).energy
         <= Trace(tank, p2, lossKw, hysteresis, profile).energy
    ensures Trace(tank, p1, lossKw, hysteresis, profile).violationS
         >= Trace(tank, p2, lossKw, hysteresis, profile).violationS
    decreases |profile|
  {
    if |profile| > 0 {
      var n := |profile| - 1;
      var s1 := Trace(tank, p1, lossKw, hysteresis, profile[..n]);
      var s2 := Trace(tank, p2, lossKw, hysteresis, profile[..n]);
      TraceMonotone(tank, p1, p2, lossKw, hysteresis, profile[..n]);
      TraceEnergy(tank, p1, lossKw, hysteresis, profile[..n]);
      StepMonotone(tank, p1, p2, lossKw, hysteresis, s1, s2, n, profile[n]);
      var t1 := Step(tank, p1, lossKw, hysteresis, s1, n, profile[n]);
      var t2 := Step(tank, p2, lossKw, hysteresis, s2, n, profile[n]);
      TempMonotone(t1.energy, t2.energy, tank.volumeL, tank.tCold);
    }
  }

  /** simulate_mixed: validates its inputs in the source's order, runs the
      profile and reports the series, the violation time in minutes, the coldest
      temperature and the regeneration times back to `tMin` and to the set point. */
  function Simulate(tank: TankParams, profile: seq<real>, pKw: real, lossKw: real, hysteresis: real)
    : (r: Result<RunResult, SimError>)
    ensures tank.volumeL <= 0.0 ==> r == Err(VolumeNotPositive)
    ensures tank.volumeL > 0.0 && pKw < 0.0 ==> r == Err(PowerNegative)
    ensures tank.volumeL > 0.0 && pKw >= 0.0 && lossKw < 0.0 ==> r == Err(LossNegative)
    ensures tank.volumeL > 0.0 && pKw >= 0.0 && lossKw >= 0.0 && tank.dt <= 0 ==> r == Err(DtNotPositive)
    ensures tank.volumeL > 0.0 && pKw >= 0.0 && lossKw >= 0.0 && tank.dt > 0 && tank.tSet <= tank.tCold
      ==> r == Err(SetNotAboveCold)
    ensures r.Ok? <==> Accepts(tank, pKw, lossKw)
    ensures r.Ok? ==> r.value.model == Mixed && r.value.pzamKw == pKw && r.value.lossKw == lossKw
    ensures r.Ok? ==> |r.value.timeS| == |r.value.tPrimary| == |r.value.pIn| == |profile|
    ensures r.Ok? ==> forall i :: 0 <= i < |profile| ==> r.value.timeS[i] == i * tank.dt
    ensures r.Ok? ==> forall i :: 0 <= i < |profile| ==> r.value.pIn[i] == 0.0 || r.value.pIn[i] == pKw
    ensures r.Ok? ==> 0.0 <= r.value.violationMinutes <= (|profile| * tank.dt) as real / 60.0
    ensures r.Ok? && tank.tInit <= tank.tSet ==>
      forall i :: 0 <= i < |profile| ==> tank.tCold <= r.value.tPrimary[i] <= tank.tSet
    ensures r.Ok? ==> r.value.tSecondary.None?
  {
    if tank.volumeL <= 0.0 then Err(VolumeNotPositive)
    else if pKw < 0.0 then Err(PowerNegative)
    else if lossKw < 0.0 then Err(LossNegative)
    else if tank.dt <= 0 then Err(DtNotPositive)
    else if tank.tSet - tank.tCold <= 0.0 then Err(SetNotAboveCold)
    else
      var s := Trace(tank, pKw, lossKw, hysteresis, profile);
      TraceShape(tank, pKw, lossKw, hysteresis, profile);
      TraceTimes(tank, pKw, lossKw, hysteresis, profile);
      TraceViolation(tank, pKw, lossKw, hysteresis, profile);
      TraceTemps(tank, pKw, lossKw, hysteresis, profile);
      Ok(RunResult(
        Mixed, pKw, lossKw, s.timeS, s.temps, s.pIn,
        s.violationS as real / 60.0,
        RegenTime(s.timeS, s.temps, s.tMinTempS, tank.tMin, tank.dt),
        RegenTime(s.timeS, s.temps, s.tMinTempS, tank.tSet, tank.dt),
        s.tMinTempS, s.tMinReached, None))
  }

  /** The temperatures the steps of a run end at. */
  function EndTemps(tank: TankParams, profile: seq<real>, pKw: real, lossKw: real, hysteresis: real)
    : seq<real>
    requires Accepts(tank, pKw, lossKw)
  {
    Trace(tank, pKw, lossKw, hysteresis, profile).tEnd
  }

  /** The reported violation time is dt/60 minutes for every step that ends
      below `tMin`; a step ends at the temperature recorded for the next one. */
  lemma ViolationCounted(tank: TankParams, profile: seq<real>, pKw: real, lossKw: real, hysteresis: real)
    requires Accepts(tank, pKw, lossKw)
    ensures var r := Simulate(tank, profile, pKw, lossKw, hysteresis);
      var ends := EndTemps(tank, profile, pKw, lossKw, hysteresis);
      r.Ok? && |ends| == |profile|
      && (forall k :: 0 <= k < |profile| - 1 ==> ends[k] == r.value.tPrimary[k + 1])
      && r.value.violationMinutes == (tank.dt * CountBelow(ends, tank.tMin)) as real / 60.0
  {
    var s := Trace(tank, pKw, lossKw, hysteresis, profile);
    TraceEnds(tank, pKw, lossKw, hysteresis, profile);
    TraceViolationCount(tank, pKw, lossKw, hysteresis, profile);
    if |profile| > 0 {
      forall k | 0 <= k < |profile| - 1
        ensures s.tEnd[k] == s.temps[k + 1]
      {
        assert s.tEnd[k] == (s.temps[1..] + [Temp(tank, s.energy)])[k];
      }
    }
  }

  /** The violation time reported by simulate_mixed without hysteresis never
      grows when the heater power grows. */
  lemma ViolationMonotone(tank: TankParams, profile: seq<real>, p1: real, p2: real, lossKw: real, hysteresis: real)
    requires Accepts(tank, p1, lossKw) && p1 <= p2 && hysteresis <= 0.0
    ensures Simulate(tank, profile, p1, lossKw, hysteresis).Ok?
    ensures Simulate(tank, profile, p2, lossKw, hysteresis).Ok?
    ensures Simulate(tank, profile, p2, lossKw, hysteresis).value.violationMinutes
         <= Simulate(tank, profile, p1, lossKw, hysteresis).value.violationMinutes
  {
    TraceMonotone(tank, p1, p2, lossKw, hysteresis, profile);
  }
}

=== FILE: numbers.dfy ===
/** Numeric helpers shared by the model.

    Floating-point numbers are modelled as exact reals. Where the source
    inspects a value for finiteness (`Number.isFinite`, `isNaN`, `math.isfinite`)
    the value is a `Num`, which adds the three non-finite IEEE values. Every
    rounding the source performs is written out: `Math.round`, `toFixed`,
    `Math.ceil`, Python `int()` and `//`. */
module Numbers {

  /** A JavaScript / Python double, seen as an exact real when finite. */
  datatype Num = Finite(v: real) | NaN | PosInf | NegInf {

    predicate IsFinite() {
      Finite?
    }

    /** JavaScript truthiness: 0 and NaN are falsy. */
    predicate Truthy() {
      !(NaN? || (Finite? && v == 0.0))
    }
  }

  /** The sign of a double: -1, 0 or 1, and 0 for NaN. */
  function SignOf(a: Num): (r: int)
    ensures -1 <= r <= 1
    ensures r == 0 <==> a.NaN? || a == Finite(0.0)
  {
    match a
    case Finite(x) => if x > 0.0 then 1 else if x < 0.0 then -1 else 0
    case PosInf => 1
    case NegInf => -1
    case NaN => 0
  }

  /** The infinity of a sign. */
  function InfOf(sign: int): (r: Num)
    ensures !r.Finite? && !r.NaN?
    ensures SignOf(r) == (if sign < 0 then -1 else 1)
  {
    if sign < 0 then NegInf else PosInf
  }

  /** IEEE-754 subtraction on doubles seen as exact reals (no rounding, no
      signed zero). */
  function NumSub(a: Num, b: Num): (r: Num)
    ensures a.Finite? && b.Finite? ==> r == Finite(a.v - b.v)
    ensures a.NaN? || b.NaN? || (a == b && !a.Finite?) ==> r == NaN
    ensures a.Finite? && !b.Finite? && !b.NaN? ==> r == InfOf(-SignOf(b))
    ensures !a.Finite? && !a.NaN? && b.Finite? ==> r == a
  {
    match (a, b)
    case (Finite(x), Finite(y)) => Finite(x - y)
    case (NaN, _) => NaN
    case (_, NaN) => NaN
    case (Finite(_), _) => InfOf(-SignOf(b))
    case (_, Finite(_)) => a
    case _ => if a == b then NaN else a
  }

  /** IEEE-754 multiplication: an infinity times 0 is NaN. */
  function NumMul(a: Num, b: Num): (r: Num)
    ensures a.Finite? && b.Finite? ==> r == Finite(a.v * b.v)
    ensures a.NaN? || b.NaN? ==> r == NaN
    ensures !a.Finite? || !b.Finite? ==>
      (r == NaN <==> SignOf(a) * SignOf(b) == 0)
      && (SignOf(a) * SignOf(b) != 0 ==> r == InfOf(SignOf(a) * SignOf(b)))
  {
    if a.Finite? && b.Finite? then Finite(a.v * b.v)
    else if SignOf(a) * SignOf(b) == 0 then NaN
    else InfOf(SignOf(a) * SignOf(b))
  }

  /** IEEE-754 division: a non-zero number over 0 is the infinity of its
      sign (the zero taken as +0), 0 over 0 is NaN, a finite number over an
      infinity is 0 and an infinity over an infinity NaN. */
  function NumDiv(a: Num, b: Num): (r: Num)
    ensures a.Finite? && b.Finite? && b.v != 0.0 ==> r == Finite(a.v / b.v)
    ensures a.Finite? && b == Finite(0.0) ==>
      (r == NaN <==> a.v == 0.0) && (a.v != 0.0 ==> r == InfOf(SignOf(a)))
    ensures a.NaN? || b.NaN? ==> r == NaN
    ensures a.Finite? && !b.Finite? && !b.NaN? ==> r == Finite(0.0)
    ensures !a.Finite? && !a.NaN? && b.Finite? ==> r == InfOf(SignOf(a) * (if b.v < 0.0 then -1 else 1))
    ensures !a.Finite? && !a.NaN? && !b.Finite? ==> r == NaN
  {
    match (a, b)
    case (NaN, _) => NaN
    case (_, NaN) => NaN
    case (Finite(x), Finite(y)) => if y != 0.0 then Finite(x / y) else if x == 0.0 then NaN else InfOf(SignOf(a))
    case (Finite(_), _) => Finite(0.0)
    case (_, Finite(y)) => InfOf(SignOf(a) * (if y < 0.0 then -1 else 1))
    case _ => NaN
  }

  /** `Math.max` of two doubles: NaN when either is NaN. */
  function NumMax(a: Num, b: Num): (r: Num)
    ensures a.NaN? || b.NaN? ==> r == NaN
    ensures a.Finite? && b.Finite? ==> r == Finite(Max(a.v, b.v))
    ensures !a.NaN? && b == NegInf ==> r == a
    ensures a == PosInf && !b.NaN? ==> r == PosInf
  {
    match (a, b)
    case (NaN, _) => NaN
    case (_, NaN) => NaN
    case (Finite(x), Finite(y)) => Finite(Max(x, y))
    case (PosInf, _) => PosInf
    case (_, PosInf) => PosInf
    case (NegInf, _) => b
    case (_, NegInf) => a
  }

  function Max(a: real, b: real): (r: real)
    ensures r >= a && r >= b
    ensures r == a || r == b
  {
    if a >= b then a else b
  }

  function Min(a: real, b: real): (r: real)
    ensures r <= a && r <= b
    ensures r == a || r == b
  {
    if a <= b then a else b
  }

  function MaxInt(a: int, b: int): (r: int)
    ensures r >= a && r >= b
    ensures r == a || r == b
  {
    if a >= b then a else b
  }

  function MinInt(a: int, b: int): (r: int)
    ensures r <= a && r <= b
    ensures r == a || r == b
  {
    if a <= b then a else b
  }

  /** `Math.min(hi, Math.max(lo, x))`; inside [lo, hi] whenever lo <= hi. */
  function Clamp(x: real, lo: real, hi: real): (r: real)
    ensures lo <= hi ==> lo <= r <= hi
    ensures lo <= x <= hi ==> r == x
  {
    Min(hi, Max(lo, x))
  }

  /** Largest integer not above x (`Math.floor`, Python `math.floor`). */
  function Floor(x: real): (r: int)
    ensures r as real <= x < r as real + 1.0
  {
    x.Floor
  }

  /** Smallest integer not below x (`Math.ceil`). */
  function Ceil(x: real): (r: int)
    ensures x <= r as real < x + 1.0
  {
    -((-x).Floor)
  }

  /** `Math.round`: nearest integer, halves rounded toward +infinity. */
  function Round(x: real): (r: int)
    ensures x - 0.5 < r as real <= x + 0.5
  {
    (x + 0.5).Floor
  }

  /** Python `int(x)` and C-style truncation toward zero. */
  function Trunc(x: real): (r: int)
    ensures x >= 0.0 ==> r as real <= x < r as real + 1.0
    ensures x < 0.0 ==> r as real - 1.0 < x <= r as real
  {
    if x >= 0.0 then x.Floor else -((-x).Floor)
  }

  /** `Math.round` never reverses an inequality. */
  lemma RoundMonotone(x: real, y: real)
    requires x <= y
    ensures Round(x) <= Round(y)
  {
  }

  function Pow10(d: nat): (r: nat)
    ensures r >= 1
  {
    if d == 0 then 1 else 10 * Pow10(d - 1)
  }

  /** x rounded to a multiple of 1 / p, halves away from zero. */
  function RoundTo(x: real, p: real): (r: real)
    requires p > 0.0
    ensures x >= 0.0 ==> r >= 0.0
    ensures x <= 0.0 ==> r <= 0.0
    ensures x - 0.5 / p <= r <= x + 0.5 / p
  {
    if x >= 0.0 then RoundedQuotientClose(x, p); Round(x * p) as real / p
    else RoundedQuotientClose(-x, p); -(Round(-x * p) as real / p)
  }

  /** `Number(x.toFixed(d))`: x rounded to d decimals, ties away from zero. */
  function ToFixed(x: real, d: nat): (r: real)
    ensures x >= 0.0 ==> r >= 0.0
    ensures x <= 0.0 ==> r <= 0.0
    ensures var h := 0.5 / Pow10(d) as real; x - h <= r <= x + h
  {
    RoundTo(x, Pow10(d) as real)
  }

  /** Rounding y * p to an integer and dividing by p moves y by at most 0.5 / p. */
  lemma RoundedQuotientClose(y: real, p: real)
    requires p > 0.0
    ensures y - 0.5 / p <= Round(y * p) as real / p <= y + 0.5 / p
  {
    var n := Round(y * p) as real;
    DivMonotone(y * p - 0.5, n, p);
    DivMonotone(n, y * p + 0.5, p);
    assert (y * p - 0.5) / p == y - 0.5 / p;
    assert (y * p + 0.5) / p == y + 0.5 / p;
  }

  /** `Math.round(v * 100) / 100`: the costing modules' money rounding. */
  function RoundMoney(x: real): (r: real)
    ensures x - 0.005 < r <= x + 0.005
    ensures x >= 0.0 ==> r >= 0.0
  {
    Round(x * 100.0) as real / 100.0
  }

  /** The product of two positive numbers is positive. */
  lemma MulPositive(x: real, y: real)
    requires x > 0.0 && y > 0.0
    ensures x * y > 0.0
  {
  }

  /** The product of two non-negative numbers is not negative. */
  lemma MulNonNegative(x: real, y: real)
    ensures x >= 0.0 && y >= 0.0 ==> x * y >= 0.0
  {
    if x >= 0.0 && y >= 0.0 {
      MulMonotone(0.0, x, y);
    }
  }

  /** One more step of length d. */
  lemma MulSucc(n: int, d: int)
    ensures n * d + d == (n + 1) * d
  {
  }

  /** Multiplying both sides of an inequality by a non-negative number keeps it. */
  lemma MulMonotone(a: real, b: real, c: real)
    requires a <= b && c >= 0.0
    ensures a * c <= b * c
  {
    assert (b - a) * c >= 0.0;
  }

  /** Multiplying and then dividing by the same non-zero number is the identity. */
  lemma MulDivCancel(x: real, v: real)
    requires v != 0.0
    ensures x * v / v == x
  {
  }

  /** Dividing both sides of an inequality by a positive number keeps it. */
  lemma DivMonotone(a: real, b: real, m: real)
    requires m > 0.0 && a <= b
    ensures a / m <= b / m
  {
    var qa, qb := a / m, b / m;
    assert qa * m == a && qb * m == b;
    if qa > qb {
      MulPositive(qa - qb, m);
      assert false;
    }
  }

  /** A part of a positive whole is a fraction in [0, 1] of it. */
  lemma ShareBounds(part: real, whole: real)
    requires 0.0 <= part <= whole && whole > 0.0
    ensures 0.0 <= part / whole <= 1.0
  {
    DivMonotone(part, whole, whole);
    DivMonotone(0.0, part, whole);
    MulDivCancel(1.0, whole);
  }

  /** Dividing both sides of a strict inequality by a positive number keeps it. */
  lemma DivStrictMonotone(a: real, b: real, m: real)
    requires m > 0.0 && a < b
    ensures a / m < b / m
  {
    var qa, qb := a / m, b / m;
    assert qa * m == a && qb * m == b;
    if qa >= qb {
      if qa > qb {
        MulPositive(qa - qb, m);
      }
      assert false;
    }
  }

  /** A value already on the cent grid is left alone by `RoundMoney`. */
  lemma RoundMoneyOfCents(k: int)
    ensures RoundMoney(k as real / 100.0) == k as real / 100.0
  {
    assert (k as real / 100.0) * 100.0 == k as real;
    assert (k as real + 0.5).Floor == k;
  }

  /** Money rounding is idempotent. */
  lemma RoundMoneyIdempotent(x: real)
    ensures RoundMoney(RoundMoney(x)) == RoundMoney(x)
  {
    RoundMoneyOfCents(Round(x * 100.0));
  }
}

=== FILE: offer_totals.dfy ===
/** The totals of the contractor's offer generator
    (`src/app/wykonawcy/generator-ofert/GeneratorOfertWizard.tsx`): the net
    price of the items included in the active pricing variant, the VAT on
    it rounded to whole złoty, and the gross price. */
module OfferTotals {
  import opened Numbers

  datatype OfferItem = OfferItem(text: string, included: bool, description: string, cost: Num)

  datatype OfferVariant = OfferVariant(name: string, items: seq<OfferItem>)

  datatype Totals = Totals(net: real, vat: int, gross: real)

  /** `i.cost || 0`: a missing figure (NaN) and zero both count as 0. An
      infinite cost also counts as 0 here, although the page would keep it
      and make every total infinite. */
  function CostOrZero(cost: Num): (r: real)
    ensures cost.Finite? ==> r == cost.v
    ensures !cost.Finite? ==> r == 0.0
  {
    if cost.Truthy() && cost.Finite? then cost.v else 0.0
  }

  /** `items.filter(i => i.included)`. */
  function Included(items: seq<OfferItem>): (r: seq<OfferItem>)
    ensures |r| <= |items|
    ensures forall k :: 0 <= k < |r| ==> r[k].included && r[k] in items
  {
    if |items| == 0 then []
    else
      var rest := Included(items[1..]);
      if items[0].included then [items[0]] + rest else rest
  }

  /** `reduce((sum, i) => sum + (i.cost || 0), 0)`, left to right. */
  function SumCosts(items: seq<OfferItem>): real {
    if |items| == 0 then 0.0 else SumCosts(items[..|items| - 1]) + CostOrZero(items[|items| - 1].cost)
  }

  /** The cost of an item when it is included, and 0 when it is not. */
  function IncludedCost(item: OfferItem): real {
    if item.included then CostOrZero(item.cost) else 0.0
  }

  /** A reference for the net price: every item counted by `IncludedCost`. */
  function NetOf(items: seq<OfferItem>): real {
    if |items| == 0 then 0.0 else IncludedCost(items[0]) + NetOf(items[1..])
  }

  lemma {:induction false} SumCostsPrepend(item: OfferItem, items: seq<OfferItem>)
    ensures SumCosts([item] + items) == CostOrZero(item.cost) + SumCosts(items)
    decreases |items|
  {
    if |items| > 0 {
      var n := |items| - 1;
      SumCostsPrepend(item, items[..n]);
      assert ([item] + items)[..n + 1] == [item] + items[..n];
    }
  }

  /** Filtering and then summing is summing the included costs. */
  lemma {:induction false} FilterThenSum(items: seq<OfferItem>)
    ensures SumCosts(Included(items)) == NetOf(items)
  {
    if |items| > 0 {
      FilterThenSum(items[1..]);
      if items[0].included {
        SumCostsPrepend(items[0], Included(items[1..]));
      }
    }
  }

  /** The VAT, rounded to whole złoty, and the gross price on a net price. */
  function TotalsOf(net: real, vatRate: real): (r: Totals)
    ensures r.net == net
    ensures net * vatRate / 100.0 - 0.5 < r.vat as real <= net * vatRate / 100.0 + 0.5
    ensures r.gross == net + r.vat as real
  {
    var vat := Round(net * (vatRate / 100.0));
    assert net * (vatRate / 100.0) == net * vatRate / 100.0;
    Totals(net, vat, net + vat as real)
  }

  /** `calculateTotals`. The active variant must exist: the page reads its
      items without a check. */
  function CalculateTotals(variants: seq<OfferVariant>, activeVariant: int, vatRate: real): (r: Totals)
    requires 0 <= activeVariant < |variants|
    ensures r == TotalsOf(NetOf(variants[activeVariant].items), vatRate)
  {
    var items := variants[activeVariant].items;
    FilterThenSum(items);
    TotalsOf(SumCosts(Included(items)), vatRate)
  }

  /** The net price of two lists is the sum of their net prices. */
  lemma {:induction false} NetAdditive(a: seq<OfferItem>, b: seq<OfferItem>)
    ensures NetOf(a + b) == NetOf(a) + NetOf(b)
  {
    if |a| > 0 {
      NetAdditive(a[1..], b);
      assert (a + b)[1..] == a[1..] + b;
    } else {
      assert a + b == b;
    }
  }

  /** An excluded item adds nothing to the net price. */
  lemma ExcludedItemAddsNothing(items: seq<OfferItem>, k: nat, item: OfferItem)
    requires k <= |items| && !item.included
    ensures NetOf(items[..k] + [item] + items[k..]) == NetOf(items)
  {
    NetAdditive(items[..k] + [item], items[k..]);
    NetAdditive(items[..k], [item]);
    NetAdditive(items[..k], items[k..]);
    assert NetOf([item]) == 0.0;
    assert items[..k] + items[k..] == items;
  }

  /** An item that is not included never changes the totals, whatever its
      cost, wherever it is added. */
  lemma ExcludedItemIgnored(variants: seq<OfferVariant>, activeVariant: int, vatRate: real,
                            k: nat, item: OfferItem)
    requires 0 <= activeVariant < |variants|
    requires k <= |variants[activeVariant].items|
    requires !item.included
    ensures var v := variants[activeVariant];
      var items := v.items[..k] + [item] + v.items[k..];
      CalculateTotals(variants[activeVariant := v.(items := items)], activeVariant, vatRate)
        == CalculateTotals(variants, activeVariant, vatRate)
  {
    var v := variants[activeVariant];
    ExcludedItemAddsNothing(v.items, k, item);
    var items := v.items[..k] + [item] + v.items[k..];
    var changed := variants[activeVariant := v.(items := items)];
    assert changed[activeVariant].items == items;
  }

  /** Only the active variant is priced: every other variant may change
      freely. */
  lemma OtherVariantsIgnored(variants: seq<OfferVariant>, activeVariant: int, vatRate: real,
                             j: int, other: OfferVariant)
    requires 0 <= activeVariant < |variants|
    requires 0 <= j < |variants| && j != activeVariant
    ensures CalculateTotals(variants[j := other], activeVariant, vatRate) == CalculateTotals(variants, activeVariant, vatRate)
  {
  }

  lemma {:induction false} NetNonNegative(items: seq<OfferItem>)
    requires forall k :: 0 <= k < |items| ==> CostOrZero(items[k].cost) >= 0.0
    ensures NetOf(items) >= 0.0
  {
    if |items| > 0 {
      NetNonNegative(items[1..]);
    }
  }

  /** With no negative cost and no negative rate, the net price is not
      negative and the gross price is not below it. */
  lemma GrossCoversNet(variants: seq<OfferVariant>, activeVariant: int, vatRate: real)
    requires 0 <= activeVariant < |variants|
    requires forall k :: 0 <= k < |variants[activeVariant].items| ==>
      CostOrZero(variants[activeVariant].items[k].cost) >= 0.0
    requires vatRate >= 0.0
    ensures var r := CalculateTotals(variants, activeVariant, vatRate); 0.0 <= r.net <= r.gross
  {
    var r := CalculateTotals(variants, activeVariant, vatRate);
    NetNonNegative(variants[activeVariant].items);
    MulNonNegative(r.net, vatRate);
  }
}

=== FILE: ordered_power.dfy ===
/** Ordered hot-water power with a storage tank: `calcOrderedPowerCWU`
    (`src/lib/calc/calcOrderedPowerCWU.ts`) and its copy inside the simple
    ordered-power panel, `calculateCwuWithTank`
    (`src/components/CwuSimpleOrderedPowerPanel.tsx`).

    The demand of the residents gives an average and a peak hourly draw; the
    tank's usable energy spread over the peak lowers the peak power, but the
    source never drops below the average power. */
module OrderedPower {
  import opened Outcomes
  import opened Numbers

  /** Specific heat of water in these two calculators, kJ/(kg K). */
  const WaterHeat: real := 4.19
  /** kWh to heat one cubic metre by one kelvin. */
  const TankHeat: real := 1.163

  /** Every field of the calculator's input. */
  datatype TankInput = TankInput(
    flats: real, personsPerFlat: real, litresPerPersonDay: real,
    hoursPerDay: real, peakFactor: real, coldC: real, hotC: real,
    tankLitres: real, tankEfficiency: real, peakHours: real)

  /** The input as the caller passes it: a missing field is `None`. */
  datatype PartialTankInput = PartialTankInput(
    flats: Option<real>, personsPerFlat: Option<real>, litresPerPersonDay: Option<real>,
    hoursPerDay: Option<real>, peakFactor: Option<real>, coldC: Option<real>, hotC: Option<real>,
    tankLitres: Option<real>, tankEfficiency: Option<real>, peakHours: Option<real>)

  /** The defaults of `calcOrderedPowerCWU`: 88 flats of 1.5 persons using
      110 litres a day over 18 hours, peak factor 2.5, water heated from 10
      to 55 degrees, a 1000-litre tank used at 80 % over a half-hour peak. */
  const Defaults := TankInput(88.0, 1.5, 110.0, 18.0, 2.5, 10.0, 55.0, 1000.0, 0.8, 0.5)

  /** Fills every missing field with its default. */
  function WithDefaults(p: PartialTankInput): (r: TankInput)
    ensures p.flats.Some? ==> r.flats == p.flats.value
    ensures p.flats.None? ==> r.flats == Defaults.flats
    ensures p.hoursPerDay.Some? ==> r.hoursPerDay == p.hoursPerDay.value
    ensures p.hoursPerDay.None? ==> r.hoursPerDay == Defaults.hoursPerDay
    ensures p.tankLitres.Some? ==> r.tankLitres == p.tankLitres.value
    ensures p.tankLitres.None? ==> r.tankLitres == Defaults.tankLitres
    ensures p.peakHours.Some? ==> r.peakHours == p.peakHours.value
    ensures p.peakHours.None? ==> r.peakHours == Defaults.peakHours
  {
    TankInput(
      p.flats.GetOr(Defaults.flats), p.personsPerFlat.GetOr(Defaults.personsPerFlat),
      p.litresPerPersonDay.GetOr(Defaults.litresPerPersonDay), p.hoursPerDay.GetOr(Defaults.hoursPerDay),
      p.peakFactor.GetOr(Defaults.peakFactor), p.coldC.GetOr(Defaults.coldC), p.hotC.GetOr(Defaults.hotC),
      p.tankLitres.GetOr(Defaults.tankLitres), p.tankEfficiency.GetOr(Defaults.tankEfficiency),
      p.peakHours.GetOr(Defaults.peakHours))
  }

  /** The input calls for no division by zero. */
  predicate Divisible(i: TankInput) {
    i.hoursPerDay != 0.0 && i.peakHours != 0.0
  }

  /** The result. Hourly draws and powers are `Num`s: a zero working time or
      peak time divides by zero and the source carries the infinity or NaN
      on. */
  datatype TankResult = TankResult(
    persons: real, dailyLitres: real, avgLitresPerHour: Num, maxLitresPerHour: Num,
    maxPowerKw: Num, avgPowerKw: Num, tankKwh: real, tankPowerKw: Num, requiredPowerKw: Num)

  /** Litres to cubic metres. */
  function CubicMetres(litres: Num): (r: Num)
    ensures litres.Finite? ==> r.Finite? && r.v * 1000.0 == litres.v
    ensures !litres.Finite? ==> r == litres
  {
    if litres.Finite? then Finite(litres.v / 1000.0) else litres
  }

  /** CubicMetres is the IEEE division by 1000. */
  lemma CubicMetresIsDivision(litres: Num)
    ensures CubicMetres(litres) == NumDiv(litres, Finite(1000.0))
  {
  }

  /** Heat power of an hourly draw in cubic metres, kW: to kilograms per
      second, times the heat of water and the lift. An infinite draw gives
      the infinity of the lift's sign, or NaN with no lift. */
  function FlowPower(m3PerHour: Num, deltaT: real): (r: Num)
    ensures m3PerHour.Finite? ==> r == Finite(m3PerHour.v * 1000.0 / 3600.0 * WaterHeat * deltaT)
    ensures m3PerHour.NaN? ==> r == NaN
    ensures m3PerHour == PosInf && deltaT > 0.0 ==> r == PosInf
  {
    if m3PerHour.Finite? then Finite(m3PerHour.v * 1000.0 / 3600.0 * WaterHeat * deltaT)
    else NumMul(m3PerHour, Finite(deltaT))
  }

  /** FlowPower is the chain of IEEE operations the source writes. */
  lemma FlowPowerIsChain(m3PerHour: Num, deltaT: real)
    ensures FlowPower(m3PerHour, deltaT)
      == NumMul(NumMul(NumDiv(NumMul(m3PerHour, Finite(1000.0)), Finite(3600.0)), Finite(WaterHeat)), Finite(deltaT))
  {
  }

  /** Heat power of an hourly draw in litres, kW. */
  function DrawPower(litresPerHour: Num, deltaT: real): (r: Num)
    ensures litresPerHour.Finite? ==> r == Finite(litresPerHour.v / 3600.0 * WaterHeat * deltaT)
    ensures litresPerHour.NaN? ==> r == NaN
    ensures litresPerHour == PosInf && deltaT > 0.0 ==> r == PosInf
  {
    var m3 := CubicMetres(litresPerHour);
    if m3.Finite? then
      assert m3.v * 1000.0 / 3600.0 == litresPerHour.v / 3600.0;
      FlowPower(m3, deltaT)
    else FlowPower(m3, deltaT)
  }

  /** The power of a finite draw scales with the draw. */
  lemma DrawPowerScales(k: real, q: real, deltaT: real)
    ensures DrawPower(Finite(k * q), deltaT).v == k * DrawPower(Finite(q), deltaT).v
  {
    assert k * q / 3600.0 == k * (q / 3600.0);
    assert k * (q / 3600.0) * WaterHeat * deltaT == k * (q / 3600.0 * WaterHeat * deltaT);
  }

  /** The energy the tank holds between the two temperatures, kWh. */
  function TankEnergy(i: TankInput): real {
    TankHeat * (i.tankLitres / 1000.0) * (i.hotC - i.coldC)
  }

  /** The usable energy of the tank spread over the peak, kW. */
  function TankPower(i: TankInput): (r: Num)
    ensures i.peakHours != 0.0 ==> r.Finite? && r.v * i.peakHours == i.tankEfficiency * TankEnergy(i)
    ensures i.peakHours == 0.0 ==>
      (r == NaN <==> i.tankEfficiency * TankEnergy(i) == 0.0)
      && (i.tankEfficiency * TankEnergy(i) > 0.0 ==> r == PosInf)
      && (i.tankEfficiency * TankEnergy(i) < 0.0 ==> r == NegInf)
  {
    NumDiv(Finite(i.tankEfficiency * TankEnergy(i)), Finite(i.peakHours))
  }

  function DailyLitres(i: TankInput): real {
    i.flats * i.personsPerFlat * i.litresPerPersonDay
  }

  /** The average hourly draw, litres. */
  function AvgDraw(i: TankInput): (r: Num)
    ensures i.hoursPerDay != 0.0 ==> r.Finite? && r.v * i.hoursPerDay == DailyLitres(i)
    ensures i.hoursPerDay == 0.0 ==>
      (r == NaN <==> DailyLitres(i) == 0.0)
      && (DailyLitres(i) > 0.0 ==> r == PosInf)
      && (DailyLitres(i) < 0.0 ==> r == NegInf)
  {
    NumDiv(Finite(DailyLitres(i)), Finite(i.hoursPerDay))
  }

  /** The peak hourly draw: the peak factor times the average. */
  function MaxDraw(i: TankInput): (r: Num)
    ensures AvgDraw(i).Finite? ==> r == Finite(i.peakFactor * AvgDraw(i).v)
    ensures AvgDraw(i).NaN? ==> r == NaN
    ensures AvgDraw(i) == PosInf && i.peakFactor > 0.0 ==> r == PosInf
  {
    NumMul(Finite(i.peakFactor), AvgDraw(i))
  }

  /** `Math.max(Phi_sr_kW, Phi_max_kW - Phi_z_kW)`. */
  function Required(avgPower: Num, maxPower: Num, tankPower: Num): (r: Num)
    ensures avgPower.Finite? && maxPower.Finite? && tankPower.Finite? ==>
      r.Finite? && r.v >= avgPower.v && r.v >= maxPower.v - tankPower.v
      && (r.v == avgPower.v || r.v == maxPower.v - tankPower.v)
    ensures avgPower.Finite? && maxPower.Finite? && tankPower == PosInf ==> r == avgPower
    ensures avgPower == PosInf && maxPower == PosInf && tankPower.Finite? ==> r == PosInf
    ensures avgPower.NaN? ==> r == NaN
  {
    NumMax(avgPower, NumSub(maxPower, tankPower))
  }

  /** What the shared calculation promises of its result for an input: the
      persons and daily draw, the average draw over the working time and the
      peak draw the peak factor times it, the tank's energy and power, and,
      when nothing divides by zero, a required power that is the average
      power or the peak power less the tank's, whichever is larger. A zero
      working time makes the average draw NaN without demand and an
      infinity of the demand's sign with it. */
  predicate Calculated(i: TankInput, r: TankResult) {
    r.persons == i.flats * i.personsPerFlat
    && r.dailyLitres == r.persons * i.litresPerPersonDay
    && DrawsCalculated(i, r)
    && r.tankKwh == TankHeat * (i.tankLitres / 1000.0) * (i.hotC - i.coldC)
    && r.tankPowerKw == TankPower(i)
    && (Divisible(i) ==> RequiredCalculated(r))
  }

  predicate DrawsCalculated(i: TankInput, r: TankResult) {
    (i.hoursPerDay != 0.0 ==>
       r.avgLitresPerHour.Finite? && r.avgLitresPerHour.v * i.hoursPerDay == r.dailyLitres
       && r.maxLitresPerHour == Finite(i.peakFactor * r.avgLitresPerHour.v)
       && r.avgPowerKw.Finite? && r.maxPowerKw == Finite(i.peakFactor * r.avgPowerKw.v))
    && (i.hoursPerDay == 0.0 ==>
          (r.avgLitresPerHour == NaN <==> r.dailyLitres == 0.0)
          && (r.dailyLitres > 0.0 ==> r.avgLitresPerHour == PosInf)
          && (r.dailyLitres < 0.0 ==> r.avgLitresPerHour == NegInf))
  }

  predicate RequiredCalculated(r: TankResult) {
    r.requiredPowerKw.Finite? && r.avgPowerKw.Finite? && r.maxPowerKw.Finite? && r.tankPowerKw.Finite?
    && r.requiredPowerKw.v >= r.avgPowerKw.v && r.requiredPowerKw.v >= r.maxPowerKw.v - r.tankPowerKw.v
    && (r.requiredPowerKw.v == r.avgPowerKw.v || r.requiredPowerKw.v == r.maxPowerKw.v - r.tankPowerKw.v)
  }

  /** The calculation both calculators share. */
  function Compute(i: TankInput): (r: TankResult)
    ensures Calculated(i, r)
  {
    CalculatedOf(i);
    ComputeFrom(i)
  }

  /** ComputeFrom meets what the shared calculation promises. */
  lemma CalculatedOf(i: TankInput)
    ensures Calculated(i, ComputeFrom(i))
  {
    DrawsOf(i);
    FieldsOf(i);
    if Divisible(i) {
      RequiredOf(i);
    }
  }

  /** The draws and powers of ComputeFrom, finite or not. */
  lemma DrawsOf(i: TankInput)
    ensures DrawsCalculated(i, ComputeFrom(i))
  {
    if i.hoursPerDay != 0.0 {
      DrawPowerScales(i.peakFactor, AvgDraw(i).v, i.hotC - i.coldC);
    }
  }

  /** The required power of ComputeFrom when nothing divides by zero. */
  lemma RequiredOf(i: TankInput)
    requires Divisible(i)
    ensures RequiredCalculated(ComputeFrom(i))
  {
    var r := ComputeFrom(i);
    assert r.avgPowerKw.Finite? && r.maxPowerKw.Finite? && r.tankPowerKw.Finite?;
  }

  /** The plain fields of ComputeFrom. */
  lemma FieldsOf(i: TankInput)
    ensures ComputeFrom(i).persons == i.flats * i.personsPerFlat
    ensures ComputeFrom(i).dailyLitres == ComputeFrom(i).persons * i.litresPerPersonDay
    ensures ComputeFrom(i).tankKwh == TankHeat * (i.tankLitres / 1000.0) * (i.hotC - i.coldC)
    ensures ComputeFrom(i).tankPowerKw == TankPower(i)
  {
    var r := ComputeFrom(i);
    assert r.persons == i.flats * i.personsPerFlat && r.dailyLitres == DailyLitres(i);
  }

  /** The fields of the result from the helpers above. */
  function ComputeFrom(i: TankInput): TankResult {
    TankResult(i.flats * i.personsPerFlat, DailyLitres(i), AvgDraw(i), MaxDraw(i),
               DrawPower(MaxDraw(i), i.hotC - i.coldC), DrawPower(AvgDraw(i), i.hotC - i.coldC),
               TankEnergy(i), TankPower(i),
               Required(DrawPower(AvgDraw(i), i.hotC - i.coldC), DrawPower(MaxDraw(i), i.hotC - i.coldC),
                        TankPower(i)))
  }

  /** `calcOrderedPowerCWU`: defaults for every missing field, then the
      shared calculation. */
  function CalcOrderedPowerCwu(p: PartialTankInput): (r: TankResult)
    ensures Calculated(WithDefaults(p), r)
  {
    Compute(WithDefaults(p))
  }

  /** A zero peak time spreads a tank holding energy over no time: its power
      is +Infinity, and the required power falls to the average power. */
  lemma ZeroPeakTimeNeedsAveragePower(i: TankInput)
    requires i.peakHours == 0.0 && i.hoursPerDay != 0.0 && i.tankEfficiency * TankEnergy(i) > 0.0
    ensures Compute(i).tankPowerKw == PosInf
    ensures Compute(i).requiredPowerKw == Compute(i).avgPowerKw && Compute(i).avgPowerKw.Finite?
  {
    var r := Compute(i);
    assert r.maxPowerKw.Finite?;
    assert NumSub(r.maxPowerKw, PosInf) == NegInf;
  }

  /** A zero working time with some demand, a positive peak factor and a
      positive lift asks for an infinite power. */
  lemma ZeroWorkingTimeNeedsInfinitePower(i: TankInput)
    requires i.hoursPerDay == 0.0 && i.peakHours != 0.0
    requires i.flats * i.personsPerFlat * i.litresPerPersonDay > 0.0
    requires i.peakFactor > 0.0 && i.hotC > i.coldC
    ensures Compute(i).avgLitresPerHour == PosInf
    ensures Compute(i).requiredPowerKw == PosInf
  {
    var r := Compute(i);
    assert r.avgLitresPerHour == PosInf;
    assert r.maxLitresPerHour == PosInf;
    assert r.avgPowerKw == PosInf;
  }

  /** No demand over a zero working time is 0 / 0: every draw and power
      after it is NaN. */
  lemma NoDemandOverNoTimeIsNaN(i: TankInput)
    requires i.hoursPerDay == 0.0 && i.flats * i.personsPerFlat * i.litresPerPersonDay == 0.0
    ensures Compute(i).avgLitresPerHour == NaN && Compute(i).requiredPowerKw == NaN
  {
    var r := Compute(i);
    assert r.avgPowerKw == NaN;
  }

  /** A larger tank never raises the required power when the tank's usable
      share, the temperature lift and the peak time are positive. */
  lemma LargerTankNeverRaisesPower(i: TankInput, j: TankInput)
    requires Divisible(i) && j == i.(tankLitres := j.tankLitres)
    requires i.tankLitres <= j.tankLitres
    requires i.tankEfficiency > 0.0 && i.hotC > i.coldC && i.peakHours > 0.0
    ensures Compute(j).requiredPowerKw.Finite? && Compute(i).requiredPowerKw.Finite?
    ensures Compute(j).requiredPowerKw.v <= Compute(i).requiredPowerKw.v
  {
    TankPowerMonotone(i, j);
    assert DailyLitres(i) == DailyLitres(j);
    assert AvgDraw(i) == AvgDraw(j);
    assert MaxDraw(i) == MaxDraw(j);
    var a, b := Compute(i), Compute(j);
    assert a.avgPowerKw == b.avgPowerKw && a.maxPowerKw == b.maxPowerKw;
    assert RequiredCalculated(a) && RequiredCalculated(b);
  }

  lemma TankPowerMonotone(i: TankInput, j: TankInput)
    requires j == i.(tankLitres := j.tankLitres) && i.tankLitres <= j.tankLitres
    requires i.tankEfficiency > 0.0 && i.hotC > i.coldC && i.peakHours > 0.0
    ensures TankPower(i).Finite? && TankPower(j).Finite?
    ensures TankPower(i).v <= TankPower(j).v
  {
    var deltaT := i.hotC - i.coldC;
    DivMonotone(i.tankLitres, j.tankLitres, 1000.0);
    MulMonotone(i.tankLitres / 1000.0, j.tankLitres / 1000.0, TankHeat);
    assert TankHeat * (i.tankLitres / 1000.0) <= TankHeat * (j.tankLitres / 1000.0);
    MulMonotone(TankHeat * (i.tankLitres / 1000.0), TankHeat * (j.tankLitres / 1000.0), deltaT);
    var ti := TankEnergy(i);
    var tj := TankEnergy(j);
    MulMonotone(ti, tj, i.tankEfficiency);
    assert i.tankEfficiency * ti <= i.tankEfficiency * tj;
    DivMonotone(i.tankEfficiency * ti, i.tankEfficiency * tj, i.peakHours);
    assert TankPower(i).v == i.tankEfficiency * ti / i.peakHours;
    assert TankPower(j).v == i.tankEfficiency * tj / i.peakHours;
  }

  /** With every default the tank covers the whole peak, so the required
      power is the average power, about 42.25 kW. */
  lemma DefaultsNeedAveragePower()
    ensures var r := CalcOrderedPowerCwu(PartialTankInput(None, None, None, None, None, None, None, None, None, None));
      r.persons == 132.0 && r.dailyLitres == 14520.0 && r.avgPowerKw.Finite?
      && r.requiredPowerKw == r.avgPowerKw && 42.24 < r.requiredPowerKw.v < 42.26
  {
    var i := Defaults;
    var r := Compute(i);
    assert r.avgLitresPerHour == Finite(14520.0 / 18.0);
    assert r.avgPowerKw == Finite(14520.0 / 18.0 / 3600.0 * WaterHeat * 45.0);
    assert r.maxPowerKw == Finite(2.5 * (14520.0 / 18.0 / 3600.0 * WaterHeat * 45.0));
    assert r.tankPowerKw == Finite(0.8 * (TankHeat * 1.0 * 45.0) / 0.5);
  }

  // ---------------------------------------------------------------------
  // The simple ordered-power panel
  // ---------------------------------------------------------------------

  datatype PanelResult = PanelResult(
    persons: real, dailyLitres: real, dailyM3: real,
    avgLitresPerHour: Num, avgM3PerHour: Num,
    maxLitresPerHour: Num, maxM3PerHour: Num,
    avgPowerKw: Num, maxPowerKw: Num, tankKwh: real, tankPowerKw: Num, requiredPowerKw: Num)

  /** `calculateCwuWithTank`: the panel's own copy of the calculation, which
      also reports the volumes in cubic metres. */
  function CalculateCwuWithTank(i: TankInput): (r: PanelResult)
    ensures r.dailyM3 * 1000.0 == r.dailyLitres
    ensures i.hoursPerDay != 0.0 ==>
      r.avgLitresPerHour.Finite? && r.avgM3PerHour.Finite? && r.avgM3PerHour.v * 1000.0 == r.avgLitresPerHour.v
    ensures i.hoursPerDay != 0.0 ==>
      r.maxLitresPerHour.Finite? && r.maxM3PerHour.Finite? && r.maxM3PerHour.v * 1000.0 == r.maxLitresPerHour.v
    ensures Divisible(i) ==>
      r.requiredPowerKw.Finite? && r.avgPowerKw.Finite? && r.requiredPowerKw.v >= r.avgPowerKw.v
  {
    var deltaT := i.hotC - i.coldC;
    var avgPower := FlowPower(CubicMetres(AvgDraw(i)), deltaT);
    var maxPower := FlowPower(CubicMetres(MaxDraw(i)), deltaT);
    PanelResult(i.flats * i.personsPerFlat, DailyLitres(i), DailyLitres(i) / 1000.0,
                AvgDraw(i), CubicMetres(AvgDraw(i)), MaxDraw(i), CubicMetres(MaxDraw(i)),
                avgPower, maxPower, TankEnergy(i), TankPower(i), Required(avgPower, maxPower, TankPower(i)))
  }

  /** The panel and the library calculator agree on every quantity they both
      report, whatever the input, divisions by zero included. */
  lemma PanelAgreesWithCalculator(i: TankInput)
    ensures var a := CalculateCwuWithTank(i);
      var b := Compute(i);
      a.persons == b.persons && a.dailyLitres == b.dailyLitres
      && a.avgLitresPerHour == b.avgLitresPerHour && a.maxLitresPerHour == b.maxLitresPerHour
      && a.avgPowerKw == b.avgPowerKw && a.maxPowerKw == b.maxPowerKw
      && a.tankKwh == b.tankKwh && a.tankPowerKw == b.tankPowerKw
      && a.requiredPowerKw == b.requiredPowerKw
  {
  }
}

=== FILE: outcomes.dfy ===
/** Failure-aware return values shared by every module of the model.
    `Option` stands for the source's `null`/`undefined`/`None`, and `Result`
    for a value-or-raised-error, where the error value names the check that failed. */
module Outcomes {

  datatype Option<+T> = None | Some(value: T) {

    /** The wrapped value, or `default` when absent (`x ?? default`). */
    function GetOr(default: T): (r: T)
      ensures Some? ==> r == value
      ensures None? ==> r == default
    {
      match this
      case Some(v) => v
      case None => default
    }
  }

  datatype Result<+T, +E> = Ok(value: T) | Err(error: E) {

    predicate IsFailure() {
      Err?
    }

    function PropagateFailure<U>(): Result<U, E>
      requires Err?
    {
      Err(error)
    }

    function Extract(): T
      requires Ok?
    {
      value
    }
  }
}

=== FILE: peak_flow.dfy ===
/** `calcPeakFlow` (`src/lib/calc/calcPeakFlow.ts`): the peak hot-water draw
    of a building in litres per minute, from the number of flats, a unit draw
    per flat and a simultaneity factor. */
module PeakFlow {

  /** Unit draw per flat, L/min: 16 with bathtubs, else 12. */
  function UnitFlow(hasBathtubs: bool): (r: real)
    ensures hasBathtubs <==> r == 16.0
    ensures r == 16.0 || r == 12.0
  {
    if hasBathtubs then 16.0 else 12.0
  }

  /** Simultaneity factor: 0.20 above 40 flats, else 0.25. */
  function Phi(apartments: real): (r: real)
    ensures r == 0.20 <==> apartments > 40.0
    ensures r == 0.20 || r == 0.25
  {
    if apartments > 40.0 then 0.20 else 0.25
  }

  /** `calcPeakFlow`: flats times unit draw times simultaneity factor. */
  function CalcPeakFlow(apartments: real, hasBathtubs: bool): (r: real)
    ensures apartments >= 0.0 ==> r >= 0.0
  {
    var u := UnitFlow(hasBathtubs);
    var f := Phi(apartments);
    assert apartments >= 0.0 ==> apartments * u >= 0.0;
    assert apartments >= 0.0 ==> apartments * u * f >= 0.0;
    apartments * u * f
  }

  /** Bathtubs never lower the peak of a building. */
  lemma BathtubsNeverLowerPeak(apartments: real)
    requires apartments >= 0.0
    ensures CalcPeakFlow(apartments, false) <= CalcPeakFlow(apartments, true)
  {
    var f := Phi(apartments);
    assert apartments * 12.0 <= apartments * 16.0;
    assert apartments * 12.0 * f <= apartments * 16.0 * f;
  }

  /** The step in the factor makes the peak fall when the building grows past
      40 flats: 40 flats draw 120 L/min and 41 draw 98.4 L/min. */
  lemma PeakNotMonotoneInFlats()
    ensures CalcPeakFlow(40.0, false) == 120.0
    ensures CalcPeakFlow(41.0, false) == 98.4
    ensures CalcPeakFlow(41.0, false) < CalcPeakFlow(40.0, false)
  {
  }

  /** On either side of the step the peak grows with the number of flats. */
  lemma PeakMonotoneWithinBand(a: real, b: real, hasBathtubs: bool)
    requires 0.0 <= a <= b && (b <= 40.0 || a > 40.0)
    ensures CalcPeakFlow(a, hasBathtubs) <= CalcPeakFlow(b, hasBathtubs)
  {
    var k := UnitFlow(hasBathtubs) * Phi(a);
    assert Phi(a) == Phi(b);
    assert a * UnitFlow(hasBathtubs) * Phi(a) == a * k;
    assert b * UnitFlow(hasBathtubs) * Phi(b) == b * k;
    assert a * k <= b * k;
  }
}

=== FILE: power_panel.dfy ===
/** The ordered-power panel (`src/components/CwuOrderedPowerPanel.tsx`):
    `obliczMocZamowionaCwu`, which sizes the ordered power from the peak draw
    of the residents, the circulation loss and a safety margin, rounded up to
    whole 5 kW, and the panel's `validate` rule set. */
module PowerPanel {
  import opened Outcomes
  import opened Numbers

  /** kWh to heat one cubic metre by one kelvin, as this panel rounds it. */
  const PanelHeat: real := 1.16

  datatype PanelInput = PanelInput(
    flats: real, personsPerFlat: real, peakLitresPerPersonHour: real,
    hotC: real, coldC: real, circulationLossPct: real, safetyMarginPct: real)

  datatype PanelResult = PanelResult(
    peakM3PerHour: real, heatingKw: real, circulationKw: real, totalKw: real, orderedKw: int)

  /** `obliczMocZamowionaCwu`. */
  function OrderedPower(i: PanelInput): (r: PanelResult)
    ensures r.peakM3PerHour * 1000.0 == i.flats * i.personsPerFlat * i.peakLitresPerPersonHour
    ensures r.heatingKw == PanelHeat * r.peakM3PerHour * (i.hotC - i.coldC)
    ensures r.circulationKw == r.heatingKw * (i.circulationLossPct / 100.0)
    ensures r.totalKw == r.heatingKw + r.circulationKw
    ensures r.orderedKw % 5 == 0
    ensures var need := r.totalKw * (1.0 + i.safetyMarginPct / 100.0);
      need <= r.orderedKw as real < need + 5.0
  {
    var peak := i.flats * i.personsPerFlat * i.peakLitresPerPersonHour / 1000.0;
    var heating := PanelHeat * peak * (i.hotC - i.coldC);
    var circulation := heating * (i.circulationLossPct / 100.0);
    var total := heating + circulation;
    var need := total * (1.0 + i.safetyMarginPct / 100.0);
    var steps := Ceil(need / 5.0);
    assert need / 5.0 * 5.0 == need;
    MulMonotone(need / 5.0, steps as real, 5.0);
    assert steps as real < need / 5.0 + 1.0;
    PanelResult(peak, heating, circulation, total, steps * 5)
  }

  /** The fields `validate` can reject. */
  datatype Field = Flats | Persons | PeakUse | HotTemp | ColdTemp | CirculationLoss | SafetyMargin

  /** `validate` as written. A falsy value fails the first four positivity
      checks, and the cold-water check also starts with a falsy test, so a
      cold-water temperature of exactly 0 is rejected although its message
      asks only for a value of at least 0. */
  function ValidateAsWritten(i: PanelInput): (r: set<Field>)
    ensures ColdTemp in r <==> i.coldC <= 0.0
    ensures Flats in r <==> i.flats <= 0.0
    ensures HotTemp in r <==> i.hotC <= 0.0 || i.hotC <= i.coldC
  {
    (if i.flats == 0.0 || i.flats <= 0.0 then {Flats} else {})
    + (if i.personsPerFlat == 0.0 || i.personsPerFlat <= 0.0 then {Persons} else {})
    + (if i.peakLitresPerPersonHour == 0.0 || i.peakLitresPerPersonHour <= 0.0 then {PeakUse} else {})
    + (if i.hotC == 0.0 || i.hotC <= 0.0 then {HotTemp} else {})
    + (if i.coldC == 0.0 || i.coldC < 0.0 then {ColdTemp} else {})
    + (if i.hotC <= i.coldC then {HotTemp} else {})
    + (if i.circulationLossPct < 0.0 then {CirculationLoss} else {})
    + (if i.safetyMarginPct < 0.0 then {SafetyMargin} else {})
  }

  /** Water straight from a 0-degree main with 55-degree hot water fails
      validation as written. */
  lemma FreezingColdWaterRejected()
    ensures ValidateAsWritten(PanelInput(50.0, 2.7, 30.0, 55.0, 0.0, 20.0, 15.0)) == {ColdTemp}
  {
  }

  /** The rule set with the cold-water check the message describes: counts
      and the hot-water temperature must be positive, the cold-water
      temperature non-negative and below the hot one, loss and margin
      non-negative. */
  function Validate(i: PanelInput): (r: set<Field>)
    ensures Flats in r <==> i.flats <= 0.0
    ensures Persons in r <==> i.personsPerFlat <= 0.0
    ensures PeakUse in r <==> i.peakLitresPerPersonHour <= 0.0
    ensures HotTemp in r <==> i.hotC <= 0.0 || i.hotC <= i.coldC
    ensures ColdTemp in r <==> i.coldC < 0.0
    ensures CirculationLoss in r <==> i.circulationLossPct < 0.0
    ensures SafetyMargin in r <==> i.safetyMarginPct < 0.0
  {
    (if i.flats <= 0.0 then {Flats} else {})
    + (if i.personsPerFlat <= 0.0 then {Persons} else {})
    + (if i.peakLitresPerPersonHour <= 0.0 then {PeakUse} else {})
    + (if i.hotC <= 0.0 || i.hotC <= i.coldC then {HotTemp} else {})
    + (if i.coldC < 0.0 then {ColdTemp} else {})
    + (if i.circulationLossPct < 0.0 then {CirculationLoss} else {})
    + (if i.safetyMarginPct < 0.0 then {SafetyMargin} else {})
  }

  /** The two rule sets differ only on a cold-water temperature of 0. */
  lemma ValidateDiffersOnlyAtZero(i: PanelInput)
    ensures i.coldC != 0.0 ==> Validate(i) == ValidateAsWritten(i)
    ensures i.coldC == 0.0 ==> ValidateAsWritten(i) == Validate(i) + {ColdTemp}
  {
    var a, b := ValidateAsWritten(i), Validate(i);
    forall f | f in a ensures f in b || (i.coldC == 0.0 && f == ColdTemp) {
      match f
      case Flats =>
      case Persons =>
      case PeakUse =>
      case HotTemp =>
      case ColdTemp =>
      case CirculationLoss =>
      case SafetyMargin =>
    }
    if i.coldC != 0.0 {
      assert a == b;
    }
  }

  /** `handleSubmit` with the corrected rule set: a result only for input
      that passes validation. */
  function Submit(i: PanelInput): (r: Option<PanelResult>)
    ensures r.Some? <==> Validate(i) == {}
    ensures r.Some? ==> r.value == OrderedPower(i)
  {
    if Validate(i) == {} then Some(OrderedPower(i)) else None
  }

  /** `handleSubmit` as written: a result only for input that passes the
      rule set as written. */
  function SubmitAsWritten(i: PanelInput): (r: Option<PanelResult>)
    ensures r.Some? <==> ValidateAsWritten(i) == {}
    ensures r.Some? ==> r.value == OrderedPower(i)
  {
    if ValidateAsWritten(i) == {} then Some(OrderedPower(i)) else None
  }

  /** The two submit handlers agree except on a cold-water temperature of
      0, where only the corrected one can show a result. */
  lemma SubmitDiffersOnlyAtZero(i: PanelInput)
    ensures i.coldC != 0.0 ==> SubmitAsWritten(i) == Submit(i)
    ensures i.coldC == 0.0 ==> SubmitAsWritten(i).None?
  {
    ValidateDiffersOnlyAtZero(i);
  }

  /** A 0-degree main with 55-degree hot water gets no ordered power as
      written, and gets one from the corrected handler. */
  lemma FreezingColdWaterGetsNoResult()
    ensures SubmitAsWritten(PanelInput(50.0, 2.7, 30.0, 55.0, 0.0, 20.0, 15.0)).None?
    ensures Submit(PanelInput(50.0, 2.7, 30.0, 55.0, 0.0, 20.0, 15.0)).Some?
  {
    var i := PanelInput(50.0, 2.7, 30.0, 55.0, 0.0, 20.0, 15.0);
    FreezingColdWaterRejected();
    ValidateDiffersOnlyAtZero(i);
    assert Validate(i) == {};
  }

  /** Whatever the panel shows orders at least 5 kW and no less than the
      heating power with its circulation loss. */
  lemma SubmittedPowerCoversDemand(i: PanelInput)
    requires Submit(i).Some?
    ensures var r := Submit(i).value;
      r.heatingKw > 0.0 && r.orderedKw >= 5 && r.orderedKw as real >= r.totalKw >= r.heatingKw
  {
    assert Flats !in Validate(i) && Persons !in Validate(i) && PeakUse !in Validate(i);
    assert HotTemp !in Validate(i) && CirculationLoss !in Validate(i) && SafetyMargin !in Validate(i);
    var r := OrderedPower(i);
    MulPositive(i.flats, i.personsPerFlat);
    MulPositive(i.flats * i.personsPerFlat, i.peakLitresPerPersonHour);
    MulPositive(PanelHeat, r.peakM3PerHour);
    MulPositive(PanelHeat * r.peakM3PerHour, i.hotC - i.coldC);
    MulNonNegative(r.heatingKw, i.circulationLossPct / 100.0);
    MulMonotone(1.0, 1.0 + i.safetyMarginPct / 100.0, r.totalKw);
  }
}

=== FILE: quick_estimate.dfy ===
/** The contractor's quick estimate (`src/app/wykonawcy/SzybkaWycenaWizard.tsx`):
    a building described by a few figures, a scope of work ticked in four
    groups of options, and the material and labour cost that follow from
    fixed rates. */
module QuickEstimate {
  import opened Outcomes
  import opened Numbers

  /** The building figures of the first step. The installation type and the
      circulation answer are collected but never priced, so they are left out. */
  datatype BuildingForm = BuildingForm(
    flats: real,
    risers: real,
    floors: real,
    yearBuilt: real,
    levelLength: Option<real>)

  /** The four groups of ticked options and the "optimal variant" switch. */
  datatype Scope = Scope(
    replacement: seq<string>,
    insulation: seq<string>,
    modernisation: seq<string>,
    extras: seq<string>,
    optimalVariant: bool)

  datatype Estimate = Estimate(materialCost: real, laborCost: real, totalCost: real)

  const RisersReplacement := "Wymiana pionów CWU"
  const CirculationReplacement := "Wymiana cyrkulacji"
  const BasementLevelsReplacement := "Wymiana poziomów piwnicznych"
  const FlatConnectionsReplacement := "Wymiana podejść do mieszkań"

  const EmptyScope := Scope([], [], [], [], false)

  /** `formData.levelLength` read as a condition: absent and zero are false. */
  predicate LevelLengthGiven(f: BuildingForm) {
    f.levelLength.Some? && f.levelLength.value != 0.0
  }

  /** A material and a labour rate applied to a quantity when the option is
      ticked. */
  function Priced(ticked: bool, quantity: real, materialRate: real, laborRate: real): (r: (real, real))
    ensures !ticked ==> r == (0.0, 0.0)
    ensures 0.0 <= laborRate <= materialRate && quantity >= 0.0 ==> 0.0 <= r.1 <= r.0
  {
    if ticked then
      assert 0.0 <= laborRate <= materialRate && quantity >= 0.0 ==>
        0.0 <= quantity * laborRate <= quantity * materialRate by {
        if 0.0 <= laborRate <= materialRate && quantity >= 0.0 {
          MulMonotone(laborRate, materialRate, quantity);
          MulNonNegative(laborRate, quantity);
        }
      }
      (quantity * materialRate, quantity * laborRate)
    else (0.0, 0.0)
  }

  /** Ticking an option and a larger quantity never lower its price. */
  lemma PricedMonotone(t1: bool, t2: bool, q1: real, q2: real, materialRate: real, laborRate: real)
    requires t1 ==> t2
    requires 0.0 <= q1 <= q2 && materialRate >= 0.0 && laborRate >= 0.0
    ensures var a, b := Priced(t1, q1, materialRate, laborRate), Priced(t2, q2, materialRate, laborRate);
      a.0 <= b.0 && a.1 <= b.1
  {
    MulMonotone(q1, q2, materialRate);
    MulMonotone(q1, q2, laborRate);
    MulNonNegative(q2, materialRate);
    MulNonNegative(q2, laborRate);
  }

  /** The rates for a group priced by how many of its options are ticked. */
  function PerOption(options: seq<string>, materialRate: real, laborRate: real): (real, real) {
    Priced(|options| > 0, |options| as real, materialRate, laborRate)
  }

  /** The priced parts of an estimate, as (material, labour) pairs: the
      riser and circulation replacements priced per riser, the basement
      levels per metre when a length is given, the flat connections per
      flat, the three other groups per ticked option, and a fixed amount per
      floor. */
  function Parts(f: BuildingForm, scope: Scope): (r: seq<(real, real)>)
    ensures |r| == 8
    ensures r[7] == (f.floors * 500.0, f.floors * 200.0)
    ensures NonNegativeForm(f) ==> forall k :: 0 <= k < |r| ==> 0.0 <= r[k].1 <= r[k].0
  {
    var length := if LevelLengthGiven(f) then f.levelLength.value else 0.0;
    var r := [Priced(RisersReplacement in scope.replacement, f.risers, 1200.0, 600.0),
              Priced(CirculationReplacement in scope.replacement, f.risers, 900.0, 500.0),
              Priced(BasementLevelsReplacement in scope.replacement && LevelLengthGiven(f), length, 100.0, 80.0),
              Priced(FlatConnectionsReplacement in scope.replacement, f.flats, 800.0, 400.0),
              PerOption(scope.insulation, 1200.0, 600.0),
              PerOption(scope.modernisation, 1500.0, 800.0),
              PerOption(scope.extras, 500.0, 300.0),
              Priced(true, f.floors, 500.0, 200.0)];
    assert NonNegativeForm(f) ==> forall k :: 0 <= k < 8 ==> 0.0 <= r[k].1 <= r[k].0 by {
      if NonNegativeForm(f) {
        forall k | 0 <= k < 8 ensures 0.0 <= r[k].1 <= r[k].0 {
          if k == 0 {} else if k == 1 {} else if k == 2 {} else if k == 3 {}
          else if k == 4 {} else if k == 5 {} else if k == 6 {}
        }
      }
    }
    r
  }

  function MaterialSum(parts: seq<(real, real)>): real {
    if |parts| == 0 then 0.0 else MaterialSum(parts[..|parts| - 1]) + parts[|parts| - 1].0
  }

  function LaborSum(parts: seq<(real, real)>): real {
    if |parts| == 0 then 0.0 else LaborSum(parts[..|parts| - 1]) + parts[|parts| - 1].1
  }

  /** Parts whose labour is non-negative and below their material add up
      the same way, and each part is at most the whole. */
  lemma {:induction false} SumsOfBoundedParts(parts: seq<(real, real)>)
    requires forall k :: 0 <= k < |parts| ==> 0.0 <= parts[k].1 <= parts[k].0
    ensures 0.0 <= LaborSum(parts) <= MaterialSum(parts)
    ensures forall k :: 0 <= k < |parts| ==> parts[k].0 <= MaterialSum(parts) && parts[k].1 <= LaborSum(parts)
  {
    if |parts| > 0 {
      SumsOfBoundedParts(parts[..|parts| - 1]);
    }
  }

  lemma {:induction false} ZeroPartsSumToZero(parts: seq<(real, real)>)
    requires forall k :: 0 <= k < |parts| ==> parts[k] == (0.0, 0.0)
    ensures MaterialSum(parts) == 0.0 && LaborSum(parts) == 0.0
  {
    if |parts| > 0 {
      ZeroPartsSumToZero(parts[..|parts| - 1]);
    }
  }

  /** Sums of parts that are each no larger are no larger. */
  lemma {:induction false} SumsMonotone(ps: seq<(real, real)>, qs: seq<(real, real)>)
    requires |ps| == |qs|
    requires forall k :: 0 <= k < |ps| ==> ps[k].0 <= qs[k].0 && ps[k].1 <= qs[k].1
    ensures MaterialSum(ps) <= MaterialSum(qs) && LaborSum(ps) <= LaborSum(qs)
  {
    if |ps| > 0 {
      SumsMonotone(ps[..|ps| - 1], qs[..|qs| - 1]);
    }
  }

  /** Changing one part changes the sums by the same amounts. */
  lemma {:induction false} SumsOfUpdate(parts: seq<(real, real)>, k: nat, v: (real, real))
    requires k < |parts|
    ensures MaterialSum(parts[k := v]) == MaterialSum(parts) - parts[k].0 + v.0
    ensures LaborSum(parts[k := v]) == LaborSum(parts) - parts[k].1 + v.1
  {
    var n := |parts| - 1;
    if k < n {
      SumsOfUpdate(parts[..n], k, v);
      assert parts[k := v][..n] == parts[..n][k := v];
    } else {
      assert parts[k := v][..n] == parts[..n];
    }
  }

  /** `calculateEstimate`: every part's material and labour added up. */
  function CalculateEstimate(f: BuildingForm, scope: Scope): (r: Estimate)
    ensures r.totalCost == r.materialCost + r.laborCost
    ensures NonNegativeForm(f) ==>
      f.floors * 500.0 <= r.materialCost && f.floors * 200.0 <= r.laborCost <= r.materialCost
  {
    var parts := Parts(f, scope);
    var material := MaterialSum(parts);
    var labor := LaborSum(parts);
    assert NonNegativeForm(f) ==> f.floors * 500.0 <= material && f.floors * 200.0 <= labor <= material by {
      if NonNegativeForm(f) {
        SumsOfBoundedParts(parts);
      }
    }
    Estimate(material, labor, material + labor)
  }

  /** Figures a person can type for a real building: none negative, and a
      level length that is not negative either. */
  predicate NonNegativeForm(f: BuildingForm) {
    f.flats >= 0.0 && f.risers >= 0.0 && f.floors >= 0.0
    && (f.levelLength.Some? ==> f.levelLength.value >= 0.0)
  }

  /** Nothing ticked: only the per-floor amounts remain. */
  lemma EmptyScopeCostsFloorsOnly(f: BuildingForm, optimal: bool)
    ensures var r := CalculateEstimate(f, EmptyScope.(optimalVariant := optimal));
      r.materialCost == f.floors * 500.0 && r.laborCost == f.floors * 200.0
      && r.totalCost == f.floors * 700.0
  {
    var parts := Parts(f, EmptyScope.(optimalVariant := optimal));
    assert parts == [(0.0, 0.0), (0.0, 0.0), (0.0, 0.0), (0.0, 0.0), (0.0, 0.0), (0.0, 0.0), (0.0, 0.0)] + [parts[7]];
    var zeros := parts[..7];
    ZeroPartsSumToZero(zeros);
  }

  /** The switch for the optimal variant is never priced. */
  lemma OptimalSwitchNotPriced(f: BuildingForm, scope: Scope)
    ensures CalculateEstimate(f, scope) == CalculateEstimate(f, scope.(optimalVariant := !scope.optimalVariant))
  {
  }

  /** One more ticked insulation option adds 1200 PLN of material and 600
      PLN of labour, whichever option it is. */
  lemma InsulationLinear(f: BuildingForm, scope: Scope, option: string)
    ensures var before, after := CalculateEstimate(f, scope),
      CalculateEstimate(f, scope.(insulation := scope.insulation + [option]));
      after.materialCost == before.materialCost + 1200.0 && after.laborCost == before.laborCost + 600.0
  {
    var n := |scope.insulation| as real;
    var parts := Parts(f, scope);
    var v := (n * 1200.0 + 1200.0, n * 600.0 + 600.0);
    assert Parts(f, scope.(insulation := scope.insulation + [option])) == parts[4 := v];
    SumsOfUpdate(parts, 4, v);
  }

  /** One more ticked modernisation option adds 1500 PLN of material and 800
      PLN of labour, whichever option it is. */
  lemma ModernisationLinear(f: BuildingForm, scope: Scope, option: string)
    ensures var before, after := CalculateEstimate(f, scope),
      CalculateEstimate(f, scope.(modernisation := scope.modernisation + [option]));
      after.materialCost == before.materialCost + 1500.0 && after.laborCost == before.laborCost + 800.0
  {
    var n := |scope.modernisation| as real;
    var parts := Parts(f, scope);
    var v := (n * 1500.0 + 1500.0, n * 800.0 + 800.0);
    assert Parts(f, scope.(modernisation := scope.modernisation + [option])) == parts[5 := v];
    SumsOfUpdate(parts, 5, v);
  }

  /** One more ticked extra adds 500 PLN of material and 300 PLN of labour,
      whichever extra it is. */
  lemma ExtrasLinear(f: BuildingForm, scope: Scope, option: string)
    ensures var before, after := CalculateEstimate(f, scope),
      CalculateEstimate(f, scope.(extras := scope.extras + [option]));
      after.materialCost == before.materialCost + 500.0 && after.laborCost == before.laborCost + 300.0
  {
    var n := |scope.extras| as real;
    var parts := Parts(f, scope);
    var v := (n * 500.0 + 500.0, n * 300.0 + 300.0);
    assert Parts(f, scope.(extras := scope.extras + [option])) == parts[6 := v];
    SumsOfUpdate(parts, 6, v);
  }

  /** Basement levels are priced only with a level length: without one,
      ticking them changes nothing. */
  lemma BasementLevelsNeedLength(f: BuildingForm, scope: Scope)
    requires !LevelLengthGiven(f)
    ensures CalculateEstimate(f, scope.(replacement := scope.replacement + [BasementLevelsReplacement]))
      == CalculateEstimate(f, scope.(replacement := RemoveAll(scope.replacement, BasementLevelsReplacement)))
  {
  }

  /** Every option in a that is ticked is ticked in b, and b ticks at least
      as many options in each counted group. */
  predicate ScopeIncluded(a: Scope, b: Scope) {
    (forall o :: o in a.replacement ==> o in b.replacement)
    && |a.insulation| <= |b.insulation| && |a.modernisation| <= |b.modernisation|
    && |a.extras| <= |b.extras|
  }

  /** A wider scope never costs less, in material or in labour. */
  lemma WiderScopeCostsMore(f: BuildingForm, a: Scope, b: Scope)
    requires NonNegativeForm(f)
    requires ScopeIncluded(a, b)
    ensures var ra, rb := CalculateEstimate(f, a), CalculateEstimate(f, b);
      ra.materialCost <= rb.materialCost && ra.laborCost <= rb.laborCost
  {
    var pa, pb := Parts(f, a), Parts(f, b);
    var length := if LevelLengthGiven(f) then f.levelLength.value else 0.0;
    forall k | 0 <= k < 8 ensures pa[k].0 <= pb[k].0 && pa[k].1 <= pb[k].1 {
      if k == 0 {
        PricedMonotone(RisersReplacement in a.replacement, RisersReplacement in b.replacement, f.risers, f.risers, 1200.0, 600.0);
      } else if k == 1 {
        PricedMonotone(CirculationReplacement in a.replacement, CirculationReplacement in b.replacement, f.risers, f.risers, 900.0, 500.0);
      } else if k == 2 {
        PricedMonotone(BasementLevelsReplacement in a.replacement && LevelLengthGiven(f),
                       BasementLevelsReplacement in b.replacement && LevelLengthGiven(f), length, length, 100.0, 80.0);
      } else if k == 3 {
        PricedMonotone(FlatConnectionsReplacement in a.replacement, FlatConnectionsReplacement in b.replacement, f.flats, f.flats, 800.0, 400.0);
      } else if k == 4 {
        PricedMonotone(|a.insulation| > 0, |b.insulation| > 0, |a.insulation| as real, |b.insulation| as real, 1200.0, 600.0);
      } else if k == 5 {
        PricedMonotone(|a.modernisation| > 0, |b.modernisation| > 0, |a.modernisation| as real, |b.modernisation| as real, 1500.0, 800.0);
      } else if k == 6 {
        PricedMonotone(|a.extras| > 0, |b.extras| > 0, |a.extras| as real, |b.extras| as real, 500.0, 300.0);
      }
    }
    SumsMonotone(pa, pb);
  }

  // ---------------------------------------------------------------- first step

  /** `isStep1Valid`: flats, risers, floors and the year all positive. A
      form that passes has no negative figure the estimate prices, unless
      the level length typed in is negative. */
  predicate IsStep1Valid(f: BuildingForm): (ok: bool)
    ensures ok && (f.levelLength.Some? ==> f.levelLength.value >= 0.0) ==> NonNegativeForm(f)
  {
    f.flats > 0.0 && f.risers > 0.0 && f.floors > 0.0 && f.yearBuilt > 0.0
  }

  /** A building that passes the first step always gets a positive price. */
  lemma ValidBuildingHasPositiveCost(f: BuildingForm, scope: Scope)
    requires IsStep1Valid(f)
    requires f.levelLength.Some? ==> f.levelLength.value >= 0.0
    ensures CalculateEstimate(f, scope).totalCost >= f.floors * 700.0 > 0.0
  {
  }

  // ---------------------------------------------------------------- ticking options

  /** `arr.filter((v) => v !== value)`. */
  function RemoveAll(arr: seq<string>, value: string): (r: seq<string>)
    ensures value !in r
    ensures forall x :: x != value ==> (x in r <==> x in arr)
    ensures forall x :: x != value ==> multiset(r)[x] == multiset(arr)[x]
    ensures |r| == |arr| - multiset(arr)[value]
  {
    if |arr| == 0 then []
    else
      assert arr == [arr[0]] + arr[1..];
      if arr[0] == value then RemoveAll(arr[1..], value)
      else [arr[0]] + RemoveAll(arr[1..], value)
  }

  /** The checkbox handler on one group: a ticked option is removed, an
      unticked one appended. */
  function Toggle(arr: seq<string>, value: string): (r: seq<string>)
    ensures value in r <==> value !in arr
    ensures forall x :: x != value ==> (x in r <==> x in arr)
  {
    if value in arr then RemoveAll(arr, value) else arr + [value]
  }

  datatype Group = Replacement | Insulation | Modernisation | Extras | OptimalVariant

  function GroupOf(scope: Scope, group: Group): seq<string> {
    match group
    case Replacement => scope.replacement
    case Insulation => scope.insulation
    case Modernisation => scope.modernisation
    case Extras => scope.extras
    case OptimalVariant => []
  }

  /** `handleScopeChange`: the optimal-variant switch is ignored here; any
      other group has the option toggled and the rest of the scope is kept. */
  function HandleScopeChange(scope: Scope, group: Group, value: string): (r: Scope)
    ensures group == OptimalVariant ==> r == scope
    ensures group != OptimalVariant ==> GroupOf(r, group) == Toggle(GroupOf(scope, group), value)
    ensures forall g :: g != group && g != OptimalVariant ==> GroupOf(r, g) == GroupOf(scope, g)
    ensures r.optimalVariant == scope.optimalVariant
  {
    match group
    case Replacement => scope.(replacement := Toggle(scope.replacement, value))
    case Insulation => scope.(insulation := Toggle(scope.insulation, value))
    case Modernisation => scope.(modernisation := Toggle(scope.modernisation, value))
    case Extras => scope.(extras := Toggle(scope.extras, value))
    case OptimalVariant => scope
  }

  /** Ticking the same option twice restores which options are ticked,
      though not necessarily where the option stands in the list. */
  lemma ToggleTwiceRestoresMembership(arr: seq<string>, value: string)
    ensures forall x :: x in Toggle(Toggle(arr, value), value) <==> x in arr
  {
  }

  /** Through the checkboxes an option is never ticked twice. */
  lemma ToggleKeepsOptionsDistinct(arr: seq<string>, value: string)
    requires forall x :: multiset(arr)[x] <= 1
    ensures forall x :: multiset(Toggle(arr, value))[x] <= 1
  {
    if value !in arr {
      assert multiset(arr + [value]) == multiset(arr) + multiset{value};
    }
  }

  /** With every option ticked at most once, ticking one twice gives the
      same estimate as before. */
  lemma DoubleToggleKeepsEstimate(f: BuildingForm, scope: Scope, group: Group, value: string)
    requires forall x :: multiset(GroupOf(scope, group))[x] <= 1
    ensures CalculateEstimate(f, HandleScopeChange(HandleScopeChange(scope, group, value), group, value))
      == CalculateEstimate(f, scope)
  {
    var arr := GroupOf(scope, group);
    var twice := Toggle(Toggle(arr, value), value);
    ToggleTwiceRestoresMembership(arr, value);
    assert |twice| == |arr| by {
      if value in arr {
        var removed := RemoveAll(arr, value);
        assert multiset(removed + [value]) == multiset(removed) + multiset{value};
      } else {
        assert multiset(arr + [value]) == multiset(arr) + multiset{value};
      }
    }
  }
}

=== FILE: recommendation.dfy ===
/** The advisory part of cwu_time_simulation.py: the demand-profile peak
    metrics, the A/B/C recommendation on the difference between the two
    models' ordered powers, the cost of that difference and the final choice
    of power. Narrative texts are left out; only the values and the branch each
    text is chosen by are modelled. */
module Recommendation {
  import opened Outcomes
  import opened Numbers
  import opened TankPhysics

  /** The explicit, editable decision thresholds (RecommendationThresholds). */
  datatype Thresholds = Thresholds(
    deltaPAbsKw: real, deltaPPercent: real,
    peakFractionOfMax: real, peakMinLpm: real, shortPeakMaxMinutes: real,
    tankHours: real, stratificationGoodTauS: real)

  const DefaultThresholds := Thresholds(5.0, 10.0, 0.5, 10.0, 30.0, 1.0, 1800.0)

  /** Capacity charges per kW and month or year, and the analysis horizon. */
  datatype CostParams = CostParams(monthRate: Option<real>, yearRate: Option<real>, horizonYears: int)

  const DefaultCostParams := CostParams(None, None, 10)

  /** Recommendation levels: A the mixed model suffices, B the layered model is
      advised, C the layered model is critical. */
  datatype Level = A | B | C {
    function Rank(): (r: nat)
      ensures r <= 2
    {
      match this
      case A => 0
      case B => 1
      case C => 2
    }
  }

  datatype Color = Green | Yellow | Red

  /** Whether the final choice rests on engineering alone or on cost as well. */
  datatype Basis = Technical | TechnicalFinancial

  // ---------------------------------------------------------------------------
  // Cost parameters and financial impact

  /** CostParams.normalized: with no rate given the parameters are returned as
      they are; otherwise negative rates and a non-positive horizon are refused
      and the missing rate is derived from the other one (a year is twelve
      months). */
  function Normalized(c: CostParams): (r: Result<CostParams, SimError>)
    ensures c.monthRate.None? && c.yearRate.None? ==> r == Ok(c)
    ensures r.Err? <==>
      (c.monthRate.Some? || c.yearRate.Some?)
      && ((c.monthRate.Some? && c.monthRate.value < 0.0)
          || (c.yearRate.Some? && c.yearRate.value < 0.0)
          || c.horizonYears <= 0)
    ensures r.Ok? && (c.monthRate.Some? || c.yearRate.Some?) ==>
      r.value.monthRate.Some? && r.value.yearRate.Some?
      && r.value.monthRate.value >= 0.0 && r.value.yearRate.value >= 0.0
      && r.value.horizonYears == c.horizonYears && r.value.horizonYears > 0
    ensures r.Ok? && c.monthRate.Some? ==> r.value.monthRate == c.monthRate
    ensures r.Ok? && c.yearRate.Some? ==> r.value.yearRate == c.yearRate
    ensures r.Ok? && c.yearRate.None? && c.monthRate.Some? ==>
      r.value.yearRate.value == 12.0 * c.monthRate.value
    ensures r.Ok? && c.monthRate.None? && c.yearRate.Some? ==>
      12.0 * r.value.monthRate.value == c.yearRate.value
  {
    if c.monthRate.None? && c.yearRate.None? then Ok(c)
    else if c.monthRate.Some? && c.monthRate.value < 0.0 then Err(NegativeMonthlyRate)
    else if c.yearRate.Some? && c.yearRate.value < 0.0 then Err(NegativeYearlyRate)
    else if c.horizonYears <= 0 then Err(HorizonNotPositive)
    else
      var year := if c.yearRate.None? then Some(c.monthRate.value * 12.0) else c.yearRate;
      var month := if c.monthRate.None? then Some(year.value / 12.0) else c.monthRate;
      Ok(CostParams(month, year, c.horizonYears))
  }

  /** Normalising twice changes nothing. */
  lemma NormalizedIdempotent(c: CostParams)
    requires Normalized(c).Ok?
    ensures Normalized(Normalized(c).value) == Normalized(c)
  {
  }

  /** The extra monthly, yearly and horizon cost of ordering `deltaPKw` more. */
  datatype Impact = Impact(month: real, year: real, total: real)

  /** _financial_impact: the parameters are normalised first (so their errors
      come first); a non-positive difference or missing rates cost nothing;
      otherwise the difference is charged at each rate and the yearly cost over
      the horizon. */
  function FinancialImpact(deltaPKw: real, cost: CostParams): (r: Result<Impact, SimError>)
    ensures r.Err? <==> Normalized(cost).Err?
    ensures r.Ok? && (deltaPKw <= 0.0 || (cost.monthRate.None? && cost.yearRate.None?)) ==>
      r.value == Impact(0.0, 0.0, 0.0)
    ensures r.Ok? ==> r.value.month >= 0.0 && r.value.year >= 0.0 && r.value.total >= 0.0
    ensures r.Ok? && deltaPKw > 0.0 && cost.monthRate.Some? ==>
      r.value.month == deltaPKw * cost.monthRate.value
    ensures r.Ok? && deltaPKw > 0.0 && cost.yearRate.Some? ==>
      r.value.year == deltaPKw * cost.yearRate.value
    ensures r.Ok? && deltaPKw > 0.0 && (cost.monthRate.Some? || cost.yearRate.Some?) ==>
      r.value.total == r.value.year * cost.horizonYears as real
  {
    match Normalized(cost)
    case Err(e) => Err(e)
    case Ok(n) =>
      if deltaPKw <= 0.0 || n.monthRate.None? || n.yearRate.None? then Ok(Impact(0.0, 0.0, 0.0))
      else
        var year := deltaPKw * n.yearRate.value;
        MulNonNegative(deltaPKw, n.monthRate.value);
        MulNonNegative(deltaPKw, n.yearRate.value);
        MulNonNegative(year, n.horizonYears as real);
        Ok(Impact(deltaPKw * n.monthRate.value, year, year * n.horizonYears as real))
  }

  /** With only a monthly rate, the yearly extra cost is twelve monthly ones. */
  lemma YearIsTwelveMonths(deltaPKw: real, cost: CostParams)
    requires FinancialImpact(deltaPKw, cost).Ok? && cost.monthRate.Some? && cost.yearRate.None?
    ensures FinancialImpact(deltaPKw, cost).value.year == 12.0 * FinancialImpact(deltaPKw, cost).value.month
  {
    var n := Normalized(cost).value;
    assert n.yearRate.value == 12.0 * cost.monthRate.value;
    if deltaPKw > 0.0 {
      assert deltaPKw * (12.0 * cost.monthRate.value) == 12.0 * (deltaPKw * cost.monthRate.value);
    }
  }

  // ---------------------------------------------------------------------------
  // Final decision

  /** _decision_color: A green, B yellow, anything else red. */
  function DecisionColor(level: Level): (r: Color)
    ensures r == Green <==> level == A
    ensures r == Yellow <==> level == B
    ensures r == Red <==> level == C
  {
    match level
    case A => Green
    case B => Yellow
    case C => Red
  }

  /** The final power and the basis of the decision. */
  datatype Decision = Decision(pFinalKw: real, basis: Basis)

  /** _build_final_decision: level A keeps the mixed model's power on technical
      grounds; B and C take the layered model's power, on technical-financial
      grounds exactly when the difference is positive and has a yearly cost. */
  function FinalDecision(level: Level, pMixKw: real, pLayerKw: real, deltaPKw: real, extraYear: real)
    : (r: Decision)
    ensures level == A ==> r.pFinalKw == pMixKw
    ensures level != A ==> r.pFinalKw == pLayerKw
    ensures r.basis == TechnicalFinancial <==> level != A && deltaPKw > 0.0 && extraYear > 0.0
  {
    if level == A then Decision(pMixKw, Technical)
    else Decision(pLayerKw, if deltaPKw > 0.0 && extraYear > 0.0 then TechnicalFinancial else Technical)
  }

  /** When the mixed model asks for at least as much as the layered one, the
      final power never exceeds the mixed model's. */
  lemma FinalNotAboveMixed(level: Level, pMixKw: real, pLayerKw: real, extraYear: real)
    requires pLayerKw <= pMixKw
    ensures FinalDecision(level, pMixKw, pLayerKw, pMixKw - pLayerKw, extraYear).pFinalKw <= pMixKw
  {
  }

  // ---------------------------------------------------------------------------
  // Profile metrics

  /** _mean: 0 for no values. */
  function Sum(xs: seq<real>): (r: real)
    decreases |xs|
  {
    if |xs| == 0 then 0.0 else Sum(xs[..|xs| - 1]) + xs[|xs| - 1]
  }

  function Mean(xs: seq<real>): (r: real)
    ensures |xs| == 0 ==> r == 0.0
    ensures |xs| > 0 ==> r * |xs| as real == Sum(xs)
  {
    if |xs| == 0 then 0.0 else Sum(xs) / |xs| as real
  }

  /** Largest value, 0 for no values. */
  function MaxOf(xs: seq<real>): (r: real)
    ensures forall i :: 0 <= i < |xs| ==> xs[i] <= r
    ensures |xs| > 0 ==> exists i :: 0 <= i < |xs| && xs[i] == r
    ensures |xs| == 0 ==> r == 0.0
    decreases |xs|
  {
    if |xs| == 0 then 0.0
    else if |xs| == 1 then xs[0]
    else
      var m := MaxOf(xs[..|xs| - 1]);
      assert forall i :: 0 <= i < |xs| - 1 ==> xs[..|xs| - 1][i] == xs[i];
      Max(m, xs[|xs| - 1])
  }

  /** A sample counts towards a peak when its non-negative demand reaches the threshold. */
  predicate IsPeak(x: real, thr: real) {
    Max(0.0, x) >= thr
  }

  /** Sample `i` begins a maximal run of peak samples. */
  predicate RunStart(xs: seq<real>, i: int, thr: real)
    requires 0 <= i < |xs|
  {
    IsPeak(xs[i], thr) && (i == 0 || !IsPeak(xs[i - 1], thr))
  }

  /** The number of maximal runs of peak samples. */
  function CountRunStarts(xs: seq<real>, thr: real): (r: nat)
    decreases |xs|
  {
    if |xs| == 0 then 0
    else CountRunStarts(xs[..|xs| - 1], thr) + (if RunStart(xs, |xs| - 1, thr) then 1 else 0)
  }

  /** The number of peak samples. */
  function CountPeaks(xs: seq<real>, thr: real): (r: nat)
    decreases |xs|
  {
    if |xs| == 0 then 0
    else CountPeaks(xs[..|xs| - 1], thr) + (if IsPeak(xs[|xs| - 1], thr) then 1 else 0)
  }

  function SumNat(xs: seq<nat>): (r: nat)
    decreases |xs|
  {
    if |xs| == 0 then 0 else SumNat(xs[..|xs| - 1]) + xs[|xs| - 1]
  }

  function MaxNat(xs: seq<nat>): (r: nat)
    ensures forall i :: 0 <= i < |xs| ==> xs[i] <= r
    ensures |xs| == 0 ==> r == 0
    ensures |xs| > 0 ==> exists i :: 0 <= i < |xs| && xs[i] == r
    decreases |xs|
  {
    if |xs| == 0 then 0
    else
      var m := MaxNat(xs[..|xs| - 1]);
      assert forall i :: 0 <= i < |xs| - 1 ==> xs[..|xs| - 1][i] == xs[i];
      if m >= xs[|xs| - 1] then m else xs[|xs| - 1]
  }

  /** The non-negative demand of all samples. */
  function TotalDemand(xs: seq<real>): (r: real)
    decreases |xs|
  {
    if |xs| == 0 then 0.0 else TotalDemand(xs[..|xs| - 1]) + Max(0.0, xs[|xs| - 1])
  }

  /** The non-negative demand of the peak samples. */
  function PeakDemand(xs: seq<real>, thr: real): (r: real)
    decreases |xs|
  {
    if |xs| == 0 then 0.0
    else PeakDemand(xs[..|xs| - 1], thr) + (if IsPeak(xs[|xs| - 1], thr) then Max(0.0, xs[|xs| - 1]) else 0.0)
  }

  /** The share of the demand carried by peak samples, 0 when there is no
      demand. */
  function EnergyShare(xs: seq<real>, thr: real): real {
    if TotalDemand(xs) > 0.0 then PeakDemand(xs, thr) / TotalDemand(xs) else 0.0
  }

  /** The metrics of _profile_peak_metrics. */
  datatype PeakMetrics = PeakMetrics(
    maxLpm: real, avgLpm: real, peakThresholdLpm: real,
    peaksCount: nat, peakMaxMinutes: real, peakEnergyShare: real)

  /** The threshold above which a sample is a peak: a fraction of the largest
      demand, but never below the fixed minimum. */
  function PeakThreshold(xs: seq<real>, thr: Thresholds): (r: real)
    ensures r >= thr.peakMinLpm
  {
    Max(thr.peakMinLpm, thr.peakFractionOfMax * MaxOf(xs))
  }

  /** Extending a prefix by one sample adds that sample's contribution to the counts. */
  lemma CountsStep(xs: seq<real>, i: int, thr: real)
    requires 0 <= i < |xs|
    ensures CountRunStarts(xs[..i + 1], thr)
         == CountRunStarts(xs[..i], thr) + (if RunStart(xs, i, thr) then 1 else 0)
    ensures CountPeaks(xs[..i + 1], thr) == CountPeaks(xs[..i], thr) + (if IsPeak(xs[i], thr) then 1 else 0)
    ensures TotalDemand(xs[..i + 1]) == TotalDemand(xs[..i]) + Max(0.0, xs[i])
    ensures PeakDemand(xs[..i + 1], thr) == PeakDemand(xs[..i], thr) + (if IsPeak(xs[i], thr) then Max(0.0, xs[i]) else 0.0)
  {
    assert xs[..i + 1][..i] == xs[..i];
  }

  /** The pass over the profile: the lengths of the maximal runs of peak
      samples, the demand in those runs and the whole non-negative demand. */
  method PeakRuns(xs: seq<real>, peakThr: real) returns (segments: seq<nat>, peakSum: real, totalSum: real)
    ensures |segments| == CountRunStarts(xs, peakThr)
    ensures SumNat(segments) == CountPeaks(xs, peakThr)
    ensures forall k :: 0 <= k < |segments| ==> segments[k] >= 1
    ensures peakSum == PeakDemand(xs, peakThr) && totalSum == TotalDemand(xs)
    ensures 0.0 <= peakSum <= totalSum
  {
    segments := [];
    var current: nat := 0;
    peakSum := 0.0;
    totalSum := 0.0;
    var i := 0;
    while i < |xs|
      invariant 0 <= i <= |xs|
      invariant 0.0 <= peakSum <= totalSum
      invariant peakSum == PeakDemand(xs[..i], peakThr) && totalSum == TotalDemand(xs[..i])
      invariant forall k :: 0 <= k < |segments| ==> segments[k] >= 1
      invariant |segments| + (if current > 0 then 1 else 0) == CountRunStarts(xs[..i], peakThr)
      invariant SumNat(segments) + current == CountPeaks(xs[..i], peakThr)
      invariant current > 0 <==> i > 0 && IsPeak(xs[i - 1], peakThr)
    {
      CountsStep(xs, i, peakThr);
      var v := Max(0.0, xs[i]);
      totalSum := totalSum + v;
      if v >= peakThr {
        peakSum := peakSum + v;
        current := current + 1;
      } else if current > 0 {
        assert (segments + [current])[..|segments|] == segments;
        segments := segments + [current];
        current := 0;
      }
      i := i + 1;
    }
    assert xs[..|xs|] == xs;
    if current > 0 {
      assert (segments + [current])[..|segments|] == segments;
      segments := segments + [current];
    }
  }

  /** What _profile_peak_metrics computes from a profile, given the runs of
      peak samples it finds. */
  ghost predicate PeakMetricsOf(xs: seq<real>, dt: int, thr: Thresholds, m: PeakMetrics, segments: seq<nat>) {
    m.maxLpm == MaxOf(xs) && m.avgLpm == Mean(xs)
    && m.peakThresholdLpm == PeakThreshold(xs, thr)
    && m.peaksCount == |segments| == CountRunStarts(xs, m.peakThresholdLpm)
    && SumNat(segments) == CountPeaks(xs, m.peakThresholdLpm)
    && (forall k :: 0 <= k < |segments| ==> segments[k] >= 1)
    && m.peakMaxMinutes == (MaxNat(segments) * dt) as real / 60.0
    && m.peakEnergyShare == EnergyShare(xs, m.peakThresholdLpm)
  }

  /** _profile_peak_metrics: the number of peaks is the number of maximal runs
      of peak samples, the runs together hold every peak sample, the longest
      one gives the peak duration, and the peak share is the part of the
      non-negative demand carried by peak samples, in [0, 1]. */
  method ProfilePeakMetrics(xs: seq<real>, dt: int, thr: Thresholds)
    returns (m: PeakMetrics, segments: seq<nat>)
    ensures m.maxLpm == MaxOf(xs) && m.avgLpm == Mean(xs)
    ensures m.peakThresholdLpm == PeakThreshold(xs, thr)
    ensures m.peaksCount == |segments| == CountRunStarts(xs, m.peakThresholdLpm)
    ensures SumNat(segments) == CountPeaks(xs, m.peakThresholdLpm)
    ensures forall k :: 0 <= k < |segments| ==> segments[k] >= 1
    ensures m.peakMaxMinutes == (MaxNat(segments) * dt) as real / 60.0
    ensures m.peakEnergyShare == EnergyShare(xs, m.peakThresholdLpm)
    ensures 0.0 <= m.peakEnergyShare <= 1.0
    ensures PeakMetricsOf(xs, dt, thr, m, segments)
  {
    var peakThr := PeakThreshold(xs, thr);
    var peakSum, totalSum;
    segments, peakSum, totalSum := PeakRuns(xs, peakThr);
    var share := if totalSum > 0.0 then peakSum / totalSum else 0.0;
    if totalSum > 0.0 {
      ShareBounds(peakSum, totalSum);
    }
    m := PeakMetrics(MaxOf(xs), Mean(xs), peakThr, |segments|, (MaxNat(segments) * dt) as real / 60.0, share);
  }

  // ---------------------------------------------------------------------------
  // Recommendation level

  /** The level and the heuristic flags _build_recommendation reports. */
  datatype Advice = Advice(
    level: Level, isShortPeaks: bool, isLargeTank: bool, stratificationGood: bool, hasEconomicHint: bool)

  /** The difference between the models passes at least one threshold. */
  predicate Significant(thr: Thresholds, deltaPKw: real, deltaPPercent: real) {
    deltaPKw >= thr.deltaPAbsKw || deltaPPercent >= thr.deltaPPercent
  }

  /** The difference passes at least one threshold twice over. */
  predicate Strong(thr: Thresholds, deltaPKw: real, deltaPPercent: real) {
    deltaPKw >= 2.0 * thr.deltaPAbsKw || deltaPPercent >= 2.0 * thr.deltaPPercent
  }

  /** The tank holds at least the threshold's hours of average demand; with no
      average demand its capacity counts as infinite. */
  predicate LargeTank(volumeL: real, avgLpm: real, thr: Thresholds) {
    avgLpm <= 0.0 || volumeL / (avgLpm * 60.0) >= thr.tankHours
  }

  /** _build_recommendation: A when the difference is not significant; C when
      it is strong and the peaks are short or carry at least 35 % of the
      energy, and the tank is large or well stratified; B otherwise. */
  function BuildRecommendation(volumeL: real, mixingTauS: real, thr: Thresholds, pm: PeakMetrics,
                               deltaPKw: real, deltaPPercent: real): (r: Advice)
    ensures r.level == A <==> !Significant(thr, deltaPKw, deltaPPercent)
    ensures r.level == C <==>
      Significant(thr, deltaPKw, deltaPPercent) && Strong(thr, deltaPKw, deltaPPercent)
      && (r.isShortPeaks || pm.peakEnergyShare >= 0.35) && (r.isLargeTank || r.stratificationGood)
    ensures r.isShortPeaks <==> 0.0 < pm.peakMaxMinutes <= thr.shortPeakMaxMinutes
    ensures r.isLargeTank <==> LargeTank(volumeL, pm.avgLpm, thr)
    ensures r.stratificationGood <==> mixingTauS >= thr.stratificationGoodTauS
    ensures r.hasEconomicHint <==> deltaPKw > 0.0
  {
    var isLarge := LargeTank(volumeL, pm.avgLpm, thr);
    var isShort := pm.peakMaxMinutes > 0.0 && pm.peakMaxMinutes <= thr.shortPeakMaxMinutes;
    var stratGood := mixingTauS >= thr.stratificationGoodTauS;
    var level :=
      if !Significant(thr, deltaPKw, deltaPPercent) then A
      else if Strong(thr, deltaPKw, deltaPPercent) && (isShort || pm.peakEnergyShare >= 0.35) && (isLarge || stratGood)
      then C
      else B;
    Advice(level, isShort, isLarge, stratGood, deltaPKw > 0.0)
  }

  /** A larger difference between the models never lowers the level. */
  lemma LevelMonotone(volumeL: real, mixingTauS: real, thr: Thresholds, pm: PeakMetrics,
                      d1: real, p1: real, d2: real, p2: real)
    requires d1 <= d2 && p1 <= p2
    ensures BuildRecommendation(volumeL, mixingTauS, thr, pm, d1, p1).level.Rank()
         <= BuildRecommendation(volumeL, mixingTauS, thr, pm, d2, p2).level.Rank()
  {
  }

  /** With non-negative thresholds a strong difference is significant, so the
      level is C exactly when the strong-difference conditions hold. */
  lemma StrongIsSignificant(thr: Thresholds, deltaPKw: real, deltaPPercent: real)
    requires thr.deltaPAbsKw >= 0.0 && thr.deltaPPercent >= 0.0
    ensures Strong(thr, deltaPKw, deltaPPercent) ==> Significant(thr, deltaPKw, deltaPPercent)
  {
  }

  /** With the default thresholds a difference of exactly 5 kW is already
      significant, whatever the percentage. */
  lemma DefaultAbsoluteBoundary(volumeL: real, mixingTauS: real, pm: PeakMetrics, deltaPPercent: real)
    ensures BuildRecommendation(volumeL, mixingTauS, DefaultThresholds, pm, 5.0, deltaPPercent).level != A
    ensures deltaPPercent < 10.0 ==>
      BuildRecommendation(volumeL, mixingTauS, DefaultThresholds, pm, 4.99, deltaPPercent).level == A
  {
  }
}

=== FILE: schedule_cpm.dfy ===
/** computeCpm in scheduleEngine.ts: the critical path method without
    resource limits. A forward pass over the topological order gives each
    task its earliest start and finish, a backward pass its latest start, and
    the slack of a task is the difference of its latest and earliest starts.
    Durations are whole work days (the ceiling of the scheduled duration). */
module ScheduleCpm {
  import opened Outcomes
  import opened Numbers
  import opened ScheduleTasks
  import opened ScheduleTopo
  import opened ScheduleLevel

  /** Whole work days of a task's scheduled duration. */
  function Len(t: Task, overrides: map<TaskId, Num>): nat {
    WorkDays(DurationOf(t, overrides))
  }

  // ---------------------------------------------------------------------------
  // Successor lists

  /** Every entry of a successor list is a task that depends on `d`. */
  lemma {:induction false} OutListFrom(ts: seq<Task>, d: TaskId, x: TaskId) returns (i: int)
    requires x in OutList(ts, d)
    ensures 0 <= i < |ts| && ts[i].id == x && d in ts[i].deps
  {
    var n := |ts| - 1;
    var front := OutList(ts[..n], d);
    var rep := Repeat(ts[n].id, Occ(ts[n].deps, d));
    assert OutList(ts, d) == front + rep;
    if x in front {
      i := OutListFrom(ts[..n], d, x);
    } else {
      OccPositive(ts[n].deps, d);
      i := n;
    }
  }

  /** In a topological order each successor of a task comes after it. */
  lemma SuccessorAfter(tasks: seq<Task>, topo: seq<Task>, k: int, s: TaskId) returns (q: int)
    requires IsTopoOrderOf(topo, tasks) && 0 <= k < |topo|
    requires s in OutList(tasks, topo[k].id)
    ensures k < q < |topo| && topo[q].id == s && topo[k].id in topo[q].deps
  {
    var i := OutListFrom(tasks, topo[k].id, s);
    assert tasks[i] in multiset(topo);
    q :| 0 <= q < |topo| && topo[q] == tasks[i];
    assert topo[k] in multiset(tasks);
    assert topo[k].id in Ids(tasks);
    var m :| 0 <= m < q && topo[m].id == topo[k].id;
    assert m == k;
  }

  /** A task that depends on another is in that one's successor list. */
  lemma SuccessorListed(tasks: seq<Task>, topo: seq<Task>, k: int, q: int)
    requires IsTopoOrderOf(topo, tasks) && 0 <= k < |topo| && 0 <= q < |topo|
    requires topo[k].id in topo[q].deps
    ensures topo[q].id in OutList(tasks, topo[k].id)
  {
    assert topo[q] in multiset(tasks);
    var i :| 0 <= i < |tasks| && tasks[i] == topo[q];
    OutListHas(tasks, topo[k].id, i);
  }

  // ---------------------------------------------------------------------------
  // The forward pass

  /** Each slot starts on day 0 or exactly when the last earlier slot of one of
      its dependencies ends. */
  ghost predicate TightSlots(placed: seq<Slot>) {
    forall j :: 0 <= j < |placed| ==>
      placed[j].start == 0
      || exists d :: d in placed[j].task.deps && LastSlot(placed[..j], d).Some?
                     && LastSlot(placed[..j], d).value.end == placed[j].start
  }

  lemma TightStep(placed: seq<Slot>, sched: map<TaskId, Span>, s: Slot)
    requires TightSlots(placed) && SpansOf(sched, placed)
    requires s.start == DepEnd(s.task.deps, sched)
    ensures TightSlots(placed + [s])
  {
    SnocFront(placed, s);
    var p := placed + [s];
    if s.start != 0 {
      var d :| d in s.task.deps && d in sched && sched[d].end == s.start;
      assert LastSlot(p[..|placed|], d).Some?;
    }
  }

  /** The forward pass: in the order, each task starts at the latest early
      finish of its dependencies, 0 without any, and finishes its whole work
      days later. */
  method EarlyTimes(topo: seq<Task>, overrides: map<TaskId, Num>)
    returns (times: map<TaskId, Span>, ghost placed: seq<Slot>)
    ensures |placed| == |topo| && PlacedAs(placed, topo, overrides)
    ensures AfterDeps(placed) && TightSlots(placed) && SpansOf(times, placed) && SpansSane(times)
  {
    times := map[];
    placed := [];
    for i := 0 to |topo|
      invariant |placed| == i && PlacedAs(placed, topo, overrides)
      invariant AfterDeps(placed) && TightSlots(placed) && SpansOf(times, placed) && SpansSane(times)
    {
      var t := Adjusted(topo[i], overrides);
      var start := DepEnd(t.deps, times);
      var s := Slot(t, start, start + WorkDays(t.quarters));
      PlacedStep(placed, topo, overrides, s);
      AfterDepsStep(placed, times, s);
      TightStep(placed, times, s);
      SpansStep(times, placed, s);
      SaneStep(times, t.id, s.start, s.end);
      placed := placed + [s];
      times := times[t.id := Span(s.start, s.end)];
    }
  }

  /** Without repeated ids the forward pass records each task's own slot. */
  lemma SpanAt(topo: seq<Task>, placed: seq<Slot>, times: map<TaskId, Span>, overrides: map<TaskId, Num>, k: int)
    requires UniqueIds(topo) && |placed| == |topo| && PlacedAs(placed, topo, overrides) && SpansOf(times, placed)
    requires 0 <= k < |topo|
    ensures topo[k].id in times && times[topo[k].id] == Span(placed[k].start, placed[k].end)
    ensures placed[k].end == placed[k].start + Len(topo[k], overrides) && 0 <= placed[k].start
  {
    PlacedDistinct(placed, topo, overrides);
    LastSlotAt(placed, k);
  }

  // ---------------------------------------------------------------------------
  // What the passes establish, per task

  /** Earliest starts are non-negative and each earliest finish is the start
      plus the task's whole work days. */
  ghost predicate EarlyOk(times: map<TaskId, Span>, ts: seq<Task>, overrides: map<TaskId, Num>) {
    forall t :: t in ts ==>
      t.id in times && 0 <= times[t.id].start && times[t.id].end == times[t.id].start + Len(t, overrides)
  }

  /** No task starts before a dependency's earliest finish. */
  ghost predicate Precedes(times: map<TaskId, Span>, ts: seq<Task>) {
    forall t, u :: t in ts && u in ts && u.id in t.deps && t.id in times && u.id in times ==>
      times[u.id].end <= times[t.id].start
  }

  /** Each earliest start is 0 or the earliest finish of one of the task's
      dependencies. */
  ghost predicate EarlyTight(times: map<TaskId, Span>, ts: seq<Task>) {
    forall t :: t in ts && t.id in times ==>
      times[t.id].start == 0 || exists d :: d in t.deps && d in times && times[d].end == times[t.id].start
  }

  /** Latest starts: no earlier than the earliest start, the latest finish
      within the project, and before every dependent's latest start. */
  ghost predicate LateOk(late: map<TaskId, int>, times: map<TaskId, Span>, ts: seq<Task>,
                         projectEnd: int, overrides: map<TaskId, Num>) {
    forall t :: t in ts ==>
      t.id in late && t.id in times
      && times[t.id].start <= late[t.id]
      && late[t.id] + Len(t, overrides) <= projectEnd
      && forall u :: u in ts && t.id in u.deps ==> u.id in late && late[t.id] + Len(t, overrides) <= late[u.id]
  }

  lemma EarlyFacts(topo: seq<Task>, placed: seq<Slot>, times: map<TaskId, Span>, overrides: map<TaskId, Num>)
    requires UniqueIds(topo) && |placed| == |topo| && PlacedAs(placed, topo, overrides) && SpansOf(times, placed)
    ensures EarlyOk(times, topo, overrides)
  {
    forall t | t in topo
      ensures t.id in times && 0 <= times[t.id].start && times[t.id].end == times[t.id].start + Len(t, overrides)
    {
      var k :| 0 <= k < |topo| && topo[k] == t;
      SpanAt(topo, placed, times, overrides, k);
    }
  }

  lemma PrecedesAt(tasks: seq<Task>, topo: seq<Task>, placed: seq<Slot>, times: map<TaskId, Span>,
                   overrides: map<TaskId, Num>, p: int, q: int)
    requires IsTopoOrderOf(topo, tasks)
    requires |placed| == |topo| && PlacedAs(placed, topo, overrides) && AfterDeps(placed) && SpansOf(times, placed)
    requires 0 <= p < |topo| && 0 <= q < |topo| && topo[q].id in topo[p].deps
    ensures topo[p].id in times && topo[q].id in times
    ensures times[topo[q].id].end <= times[topo[p].id].start
  {
    var u := topo[q];
    assert u in multiset(tasks) && u.id in Ids(tasks);
    var m :| 0 <= m < p && topo[m].id == u.id;
    assert m == q;
    SpanAt(topo, placed, times, overrides, p);
    SpanAt(topo, placed, times, overrides, q);
    PlacedDistinct(placed, topo, overrides);
    assert placed[..p][q] == placed[q];
    LastSlotAt(placed[..p], q);
  }

  lemma PrecedesFacts(tasks: seq<Task>, topo: seq<Task>, placed: seq<Slot>, times: map<TaskId, Span>,
                      overrides: map<TaskId, Num>)
    requires IsTopoOrderOf(topo, tasks)
    requires |placed| == |topo| && PlacedAs(placed, topo, overrides) && AfterDeps(placed) && SpansOf(times, placed)
    ensures Precedes(times, topo)
  {
    forall t, u | t in topo && u in topo && u.id in t.deps && t.id in times && u.id in times
      ensures times[u.id].end <= times[t.id].start
    {
      var p :| 0 <= p < |topo| && topo[p] == t;
      var q :| 0 <= q < |topo| && topo[q] == u;
      PrecedesAt(tasks, topo, placed, times, overrides, p, q);
    }
  }

  lemma TightAt(topo: seq<Task>, placed: seq<Slot>, times: map<TaskId, Span>, overrides: map<TaskId, Num>,
                p: int, d: TaskId)
    requires UniqueIds(topo) && |placed| == |topo| && PlacedAs(placed, topo, overrides)
    requires SpansOf(times, placed) && 0 <= p < |topo|
    requires LastSlot(placed[..p], d).Some? && LastSlot(placed[..p], d).value.end == placed[p].start
    ensures topo[p].id in times && d in times && times[d].end == times[topo[p].id].start
  {
    SpanAt(topo, placed, times, overrides, p);
    var s := LastSlot(placed[..p], d).value;
    var m :| 0 <= m < p && placed[..p][m] == s;
    SpanAt(topo, placed, times, overrides, m);
  }

  lemma TightFacts(topo: seq<Task>, placed: seq<Slot>, times: map<TaskId, Span>, overrides: map<TaskId, Num>)
    requires UniqueIds(topo) && |placed| == |topo| && PlacedAs(placed, topo, overrides)
    requires TightSlots(placed) && SpansOf(times, placed)
    ensures EarlyTight(times, topo)
  {
    forall t | t in topo && t.id in times
      ensures times[t.id].start == 0 || exists d :: d in t.deps && d in times && times[d].end == times[t.id].start
    {
      var p :| 0 <= p < |topo| && topo[p] == t;
      SpanAt(topo, placed, times, overrides, p);
      if placed[p].start != 0 {
        var d :| d in placed[p].task.deps && LastSlot(placed[..p], d).Some?
                 && LastSlot(placed[..p], d).value.end == placed[p].start;
        TightAt(topo, placed, times, overrides, p, d);
      }
    }
  }

  // ---------------------------------------------------------------------------
  // The backward pass

  /** `lt.get(s) ?? fallback`. */
  function LateOr(late: map<TaskId, int>, s: TaskId, fallback: int): int {
    if s in late then late[s] else fallback
  }

  /** The least latest start among the successors (Math.min). */
  function MinLate(succs: seq<TaskId>, late: map<TaskId, int>, projectEnd: int): (r: int)
    requires |succs| > 0
    ensures forall s :: s in succs ==> r <= LateOr(late, s, projectEnd)
    ensures exists s :: s in succs && r == LateOr(late, s, projectEnd)
  {
    var last := succs[|succs| - 1];
    if |succs| == 1 then LateOr(late, last, projectEnd)
    else
      var front := succs[..|succs| - 1];
      assert forall x :: x in succs <==> x in front || x == last;
      var rest := MinLate(front, late, projectEnd);
      if LateOr(late, last, projectEnd) < rest then LateOr(late, last, projectEnd) else rest
  }

  /** The state of the backward pass once the tasks from position i on are
      done: each has a latest start no earlier than its earliest start, a
      latest finish within the project and before the latest start of every
      later task depending on it. */
  ghost predicate LateFrom(late: map<TaskId, int>, topo: seq<Task>, placed: seq<Slot>, projectEnd: int,
                           overrides: map<TaskId, Num>, i: int) {
    |placed| == |topo|
    && forall k :: 0 <= k < |topo| && i <= k ==>
      topo[k].id in late
      && placed[k].start <= late[topo[k].id]
      && late[topo[k].id] + Len(topo[k], overrides) <= projectEnd
      && forall q :: k < q < |topo| && topo[k].id in topo[q].deps ==>
           topo[q].id in late && late[topo[k].id] + Len(topo[k], overrides) <= late[topo[q].id]
  }

  /** The forward pass facts the backward pass relies on. */
  ghost predicate Forward(tasks: seq<Task>, topo: seq<Task>, placed: seq<Slot>, times: map<TaskId, Span>,
                          projectEnd: int, overrides: map<TaskId, Num>) {
    IsTopoOrderOf(topo, tasks)
    && |placed| == |topo| && PlacedAs(placed, topo, overrides) && AfterDeps(placed) && SpansOf(times, placed)
    && forall k :: 0 <= k < |topo| ==> placed[k].end <= projectEnd
  }

  /** The latest start the backward pass gives task t once its successors
      are done: the least latest start of its successors (the project end for
      a successor without one), or the project end when it has none, less its
      duration. */
  function LateOf(tasks: seq<Task>, t: Task, late: map<TaskId, int>, projectEnd: int,
                  overrides: map<TaskId, Num>): int {
    var succs := OutList(tasks, t.id);
    if |succs| == 0 then projectEnd - Len(t, overrides)
    else MinLate(succs, late, projectEnd) - Len(t, overrides)
  }

  /** Every successor of the task at position p is done and its latest start
      lies between p's earliest finish and the project end. */
  lemma SuccessorsDone(tasks: seq<Task>, topo: seq<Task>, placed: seq<Slot>, times: map<TaskId, Span>,
                       late: map<TaskId, int>, projectEnd: int, overrides: map<TaskId, Num>, p: int)
    requires Forward(tasks, topo, placed, times, projectEnd, overrides)
    requires 0 <= p < |topo| && LateFrom(late, topo, placed, projectEnd, overrides, p + 1)
    ensures forall s :: s in OutList(tasks, topo[p].id) ==>
      s in late && placed[p].end <= late[s] && late[s] <= projectEnd
  {
    PlacedDistinct(placed, topo, overrides);
    forall s | s in OutList(tasks, topo[p].id)
      ensures s in late && placed[p].end <= late[s] && late[s] <= projectEnd
    {
      var q := SuccessorAfter(tasks, topo, p, s);
      assert placed[..q][p] == placed[p];
      LastSlotAt(placed[..q], p);
    }
  }

  /** Every later task depending on the one at position p is among its
      successors. */
  lemma DependentsListed(tasks: seq<Task>, topo: seq<Task>, p: int)
    requires IsTopoOrderOf(topo, tasks) && 0 <= p < |topo|
    ensures forall q :: p < q < |topo| && topo[p].id in topo[q].deps ==> topo[q].id in OutList(tasks, topo[p].id)
  {
    forall q | p < q < |topo| && topo[p].id in topo[q].deps
      ensures topo[q].id in OutList(tasks, topo[p].id)
    {
      SuccessorListed(tasks, topo, p, q);
    }
  }

  lemma LateStep(tasks: seq<Task>, topo: seq<Task>, placed: seq<Slot>, times: map<TaskId, Span>,
                 late: map<TaskId, int>, projectEnd: int, overrides: map<TaskId, Num>, p: int)
    requires Forward(tasks, topo, placed, times, projectEnd, overrides)
    requires 0 <= p < |topo| && LateFrom(late, topo, placed, projectEnd, overrides, p + 1)
    ensures LateFrom(late[topo[p].id := LateOf(tasks, topo[p], late, projectEnd, overrides)],
                     topo, placed, projectEnd, overrides, p)
  {
    var t := topo[p];
    var v := LateOf(tasks, t, late, projectEnd, overrides);
    SuccessorsDone(tasks, topo, placed, times, late, projectEnd, overrides, p);
    DependentsListed(tasks, topo, p);
    assert placed[p].end == placed[p].start + Len(t, overrides);
    var succs := OutList(tasks, t.id);
    assert |succs| > 0 ==> exists s :: s in succs && MinLate(succs, late, projectEnd) == LateOr(late, s, projectEnd);
    LateFromExtend(late, topo, placed, projectEnd, overrides, p, v);
  }

  /** One more task of the backward pass, at position p, with latest start v
      that fits after its earliest start, within the project and before every
      later dependent. */
  lemma LateFromExtend(late: map<TaskId, int>, topo: seq<Task>, placed: seq<Slot>, projectEnd: int,
                       overrides: map<TaskId, Num>, p: int, v: int)
    requires UniqueIds(topo) && 0 <= p < |topo|
    requires LateFrom(late, topo, placed, projectEnd, overrides, p + 1)
    requires placed[p].start <= v && v + Len(topo[p], overrides) <= projectEnd
    requires forall q :: p < q < |topo| && topo[p].id in topo[q].deps ==>
      topo[q].id in late && v + Len(topo[p], overrides) <= late[topo[q].id]
    ensures LateFrom(late[topo[p].id := v], topo, placed, projectEnd, overrides, p)
  {
    assert forall k :: p < k < |topo| ==> topo[k].id != topo[p].id;
  }

  /** The tasks from position i on hold exactly the latest start the backward
      pass defines for them from the map itself: the least latest start of
      their successors, or the project end, less their duration. */
  ghost predicate PinnedFrom(late: map<TaskId, int>, tasks: seq<Task>, topo: seq<Task>, projectEnd: int,
                             overrides: map<TaskId, Num>, i: int) {
    forall k :: 0 <= k < |topo| && i <= k ==>
      topo[k].id in late && late[topo[k].id] == LateOf(tasks, topo[k], late, projectEnd, overrides)
  }

  /** The least latest start of a successor list ignores the entries of ids
      outside it. */
  lemma {:induction false} MinLateFrame(succs: seq<TaskId>, late: map<TaskId, int>, x: TaskId, v: int,
                                        projectEnd: int)
    requires |succs| > 0 && x !in succs
    ensures MinLate(succs, late[x := v], projectEnd) == MinLate(succs, late, projectEnd)
    decreases |succs|
  {
    var last := succs[|succs| - 1];
    assert LateOr(late[x := v], last, projectEnd) == LateOr(late, last, projectEnd);
    if |succs| > 1 {
      var front := succs[..|succs| - 1];
      assert forall y :: y in front ==> y in succs;
      MinLateFrame(front, late, x, v, projectEnd);
    }
  }

  /** A task is never among the successors of itself or of a task placed
      after it. */
  lemma NotSuccessorOfLater(tasks: seq<Task>, topo: seq<Task>, i: int, k: int)
    requires IsTopoOrderOf(topo, tasks) && 0 <= i <= k < |topo|
    ensures topo[i].id !in OutList(tasks, topo[k].id)
  {
    if topo[i].id in OutList(tasks, topo[k].id) {
      var q := SuccessorAfter(tasks, topo, k, topo[i].id);
      assert false;
    }
  }

  /** Setting the latest start of the task at position i keeps the pinned
      values of the tasks after it and pins it too. */
  lemma PinStep(tasks: seq<Task>, topo: seq<Task>, late: map<TaskId, int>, projectEnd: int,
                overrides: map<TaskId, Num>, i: int)
    requires IsTopoOrderOf(topo, tasks) && 0 <= i < |topo|
    requires PinnedFrom(late, tasks, topo, projectEnd, overrides, i + 1)
    ensures PinnedFrom(late[topo[i].id := LateOf(tasks, topo[i], late, projectEnd, overrides)],
                       tasks, topo, projectEnd, overrides, i)
  {
    var x := topo[i].id;
    var v := LateOf(tasks, topo[i], late, projectEnd, overrides);
    var late' := late[x := v];
    forall k | i <= k < |topo|
      ensures topo[k].id in late' && late'[topo[k].id] == LateOf(tasks, topo[k], late', projectEnd, overrides)
    {
      NotSuccessorOfLater(tasks, topo, i, k);
      var succs := OutList(tasks, topo[k].id);
      if |succs| > 0 {
        MinLateFrame(succs, late, x, v, projectEnd);
      }
      assert LateOf(tasks, topo[k], late', projectEnd, overrides) == LateOf(tasks, topo[k], late, projectEnd, overrides);
      if k > i {
        assert topo[k].id != x;
      }
    }
  }

  /** The backward pass: every task starts from the project end less its
      duration; then, in reverse order, a task gets the least latest start of
      its successors less its duration, or the project end less its duration
      when it has none. */
  method LateStarts(tasks: seq<Task>, topo: seq<Task>, projectEnd: int, overrides: map<TaskId, Num>,
                    ghost placed: seq<Slot>, ghost times: map<TaskId, Span>)
    returns (late: map<TaskId, int>)
    ensures forall t :: t in tasks ==> t.id in late
    ensures Forward(tasks, topo, placed, times, projectEnd, overrides) ==>
      LateFrom(late, topo, placed, projectEnd, overrides, 0)
    ensures IsTopoOrderOf(topo, tasks) ==> PinnedFrom(late, tasks, topo, projectEnd, overrides, 0)
  {
    late := map[];
    for i := 0 to |tasks|
      invariant forall k :: 0 <= k < i ==> tasks[k].id in late
    {
      late := late[tasks[i].id := projectEnd - Len(tasks[i], overrides)];
    }
    var i := |topo|;
    while i > 0
      invariant 0 <= i <= |topo|
      invariant forall t :: t in tasks ==> t.id in late
      invariant Backward(late, tasks, topo, placed, times, projectEnd, overrides, i)
    {
      i := i - 1;
      var t := topo[i];
      var lt := LateOf(tasks, t, late, projectEnd, overrides);
      BackwardStep(late, tasks, topo, placed, times, projectEnd, overrides, i);
      late := late[t.id := lt];
    }
  }

  /** The state of the backward pass once the tasks from position i on are
      done, for the orders it is given. */
  ghost predicate Backward(late: map<TaskId, int>, tasks: seq<Task>, topo: seq<Task>, placed: seq<Slot>,
                           times: map<TaskId, Span>, projectEnd: int, overrides: map<TaskId, Num>, i: int) {
    (Forward(tasks, topo, placed, times, projectEnd, overrides) ==> LateFrom(late, topo, placed, projectEnd, overrides, i))
    && (IsTopoOrderOf(topo, tasks) ==> PinnedFrom(late, tasks, topo, projectEnd, overrides, i))
  }

  lemma BackwardStep(late: map<TaskId, int>, tasks: seq<Task>, topo: seq<Task>, placed: seq<Slot>,
                     times: map<TaskId, Span>, projectEnd: int, overrides: map<TaskId, Num>, i: int)
    requires 0 <= i < |topo| && Backward(late, tasks, topo, placed, times, projectEnd, overrides, i + 1)
    ensures Backward(late[topo[i].id := LateOf(tasks, topo[i], late, projectEnd, overrides)],
                     tasks, topo, placed, times, projectEnd, overrides, i)
  {
    if Forward(tasks, topo, placed, times, projectEnd, overrides) {
      LateStep(tasks, topo, placed, times, late, projectEnd, overrides, i);
    }
    if IsTopoOrderOf(topo, tasks) {
      PinStep(tasks, topo, late, projectEnd, overrides, i);
    }
  }

  /** A task depending on the one at position p sits after it. */
  lemma DependentAfter(tasks: seq<Task>, topo: seq<Task>, p: int, q: int)
    requires IsTopoOrderOf(topo, tasks) && 0 <= p < |topo| && 0 <= q < |topo|
    requires topo[p].id in Ids(tasks) && topo[p].id in topo[q].deps
    ensures p < q
  {
    var m :| 0 <= m < q && topo[m].id == topo[p].id;
    assert m == p;
  }

  lemma LateAt(tasks: seq<Task>, topo: seq<Task>, placed: seq<Slot>, times: map<TaskId, Span>,
                late: map<TaskId, int>, projectEnd: int, overrides: map<TaskId, Num>, p: int)
    requires Forward(tasks, topo, placed, times, projectEnd, overrides)
    requires LateFrom(late, topo, placed, projectEnd, overrides, 0) && 0 <= p < |topo|
    ensures topo[p].id in late && topo[p].id in times
    ensures times[topo[p].id].start <= late[topo[p].id]
    ensures late[topo[p].id] + Len(topo[p], overrides) <= projectEnd
    ensures forall u :: u in topo && topo[p].id in u.deps ==>
      u.id in late && late[topo[p].id] + Len(topo[p], overrides) <= late[u.id]
  {
    var t := topo[p];
    SpanAt(topo, placed, times, overrides, p);
    assert t in multiset(tasks) && t.id in Ids(tasks);
    forall u | u in topo && t.id in u.deps
      ensures u.id in late && late[t.id] + Len(t, overrides) <= late[u.id]
    {
      var q :| 0 <= q < |topo| && topo[q] == u;
      DependentAfter(tasks, topo, p, q);
    }
  }

  lemma BackwardFacts(tasks: seq<Task>, topo: seq<Task>, placed: seq<Slot>, times: map<TaskId, Span>,
                      late: map<TaskId, int>, projectEnd: int, overrides: map<TaskId, Num>)
    requires Forward(tasks, topo, placed, times, projectEnd, overrides)
    requires LateFrom(late, topo, placed, projectEnd, overrides, 0)
    ensures LateOk(late, times, topo, projectEnd, overrides)
  {
    forall t | t in topo
      ensures t.id in late && t.id in times
      ensures times[t.id].start <= late[t.id]
      ensures late[t.id] + Len(t, overrides) <= projectEnd
      ensures forall u :: u in topo && t.id in u.deps ==> u.id in late && late[t.id] + Len(t, overrides) <= late[u.id]
    {
      var p :| 0 <= p < |topo| && topo[p] == t;
      LateAt(tasks, topo, placed, times, late, projectEnd, overrides, p);
    }
  }

  // ---------------------------------------------------------------------------
  // computeCpm

  datatype Cpm = Cpm(times: map<TaskId, Span>, late: map<TaskId, int>, slack: map<TaskId, int>, projectEnd: int)

  /** Slack of every task: latest start less earliest start, a missing value
      read as 0. */
  method Slacks(tasks: seq<Task>, times: map<TaskId, Span>, late: map<TaskId, int>) returns (slack: map<TaskId, int>)
    ensures forall t :: t in tasks ==> t.id in slack
    ensures UniqueIds(tasks) ==> forall t :: t in tasks && t.id in late && t.id in times ==>
      slack[t.id] == late[t.id] - times[t.id].start
  {
    slack := map[];
    for i := 0 to |tasks|
      invariant forall k :: 0 <= k < i ==> tasks[k].id in slack
      invariant UniqueIds(tasks) ==> forall k :: 0 <= k < i && tasks[k].id in late && tasks[k].id in times ==>
        slack[tasks[k].id] == late[tasks[k].id] - times[tasks[k].id].start
    {
      var t := tasks[i];
      slack := slack[t.id := LateOr(late, t.id, 0) - (if t.id in times then times[t.id].start else 0)];
    }
  }

  lemma MembersOfTopo(tasks: seq<Task>, topo: seq<Task>)
    requires multiset(topo) == multiset(tasks)
    ensures forall t :: t in tasks <==> t in topo
  {
    forall t
      ensures t in tasks <==> t in topo
    {
      assert t in tasks <==> t in multiset(tasks);
      assert t in topo <==> t in multiset(topo);
    }
  }

  /** The facts are about tasks, not positions, so they carry over to any
      sequence with the same members. */
  lemma EarlyTransfer(times: map<TaskId, Span>, a: seq<Task>, b: seq<Task>, overrides: map<TaskId, Num>)
    requires forall t :: t in a <==> t in b
    requires EarlyOk(times, a, overrides) && Precedes(times, a) && EarlyTight(times, a)
    ensures EarlyOk(times, b, overrides) && Precedes(times, b) && EarlyTight(times, b)
  {
  }

  lemma LateTransfer(late: map<TaskId, int>, times: map<TaskId, Span>, a: seq<Task>, b: seq<Task>,
                     projectEnd: int, overrides: map<TaskId, Num>)
    requires forall t :: t in a <==> t in b
    requires LateOk(late, times, a, projectEnd, overrides)
    ensures LateOk(late, times, b, projectEnd, overrides)
  {
  }

  /** The project end bounds every earliest finish. */
  lemma EndsBounded(topo: seq<Task>, placed: seq<Slot>, times: map<TaskId, Span>, projectEnd: int,
                    overrides: map<TaskId, Num>)
    requires UniqueIds(topo) && |placed| == |topo| && PlacedAs(placed, topo, overrides) && SpansOf(times, placed)
    requires projectEnd == DepEnd(IdList(topo), times)
    ensures forall k :: 0 <= k < |topo| ==> placed[k].end <= projectEnd
  {
    forall k | 0 <= k < |topo|
      ensures placed[k].end <= projectEnd
    {
      SpanAt(topo, placed, times, overrides, k);
      assert IdList(topo)[k] == topo[k].id;
    }
  }

  /** The project end is the latest earliest finish of a task, or 0. */
  lemma ProjectEndFacts(tasks: seq<Task>, topo: seq<Task>, times: map<TaskId, Span>, projectEnd: int)
    requires forall t :: t in tasks <==> t in topo
    requires forall t :: t in topo ==> t.id in times
    requires projectEnd == DepEnd(IdList(topo), times)
    ensures forall t :: t in tasks ==> times[t.id].end <= projectEnd
    ensures projectEnd == 0 || exists t :: t in tasks && times[t.id].end == projectEnd
  {
    forall t | t in tasks
      ensures times[t.id].end <= projectEnd
    {
      var k :| 0 <= k < |topo| && topo[k] == t;
      assert IdList(topo)[k] == t.id;
    }
    if projectEnd != 0 {
      var id :| id in IdList(topo) && id in times && times[id].end == projectEnd;
      var k :| 0 <= k < |topo| && IdList(topo)[k] == id;
      assert topo[k] in tasks;
    }
  }

  /** The earliest times, stated on the tasks. */
  ghost predicate EarlyFactsOn(times: map<TaskId, Span>, ts: seq<Task>, projectEnd: int, overrides: map<TaskId, Num>) {
    EarlyOk(times, ts, overrides) && Precedes(times, ts) && EarlyTight(times, ts)
    && (forall t :: t in ts ==> times[t.id].end <= projectEnd)
    && (projectEnd == 0 || exists t :: t in ts && times[t.id].end == projectEnd)
  }

  /** What the forward pass gives, stated on the tasks. */
  lemma CpmForward(tasks: seq<Task>, topo: seq<Task>, placed: seq<Slot>, times: map<TaskId, Span>,
                   projectEnd: int, overrides: map<TaskId, Num>)
    requires IsTopoOrderOf(topo, tasks)
    requires |placed| == |topo| && PlacedAs(placed, topo, overrides)
    requires AfterDeps(placed) && TightSlots(placed) && SpansOf(times, placed)
    requires projectEnd == DepEnd(IdList(topo), times)
    ensures Forward(tasks, topo, placed, times, projectEnd, overrides)
    ensures EarlyFactsOn(times, tasks, projectEnd, overrides)
  {
    MembersOfTopo(tasks, topo);
    EarlyFacts(topo, placed, times, overrides);
    PrecedesFacts(tasks, topo, placed, times, overrides);
    TightFacts(topo, placed, times, overrides);
    EarlyTransfer(times, topo, tasks, overrides);
    EndsBounded(topo, placed, times, projectEnd, overrides);
    ProjectEndFacts(tasks, topo, times, projectEnd);
  }

  /** Latest starts and slacks, stated on the tasks. */
  ghost predicate LateFactsOn(late: map<TaskId, int>, slack: map<TaskId, int>, times: map<TaskId, Span>,
                              ts: seq<Task>, projectEnd: int, overrides: map<TaskId, Num>) {
    LateOk(late, times, ts, projectEnd, overrides)
    && (forall t :: t in ts ==> t.id in slack && slack[t.id] == late[t.id] - times[t.id].start >= 0)
    && (|ts| > 0 ==> exists t :: t in ts && slack[t.id] == 0)
  }

  /** A task whose earliest finish is the project end has no slack. */
  lemma CriticalExists(late: map<TaskId, int>, slack: map<TaskId, int>, times: map<TaskId, Span>,
                       tasks: seq<Task>, projectEnd: int, overrides: map<TaskId, Num>)
    requires LateOk(late, times, tasks, projectEnd, overrides) && EarlyOk(times, tasks, overrides)
    requires forall t :: t in tasks ==> t.id in slack && slack[t.id] == late[t.id] - times[t.id].start
    requires projectEnd == 0 || exists t :: t in tasks && times[t.id].end == projectEnd
    requires |tasks| > 0
    ensures exists t :: t in tasks && slack[t.id] == 0
  {
    var t := tasks[0];
    if projectEnd != 0 {
      t :| t in tasks && times[t.id].end == projectEnd;
    }
    assert late[t.id] + Len(t, overrides) <= projectEnd;
  }

  /** What the backward pass and the slacks give, stated on the tasks. */
  lemma CpmBackward(tasks: seq<Task>, topo: seq<Task>, placed: seq<Slot>, times: map<TaskId, Span>,
                    late: map<TaskId, int>, slack: map<TaskId, int>, projectEnd: int, overrides: map<TaskId, Num>)
    requires Forward(tasks, topo, placed, times, projectEnd, overrides)
    requires EarlyFactsOn(times, tasks, projectEnd, overrides)
    requires LateFrom(late, topo, placed, projectEnd, overrides, 0)
    requires forall t :: t in tasks ==> t.id in slack
    requires forall t :: t in tasks && t.id in late && t.id in times ==> slack[t.id] == late[t.id] - times[t.id].start
    ensures LateFactsOn(late, slack, times, tasks, projectEnd, overrides)
  {
    MembersOfTopo(tasks, topo);
    BackwardFacts(tasks, topo, placed, times, late, projectEnd, overrides);
    LateTransfer(late, times, topo, tasks, projectEnd, overrides);
    if |tasks| > 0 {
      CriticalExists(late, slack, times, tasks, projectEnd, overrides);
    }
  }

  /** Every task holds the latest start the backward pass defines from the
      map itself. */
  ghost predicate LatePinnedOn(late: map<TaskId, int>, tasks: seq<Task>, projectEnd: int,
                               overrides: map<TaskId, Num>) {
    forall t :: t in tasks ==> t.id in late && late[t.id] == LateOf(tasks, t, late, projectEnd, overrides)
  }

  lemma PinnedOnTasks(late: map<TaskId, int>, tasks: seq<Task>, topo: seq<Task>, projectEnd: int,
                      overrides: map<TaskId, Num>)
    requires IsTopoOrderOf(topo, tasks) && PinnedFrom(late, tasks, topo, projectEnd, overrides, 0)
    ensures LatePinnedOn(late, tasks, projectEnd, overrides)
  {
    MembersOfTopo(tasks, topo);
    forall t | t in tasks
      ensures t.id in late && late[t.id] == LateOf(tasks, t, late, projectEnd, overrides)
    {
      var k :| 0 <= k < |topo| && topo[k] == t;
    }
  }

  /** computeCpm: without repeated ids and with acyclic dependencies, every
      task gets a non-negative earliest start no earlier than its
      dependencies' earliest finishes and equal to one of them (or 0); the
      project end is the latest earliest finish; every latest start lies
      between the earliest start and the project end less the duration and
      before its dependents' latest starts, so no slack is negative; every
      latest start is the one the backward pass defines; and a non-empty plan
      has a task without slack. */
  method ComputeCpm(tasks: seq<Task>, overrides: map<TaskId, Num>) returns (r: Cpm)
    ensures r.projectEnd >= 0
    ensures forall t :: t in tasks ==> t.id in r.slack
    ensures UniqueIds(tasks) && Acyclic(tasks) ==> EarlyFactsOn(r.times, tasks, r.projectEnd, overrides)
    ensures UniqueIds(tasks) && Acyclic(tasks) ==> LateFactsOn(r.late, r.slack, r.times, tasks, r.projectEnd, overrides)
    ensures UniqueIds(tasks) && Acyclic(tasks) ==> LatePinnedOn(r.late, tasks, r.projectEnd, overrides)
  {
    var topo := TopoSort(tasks);
    var times, placed := EarlyTimes(topo, overrides);
    var projectEnd := DepEnd(IdList(topo), times);
    var late := LateStarts(tasks, topo, projectEnd, overrides, placed, times);
    var slack := Slacks(tasks, times, late);
    r := Cpm(times, late, slack, projectEnd);
    if UniqueIds(tasks) && Acyclic(tasks) {
      CpmForward(tasks, topo, placed, times, projectEnd, overrides);
      CpmBackward(tasks, topo, placed, times, late, slack, projectEnd, overrides);
      PinnedOnTasks(late, tasks, topo, projectEnd, overrides);
    }
  }
}

=== FILE: schedule_level.dfy ===
/** scheduleWithResources in scheduleEngine.ts: resource levelling by work
    days. Tasks are taken in topological order; each starts on the first work
    day, no earlier than the end of its dependencies, on which its crew pool
    has a free crew and, for riser work, fewer risers are busy than allowed.
    Work days are counted from 0; a task occupies the days [start, end). */
module ScheduleLevel {
  import opened Outcomes
  import opened Numbers
  import opened ScheduleTasks
  import opened ScheduleTopo

  // ---------------------------------------------------------------------------
  // Durations

  /** Whole work days a duration of `q` quarter days occupies (Math.ceil). */
  function WorkDays(q: nat): (r: nat)
    ensures Days(q) <= r as real < Days(q) + 1.0
  {
    var r := (q + 3) / 4;
    assert q <= 4 * r <= q + 3;
    r
  }

  /** The whole work days of a duration are the ceiling of its days, as the
      source computes them. */
  lemma WorkDaysIsCeil(q: nat)
    ensures WorkDays(q) == MaxInt(0, Ceil(Days(q)))
  {
  }

  /** An override the source accepts: a finite, non-negative number. */
  predicate ValidOverride(overrides: map<TaskId, Num>, id: TaskId) {
    id in overrides && overrides[id].IsFinite() && overrides[id].v >= 0.0
  }

  /** durationOf: an accepted override rounded to a quarter day, otherwise
      the task's own duration. */
  function DurationOf(t: Task, overrides: map<TaskId, Num>): (r: nat)
    ensures ValidOverride(overrides, t.id) ==>
      overrides[t.id].v - 0.125 < Days(r) <= overrides[t.id].v + 0.125
    ensures !ValidOverride(overrides, t.id) ==> r == t.quarters
  {
    if ValidOverride(overrides, t.id) then Quarters(overrides[t.id].v) else t.quarters
  }

  /** The task as it is scheduled: its duration is the one durationOf gives. */
  function Adjusted(t: Task, overrides: map<TaskId, Num>): Task {
    t.(quarters := DurationOf(t, overrides))
  }

  // ---------------------------------------------------------------------------
  // Crews and bookings

  datatype Crews = Crews(install: int, restore: int, maxParallel: int)

  /** The crew counts the scheduler works with: at least one installation crew,
      no negative number of restoration crews, at least one riser at a time;
      a count that already meets its bound is kept. */
  function CrewsOf(plan: Plan): (c: Crews)
    ensures c.install >= 1 && c.restore >= 0 && c.maxParallel >= 1
    ensures c.install >= plan.installCrews && c.restore >= plan.restoreCrews
    ensures c.maxParallel >= plan.maxParallel
    ensures plan.installCrews >= 1 ==> c.install == plan.installCrews
    ensures plan.restoreCrews >= 0 ==> c.restore == plan.restoreCrews
    ensures plan.maxParallel >= 1 ==> c.maxParallel == plan.maxParallel
  {
    Crews(MaxInt(1, plan.installCrews), MaxInt(0, plan.restoreCrews), MaxInt(1, plan.maxParallel))
  }

  /** Riser work that counts against the parallel-riser limit. */
  predicate RiserLimited(t: Task) {
    t.category == Riser && (t.kind == Install || t.kind == Test || t.kind == Org)
  }

  /** The pool a task books: restoration work runs on installation crews when
      there is no restoration crew. */
  function PoolOf(t: Task, c: Crews): Pool {
    if t.resource == InstallCrews || c.restore <= 0 then InstallCrews else RestoreCrews
  }

  function Capacity(c: Crews, pool: Pool): int {
    if pool == InstallCrews then c.install else c.restore
  }

  /** Crews booked per work day in each pool, and the days each riser is busy. */
  datatype Booking = Booking(install: map<int, nat>, restore: map<int, nat>, active: map<RiserId, set<int>>)

  function Usage(b: Booking, pool: Pool): map<int, nat> {
    if pool == InstallCrews then b.install else b.restore
  }

  /** Crews booked on day `d` (`usage[d] ?? 0`). */
  function Used(u: map<int, nat>, d: int): nat {
    if d in u then u[d] else 0
  }

  /** The risers busy on day `d`; countActiveRisersAtDay is its size. */
  function ActiveSet(active: map<RiserId, set<int>>, d: int): set<RiserId> {
    set r | r in active && d in active[r]
  }

  /** The test findEarliestSlot makes at one start day: on each of the `len`
      days the riser limit is not reached (riser work only) and the task's pool
      has a crew left. */
  predicate Fits(b: Booking, c: Crews, t: Task, start: int, len: nat) {
    (RiserLimited(t) ==> forall d :: start <= d < start + len ==> |ActiveSet(b.active, d)| < c.maxParallel)
    && forall d :: start <= d < start + len ==> Used(Usage(b, PoolOf(t, c)), d) + 1 <= Capacity(c, PoolOf(t, c))
  }

  /** The first start day findEarliestSlot does not try. */
  const Horizon := 10000

  /** `start` is the first day from `earliest` below the horizon at which the
      task fits, or `earliest` itself when there is none. */
  ghost predicate EarliestFit(b: Booking, c: Crews, t: Task, earliest: int, len: nat, start: int) {
    start >= earliest
    && ((exists s :: earliest <= s < Horizon && Fits(b, c, t, s, len)) ==>
          start < Horizon && Fits(b, c, t, start, len)
          && forall s :: earliest <= s < start ==> !Fits(b, c, t, s, len))
    && ((forall s :: earliest <= s < Horizon ==> !Fits(b, c, t, s, len)) ==> start == earliest)
  }

  /** findEarliestSlot: the first start from `earliest` below the horizon at
      which the task fits; `earliest` itself when there is none. */
  method FindEarliestSlot(b: Booking, c: Crews, t: Task, earliest: int, len: nat) returns (start: int)
    ensures EarliestFit(b, c, t, earliest, len, start)
  {
    var s := earliest;
    while s < Horizon
      invariant s >= earliest
      invariant forall x :: earliest <= x < s ==> !Fits(b, c, t, x, len)
      decreases Horizon - s
    {
      if Fits(b, c, t, s, len) {
        return s;
      }
      s := s + 1;
    }
    return earliest;
  }

  /** Book one more crew on every day of [start, end). */
  method BookDays(u: map<int, nat>, start: int, end: int) returns (u': map<int, nat>)
    ensures forall d :: Used(u', d) == Used(u, d) + (if start <= d < end then 1 else 0)
  {
    u' := u;
    var d := start;
    while d < end
      invariant start <= d <= MaxInt(start, end)
      invariant forall x :: Used(u', x) == Used(u, x) + (if start <= x < d then 1 else 0)
    {
      u' := u'[d := Used(u', d) + 1];
      d := d + 1;
    }
  }

  /** markRiserActive: the riser is busy on every day of [start, end). */
  method MarkActive(active: map<RiserId, set<int>>, r: RiserId, start: int, end: int)
    returns (active': map<RiserId, set<int>>)
    ensures forall x :: x in active' <==> x in active || x == r
    ensures forall x, d :: x in active' ==>
      (d in active'[x] <==> (x in active && d in active[x]) || (x == r && start <= d < end))
  {
    active' := if r in active then active else active[r := {}];
    var d := start;
    while d < end
      invariant start <= d <= MaxInt(start, end)
      invariant forall x :: x in active' <==> x in active || x == r
      invariant forall x, y :: x in active' ==>
        (y in active'[x] <==> (x in active && y in active[x]) || (x == r && start <= y < d))
    {
      active' := active'[r := active'[r] + {d}];
      d := d + 1;
    }
  }

  // ---------------------------------------------------------------------------
  // Placed tasks

  /** A task and the work days [start, end) it is given. */
  datatype Slot = Slot(task: Task, start: int, end: int)

  datatype Span = Span(start: int, end: int)

  /** The slot books a crew of `pool` on day `d`. */
  predicate Books(s: Slot, c: Crews, pool: Pool, d: int) {
    PoolOf(s.task, c) == pool && s.start <= d < s.end
  }

  /** The slot keeps its riser busy on day `d`. */
  predicate Busy(s: Slot, d: int) {
    RiserLimited(s.task) && s.task.riser.Some? && s.start <= d < s.end
  }

  /** Crews of `pool` the slots book on day `d`. */
  function Load(slots: seq<Slot>, c: Crews, pool: Pool, d: int): nat {
    if |slots| == 0 then 0
    else Load(slots[..|slots| - 1], c, pool, d) + (if Books(slots[|slots| - 1], c, pool, d) then 1 else 0)
  }

  /** The risers the slots keep busy on day `d`. */
  function BusyRisers(slots: seq<Slot>, d: int): (r: set<RiserId>)
    ensures forall x :: x in r <==> exists s :: s in slots && Busy(s, d) && s.task.riser.value == x
  {
    if |slots| == 0 then {}
    else
      var front := slots[..|slots| - 1];
      var last := slots[|slots| - 1];
      assert forall s :: s in slots <==> s in front || s == last;
      BusyRisers(front, d) + (if Busy(last, d) then {last.task.riser.value} else {})
  }

  /** No day has more crews booked than its pool holds, nor more busy risers
      than the limit. */
  ghost predicate WithinCapacity(slots: seq<Slot>, c: Crews) {
    forall d :: Load(slots, c, InstallCrews, d) <= c.install
             && Load(slots, c, RestoreCrews, d) <= c.restore
             && |BusyRisers(slots, d)| <= c.maxParallel
  }

  /** The last slot given to a task with id `id`. */
  function LastSlot(slots: seq<Slot>, id: TaskId): (r: Option<Slot>)
    ensures r.Some? ==> r.value in slots && r.value.task.id == id
  {
    if |slots| == 0 then None
    else if slots[|slots| - 1].task.id == id then Some(slots[|slots| - 1])
    else LastSlot(slots[..|slots| - 1], id)
  }

  predicate DistinctIds(slots: seq<Slot>) {
    forall i, j :: 0 <= i < j < |slots| ==> slots[i].task.id != slots[j].task.id
  }

  /** Among slots with distinct ids, a task's slot is the last one with its id. */
  lemma {:induction false} LastSlotAt(slots: seq<Slot>, j: int)
    requires DistinctIds(slots) && 0 <= j < |slots|
    ensures LastSlot(slots, slots[j].task.id) == Some(slots[j])
  {
    var n := |slots| - 1;
    if j < n {
      assert slots[..n][j] == slots[j];
      LastSlotAt(slots[..n], j);
    }
  }

  /** depEnd: the latest end among the dependencies already scheduled, and 0
      when there are none. */
  function DepEnd(deps: seq<TaskId>, sched: map<TaskId, Span>): (r: int)
    ensures r >= 0
    ensures forall d :: d in deps && d in sched ==> sched[d].end <= r
    ensures r == 0 || exists d :: d in deps && d in sched && sched[d].end == r
  {
    if |deps| == 0 then 0
    else
      var front := deps[..|deps| - 1];
      var last := deps[|deps| - 1];
      assert forall x :: x in deps <==> x in front || x == last;
      var rest := DepEnd(front, sched);
      if last in sched then MaxInt(rest, sched[last].end) else rest
  }

  // ---------------------------------------------------------------------------
  // The invariants of the placement loop

  /** Slot j holds task j of the order with its scheduled duration, from a
      non-negative start for the whole work days of that duration. */
  ghost predicate PlacedAs(placed: seq<Slot>, topo: seq<Task>, overrides: map<TaskId, Num>) {
    |placed| <= |topo|
    && forall j :: 0 <= j < |placed| ==>
         placed[j].task == Adjusted(topo[j], overrides)
         && 0 <= placed[j].start
         && placed[j].end == placed[j].start + WorkDays(placed[j].task.quarters)
  }

  /** Every slot starts no earlier than the end of the last earlier slot of
      each of its dependencies. */
  ghost predicate AfterDeps(placed: seq<Slot>) {
    forall j, d :: 0 <= j < |placed| && d in placed[j].task.deps && LastSlot(placed[..j], d).Some? ==>
      LastSlot(placed[..j], d).value.end <= placed[j].start
  }

  /** The span map (scheduled, depsDoneAt) holds the span of the last slot of
      each id. */
  ghost predicate SpansOf(sched: map<TaskId, Span>, placed: seq<Slot>) {
    forall id :: (id in sched <==> LastSlot(placed, id).Some?)
      && (id in sched ==> sched[id] == Span(LastSlot(placed, id).value.start, LastSlot(placed, id).value.end))
  }

  /** Every recorded span starts on a non-negative day and does not end
      before it starts. */
  predicate SpansSane(sched: map<TaskId, Span>) {
    forall id :: id in sched ==> 0 <= sched[id].start <= sched[id].end
  }

  /** The booking records exactly the crews and busy risers of the slots. */
  ghost predicate BookedAs(b: Booking, c: Crews, placed: seq<Slot>) {
    forall d :: Used(b.install, d) == Load(placed, c, InstallCrews, d)
             && Used(b.restore, d) == Load(placed, c, RestoreCrews, d)
             && ActiveSet(b.active, d) == BusyRisers(placed, d)
  }

  /** What booking a slot adds to a booking. */
  ghost predicate BookedWith(b': Booking, b: Booking, c: Crews, s: Slot) {
    forall d :: Used(b'.install, d) == Used(b.install, d) + (if Books(s, c, InstallCrews, d) then 1 else 0)
             && Used(b'.restore, d) == Used(b.restore, d) + (if Books(s, c, RestoreCrews, d) then 1 else 0)
             && ActiveSet(b'.active, d) == ActiveSet(b.active, d) + (if Busy(s, d) then {s.task.riser.value} else {})
  }

  lemma SnocFront(placed: seq<Slot>, s: Slot)
    ensures (placed + [s])[..|placed|] == placed
    ensures forall j :: 0 <= j <= |placed| ==> (placed + [s])[..j] == placed[..j]
  {
  }

  lemma BookedStep(b: Booking, b': Booking, c: Crews, placed: seq<Slot>, s: Slot)
    requires BookedAs(b, c, placed) && BookedWith(b', b, c, s)
    ensures BookedAs(b', c, placed + [s])
  {
    SnocFront(placed, s);
  }

  lemma CapacityStep(b: Booking, c: Crews, placed: seq<Slot>, s: Slot)
    requires WithinCapacity(placed, c) && BookedAs(b, c, placed)
    requires s.start <= s.end && Fits(b, c, s.task, s.start, s.end - s.start)
    ensures WithinCapacity(placed + [s], c)
  {
    SnocFront(placed, s);
    var pool := PoolOf(s.task, c);
    forall d
      ensures Load(placed + [s], c, InstallCrews, d) <= c.install
      ensures Load(placed + [s], c, RestoreCrews, d) <= c.restore
      ensures |BusyRisers(placed + [s], d)| <= c.maxParallel
    {
      if s.start <= d < s.end {
        assert Used(Usage(b, pool), d) + 1 <= Capacity(c, pool);
      }
      assert BusyRisers(placed + [s], d)
          == BusyRisers(placed, d) + (if Busy(s, d) then {s.task.riser.value} else {});
    }
  }

  lemma AfterDepsStep(placed: seq<Slot>, sched: map<TaskId, Span>, s: Slot)
    requires AfterDeps(placed) && SpansOf(sched, placed)
    requires DepEnd(s.task.deps, sched) <= s.start
    ensures AfterDeps(placed + [s])
  {
    SnocFront(placed, s);
    var p := placed + [s];
    forall j, d | 0 <= j < |p| && d in p[j].task.deps && LastSlot(p[..j], d).Some?
      ensures LastSlot(p[..j], d).value.end <= p[j].start
    {
      if j == |placed| {
        assert d in sched;
      }
    }
  }

  lemma SpansStep(sched: map<TaskId, Span>, placed: seq<Slot>, s: Slot)
    requires SpansOf(sched, placed)
    ensures SpansOf(sched[s.task.id := Span(s.start, s.end)], placed + [s])
  {
    SnocFront(placed, s);
  }

  lemma PlacedStep(placed: seq<Slot>, topo: seq<Task>, overrides: map<TaskId, Num>, s: Slot)
    requires PlacedAs(placed, topo, overrides) && |placed| < |topo|
    requires s.task == Adjusted(topo[|placed|], overrides)
    requires 0 <= s.start && s.end == s.start + WorkDays(s.task.quarters)
    ensures PlacedAs(placed + [s], topo, overrides)
  {
  }

  lemma SaneStep(sched: map<TaskId, Span>, id: TaskId, start: int, end: int)
    requires SpansSane(sched) && 0 <= start <= end
    ensures SpansSane(sched[id := Span(start, end)])
  {
  }

  /** Book a placed task: its crew pool on each of its days and, for riser
      work with a riser, the riser. */
  method BookSlot(b: Booking, c: Crews, s: Slot) returns (b': Booking)
    ensures BookedWith(b', b, c, s)
  {
    var install := b.install;
    var restore := b.restore;
    if PoolOf(s.task, c) == InstallCrews {
      install := BookDays(install, s.start, s.end);
    } else {
      restore := BookDays(restore, s.start, s.end);
    }
    var active := b.active;
    if s.task.riser.Some? && RiserLimited(s.task) {
      active := MarkActive(active, s.task.riser.value, s.start, s.end);
    }
    b' := Booking(install, restore, active);
    forall d
      ensures ActiveSet(b'.active, d) == ActiveSet(b.active, d) + (if Busy(s, d) then {s.task.riser.value} else {})
    {
    }
  }

  // ---------------------------------------------------------------------------
  // When the horizon is never reached

  /** The whole work days of all the tasks, each at its scheduled duration:
      the length of doing them one after another. */
  function TotalWork(ts: seq<Task>, overrides: map<TaskId, Num>): nat {
    if |ts| == 0 then 0
    else TotalWork(ts[..|ts| - 1], overrides) + WorkDays(DurationOf(ts[|ts| - 1], overrides))
  }

  /** On a day no slot reaches, no crew is booked and no riser is busy. */
  lemma {:induction false} FreeAfter(slots: seq<Slot>, c: Crews, pool: Pool, d: int)
    requires forall j :: 0 <= j < |slots| ==> slots[j].end <= d
    ensures Load(slots, c, pool, d) == 0 && BusyRisers(slots, d) == {}
  {
    if |slots| > 0 {
      var n := |slots| - 1;
      FreeAfter(slots[..n], c, pool, d);
    }
    forall s | s in slots
      ensures !Busy(s, d)
    {
      var j :| 0 <= j < |slots| && slots[j] == s;
    }
  }

  /** Any task fits from a day at or after the end of every booked slot: each
      pool has at least one crew and at least one riser may be busy. */
  lemma FitsWhenFree(b: Booking, c: Crews, placed: seq<Slot>, t: Task, start: int, len: nat)
    requires c.install >= 1 && c.restore >= 0 && c.maxParallel >= 1
    requires BookedAs(b, c, placed)
    requires forall j :: 0 <= j < |placed| ==> placed[j].end <= start
    ensures Fits(b, c, t, start, len)
  {
    forall d | start <= d < start + len
      ensures Used(Usage(b, PoolOf(t, c)), d) + 1 <= Capacity(c, PoolOf(t, c))
      ensures |ActiveSet(b.active, d)| < c.maxParallel
    {
      FreeAfter(placed, c, InstallCrews, d);
      FreeAfter(placed, c, RestoreCrews, d);
    }
  }

  /** The dependencies of a task end no later than a day every slot ends by. */
  lemma DepEndBelow(deps: seq<TaskId>, sched: map<TaskId, Span>, placed: seq<Slot>, w: nat)
    requires SpansOf(sched, placed)
    requires forall j :: 0 <= j < |placed| ==> placed[j].end <= w
    ensures DepEnd(deps, sched) <= w
  {
    var r := DepEnd(deps, sched);
    if r != 0 {
      var d :| d in deps && d in sched && sched[d].end == r;
      var s := LastSlot(placed, d).value;
      var j :| 0 <= j < |placed| && placed[j] == s;
    }
  }

  /** findEarliestSlot never starts a task after the day all booked slots
      have ended by, and below the horizon it starts it where it fits. */
  lemma StartWithin(b: Booking, c: Crews, placed: seq<Slot>, sched: map<TaskId, Span>, t: Task,
                    len: nat, start: int, w: nat)
    requires c.install >= 1 && c.restore >= 0 && c.maxParallel >= 1
    requires BookedAs(b, c, placed) && SpansOf(sched, placed)
    requires forall j :: 0 <= j < |placed| ==> placed[j].end <= w
    requires EarliestFit(b, c, t, DepEnd(t.deps, sched), len, start)
    ensures start <= w
    ensures w < Horizon ==> Fits(b, c, t, start, len)
  {
    var earliest := DepEnd(t.deps, sched);
    DepEndBelow(t.deps, sched, placed, w);
    if w < Horizon {
      FitsWhenFree(b, c, placed, t, w, len);
      assert earliest <= w < Horizon && Fits(b, c, t, w, len);
    } else if !exists s :: earliest <= s < Horizon && Fits(b, c, t, s, len) {
      assert start == earliest;
    }
  }

  /** Every slot ends within the work of the tasks placed so far, and a task
      was placed where it does not fit only once that work reached the
      horizon. */
  ghost predicate WithinWork(topo: seq<Task>, overrides: map<TaskId, Num>, placed: seq<Slot>, fellBack: bool) {
    |placed| <= |topo|
    && (forall j :: 0 <= j < |placed| ==> placed[j].end <= TotalWork(topo[..|placed|], overrides))
    && (fellBack ==> TotalWork(topo[..|placed|], overrides) >= Horizon)
  }

  /** Placing the next task no later than the work done so far, and where it
      fits while that work is below the horizon, keeps the slots within the
      work done. */
  lemma WorkStep(topo: seq<Task>, overrides: map<TaskId, Num>, placed: seq<Slot>, fellBack: bool, s: Slot, fits: bool)
    requires WithinWork(topo, overrides, placed, fellBack) && |placed| < |topo|
    requires s.start <= TotalWork(topo[..|placed|], overrides)
    requires s.end == s.start + WorkDays(DurationOf(topo[|placed|], overrides))
    requires TotalWork(topo[..|placed|], overrides) < Horizon ==> fits
    ensures WithinWork(topo, overrides, placed + [s], fellBack || !fits)
  {
    var i := |placed|;
    assert topo[..i + 1][..i] == topo[..i];
  }

  /** The state of the placement loop after the first |placed| tasks. */
  ghost predicate Placing(c: Crews, topo: seq<Task>, overrides: map<TaskId, Num>, placed: seq<Slot>,
                          sched: map<TaskId, Span>, b: Booking, fellBack: bool) {
    PlacedAs(placed, topo, overrides)
    && AfterDeps(placed) && SpansOf(sched, placed) && SpansSane(sched)
    && BookedAs(b, c, placed)
    && (!fellBack ==> WithinCapacity(placed, c))
  }

  /** Placing the next task at a start no earlier than its dependencies' end
      keeps the loop state, and capacity whenever the task fits. */
  lemma PlaceStep(c: Crews, topo: seq<Task>, overrides: map<TaskId, Num>, placed: seq<Slot>,
                  sched: map<TaskId, Span>, b: Booking, fellBack: bool, b': Booking, s: Slot)
    requires Placing(c, topo, overrides, placed, sched, b, fellBack) && |placed| < |topo|
    requires s.task == Adjusted(topo[|placed|], overrides)
    requires 0 <= DepEnd(s.task.deps, sched) <= s.start && s.end == s.start + WorkDays(s.task.quarters)
    requires BookedWith(b', b, c, s)
    ensures Placing(c, topo, overrides, placed + [s], sched[s.task.id := Span(s.start, s.end)], b',
                    fellBack || !Fits(b, c, s.task, s.start, s.end - s.start))
  {
    if !fellBack && Fits(b, c, s.task, s.start, s.end - s.start) {
      CapacityStep(b, c, placed, s);
    }
    BookedStep(b, b', c, placed, s);
    AfterDepsStep(placed, sched, s);
    SpansStep(sched, placed, s);
    PlacedStep(placed, topo, overrides, s);
    SaneStep(sched, s.task.id, s.start, s.end);
  }

  /** The placement loop of scheduleWithResources over the topological order.
      `fellBack` records whether some task was placed where it does not fit,
      because no start below the horizon fitted. */
  method PlaceAll(c: Crews, topo: seq<Task>, overrides: map<TaskId, Num>)
    returns (placed: seq<Slot>, sched: map<TaskId, Span>, ghost fellBack: bool)
    requires c.install >= 1 && c.restore >= 0 && c.maxParallel >= 1
    ensures |placed| == |topo| && PlacedAs(placed, topo, overrides)
    ensures AfterDeps(placed) && SpansOf(sched, placed) && SpansSane(sched)
    ensures !fellBack ==> WithinCapacity(placed, c)
    ensures forall j :: 0 <= j < |placed| ==> placed[j].end <= TotalWork(topo, overrides)
    ensures TotalWork(topo, overrides) < Horizon ==> !fellBack
  {
    var b := Booking(map[], map[], map[]);
    placed := [];
    sched := map[];
    fellBack := false;
    var i := 0;
    while i < |topo|
      invariant 0 <= i <= |topo| && |placed| == i
      invariant Placing(c, topo, overrides, placed, sched, b, fellBack)
      invariant WithinWork(topo, overrides, placed, fellBack)
    {
      var t := Adjusted(topo[i], overrides);
      var len := WorkDays(t.quarters);
      var earliest := DepEnd(t.deps, sched);
      var start := FindEarliestSlot(b, c, t, earliest, len);
      var s := Slot(t, start, start + len);
      var b' := BookSlot(b, c, s);
      PlaceStep(c, topo, overrides, placed, sched, b, fellBack, b', s);
      StartWithin(b, c, placed, sched, t, len, start, TotalWork(topo[..i], overrides));
      WorkStep(topo, overrides, placed, fellBack, s, Fits(b, c, t, start, len));
      fellBack := fellBack || !Fits(b, c, t, start, len);
      b := b';
      placed := placed + [s];
      sched := sched[t.id := Span(start, start + len)];
      i := i + 1;
    }
    assert topo[..i] == topo;
  }

  // ---------------------------------------------------------------------------
  // The output

  /** A scheduled task: its work days [start, end) and, counted from the
      start date, the calendar days of its first day and of the day after its
      last (workRangeToDates). */
  datatype ScheduledTask = ScheduledTask(task: Task, start: int, end: int, startCal: nat, endCal: nat)

  function SlotOf(e: ScheduledTask): Slot {
    Slot(e.task, e.start, e.end)
  }

  function Slots(out: seq<ScheduledTask>): (r: seq<Slot>)
    ensures |r| == |out| && forall i :: 0 <= i < |out| ==> r[i] == SlotOf(out[i])
  {
    seq(|out|, i requires 0 <= i < |out| => SlotOf(out[i]))
  }

  /** The span a task is reported with: its scheduled one, or from day 0 for
      its whole work days when it was never placed. */
  function SpanFor(sched: map<TaskId, Span>, t: Task, overrides: map<TaskId, Num>): Span {
    if t.id in sched then sched[t.id] else Span(0, WorkDays(DurationOf(t, overrides)))
  }

  /** The output entry of a task, as the output loop builds it. */
  ghost predicate EntryOf(e: ScheduledTask, t: Task, sched: map<TaskId, Span>, overrides: map<TaskId, Num>,
                          startDow: Dow) {
    e.task == Adjusted(t, overrides)
    && Span(e.start, e.end) == SpanFor(sched, t, overrides)
    && 0 <= e.start <= e.end
    && WorkdaysIn(startDow, e.startCal) == e.start
    && WorkdaysIn(startDow, e.endCal) == e.end
  }

  /** The ceiling of a whole number is itself. */
  lemma CeilOfInt(n: int)
    ensures Ceil(n as real) == n
  {
  }

  /** What topoSort gives the scheduler when the ids are distinct: the same
      tasks, still with distinct ids. */
  lemma TopoKeepsTasks(tasks: seq<Task>, topo: seq<Task>)
    requires UniqueIds(tasks)
    requires Acyclic(tasks) ==> IsTopoOrderOf(topo, tasks)
    requires !Acyclic(tasks) ==> topo == tasks
    ensures multiset(topo) == multiset(tasks) && UniqueIds(topo) && |topo| == |tasks|
  {
    assert |multiset(topo)| == |topo| && |multiset(tasks)| == |tasks|;
  }

  lemma PlacedDistinct(placed: seq<Slot>, topo: seq<Task>, overrides: map<TaskId, Num>)
    requires UniqueIds(topo) && |placed| == |topo| && PlacedAs(placed, topo, overrides)
    ensures DistinctIds(placed) && Distinct(placed)
  {
  }

  /** The position in the order of each task of the output. */
  ghost predicate PositionsOf(pos: seq<int>, tasks: seq<Task>, topo: seq<Task>, placed: seq<Slot>,
                              out: seq<ScheduledTask>) {
    |pos| == |out| == |tasks| && |placed| == |topo|
    && forall i :: 0 <= i < |pos| ==>
         0 <= pos[i] < |topo| && topo[pos[i]] == tasks[i] && SlotOf(out[i]) == placed[pos[i]]
  }

  /** With distinct ids every output entry carries exactly the slot its task
      was placed in. */
  lemma OutputIsPlaced(tasks: seq<Task>, topo: seq<Task>, placed: seq<Slot>, sched: map<TaskId, Span>,
                       overrides: map<TaskId, Num>, out: seq<ScheduledTask>, startDow: Dow)
    returns (pos: seq<int>)
    requires multiset(topo) == multiset(tasks) && UniqueIds(topo)
    requires |placed| == |topo| && PlacedAs(placed, topo, overrides) && SpansOf(sched, placed)
    requires |out| == |tasks|
    requires forall i :: 0 <= i < |out| ==> EntryOf(out[i], tasks[i], sched, overrides, startDow)
    ensures PositionsOf(pos, tasks, topo, placed, out)
  {
    pos := [];
    for i := 0 to |out|
      invariant |pos| == i
      invariant forall k :: 0 <= k < i ==>
        0 <= pos[k] < |topo| && topo[pos[k]] == tasks[k] && SlotOf(out[k]) == placed[pos[k]]
    {
      var j := EntryIsPlaced(tasks, topo, placed, sched, overrides, out[i], startDow, i);
      pos := pos + [j];
    }
  }

  /** One output entry carries the slot of the position its task has in the order. */
  lemma EntryIsPlaced(tasks: seq<Task>, topo: seq<Task>, placed: seq<Slot>, sched: map<TaskId, Span>,
                      overrides: map<TaskId, Num>, e: ScheduledTask, startDow: Dow, i: int)
    returns (j: int)
    requires multiset(topo) == multiset(tasks) && UniqueIds(topo)
    requires |placed| == |topo| && PlacedAs(placed, topo, overrides) && SpansOf(sched, placed)
    requires 0 <= i < |tasks| && EntryOf(e, tasks[i], sched, overrides, startDow)
    ensures 0 <= j < |topo| && topo[j] == tasks[i] && SlotOf(e) == placed[j]
  {
    PlacedDistinct(placed, topo, overrides);
    assert tasks[i] in multiset(topo);
    j :| 0 <= j < |topo| && topo[j] == tasks[i];
    LastSlotAt(placed, j);
  }

  /** In a topological order, a dependency's slot ends before its dependent's
      slot starts. */
  lemma Precedence(tasks: seq<Task>, topo: seq<Task>, placed: seq<Slot>, overrides: map<TaskId, Num>,
                   out: seq<ScheduledTask>, pos: seq<int>, i: int, j: int)
    requires IsTopoOrderOf(topo, tasks)
    requires PlacedAs(placed, topo, overrides) && AfterDeps(placed)
    requires PositionsOf(pos, tasks, topo, placed, out)
    requires 0 <= i < |out| && 0 <= j < |out| && tasks[j].id in tasks[i].deps
    ensures out[j].end <= out[i].start
  {
    var p := pos[i];
    var q := pos[j];
    var d := tasks[j].id;
    assert tasks[j] in tasks;
    assert d in placed[p].task.deps && d in topo[p].deps && d in Ids(tasks);
    var m :| 0 <= m < p && topo[m].id == d;
    assert m == q;
    PlacedDistinct(placed, topo, overrides);
    assert placed[..p][q] == placed[q];
    LastSlotAt(placed[..p], q);
  }

  lemma {:induction false} LoadAppend(a: seq<Slot>, b: seq<Slot>, c: Crews, pool: Pool, d: int)
    ensures Load(a + b, c, pool, d) == Load(a, c, pool, d) + Load(b, c, pool, d)
  {
    if |b| > 0 {
      var n := |b| - 1;
      assert (a + b)[..|a + b| - 1] == a + b[..n];
      LoadAppend(a, b[..n], c, pool, d);
    } else {
      assert a + b == a;
    }
  }

  /** Taking one slot out lowers the load by that slot's booking. */
  lemma LoadRemove(b: seq<Slot>, k: int, c: Crews, pool: Pool, d: int)
    requires 0 <= k < |b|
    ensures Load(b, c, pool, d)
         == Load(b[..k] + b[k + 1..], c, pool, d) + (if Books(b[k], c, pool, d) then 1 else 0)
  {
    assert b == b[..k] + [b[k]] + b[k + 1..];
    LoadAppend(b[..k] + [b[k]], b[k + 1..], c, pool, d);
    LoadAppend(b[..k], [b[k]], c, pool, d);
    LoadAppend(b[..k], b[k + 1..], c, pool, d);
    assert [b[k]][..0] == [];
  }

  /** Equal multisets stay equal when one occurrence of the same value goes. */
  lemma FrontPermutation<T>(a: seq<T>, b: seq<T>, k: int)
    requires multiset(a) == multiset(b) && |a| > 0 && 0 <= k < |b| && b[k] == a[|a| - 1]
    ensures multiset(a[..|a| - 1]) == multiset(b[..k] + b[k + 1..])
  {
    var n := |a| - 1;
    MultisetRemove(b, k);
    MultisetRemove(a, n);
    assert a[..n] + a[n + 1..] == a[..n];
    assert multiset(a[..n]) == multiset(a) - multiset{a[n]};
  }

  /** The crews booked on a day do not depend on the order of the slots. */
  lemma {:induction false} LoadPermutation(a: seq<Slot>, b: seq<Slot>, c: Crews, pool: Pool, d: int)
    requires multiset(a) == multiset(b)
    ensures Load(a, c, pool, d) == Load(b, c, pool, d)
  {
    if |a| > 0 {
      var n := |a| - 1;
      assert a[n] in multiset(b);
      var k :| 0 <= k < |b| && b[k] == a[n];
      FrontPermutation(a, b, k);
      LoadPermutation(a[..n], b[..k] + b[k + 1..], c, pool, d);
      LoadRemove(b, k, c, pool, d);
    } else {
      assert b == [];
    }
  }

  lemma {:induction false} WorkAppend(a: seq<Task>, b: seq<Task>, overrides: map<TaskId, Num>)
    ensures TotalWork(a + b, overrides) == TotalWork(a, overrides) + TotalWork(b, overrides)
  {
    if |b| > 0 {
      var n := |b| - 1;
      assert (a + b)[..|a + b| - 1] == a + b[..n];
      WorkAppend(a, b[..n], overrides);
    } else {
      assert a + b == a;
    }
  }

  /** Taking one task out lowers the total work by that task's work. */
  lemma WorkRemove(b: seq<Task>, k: int, overrides: map<TaskId, Num>)
    requires 0 <= k < |b|
    ensures TotalWork(b, overrides)
         == TotalWork(b[..k] + b[k + 1..], overrides) + WorkDays(DurationOf(b[k], overrides))
  {
    assert b == b[..k] + [b[k]] + b[k + 1..];
    WorkAppend(b[..k] + [b[k]], b[k + 1..], overrides);
    WorkAppend(b[..k], [b[k]], overrides);
    WorkAppend(b[..k], b[k + 1..], overrides);
    assert [b[k]][..0] == [];
  }

  /** The total work does not depend on the order of the tasks. */
  lemma {:induction false} WorkPermutation(a: seq<Task>, b: seq<Task>, overrides: map<TaskId, Num>)
    requires multiset(a) == multiset(b)
    ensures TotalWork(a, overrides) == TotalWork(b, overrides)
  {
    if |a| > 0 {
      var n := |a| - 1;
      assert a[n] in multiset(b);
      var k :| 0 <= k < |b| && b[k] == a[n];
      FrontPermutation(a, b, k);
      WorkPermutation(a[..n], b[..k] + b[k + 1..], overrides);
      WorkRemove(b, k, overrides);
    } else {
      assert b == [];
    }
  }

  /** Capacity is a property of the slots, whatever their order. */
  lemma CapacityPermutation(a: seq<Slot>, b: seq<Slot>, c: Crews)
    requires multiset(a) == multiset(b) && WithinCapacity(b, c)
    ensures WithinCapacity(a, c)
  {
    forall d
      ensures Load(a, c, InstallCrews, d) <= c.install
      ensures Load(a, c, RestoreCrews, d) <= c.restore
      ensures |BusyRisers(a, d)| <= c.maxParallel
    {
      LoadPermutation(a, b, c, InstallCrews, d);
      LoadPermutation(a, b, c, RestoreCrews, d);
      assert forall s :: s in a <==> s in b by {
        forall s
          ensures s in a <==> s in b
        {
          assert s in a <==> s in multiset(a);
        }
      }
      assert BusyRisers(a, d) == BusyRisers(b, d);
    }
  }

  /** With distinct ids the output slots are the placed slots, reordered. */
  lemma SlotsArePlaced(tasks: seq<Task>, topo: seq<Task>, placed: seq<Slot>, overrides: map<TaskId, Num>,
                       out: seq<ScheduledTask>, pos: seq<int>)
    requires UniqueIds(tasks) && UniqueIds(topo) && PlacedAs(placed, topo, overrides)
    requires PositionsOf(pos, tasks, topo, placed, out)
    requires |topo| == |tasks|
    ensures multiset(Slots(out)) == multiset(placed)
  {
    PlacedDistinct(placed, topo, overrides);
    var a := Slots(out);
    forall x | x in a
      ensures x in placed
    {
      var i :| 0 <= i < |a| && a[i] == x;
      assert x == placed[pos[i]];
    }
    forall i, k | 0 <= i < k < |a|
      ensures a[i] != a[k]
    {
      assert a[i].task.id == tasks[i].id && a[k].task.id == tasks[k].id;
    }
    DistinctPermutation(a, placed);
  }

  /** The output loop: each task, in input order, with its reported span and
      the calendar offsets of that span. */
  method Report(startDow: Dow, tasks: seq<Task>, sched: map<TaskId, Span>, overrides: map<TaskId, Num>)
    returns (out: seq<ScheduledTask>)
    requires SpansSane(sched)
    ensures |out| == |tasks|
    ensures forall i :: 0 <= i < |out| ==> EntryOf(out[i], tasks[i], sched, overrides, startDow)
  {
    out := [];
    var i := 0;
    while i < |tasks|
      invariant 0 <= i <= |tasks| && |out| == i
      invariant forall k :: 0 <= k < i ==> EntryOf(out[k], tasks[k], sched, overrides, startDow)
    {
      var t := tasks[i];
      var span := SpanFor(sched, t, overrides);
      var startCal := CalendarDays(startDow, span.start as real);
      var endCal := CalendarDays(startDow, span.end as real);
      CeilOfInt(span.start);
      CeilOfInt(span.end);
      out := out + [ScheduledTask(Adjusted(t, overrides), span.start, span.end, startCal, endCal)];
      i := i + 1;
    }
  }

  /** With distinct ids each reported span is the whole work days of the
      task's scheduled duration. */
  lemma DurationGuarantee(tasks: seq<Task>, topo: seq<Task>, placed: seq<Slot>, overrides: map<TaskId, Num>,
                          out: seq<ScheduledTask>, pos: seq<int>)
    requires PlacedAs(placed, topo, overrides) && PositionsOf(pos, tasks, topo, placed, out)
    ensures forall i :: 0 <= i < |out| ==> out[i].end == out[i].start + WorkDays(out[i].task.quarters)
  {
    forall i | 0 <= i < |out|
      ensures out[i].end == out[i].start + WorkDays(out[i].task.quarters)
    {
      assert SlotOf(out[i]) == placed[pos[i]];
    }
  }

  lemma PrecedenceGuarantee(tasks: seq<Task>, topo: seq<Task>, placed: seq<Slot>, overrides: map<TaskId, Num>,
                            out: seq<ScheduledTask>, pos: seq<int>)
    requires IsTopoOrderOf(topo, tasks)
    requires PlacedAs(placed, topo, overrides) && AfterDeps(placed)
    requires PositionsOf(pos, tasks, topo, placed, out)
    ensures forall i, j :: 0 <= i < |out| && 0 <= j < |out| && tasks[j].id in tasks[i].deps ==>
      out[j].end <= out[i].start
  {
    forall i, j | 0 <= i < |out| && 0 <= j < |out| && tasks[j].id in tasks[i].deps
      ensures out[j].end <= out[i].start
    {
      Precedence(tasks, topo, placed, overrides, out, pos, i, j);
    }
  }

  lemma CapacityGuarantee(tasks: seq<Task>, topo: seq<Task>, placed: seq<Slot>, overrides: map<TaskId, Num>,
                          out: seq<ScheduledTask>, pos: seq<int>, c: Crews)
    requires UniqueIds(tasks) && UniqueIds(topo) && |topo| == |tasks| && PlacedAs(placed, topo, overrides)
    requires PositionsOf(pos, tasks, topo, placed, out) && WithinCapacity(placed, c)
    ensures WithinCapacity(Slots(out), c)
  {
    SlotsArePlaced(tasks, topo, placed, overrides, out, pos);
    CapacityPermutation(Slots(out), placed, c);
  }

  /** No reported span ends after the work of all the tasks done one after
      another, whatever order they were placed in. */
  lemma WorkGuarantee(tasks: seq<Task>, topo: seq<Task>, placed: seq<Slot>, overrides: map<TaskId, Num>,
                      out: seq<ScheduledTask>, pos: seq<int>)
    requires multiset(topo) == multiset(tasks) && PositionsOf(pos, tasks, topo, placed, out)
    requires forall j :: 0 <= j < |placed| ==> placed[j].end <= TotalWork(topo, overrides)
    ensures TotalWork(topo, overrides) == TotalWork(tasks, overrides)
    ensures forall i :: 0 <= i < |out| ==> out[i].end <= TotalWork(tasks, overrides)
  {
    WorkPermutation(topo, tasks, overrides);
    assert forall i :: 0 <= i < |out| ==> SlotOf(out[i]) == placed[pos[i]];
  }

  /** scheduleWithResources before its final sort: every task is reported
      once, in input order, with its scheduled duration, a span of
      non-negative work days and the calendar offsets of that span. With
      distinct ids a span is exactly the whole work days of the duration;
      when the dependencies are also acyclic no task starts before any of its
      dependencies ends; no span ends after the work of all the tasks done one
      after another; and unless some task found no fitting day below the
      horizon, no day books more crews of a pool than it holds or keeps more
      risers busy than allowed. That fallback needs that total work to reach
      the horizon. */
  method LevelInTaskOrder(plan: Plan, tasks: seq<Task>, overrides: map<TaskId, Num>)
    returns (out: seq<ScheduledTask>, ghost fellBack: bool)
    ensures |out| == |tasks|
    ensures forall i :: 0 <= i < |out| ==> out[i].task == Adjusted(tasks[i], overrides)
    ensures forall i :: 0 <= i < |out| ==>
      0 <= out[i].start <= out[i].end
      && WorkdaysIn(plan.startDow, out[i].startCal) == out[i].start
      && WorkdaysIn(plan.startDow, out[i].endCal) == out[i].end
    ensures UniqueIds(tasks) ==>
      forall i :: 0 <= i < |out| ==> out[i].end == out[i].start + WorkDays(out[i].task.quarters)
    ensures UniqueIds(tasks) && Acyclic(tasks) ==>
      forall i, j :: 0 <= i < |out| && 0 <= j < |out| && tasks[j].id in tasks[i].deps ==>
        out[j].end <= out[i].start
    ensures UniqueIds(tasks) && !fellBack ==> WithinCapacity(Slots(out), CrewsOf(plan))
    ensures UniqueIds(tasks) ==> forall i :: 0 <= i < |out| ==> out[i].end <= TotalWork(tasks, overrides)
    ensures UniqueIds(tasks) && TotalWork(tasks, overrides) < Horizon ==> !fellBack
  {
    var c := CrewsOf(plan);
    var topo := TopoSort(tasks);
    var placed, sched, fb := PlaceAll(c, topo, overrides);
    fellBack := fb;
    out := Report(plan.startDow, tasks, sched, overrides);
    if UniqueIds(tasks) {
      TopoKeepsTasks(tasks, topo);
      var pos := OutputIsPlaced(tasks, topo, placed, sched, overrides, out, plan.startDow);
      DurationGuarantee(tasks, topo, placed, overrides, out, pos);
      if Acyclic(tasks) {
        PrecedenceGuarantee(tasks, topo, placed, overrides, out, pos);
      }
      if !fellBack {
        CapacityGuarantee(tasks, topo, placed, overrides, out, pos, c);
      }
      WorkGuarantee(tasks, topo, placed, overrides, out, pos);
    }
  }

  // ---------------------------------------------------------------------------
  // The final sort

  /** The order of the returned list: by start day, then by title.
      `titleRank` stands for the order `localeCompare` puts the titles in;
      equal ranks are equal titles. */
  predicate StartsNoLater(a: ScheduledTask, b: ScheduledTask, titleRank: Task -> int) {
    a.start < b.start || (a.start == b.start && titleRank(a.task) <= titleRank(b.task))
  }

  predicate SortedByStart(s: seq<ScheduledTask>, titleRank: Task -> int) {
    forall i, j :: 0 <= i < j < |s| ==> StartsNoLater(s[i], s[j], titleRank)
  }

  /** Puts an entry after every entry of a sorted list that does not come
      after it. */
  function InsertByStart(e: ScheduledTask, s: seq<ScheduledTask>, titleRank: Task -> int)
    : (r: seq<ScheduledTask>)
    requires SortedByStart(s, titleRank)
    ensures SortedByStart(r, titleRank)
    ensures multiset(r) == multiset(s) + multiset{e}
    ensures forall x :: x in r ==> x in s || x == e
    decreases |s|
  {
    if |s| == 0 then [e]
    else if !StartsNoLater(s[0], e, titleRank) then
      assert forall x :: x in s ==> StartsNoLater(e, x, titleRank) by {
        forall x | x in s ensures StartsNoLater(e, x, titleRank) {
          var k :| 0 <= k < |s| && s[k] == x;
          if k > 0 { assert StartsNoLater(s[0], s[k], titleRank); }
        }
      }
      [e] + s
    else
      var rest := InsertByStart(e, s[1..], titleRank);
      assert SortedByStart(s[1..], titleRank) by {
        forall i, j | 0 <= i < j < |s[1..]| ensures StartsNoLater(s[1..][i], s[1..][j], titleRank) {
          assert s[1..][i] == s[i + 1] && s[1..][j] == s[j + 1];
        }
      }
      assert s == [s[0]] + s[1..];
      HeadBeforeInserted(s, e, rest, titleRank);
      [s[0]] + rest
  }

  /** The head of a sorted list, not after the inserted entry, comes first. */
  lemma HeadBeforeInserted(s: seq<ScheduledTask>, e: ScheduledTask, rest: seq<ScheduledTask>, titleRank: Task -> int)
    requires |s| > 0 && SortedByStart(s, titleRank) && StartsNoLater(s[0], e, titleRank)
    requires SortedByStart(rest, titleRank)
    requires forall x :: x in rest ==> x in s[1..] || x == e
    ensures SortedByStart([s[0]] + rest, titleRank)
  {
    var r := [s[0]] + rest;
    forall i, j | 0 <= i < j < |r| ensures StartsNoLater(r[i], r[j], titleRank) {
      if i == 0 {
        assert r[j] == rest[j - 1] && r[j] in rest;
        if r[j] != e {
          var k :| 0 <= k < |s[1..]| && s[1..][k] == r[j];
          assert s[k + 1] == r[j];
        }
      } else {
        assert r[i] == rest[i - 1] && r[j] == rest[j - 1];
      }
    }
  }

  /** `scheduledTasks.sort`: the entries in start-day and title order, each
      one kept, none added. */
  function SortByStart(s: seq<ScheduledTask>, titleRank: Task -> int): (r: seq<ScheduledTask>)
    ensures SortedByStart(r, titleRank)
    ensures multiset(r) == multiset(s)
  {
    if |s| == 0 then []
    else
      assert s == s[..|s| - 1] + [s[|s| - 1]];
      InsertByStart(s[|s| - 1], SortByStart(s[..|s| - 1], titleRank), titleRank)
  }

  /** An entry not before any entry of a sorted list goes at its end. */
  lemma {:induction false} InsertAtEnd(e: ScheduledTask, s: seq<ScheduledTask>, titleRank: Task -> int)
    requires SortedByStart(s, titleRank)
    requires forall i :: 0 <= i < |s| ==> StartsNoLater(s[i], e, titleRank)
    ensures InsertByStart(e, s, titleRank) == s + [e]
    decreases |s|
  {
    if |s| > 0 {
      assert SortedByStart(s[1..], titleRank) by {
        forall i, j | 0 <= i < j < |s[1..]| ensures StartsNoLater(s[1..][i], s[1..][j], titleRank) {
          assert s[1..][i] == s[i + 1] && s[1..][j] == s[j + 1];
        }
      }
      assert forall i :: 0 <= i < |s[1..]| ==> StartsNoLater(s[1..][i], e, titleRank) by {
        forall i | 0 <= i < |s[1..]| ensures StartsNoLater(s[1..][i], e, titleRank) {
          assert s[1..][i] == s[i + 1];
        }
      }
      InsertAtEnd(e, s[1..], titleRank);
      assert s == [s[0]] + s[1..];
    }
  }

  /** A list already in order is left as it is: the sort moves nothing that
      need not move. */
  lemma {:induction false} SortKeepsSorted(s: seq<ScheduledTask>, titleRank: Task -> int)
    requires SortedByStart(s, titleRank)
    ensures SortByStart(s, titleRank) == s
  {
    if |s| > 0 {
      var init := s[..|s| - 1];
      assert SortedByStart(init, titleRank);
      SortKeepsSorted(init, titleRank);
      assert forall i :: 0 <= i < |init| ==> StartsNoLater(init[i], s[|s| - 1], titleRank);
      InsertAtEnd(s[|s| - 1], init, titleRank);
      assert init + [s[|s| - 1]] == s;
    }
  }

  /** scheduleWithResources: the entries levelled in input order, then
      sorted by start day and title. The sorted list holds exactly the
      entries of the levelled one. */
  method ScheduleWithResources(plan: Plan, tasks: seq<Task>, overrides: map<TaskId, Num>, titleRank: Task -> int)
    returns (out: seq<ScheduledTask>, ghost inTaskOrder: seq<ScheduledTask>, ghost fellBack: bool)
    ensures SortedByStart(out, titleRank) && multiset(out) == multiset(inTaskOrder)
    ensures |inTaskOrder| == |tasks|
    ensures forall i :: 0 <= i < |inTaskOrder| ==> inTaskOrder[i].task == Adjusted(tasks[i], overrides)
    ensures UniqueIds(tasks) ==>
      forall i :: 0 <= i < |inTaskOrder| ==>
        inTaskOrder[i].end == inTaskOrder[i].start + WorkDays(inTaskOrder[i].task.quarters)
    ensures UniqueIds(tasks) && Acyclic(tasks) ==>
      forall i, j :: 0 <= i < |inTaskOrder| && 0 <= j < |inTaskOrder| && tasks[j].id in tasks[i].deps ==>
        inTaskOrder[j].end <= inTaskOrder[i].start
    ensures UniqueIds(tasks) && !fellBack ==> WithinCapacity(Slots(inTaskOrder), CrewsOf(plan))
    ensures UniqueIds(tasks) ==>
      forall i :: 0 <= i < |inTaskOrder| ==> inTaskOrder[i].end <= TotalWork(tasks, overrides)
    ensures UniqueIds(tasks) && TotalWork(tasks, overrides) < Horizon ==> !fellBack
  {
    var levelled;
    levelled, fellBack := LevelInTaskOrder(plan, tasks, overrides);
    inTaskOrder := levelled;
    out := SortByStart(levelled, titleRank);
  }
}

=== FILE: schedule_result.dfy ===
/** buildResult and generateSchedule in scheduleEngine.ts: the schedule
    input is normalised, the tasks are built, levelled against the crews and
    analysed by the critical path method, and the result carries the summary
    figures, the critical stages and the bottlenecks. */
module ScheduleResult {
  import opened Outcomes
  import opened Numbers
  import opened ScheduleTasks
  import opened ScheduleTopo
  import opened ScheduleLevel
  import opened ScheduleCpm

  // ---------------------------------------------------------------------------
  // generateSchedule: normalisation

  /** The schedule input as entered: counts may be fractional, percentages
      may be missing or not finite. */
  datatype RawInput = RawInput(
    startDow: Dow,
    klatki: real, kondygnacje: real, piony: real, lokale: real,
    scope: Scope, piwnica: bool, wezel: bool,
    installCrews: real, restoreCrews: real, maxParallel: real, bufferPct: Num,
    accessPct: Num, restoration: Restoration)

  /** A count rounded to a whole number, but at least `least`. */
  function Count(x: real, least: int): (r: int)
    ensures r >= least
    ensures x >= least as real ==> x - 0.5 < r as real <= x + 0.5
    ensures x <= least as real ==> r == least
  {
    MaxInt(least, Round(x))
  }

  /** The input generateSchedule hands on: building counts and crews rounded,
      at least one of each (restoration crews may be none), the buffer within
      0 to 40 percent and the access within 10 to 100 percent. */
  predicate Normalised(p: Plan) {
    p.klatki >= 1 && p.kondygnacje >= 1 && p.piony >= 1 && p.lokale >= 1
    && p.installCrews >= 1 && p.restoreCrews >= 0 && p.maxParallel >= 1
    && 0.0 <= p.bufferPct <= 40.0 && 10.0 <= p.accessPct <= 100.0
  }

  function Normalise(raw: RawInput): (p: Plan)
    ensures Normalised(p)
    ensures p.startDow == raw.startDow && p.scope == raw.scope && p.piwnica == raw.piwnica
    ensures p.wezel == raw.wezel && p.restoration == raw.restoration
  {
    Plan(raw.startDow,
         Count(raw.klatki, 1), Count(raw.kondygnacje, 1), Count(raw.piony, 1), Count(raw.lokale, 1),
         raw.scope, raw.piwnica, raw.wezel,
         Count(raw.installCrews, 1), Count(raw.restoreCrews, 0), Count(raw.maxParallel, 1),
         ClampNumber(raw.bufferPct, 0.0, 40.0),
         ClampNumber(raw.accessPct, 10.0, 100.0), raw.restoration)
  }

  /** A plan read back as raw input. */
  function AsRaw(p: Plan): RawInput {
    RawInput(p.startDow, p.klatki as real, p.kondygnacje as real, p.piony as real, p.lokale as real,
             p.scope, p.piwnica, p.wezel,
             p.installCrews as real, p.restoreCrews as real, p.maxParallel as real, Finite(p.bufferPct),
             Finite(p.accessPct), p.restoration)
  }

  /** A whole number rounds to itself. */
  lemma RoundOfInt(n: int)
    ensures Round(n as real) == n
  {
  }

  /** Normalising a normalised input changes nothing. */
  lemma NormaliseFixes(p: Plan)
    requires Normalised(p)
    ensures Normalise(AsRaw(p)) == p
  {
    RoundOfInt(p.klatki);
    RoundOfInt(p.kondygnacje);
    RoundOfInt(p.piony);
    RoundOfInt(p.lokale);
    RoundOfInt(p.installCrews);
    RoundOfInt(p.restoreCrews);
    RoundOfInt(p.maxParallel);
  }

  /** Normalisation is idempotent. */
  lemma NormaliseIdempotent(raw: RawInput)
    ensures Normalise(AsRaw(Normalise(raw))) == Normalise(raw)
  {
    NormaliseFixes(Normalise(raw));
  }

  // ---------------------------------------------------------------------------
  // Summary figures

  /** The latest end of the scheduled tasks, 0 for none (Math.max(0, ...)). */
  function LatestEnd(out: seq<ScheduledTask>): (r: int)
    ensures r >= 0
    ensures forall e :: e in out ==> e.end <= r
    ensures r == 0 || exists e :: e in out && e.end == r
  {
    if |out| == 0 then 0
    else
      var front := out[..|out| - 1];
      var last := out[|out| - 1];
      assert forall e :: e in out <==> e in front || e == last;
      MaxInt(LatestEnd(front), last.end)
  }

  /** Whole work days of the tasks summed. */
  function WorkSum(ts: seq<Task>, overrides: map<TaskId, Num>): nat {
    if |ts| == 0 then 0 else WorkSum(ts[..|ts| - 1], overrides) + Len(ts[|ts| - 1], overrides)
  }

  /** Organisational work: entries to the flats and the time buffer. */
  predicate Organisational(t: Task) {
    t.kind == Org || t.kind == Buffer
  }

  /** Whole work days of the organisational tasks summed. */
  function OrgSum(ts: seq<Task>, overrides: map<TaskId, Num>): nat {
    if |ts| == 0 then 0
    else OrgSum(ts[..|ts| - 1], overrides) + (if Organisational(ts[|ts| - 1]) then Len(ts[|ts| - 1], overrides) else 0)
  }

  /** The organisational work is part of all the work. */
  lemma {:induction false} OrgWithinWork(ts: seq<Task>, overrides: map<TaskId, Num>)
    ensures OrgSum(ts, overrides) <= WorkSum(ts, overrides)
    ensures (forall t :: t in ts ==> Organisational(t)) ==> OrgSum(ts, overrides) == WorkSum(ts, overrides)
  {
    if |ts| > 0 {
      OrgWithinWork(ts[..|ts| - 1], overrides);
      assert forall t :: t in ts[..|ts| - 1] ==> t in ts;
    }
  }

  /** The share of organisational work in percent, rounded; 0 without work. */
  function LossPct(org: nat, base: nat): (r: int)
    requires org <= base
    ensures 0 <= r <= 100
    ensures base > 0 ==> org as real * 100.0 / base as real - 0.5 < r as real <= org as real * 100.0 / base as real + 0.5
    ensures base == 0 ==> r == 0
    ensures org == base && base > 0 ==> r == 100
  {
    if base <= 0 then 0
    else
      var x := org as real / base as real * 100.0;
      assert org as real / base as real <= 1.0;
      assert x == org as real * 100.0 / base as real;
      assert org == base ==> org as real / base as real == 1.0;
      RoundOfInt(100);
      Round(x)
  }

  /** Rounding keeps order. */
  lemma RoundMonotone(x: real, y: real)
    requires x <= y
    ensures Round(x) <= Round(y)
  {
  }

  /** The range of work days: 90 percent of the sum, rounded and at least 0,
      up to 125 percent of it, rounded and at least the lower end. */
  function WorkRange(base: nat): (r: (int, int))
    ensures 0 <= r.0 <= base <= r.1
    ensures base as real * 0.9 - 0.5 < r.0 as real <= base as real * 0.9 + 0.5
    ensures base as real * 1.25 - 0.5 < r.1 as real <= base as real * 1.25 + 0.5
  {
    var lo := MaxInt(0, Round(base as real * 0.9));
    var hi := MaxInt(lo, Round(base as real * 1.25));
    RoundMonotone(base as real * 0.9, base as real);
    RoundMonotone(base as real, base as real * 1.25);
    RoundOfInt(base);
    (lo, hi)
  }

  datatype Stats = Stats(
    totalWorkDays: int, totalCalendarDays: nat,
    totalWorkDaysMin: int, totalWorkDaysMax: int,
    totalCalendarDaysMin: nat, totalCalendarDaysMax: nat,
    organizationalWorkDays: nat, organizationalLossPct: int)

  // ---------------------------------------------------------------------------
  // Critical stages

  /** The tasks without slack, in task order; a task without a slack value
      counts as having slack. */
  function CriticalTasks(ts: seq<Task>, slack: map<TaskId, int>): (r: seq<Task>)
    ensures |r| <= |ts|
    ensures forall t :: t in r <==> t in ts && t.id in slack && slack[t.id] == 0
  {
    if |ts| == 0 then []
    else
      var front := ts[..|ts| - 1];
      var last := ts[|ts| - 1];
      assert forall t :: t in ts <==> t in front || t == last;
      CriticalTasks(front, slack) + (if last.id in slack && slack[last.id] == 0 then [last] else [])
  }

  /** Why a stage is critical, by the kind of its task. */
  datatype Reason = EntriesBlock | TestsCloseRiser | RestorationClosesRiser | InDependencyChain

  function ReasonOf(k: Kind): Reason {
    match k
    case Org => EntriesBlock
    case Test => TestsCloseRiser
    case Restore => RestorationClosesRiser
    case _ => InDependencyChain
  }

  datatype CriticalStage = CriticalStage(taskId: TaskId, reason: Reason)

  /** The first eight critical tasks with their reasons. */
  function Stages(critical: seq<Task>): (r: seq<CriticalStage>)
    ensures |r| == MinInt(8, |critical|)
    ensures forall i :: 0 <= i < |r| ==> r[i].taskId == critical[i].id && r[i].reason == ReasonOf(critical[i].kind)
  {
    var n := MinInt(8, |critical|);
    seq(n, i requires 0 <= i < n => CriticalStage(critical[i].id, ReasonOf(critical[i].kind)))
  }

  // ---------------------------------------------------------------------------
  // Bottlenecks

  datatype Bottleneck = OneRiserAtATime | OneInstallCrew | NoRestoreCrew | LowAccess

  /** The bottlenecks of a plan, in the source's order. */
  function Bottlenecks(p: Plan): (r: seq<Bottleneck>)
    ensures OneRiserAtATime in r <==> p.maxParallel <= 1
    ensures OneInstallCrew in r <==> p.installCrews <= 1
    ensures NoRestoreCrew in r <==> p.restoreCrews <= 0
    ensures LowAccess in r <==> p.accessPct < 80.0
    ensures |r| <= 4 && forall i, j :: 0 <= i < j < |r| ==> r[i] != r[j]
  {
    (if p.maxParallel <= 1 then [OneRiserAtATime] else [])
    + (if p.installCrews <= 1 then [OneInstallCrew] else [])
    + (if p.restoreCrews <= 0 then [NoRestoreCrew] else [])
    + (if p.accessPct < 80.0 then [LowAccess] else [])
  }

  /** Which tasks each bottleneck marks. */
  predicate Marks(b: Bottleneck, t: Task) {
    match b
    case OneRiserAtATime => t.category == Riser && (t.kind == Install || t.kind == Test)
    case OneInstallCrew => t.resource == InstallCrews
    case NoRestoreCrew => t.kind == Restore
    case LowAccess => t.kind == Org
  }

  /** Add the ids of the tasks a bottleneck marks to an insertion-ordered set. */
  function AddMarked(acc: seq<TaskId>, ts: seq<Task>, b: Bottleneck): (r: seq<TaskId>)
    requires Distinct(acc)
    ensures Distinct(r)
    ensures forall x :: x in r <==> x in acc || exists t :: t in ts && t.id == x && Marks(b, t)
    ensures |r| >= |acc| && r[..|acc|] == acc
    decreases |ts|
  {
    if |ts| == 0 then acc
    else
      var front := ts[..|ts| - 1];
      var last := ts[|ts| - 1];
      assert forall t :: t in ts <==> t in front || t == last;
      var r := AddMarked(acc, front, b);
      if Marks(b, last) && last.id !in r then
        assert forall i :: 0 <= i < |r| ==> (r + [last.id])[i] == r[i];
        assert (r + [last.id])[..|acc|] == r[..|acc|];
        r + [last.id]
      else r
  }

  /** A task is marked when one of the plan's bottlenecks marks it. */
  predicate Flagged(p: Plan, t: Task) {
    exists b :: b in Bottlenecks(p) && Marks(b, t)
  }

  /** Add the tasks each bottleneck of a list marks, one bottleneck after
      the other. */
  function AddAllMarked(acc: seq<TaskId>, ts: seq<Task>, bs: seq<Bottleneck>): (r: seq<TaskId>)
    requires Distinct(acc)
    ensures Distinct(r)
    ensures forall x :: x in r <==> x in acc || exists t, b :: b in bs && t in ts && t.id == x && Marks(b, t)
    decreases |bs|
  {
    if |bs| == 0 then acc
    else
      var r := AddAllMarked(AddMarked(acc, ts, bs[0]), ts, bs[1..]);
      assert forall b :: b in bs <==> b == bs[0] || b in bs[1..];
      r
  }

  /** bottleneckTaskIds: every task a bottleneck marks, each id once, in the
      order they are first added. */
  function BottleneckIds(p: Plan, ts: seq<Task>): (r: seq<TaskId>)
    ensures Distinct(r)
    ensures forall x :: x in r <==> exists t :: t in ts && t.id == x && Flagged(p, t)
  {
    AddAllMarked([], ts, Bottlenecks(p))
  }

  // ---------------------------------------------------------------------------
  // buildResult

  datatype Result = Result(
    plan: Plan, tasks: seq<Task>, scheduled: seq<ScheduledTask>, stats: Stats,
    criticalStages: seq<CriticalStage>, criticalTaskIds: seq<TaskId>,
    bottlenecks: seq<Bottleneck>, bottleneckTaskIds: seq<TaskId>)

  /** The summary figures: the total work days are the latest end (0 for
      none) and the calendar days hold exactly that many working days; the
      range of work days encloses their sum and is held in calendar days the
      same way; the organisational work is part of the sum and its share is
      a percentage. */
  ghost predicate StatsOk(stats: Stats, startDow: Dow, tasks: seq<Task>, scheduled: seq<ScheduledTask>,
                          overrides: map<TaskId, Num>) {
    (forall e :: e in scheduled ==> e.end <= stats.totalWorkDays)
    && (stats.totalWorkDays == 0 || exists e :: e in scheduled && e.end == stats.totalWorkDays)
    && WorkdaysIn(startDow, stats.totalCalendarDays) == stats.totalWorkDays
    && 0 <= stats.totalWorkDaysMin <= WorkSum(tasks, overrides) <= stats.totalWorkDaysMax
    && WorkdaysIn(startDow, stats.totalCalendarDaysMin) == stats.totalWorkDaysMin
    && WorkdaysIn(startDow, stats.totalCalendarDaysMax) == stats.totalWorkDaysMax
    && stats.organizationalWorkDays == OrgSum(tasks, overrides) <= WorkSum(tasks, overrides)
    && 0 <= stats.organizationalLossPct <= 100
  }

  method Summarise(startDow: Dow, tasks: seq<Task>, scheduled: seq<ScheduledTask>, overrides: map<TaskId, Num>)
    returns (stats: Stats)
    ensures StatsOk(stats, startDow, tasks, scheduled, overrides)
  {
    var total := LatestEnd(scheduled);
    var totalCal := CalendarDays(startDow, total as real);
    CeilOfInt(total);
    var base := WorkSum(tasks, overrides);
    var (lo, hi) := WorkRange(base);
    var loCal := CalendarDays(startDow, lo as real);
    var hiCal := CalendarDays(startDow, hi as real);
    CeilOfInt(lo);
    CeilOfInt(hi);
    var org := OrgSum(tasks, overrides);
    OrgWithinWork(tasks, overrides);
    stats := Stats(total, totalCal, lo, hi, loCal, hiCal, org, LossPct(org, base));
  }

  /** The critical tasks: exactly the tasks the critical-path analysis finds
      without slack, the first eight of them as stages; with distinct ids
      and acyclic dependencies the analysis is sound, and a non-empty plan
      has a critical task. */
  ghost predicate CriticalOk(stages: seq<CriticalStage>, ids: seq<TaskId>, cpm: Cpm, tasks: seq<Task>,
                             overrides: map<TaskId, Num>) {
    (forall x :: x in ids <==> exists t :: t in tasks && t.id == x && t.id in cpm.slack && cpm.slack[t.id] == 0)
    && |stages| == MinInt(8, |ids|)
    && (forall i :: 0 <= i < |stages| ==> stages[i].taskId == ids[i])
    && (UniqueIds(tasks) && Acyclic(tasks) ==>
          EarlyFactsOn(cpm.times, tasks, cpm.projectEnd, overrides)
          && LateFactsOn(cpm.late, cpm.slack, cpm.times, tasks, cpm.projectEnd, overrides)
          && (|tasks| > 0 ==> |ids| > 0))
  }

  method Critical(tasks: seq<Task>, overrides: map<TaskId, Num>)
    returns (stages: seq<CriticalStage>, ids: seq<TaskId>, cpm: Cpm)
    ensures CriticalOk(stages, ids, cpm, tasks, overrides)
  {
    cpm := ComputeCpm(tasks, overrides);
    var critical := CriticalTasks(tasks, cpm.slack);
    ids := IdList(critical);
    if UniqueIds(tasks) && Acyclic(tasks) && |tasks| > 0 {
      ghost var t0 :| t0 in tasks && cpm.slack[t0.id] == 0;
      assert t0 in critical;
    }
    stages := Stages(critical);
  }

  /** The bottlenecks follow the plan, and the marked ids are each marked
      task's id once. */
  ghost predicate BottlenecksOk(bs: seq<Bottleneck>, ids: seq<TaskId>, plan: Plan, tasks: seq<Task>) {
    bs == Bottlenecks(plan)
    && Distinct(ids)
    && (forall x :: x in ids <==> exists t :: t in tasks && t.id == x && Flagged(plan, t))
  }

  /** buildResult: the summary figures, the critical stages and the
      bottlenecks of a levelled task list. */
  method BuildResult(plan: Plan, tasks: seq<Task>, scheduled: seq<ScheduledTask>, overrides: map<TaskId, Num>)
    returns (r: Result, cpm: Cpm)
    ensures r.plan == plan && r.tasks == tasks && r.scheduled == scheduled
    ensures StatsOk(r.stats, plan.startDow, tasks, scheduled, overrides)
    ensures CriticalOk(r.criticalStages, r.criticalTaskIds, cpm, tasks, overrides)
    ensures BottlenecksOk(r.bottlenecks, r.bottleneckTaskIds, plan, tasks)
  {
    var stats := Summarise(plan.startDow, tasks, scheduled, overrides);
    var stages, ids;
    stages, ids, cpm := Critical(tasks, overrides);
    r := Result(plan, tasks, scheduled, stats, stages, ids, Bottlenecks(plan), BottleneckIds(plan, tasks));
  }

  /** What scheduleWithResources guarantees for distinct ids and acyclic
      dependencies: one entry per task with its adjusted duration, every
      dependency finished before its dependent starts, nothing ending after
      the work of all the tasks done one after another, and the crews never
      overbooked unless a task found no room, which takes that total work to
      reach the horizon. */
  ghost predicate Levelled(plan: Plan, tasks: seq<Task>, scheduled: seq<ScheduledTask>, overrides: map<TaskId, Num>,
                           fellBack: bool) {
    |scheduled| == |tasks|
    && (forall i :: 0 <= i < |scheduled| ==>
          scheduled[i].task == Adjusted(tasks[i], overrides)
          && scheduled[i].end == scheduled[i].start + WorkDays(scheduled[i].task.quarters))
    && (forall i, j :: 0 <= i < |scheduled| && 0 <= j < |scheduled| && tasks[j].id in tasks[i].deps ==>
          scheduled[j].end <= scheduled[i].start)
    && (!fellBack ==> WithinCapacity(Slots(scheduled), CrewsOf(plan)))
    && (forall i :: 0 <= i < |scheduled| ==> scheduled[i].end <= TotalWork(tasks, overrides))
    && (TotalWork(tasks, overrides) < Horizon ==> !fellBack)
  }

  /** The levelling step of generateSchedule on tasks with distinct ids and
      acyclic dependencies: the levelled entries, then sorted. */
  method Level(plan: Plan, tasks: seq<Task>, overrides: map<TaskId, Num>, titleRank: Task -> int)
    returns (scheduled: seq<ScheduledTask>, ghost inTaskOrder: seq<ScheduledTask>, ghost fellBack: bool)
    requires UniqueIds(tasks) && Acyclic(tasks)
    ensures Levelled(plan, tasks, inTaskOrder, overrides, fellBack)
    ensures SortedByStart(scheduled, titleRank) && multiset(scheduled) == multiset(inTaskOrder)
  {
    scheduled, inTaskOrder, fellBack := ScheduleWithResources(plan, tasks, overrides, titleRank);
  }

  /** generateSchedule: the normalised input, its tasks levelled against
      the crews and sorted by start day and title, and the result built from
      them; missing overrides are none. The built tasks always have a
      critical task. */
  method GenerateSchedule(raw: RawInput, overrides: Option<map<TaskId, Num>>, titleRank: Task -> int)
    returns (r: Result, ghost inTaskOrder: seq<ScheduledTask>, ghost fellBack: bool, cpm: Cpm)
    ensures r.plan == Normalise(raw) && Normalised(r.plan) && r.tasks == BuildTasks(r.plan)
    ensures Levelled(r.plan, r.tasks, inTaskOrder, overrides.GetOr(map[]), fellBack)
    ensures SortedByStart(r.scheduled, titleRank) && multiset(r.scheduled) == multiset(inTaskOrder)
    ensures StatsOk(r.stats, r.plan.startDow, r.tasks, r.scheduled, overrides.GetOr(map[]))
    ensures CriticalOk(r.criticalStages, r.criticalTaskIds, cpm, r.tasks, overrides.GetOr(map[]))
    ensures BottlenecksOk(r.bottlenecks, r.bottleneckTaskIds, r.plan, r.tasks)
    ensures |r.criticalTaskIds| > 0
  {
    var plan := Normalise(raw);
    var o := overrides.GetOr(map[]);
    var tasks := BuildTasks(plan);
    BuildTasksAcyclic(plan);
    var scheduled;
    scheduled, inTaskOrder, fellBack := Level(plan, tasks, o, titleRank);
    r, cpm := BuildResult(plan, tasks, scheduled, o);
  }
}

=== FILE: schedule_tasks.dfy ===
/** The task graph of the works schedule (src/lib/schedule/scheduleEngine.ts):
    the input after normalisation, the clamp and quarter-day rounding helpers,
    the riser ids, the mapping of work days onto calendar days and the task
    list `buildTasks` derives from the building and the organisation of works.

    Task titles are left out; task ids are a datatype whose constructors stand
    for the source's id strings (`common-prep`, `org-K1-P2`, ...), which are
    pairwise distinct for integer staircase and riser numbers. */
module ScheduleTasks {
  import opened Outcomes
  import opened Numbers

  /** Riser `p` of staircase `k`, both counted from 1 (the source's `K{k}-P{p}`). */
  datatype RiserId = RiserId(k: int, p: int)

  datatype TaskId =
    | Prep | Basement | Node
    | OrgOf(r: RiserId) | InstallOf(r: RiserId) | TestOf(r: RiserId) | RestoreOf(r: RiserId)
    | GlobalBuffer
  {
    predicate PerRiser() {
      OrgOf? || InstallOf? || TestOf? || RestoreOf?
    }
  }

  datatype Category = Common | Riser
  datatype Kind = Org | Install | Restore | Test | Buffer
  /** The crew pool a task books. */
  datatype Pool = InstallCrews | RestoreCrews
  /** How much finishing work follows each riser (minimalne, standard, rozszerzone). */
  datatype Restoration = Minimal | Standard | Extended

  /** A task; its duration is held in quarter days (`quarters`), since every
      duration the source stores has passed through roundToQuarterDay. */
  datatype Task = Task(
    id: TaskId, category: Category, kind: Kind, resource: Pool,
    riser: Option<RiserId>, deps: seq<TaskId>, quarters: nat, affectsWaterOutage: bool)

  datatype Scope = Scope(zw: bool, cwu: bool, cyrkulacja: bool)

  /** Day of the week of the start date, Sunday = 0 (JavaScript `getDay`). */
  type Dow = d: int | 0 <= d < 7

  /** The schedule input as `generateSchedule` hands it on: counts rounded to
      integers, percentages already clamped. */
  datatype Plan = Plan(
    startDow: Dow,
    klatki: int, kondygnacje: int, piony: int, lokale: int,
    scope: Scope, piwnica: bool, wezel: bool,
    installCrews: int, restoreCrews: int, maxParallel: int, bufferPct: real,
    accessPct: real, restoration: Restoration)

  // ---------------------------------------------------------------------------
  // Helpers

  /** clampNumber: the lower bound for a non-finite value, otherwise the value
      brought into [min, max]. */
  function ClampNumber(value: Num, min: real, max: real): (r: real)
    ensures !value.IsFinite() ==> r == min
    ensures value.IsFinite() && min <= max ==> min <= r <= max
    ensures value.IsFinite() && min <= value.v <= max ==> r == value.v
    ensures value.IsFinite() && value.v < min <= max ==> r == min
    ensures value.IsFinite() && min <= max < value.v ==> r == max
  {
    if !value.IsFinite() then min else Min(max, Max(min, value.v))
  }

  /** A duration given in quarter days, as days. */
  function Days(q: nat): real
  {
    q as real / 4.0
  }

  /** roundToQuarterDay, counted in quarter days: the value clipped at zero and
      rounded to the nearest quarter day, halves rounded up. The source's result
      is `Days(Quarters(value))`. */
  function Quarters(value: real): (r: nat)
    ensures value <= 0.0 ==> r == 0
    ensures value >= 0.0 ==> value - 0.125 < Days(r) <= value + 0.125
  {
    var n := Round(Max(0.0, value) * 4.0);
    assert n >= 0;
    n
  }

  /** A duration already on the quarter-day grid is left alone by the rounding. */
  lemma QuartersOfDays(q: nat)
    ensures Quarters(Days(q)) == q
  {
    assert Days(q) * 4.0 == q as real;
    assert (q as real + 0.5).Floor == q;
  }

  /** Rounding to quarter days is idempotent. */
  lemma QuartersIdempotent(x: real)
    ensures Quarters(Days(Quarters(x))) == Quarters(x)
  {
    QuartersOfDays(Quarters(x));
  }

  // ---------------------------------------------------------------------------
  // Riser ids

  /** Strict lexicographic order on (staircase, riser). */
  predicate RiserBefore(a: RiserId, b: RiserId) {
    a.k < b.k || (a.k == b.k && a.p < b.p)
  }

  /** The risers of staircase `k`, in riser order. */
  function StaircaseRisers(k: int, piony: int): (r: seq<RiserId>)
    ensures |r| == MaxInt(0, piony)
    ensures forall i :: 0 <= i < |r| ==> r[i] == RiserId(k, i + 1)
  {
    seq(MaxInt(0, piony), i => RiserId(k, i + 1))
  }

  /** a * b by repeated addition, kept as a function so that the riser count
      does not bring nonlinear arithmetic into every proof that mentions it. */
  function Times(a: nat, b: nat): (r: nat)
  {
    if a == 0 then 0 else Times(a - 1, b) + b
  }

  lemma {:induction false} TimesIsProduct(a: nat, b: nat)
    ensures Times(a, b) == a * b
  {
    if a > 0 {
      TimesIsProduct(a - 1, b);
      MulSucc(a - 1, b);
    }
  }

  /** makeRiserIds: every riser of every staircase, staircase by staircase and
      riser by riser within one, each exactly once. */
  function RiserIds(klatki: int, piony: int): (r: seq<RiserId>)
    ensures |r| == Times(MaxInt(0, klatki), MaxInt(0, piony))
    ensures forall id :: id in r <==> 1 <= id.k <= klatki && 1 <= id.p <= piony
    ensures forall i, j :: 0 <= i < j < |r| ==> RiserBefore(r[i], r[j])
    decreases klatki
  {
    if klatki <= 0 then []
    else
      var prev := RiserIds(klatki - 1, piony);
      var row := StaircaseRisers(klatki, piony);
      assert forall id :: id in row <==> id.k == klatki && 1 <= id.p <= piony by {
        forall id: RiserId | id.k == klatki && 1 <= id.p <= piony
          ensures id in row
        {
          assert row[id.p - 1] == id;
        }
      }
      prev + row
  }

  /** Sorted risers are pairwise distinct. */
  lemma RiserIdsDistinct(klatki: int, piony: int)
    ensures forall i, j :: 0 <= i < j < |RiserIds(klatki, piony)| ==>
      RiserIds(klatki, piony)[i] != RiserIds(klatki, piony)[j]
  {
  }

  // ---------------------------------------------------------------------------
  // Work days and calendar days

  /** Day of the week `i` days after the start. */
  function Weekday(startDow: Dow, i: nat): (r: Dow)
    ensures i % 7 == 0 ==> r == startDow
  {
    (startDow + i) % 7
  }

  predicate IsWeekend(startDow: Dow, i: nat) {
    Weekday(startDow, i) == 0 || Weekday(startDow, i) == 6
  }

  /** Number of working days among the first `n` calendar days. */
  function WorkdaysIn(startDow: Dow, n: nat): (r: nat)
    ensures r <= n
  {
    if n == 0 then 0 else WorkdaysIn(startDow, n - 1) + (if IsWeekend(startDow, n - 1) then 0 else 1)
  }

  /** More calendar days never hold fewer working days. */
  lemma {:induction false} WorkdaysMonotone(startDow: Dow, m: nat, n: nat)
    requires m <= n
    ensures WorkdaysIn(startDow, m) <= WorkdaysIn(startDow, n)
    decreases n - m
  {
    if m < n {
      WorkdaysMonotone(startDow, m, n - 1);
    }
  }

  lemma WeekdayStep(startDow: Dow, i: nat)
    ensures Weekday(startDow, i + 1) == if Weekday(startDow, i) == 6 then 0 else Weekday(startDow, i) + 1
  {
  }

  /** How many calendar days a weekend day is from the next Monday. */
  function WeekendLeft(startDow: Dow, i: nat): (r: nat)
  {
    var w := Weekday(startDow, i);
    if w == 6 then 2 else if w == 0 then 1 else 0
  }

  /** workDayIndexToCalendarDays: the fewest calendar days from the start that
      hold `w` working days (rounded up, none for w <= 0), on a five-day week. */
  method CalendarDays(startDow: Dow, w: real) returns (cal: nat)
    ensures WorkdaysIn(startDow, cal) == MaxInt(0, Ceil(w))
    ensures cal > 0 ==> !IsWeekend(startDow, cal - 1)
    ensures cal >= MaxInt(0, Ceil(w))
    ensures w <= 0.0 <==> cal == 0
  {
    var workLeft := MaxInt(0, Ceil(w));
    cal := 0;
    while workLeft > 0
      invariant 0 <= workLeft
      invariant WorkdaysIn(startDow, cal) + workLeft == MaxInt(0, Ceil(w))
      invariant cal > 0 ==> !IsWeekend(startDow, cal - 1) || workLeft > 0
      invariant cal == 0 ==> workLeft == MaxInt(0, Ceil(w))
      decreases workLeft, WeekendLeft(startDow, cal)
    {
      WeekdayStep(startDow, cal);
      if !IsWeekend(startDow, cal) {
        workLeft := workLeft - 1;
      }
      cal := cal + 1;
    }
  }

  /** The calendar span of a work-day count is the least one holding that many
      working days: any span with as many working days is at least as long. */
  lemma CalendarDaysLeast(startDow: Dow, cal: nat, n: nat, other: nat)
    requires WorkdaysIn(startDow, cal) == n
    requires cal > 0 ==> !IsWeekend(startDow, cal - 1)
    requires WorkdaysIn(startDow, other) >= n
    ensures cal <= other
  {
    if other < cal {
      WorkdaysMonotone(startDow, other, cal - 1);
    }
  }

  // ---------------------------------------------------------------------------
  // buildTasks

  /** Apartments per riser: their share rounded, at least one; all of them when
      there is no riser. */
  function ApartmentsPerRiser(lokale: int, riserCount: int): (r: int)
    ensures riserCount > 0 ==> r >= 1
    ensures riserCount <= 0 ==> r == lokale
  {
    if riserCount > 0 then MaxInt(1, Round(lokale as real / riserCount as real)) else lokale
  }

  /** Share of apartments the crews can enter, as a fraction. */
  function Access(plan: Plan): (r: real)
    ensures 0.1 <= r <= 1.0
  {
    ClampNumber(Finite(plan.accessPct), 10.0, 100.0) / 100.0
  }

  function RestorationFactor(o: Restoration): (r: real)
    ensures r > 0.0
  {
    match o
    case Minimal => 0.6
    case Standard => 1.0
    case Extended => 1.6
  }

  /** The per-riser work of each kind, in work days. */
  datatype RiserDurations = RiserDurations(org: real, install: real, test: real, restore: real)

  /** Per-riser durations: scaled by apartments per riser (eight is the norm,
      the scale kept in [0.75, 2.5]); circulation adds to the installation,
      the test is only there when some water system is in scope, and organising
      entries takes longer as fewer apartments are accessible. */
  function PerRiser(plan: Plan): (r: RiserDurations)
    ensures r.org >= 0.0 && r.install >= 0.0 && r.test >= 0.0 && r.restore >= 0.0
    ensures !(plan.scope.zw || plan.scope.cwu || plan.scope.cyrkulacja) ==> r.test == 0.0
    ensures (plan.scope.zw || plan.scope.cwu || plan.scope.cyrkulacja) ==> r.test > 0.0
    ensures r.install > 0.0 && r.restore > 0.0
  {
    var riserCount := |RiserIds(plan.klatki, plan.piony)|;
    var scale := ClampNumber(Finite(ApartmentsPerRiser(plan.lokale, riserCount) as real / 8.0), 0.75, 2.5);
    var installBase := Days(Quarters(1.0 * scale));
    var cyrkExtra := if plan.scope.cyrkulacja then Days(Quarters(0.4 * scale)) else 0.0;
    var anyWater := plan.scope.zw || plan.scope.cwu || plan.scope.cyrkulacja;
    var test := if anyWater then Days(Quarters(0.25 * scale)) else 0.0;
    var restore := Days(Quarters(0.75 * scale * RestorationFactor(plan.restoration)));
    var org := Days(Quarters(ClampNumber(Finite((1.0 - Access(plan)) * 1.2), 0.0, 1.5)));
    RiserDurations(org, installBase + cyrkExtra, test, restore)
  }

  /** The `add` helper: every duration is rounded to quarter days once more. */
  function MkTask(id: TaskId, category: Category, kind: Kind, resource: Pool, riser: Option<RiserId>,
                  deps: seq<TaskId>, duration: real, affectsWaterOutage: bool): (r: Task)
    ensures r.id == id && r.deps == deps && r.kind == kind && r.category == category
    ensures r.resource == resource && r.riser == riser
    ensures r.quarters == Quarters(duration)
  {
    Task(id, category, kind, resource, riser, deps, Quarters(duration), affectsWaterOutage)
  }

  /** The shared tasks: preparation (half a day) always, the basement work
      (0.8 days plus 0.15 per riser) and the node work (0.75 days) when
      selected, both after preparation. */
  function CommonTasks(plan: Plan, riserCount: int): (r: seq<Task>)
    ensures |r| >= 1 && r[0].id == Prep && r[0].deps == [] && r[0].quarters == 2
    ensures forall t :: t in r ==> t.category == Common
    ensures IdList(r) == [Prep] + (if plan.piwnica then [Basement] else []) + (if plan.wezel then [Node] else [])
    ensures forall i :: 1 <= i < |r| ==> r[i].deps == [Prep]
  {
    var prep := MkTask(Prep, Common, Org, InstallCrews, None, [], 0.5, false);
    QuartersOfDays(2);
    QuartersOfDays(3);
    var basement := if plan.piwnica then
      [MkTask(Basement, Common, Install, InstallCrews, None, [Prep],
              Days(Quarters(0.8 + 0.15 * riserCount as real)), true)]
      else [];
    var node := if plan.wezel then [MkTask(Node, Common, Install, InstallCrews, None, [Prep], 0.75, true)] else [];
    [prep] + basement + node
  }

  /** The dependencies the source gives each per-riser task: the organisation
      of entries waits for preparation and, when selected, the basement work;
      each later task waits for the one before it in the same riser. */
  function ChainDeps(id: TaskId, piwnica: bool): seq<TaskId>
    requires id.PerRiser()
  {
    match id
    case OrgOf(_) => [Prep] + (if piwnica then [Basement] else [])
    case InstallOf(r) => [OrgOf(r)]
    case TestOf(r) => [InstallOf(r)]
    case RestoreOf(r) => [TestOf(r)]
  }

  /** The kind and crew pool of each per-riser task. */
  function ChainKind(id: TaskId): Kind
    requires id.PerRiser()
  {
    match id
    case OrgOf(_) => Org
    case InstallOf(_) => Install
    case TestOf(_) => Test
    case RestoreOf(_) => Restore
  }

  /** A task the chain of its riser produced. */
  predicate InChain(t: Task, piwnica: bool) {
    t.id.PerRiser() && t.category == Riser && t.riser == Some(t.id.r)
    && t.deps == ChainDeps(t.id, piwnica) && t.kind == ChainKind(t.id)
    && t.resource == (if t.id.RestoreOf? then RestoreCrews else InstallCrews)
  }

  /** The per-riser durations after the rounding `add` applies, in quarter days. */
  datatype RiserQuarters = RiserQuarters(org: nat, install: nat, test: nat, restore: nat)

  /** The rounding `add` applies to every duration, taken once for the four
      per-riser durations before the chains are built. */
  function AsAdded(d: RiserDurations): (r: RiserQuarters)
    ensures r.org == Quarters(d.org) && r.install == Quarters(d.install)
    ensures r.test == Quarters(d.test) && r.restore == Quarters(d.restore)
  {
    RiserQuarters(Quarters(d.org), Quarters(d.install), Quarters(d.test), Quarters(d.restore))
  }

  /** The four tasks of one riser, in chain order, with durations already
      rounded by `AsAdded`. */
  function RiserChain(r: RiserId, piwnica: bool, d: RiserQuarters): (c: seq<Task>)
    ensures |c| == 4
    ensures c[0].id == OrgOf(r) && c[1].id == InstallOf(r) && c[2].id == TestOf(r) && c[3].id == RestoreOf(r)
    ensures c[0].quarters == d.org && c[1].quarters == d.install
    ensures c[2].quarters == d.test && c[3].quarters == d.restore
  {
    [ Task(OrgOf(r), Riser, Org, InstallCrews, Some(r), [Prep] + (if piwnica then [Basement] else []), d.org, false),
      Task(InstallOf(r), Riser, Install, InstallCrews, Some(r), [OrgOf(r)], d.install, true),
      Task(TestOf(r), Riser, Test, InstallCrews, Some(r), [InstallOf(r)], d.test, true),
      Task(RestoreOf(r), Riser, Restore, RestoreCrews, Some(r), [TestOf(r)], d.restore, false) ]
  }

  /** Each task of a riser's chain has the dependencies, kind and crew pool of its place in the chain. */
  lemma RiserChainShape(r: RiserId, piwnica: bool, d: RiserQuarters)
    ensures forall t :: t in RiserChain(r, piwnica, d) ==>
      InChain(t, piwnica) && t.id.r == r
      && (t.quarters == d.org || t.quarters == d.install || t.quarters == d.test || t.quarters == d.restore)
  {
    var c := RiserChain(r, piwnica, d);
    assert forall t :: t in c ==> t == c[0] || t == c[1] || t == c[2] || t == c[3];
  }

  /** No two tasks share an id. */
  predicate UniqueIds(ts: seq<Task>) {
    forall i, j :: 0 <= i < j < |ts| ==> ts[i].id != ts[j].id
  }

  /** The ids the riser chains carry, riser by riser. */
  function ChainIds(ids: seq<RiserId>): (r: seq<TaskId>)
    ensures |r| == 4 * |ids|
  {
    if |ids| == 0 then []
    else
      var x := ids[|ids| - 1];
      ChainIds(ids[..|ids| - 1]) + [OrgOf(x), InstallOf(x), TestOf(x), RestoreOf(x)]
  }

  /** The chains of all risers, in riser order: every task belongs to the chain
      of a listed riser, and the ids are those of the chains. */
  function RiserBlock(ids: seq<RiserId>, piwnica: bool, d: RiserQuarters): (r: seq<Task>)
    ensures |r| == 4 * |ids|
  {
    if |ids| == 0 then []
    else RiserBlock(ids[..|ids| - 1], piwnica, d) + RiserChain(ids[|ids| - 1], piwnica, d)
  }

  /** Every task of the block belongs to the chain of a listed riser. */
  lemma {:induction false} RiserBlockShape(ids: seq<RiserId>, piwnica: bool, d: RiserQuarters)
    ensures forall t :: t in RiserBlock(ids, piwnica, d) ==>
      InChain(t, piwnica) && t.id.r in ids
      && (t.quarters == d.org || t.quarters == d.install || t.quarters == d.test || t.quarters == d.restore)
  {
    if |ids| > 0 {
      var n := |ids| - 1;
      var prev := RiserBlock(ids[..n], piwnica, d);
      var c := RiserChain(ids[n], piwnica, d);
      RiserBlockShape(ids[..n], piwnica, d);
      RiserChainShape(ids[n], piwnica, d);
      assert RiserBlock(ids, piwnica, d) == prev + c;
      forall t | t in prev + c
        ensures InChain(t, piwnica) && t.id.r in ids
          && (t.quarters == d.org || t.quarters == d.install || t.quarters == d.test || t.quarters == d.restore)
      {
        if t in prev {
          assert t.id.r in ids[..n];
        } else {
          assert t in c;
        }
      }
    }
  }

  /** The task ids of the riser chains, in order. */
  lemma {:induction false} RiserBlockIds(ids: seq<RiserId>, piwnica: bool, d: RiserQuarters)
    ensures IdList(RiserBlock(ids, piwnica, d)) == ChainIds(ids)
  {
    if |ids| > 0 {
      var n := |ids| - 1;
      var prev := RiserBlock(ids[..n], piwnica, d);
      var c := RiserChain(ids[n], piwnica, d);
      RiserBlockIds(ids[..n], piwnica, d);
      assert RiserBlock(ids, piwnica, d) == prev + c;
      IdListAppend(prev, c);
      RiserChainIds(ids[n], piwnica, d);
    }
  }

  lemma RiserChainIds(r: RiserId, piwnica: bool, d: RiserQuarters)
    ensures IdList(RiserChain(r, piwnica, d)) == [OrgOf(r), InstallOf(r), TestOf(r), RestoreOf(r)]
  {
  }

  /** Every listed riser has its four tasks. */
  lemma {:induction false} ChainIdsCover(ids: seq<RiserId>)
    ensures forall x :: x in ids ==>
      OrgOf(x) in ChainIds(ids) && InstallOf(x) in ChainIds(ids)
      && TestOf(x) in ChainIds(ids) && RestoreOf(x) in ChainIds(ids)
  {
    if |ids| > 0 {
      var n := |ids| - 1;
      ChainIdsCover(ids[..n]);
      assert forall x :: x in ids ==> x in ids[..n] || x == ids[n];
    }
  }

  /** The chain ids name only listed risers. */
  lemma {:induction false} ChainIdsOnly(ids: seq<RiserId>)
    ensures forall y :: y in ChainIds(ids) ==> y.PerRiser() && y.r in ids
  {
    if |ids| > 0 {
      var n := |ids| - 1;
      ChainIdsOnly(ids[..n]);
      assert forall x :: x in ids[..n] ==> x in ids;
    }
  }

  /** Distinct risers give distinct chain ids. */
  lemma {:induction false} ChainIdsDistinct(ids: seq<RiserId>)
    requires forall i, j :: 0 <= i < j < |ids| ==> ids[i] != ids[j]
    ensures forall i, j :: 0 <= i < j < |ChainIds(ids)| ==> ChainIds(ids)[i] != ChainIds(ids)[j]
  {
    if |ids| > 0 {
      var n := |ids| - 1;
      var prev := ChainIds(ids[..n]);
      ChainIdsDistinct(ids[..n]);
      ChainIdsOnly(ids[..n]);
      assert ids[n] !in ids[..n];
      var all := ChainIds(ids);
      assert all == prev + [OrgOf(ids[n]), InstallOf(ids[n]), TestOf(ids[n]), RestoreOf(ids[n])];
      forall i, j | 0 <= i < j < |all|
        ensures all[i] != all[j]
      {
        if i < |prev| <= j {
          assert prev[i] in prev;
        }
      }
    }
  }

  /** Distinct risers give distinct task ids. */
  lemma RiserBlockUnique(ids: seq<RiserId>, piwnica: bool, d: RiserQuarters)
    requires forall i, j :: 0 <= i < j < |ids| ==> ids[i] != ids[j]
    ensures UniqueIds(RiserBlock(ids, piwnica, d))
  {
    ChainIdsDistinct(ids);
    RiserBlockIds(ids, piwnica, d);
    var r := RiserBlock(ids, piwnica, d);
    assert forall i :: 0 <= i < |r| ==> r[i].id == ChainIds(ids)[i];
  }

  /** The ids of a task list, as a set. */
  function Ids(ts: seq<Task>): set<TaskId>
  {
    set t | t in ts :: t.id
  }

  /** The ids of a task list, in list order. */
  function IdList(ts: seq<Task>): (r: seq<TaskId>)
    ensures |r| == |ts|
    ensures forall i :: 0 <= i < |ts| ==> r[i] == ts[i].id
  {
    seq(|ts|, i requires 0 <= i < |ts| => ts[i].id)
  }

  lemma IdListAppend(a: seq<Task>, b: seq<Task>)
    ensures IdList(a + b) == IdList(a) + IdList(b)
  {
  }

  /** Total work of a task list, in quarter days. */
  function SumQuarters(ts: seq<Task>): nat
  {
    if |ts| == 0 then 0 else SumQuarters(ts[..|ts| - 1]) + ts[|ts| - 1].quarters
  }

  /** The ids of the riser test tasks, in list order (the buffer's dependencies). */
  function TestIds(ts: seq<Task>): seq<TaskId>
  {
    if |ts| == 0 then []
    else
      var last := ts[|ts| - 1];
      TestIds(ts[..|ts| - 1]) + (if last.category == Riser && last.kind == Test then [last.id] else [])
  }

  lemma {:induction false} TestIdsAppend(a: seq<Task>, b: seq<Task>)
    ensures TestIds(a + b) == TestIds(a) + TestIds(b)
    decreases |b|
  {
    if |b| == 0 {
      assert a + b == a;
    } else {
      TestIdsAppend(a, b[..|b| - 1]);
      assert (a + b)[..|a + b| - 1] == a + b[..|b| - 1];
    }
  }

  /** A list of shared tasks holds no riser test. */
  lemma {:induction false} CommonHasNoTests(ts: seq<Task>)
    requires forall t :: t in ts ==> t.category == Common
    ensures TestIds(ts) == []
  {
    if |ts| > 0 {
      assert forall t :: t in ts[..|ts| - 1] ==> t in ts;
      CommonHasNoTests(ts[..|ts| - 1]);
      assert ts[|ts| - 1] in ts;
    }
  }

  /** The test ids of the given risers, in riser order. */
  function TestsOf(ids: seq<RiserId>): (r: seq<TaskId>)
    ensures |r| == |ids|
  {
    if |ids| == 0 then [] else TestsOf(ids[..|ids| - 1]) + [TestOf(ids[|ids| - 1])]
  }

  /** The i-th test id belongs to the i-th riser. */
  lemma {:induction false} TestsOfAt(ids: seq<RiserId>, i: int)
    requires 0 <= i < |ids|
    ensures TestsOf(ids)[i] == TestOf(ids[i])
  {
    if i < |ids| - 1 {
      TestsOfAt(ids[..|ids| - 1], i);
    }
  }

  lemma {:induction false} TestsOfAreTests(ids: seq<RiserId>)
    ensures forall d :: d in TestsOf(ids) ==> d.TestOf?
  {
    if |ids| > 0 {
      TestsOfAreTests(ids[..|ids| - 1]);
    }
  }

  /** A riser's chain holds its one test. */
  lemma ChainTests(r: RiserId, piwnica: bool, d: RiserQuarters)
    ensures TestIds(RiserChain(r, piwnica, d)) == [TestOf(r)]
  {
    var c := RiserChain(r, piwnica, d);
    assert c[..1][..0] == [] && c[..2][..1] == c[..1] && c[..3][..2] == c[..2] && c[..4] == c && c[..4][..3] == c[..3];
    assert TestIds(c[..1]) == [];
    assert TestIds(c[..2]) == [];
    assert TestIds(c[..3]) == [TestOf(r)];
  }

  /** The riser block holds exactly one test per riser, in riser order. */
  lemma {:induction false} RiserBlockTests(ids: seq<RiserId>, piwnica: bool, d: RiserQuarters)
    ensures TestIds(RiserBlock(ids, piwnica, d)) == TestsOf(ids)
  {
    if |ids| > 0 {
      var n := |ids| - 1;
      var prev := RiserBlock(ids[..n], piwnica, d);
      var c := RiserChain(ids[n], piwnica, d);
      RiserBlockTests(ids[..n], piwnica, d);
      assert RiserBlock(ids, piwnica, d) == prev + c;
      TestIdsAppend(prev, c);
      ChainTests(ids[n], piwnica, d);
      assert TestsOf(ids) == TestsOf(ids[..n]) + [TestOf(ids[n])];
    }
  }

  /** Every task before the buffer. */
  function BaseTasks(plan: Plan): (r: seq<Task>)
  {
    var ids := RiserIds(plan.klatki, plan.piony);
    CommonTasks(plan, |ids|) + RiserBlock(ids, plan.piwnica, AsAdded(PerRiser(plan)))
  }

  /** The buffer length: the configured share (clamped to [0, 40] %) of all
      work so far, in quarter days. */
  function BufferQuarters(plan: Plan): (r: nat)
    ensures ClampNumber(Finite(plan.bufferPct), 0.0, 40.0) == 0.0 ==> r == 0
  {
    Quarters(Days(SumQuarters(BaseTasks(plan))) * (ClampNumber(Finite(plan.bufferPct), 0.0, 40.0) / 100.0))
  }

  /** The buffer task after the given tasks: it waits for all their riser tests. */
  function BufferTask(base: seq<Task>, q: nat): (r: Task)
    ensures r.id == GlobalBuffer && r.kind == Buffer && r.category == Common
    ensures r.deps == TestIds(base) && r.quarters == q
  {
    QuartersOfDays(q);
    MkTask(GlobalBuffer, Common, Buffer, InstallCrews, None, TestIds(base), Days(q), false)
  }

  /** The shared tasks, then the riser chains, then the buffer when it is not empty. */
  function Assemble(common: seq<Task>, block: seq<Task>, q: nat): (r: seq<Task>)
    ensures |r| == |common| + |block| + (if q > 0 then 1 else 0)
  {
    if q > 0 then common + block + [BufferTask(common + block, q)] else common + block
  }

  /** buildTasks: the shared tasks, the chain of every riser, and a buffer after
      all riser tests when it is at least a quarter day long. */
  function BuildTasks(plan: Plan): (r: seq<Task>)
    ensures |r| == 1 + (if plan.piwnica then 1 else 0) + (if plan.wezel then 1 else 0)
                   + 4 * Times(MaxInt(0, plan.klatki), MaxInt(0, plan.piony))
                   + (if BufferQuarters(plan) > 0 then 1 else 0)
  {
    var ids := RiserIds(plan.klatki, plan.piony);
    var common := CommonTasks(plan, |ids|);
    assert |common| == |CommonIds(plan.piwnica, plan.wezel)| by {
      assert |IdList(common)| == |common|;
    }
    Assemble(common, RiserBlock(ids, plan.piwnica, AsAdded(PerRiser(plan))), BufferQuarters(plan))
  }

  /** Pairwise distinct elements. */
  predicate Distinct<T(==)>(s: seq<T>) {
    forall i, j :: 0 <= i < j < |s| ==> s[i] != s[j]
  }

  lemma DistinctAppend<T>(a: seq<T>, b: seq<T>)
    requires Distinct(a) && Distinct(b)
    requires forall x :: x in a ==> x !in b
    ensures Distinct(a + b)
  {
    forall i, j | 0 <= i < j < |a + b|
      ensures (a + b)[i] != (a + b)[j]
    {
      if i < |a| <= j {
        assert a[i] in a;
        assert b[j - |a|] in b;
      }
    }
  }

  /** The shared ids in list order. */
  function CommonIds(piwnica: bool, wezel: bool): seq<TaskId>
  {
    [Prep] + (if piwnica then [Basement] else []) + (if wezel then [Node] else [])
  }

  /** What the shared part of buildTasks looks like: its ids, preparation
      first without dependencies, the others after preparation. */
  predicate CommonShape(common: seq<Task>, piwnica: bool, wezel: bool) {
    IdList(common) == CommonIds(piwnica, wezel)
    && |common| >= 1 && common[0].deps == []
    && (forall i :: 1 <= i < |common| ==> common[i].deps == [Prep])
    && (forall t :: t in common ==> t.category == Common)
  }

  lemma CommonTasksShape(plan: Plan, n: int)
    ensures CommonShape(CommonTasks(plan, n), plan.piwnica, plan.wezel)
  {
  }

  /** The ids of an assembled list, in order. */
  lemma AssembleIds(common: seq<Task>, ids: seq<RiserId>, piwnica: bool, d: RiserQuarters, q: nat,
                    wezel: bool)
    requires IdList(common) == CommonIds(piwnica, wezel)
    ensures IdList(Assemble(common, RiserBlock(ids, piwnica, d), q)) ==
      CommonIds(piwnica, wezel) + ChainIds(ids) + (if q > 0 then [GlobalBuffer] else [])
  {
    var block := RiserBlock(ids, piwnica, d);
    RiserBlockIds(ids, piwnica, d);
    IdListAppend(common, block);
    if q > 0 {
      IdListAppend(common + block, [BufferTask(common + block, q)]);
    }
  }

  /** The ids buildTasks produces, in order: preparation, basement and node work
      when selected, the four tasks of each riser, and the buffer when it is
      not empty. */
  lemma BuildTasksIds(plan: Plan)
    ensures IdList(BuildTasks(plan)) ==
      CommonIds(plan.piwnica, plan.wezel) + ChainIds(RiserIds(plan.klatki, plan.piony))
      + (if BufferQuarters(plan) > 0 then [GlobalBuffer] else [])
  {
    var ids := RiserIds(plan.klatki, plan.piony);
    var common := CommonTasks(plan, |ids|);
    AssembleIds(common, ids, plan.piwnica, AsAdded(PerRiser(plan)), BufferQuarters(plan), plan.wezel);
  }

  /** A task list whose ids are the shared ids, then distinct per-riser ids,
      then possibly the buffer, has distinct ids. */
  lemma UniqueFromLayout(r: seq<Task>, common: seq<TaskId>, chains: seq<TaskId>, tail: seq<TaskId>)
    requires IdList(r) == common + chains + tail
    requires common == [Prep] || common == [Prep, Basement] || common == [Prep, Node] || common == [Prep, Basement, Node]
    requires Distinct(chains) && forall y :: y in chains ==> y.PerRiser()
    requires tail == [] || tail == [GlobalBuffer]
    ensures UniqueIds(r)
  {
    DistinctAppend(common, chains);
    DistinctAppend(common + chains, tail);
    assert forall i :: 0 <= i < |r| ==> r[i].id == IdList(r)[i];
  }

  /** Over distinct risers, an assembled list has distinct ids. */
  lemma AssembleUnique(common: seq<Task>, ids: seq<RiserId>, piwnica: bool, d: RiserQuarters, q: nat,
                       wezel: bool)
    requires IdList(common) == CommonIds(piwnica, wezel)
    requires Distinct(ids)
    ensures UniqueIds(Assemble(common, RiserBlock(ids, piwnica, d), q))
  {
    AssembleIds(common, ids, piwnica, d, q, wezel);
    ChainIdsDistinct(ids);
    ChainIdsOnly(ids);
    UniqueFromLayout(Assemble(common, RiserBlock(ids, piwnica, d), q), CommonIds(piwnica, wezel), ChainIds(ids),
                     if q > 0 then [GlobalBuffer] else []);
  }

  /** No two tasks buildTasks produces share an id. */
  lemma BuildTasksUnique(plan: Plan)
    ensures UniqueIds(BuildTasks(plan))
  {
    var ids := RiserIds(plan.klatki, plan.piony);
    RiserIdsDistinct(plan.klatki, plan.piony);
    AssembleUnique(CommonTasks(plan, |ids|), ids, plan.piwnica, AsAdded(PerRiser(plan)), BufferQuarters(plan),
                   plan.wezel);
  }

  /** Membership in the id layout of buildTasks. */
  lemma MembersOfLayout(s: seq<TaskId>, piwnica: bool, wezel: bool, ids: seq<RiserId>, tail: seq<TaskId>, x: RiserId)
    requires s == CommonIds(piwnica, wezel) + ChainIds(ids) + tail
    requires tail == [] || tail == [GlobalBuffer]
    ensures Prep in s && (Basement in s <==> piwnica) && (Node in s <==> wezel)
    ensures GlobalBuffer in s <==> tail != []
    ensures OrgOf(x) in s <==> x in ids
    ensures InstallOf(x) in s <==> x in ids
    ensures TestOf(x) in s <==> x in ids
    ensures RestoreOf(x) in s <==> x in ids
  {
    var c, ch := CommonIds(piwnica, wezel), ChainIds(ids);
    ChainMembers(ids, x);
    ChainIdsOnly(ids);
    InLayout(c, ch, tail, Prep);
    InLayout(c, ch, tail, Basement);
    InLayout(c, ch, tail, Node);
    InLayout(c, ch, tail, GlobalBuffer);
    InLayout(c, ch, tail, OrgOf(x));
    InLayout(c, ch, tail, InstallOf(x));
    InLayout(c, ch, tail, TestOf(x));
    InLayout(c, ch, tail, RestoreOf(x));
  }

  lemma InLayout(c: seq<TaskId>, ch: seq<TaskId>, tail: seq<TaskId>, y: TaskId)
    ensures y in c + ch + tail <==> y in c || y in ch || y in tail
  {
  }

  /** A riser's four tasks are in the chain ids exactly when it is listed. */
  lemma ChainMembers(ids: seq<RiserId>, x: RiserId)
    ensures OrgOf(x) in ChainIds(ids) <==> x in ids
    ensures InstallOf(x) in ChainIds(ids) <==> x in ids
    ensures TestOf(x) in ChainIds(ids) <==> x in ids
    ensures RestoreOf(x) in ChainIds(ids) <==> x in ids
  {
    ChainIdsCover(ids);
    ChainIdsOnly(ids);
  }

  /** Which tasks exist: preparation always, the basement work exactly when
      selected, the node work exactly when selected, the buffer exactly when it
      is at least a quarter day, and the four tasks of a riser exactly for the
      risers of the building (staircase 1..klatki, riser 1..pionyNaKlatke). */
  lemma BuildTasksMembers(plan: Plan, x: RiserId)
    ensures var s := IdList(BuildTasks(plan));
      Prep in s
      && (Basement in s <==> plan.piwnica)
      && (Node in s <==> plan.wezel)
      && (GlobalBuffer in s <==> BufferQuarters(plan) > 0)
      && (OrgOf(x) in s <==> 1 <= x.k <= plan.klatki && 1 <= x.p <= plan.piony)
      && (InstallOf(x) in s <==> 1 <= x.k <= plan.klatki && 1 <= x.p <= plan.piony)
      && (TestOf(x) in s <==> 1 <= x.k <= plan.klatki && 1 <= x.p <= plan.piony)
      && (RestoreOf(x) in s <==> 1 <= x.k <= plan.klatki && 1 <= x.p <= plan.piony)
  {
    BuildTasksIds(plan);
    MembersOfLayout(IdList(BuildTasks(plan)), plan.piwnica, plan.wezel, RiserIds(plan.klatki, plan.piony),
                    if BufferQuarters(plan) > 0 then [GlobalBuffer] else [], x);
  }

  /** The dependency rules of buildTasks: none for preparation, preparation for
      the other shared tasks, the chain rule for the per-riser tasks and all
      riser tests for the buffer. */
  predicate DepsRule(t: Task, piwnica: bool, tests: seq<TaskId>) {
    (t.id.PerRiser() ==> InChain(t, piwnica))
    && (t.id == Prep ==> t.deps == [])
    && ((t.id == Basement || t.id == Node) ==> t.deps == [Prep])
    && (t.id == GlobalBuffer ==> t.deps == tests)
  }

  /** The shared tasks follow the dependency rules. */
  lemma CommonDeps(common: seq<Task>, piwnica: bool, wezel: bool, tests: seq<TaskId>)
    requires CommonShape(common, piwnica, wezel)
    ensures forall t :: t in common ==> DepsRule(t, piwnica, tests)
  {
    forall t | t in common
      ensures DepsRule(t, piwnica, tests)
    {
      var i :| 0 <= i < |common| && common[i] == t;
      assert IdList(common)[i] == t.id;
      if i == 0 {
        assert t.id == Prep;
      } else {
        assert t.id != Prep;
      }
    }
  }

  /** The riser chains follow the dependency rules. */
  lemma BlockDeps(ids: seq<RiserId>, piwnica: bool, d: RiserQuarters, tests: seq<TaskId>)
    ensures forall t :: t in RiserBlock(ids, piwnica, d) ==> DepsRule(t, piwnica, tests)
  {
    RiserBlockShape(ids, piwnica, d);
  }

  /** The buffer after the shared tasks and the chains waits for every riser test. */
  lemma BufferDeps(common: seq<Task>, ids: seq<RiserId>, piwnica: bool, d: RiserQuarters, q: nat)
    requires forall t :: t in common ==> t.category == Common
    ensures BufferTask(common + RiserBlock(ids, piwnica, d), q).deps == TestsOf(ids)
  {
    TestIdsAppend(common, RiserBlock(ids, piwnica, d));
    CommonHasNoTests(common);
    RiserBlockTests(ids, piwnica, d);
  }

  /** Every task of an assembled list follows the dependency rules. */
  lemma AssembleDeps(common: seq<Task>, ids: seq<RiserId>, piwnica: bool, d: RiserQuarters, q: nat, wezel: bool)
    requires CommonShape(common, piwnica, wezel)
    ensures forall t :: t in Assemble(common, RiserBlock(ids, piwnica, d), q) ==> DepsRule(t, piwnica, TestsOf(ids))
  {
    var block := RiserBlock(ids, piwnica, d);
    var tests := TestsOf(ids);
    CommonDeps(common, piwnica, wezel, tests);
    BlockDeps(ids, piwnica, d, tests);
    if q > 0 {
      var b := BufferTask(common + block, q);
      BufferDeps(common, ids, piwnica, d, q);
      assert DepsRule(b, piwnica, tests);
      assert forall t :: t in common + block + [b] ==> t in common || t in block || t == b;
    }
  }

  /** The dependencies buildTasks gives: none for preparation, preparation for
      the basement and node work, the chain rule for the per-riser tasks (the
      organisation of a riser after preparation and the basement work when
      present, each later task after the previous one), and the test of every
      riser, in riser order, for the buffer. */
  lemma BuildTasksDeps(plan: Plan)
    ensures forall t :: t in BuildTasks(plan) ==>
      DepsRule(t, plan.piwnica, TestsOf(RiserIds(plan.klatki, plan.piony)))
  {
    var ids := RiserIds(plan.klatki, plan.piony);
    CommonTasksShape(plan, |ids|);
    AssembleDeps(CommonTasks(plan, |ids|), ids, plan.piwnica, AsAdded(PerRiser(plan)), BufferQuarters(plan),
                 plan.wezel);
  }
}

=== FILE: schedule_topo.dfy ===
/** topoSort of scheduleEngine.ts: Kahn's algorithm over the task list with a
    first-in first-out queue. Dependencies naming no task are ignored; a task
    list with a cycle or with a repeated id comes back unchanged. */
module ScheduleTopo {
  import opened Outcomes
  import opened ScheduleTasks

  // ---------------------------------------------------------------------------
  // Counting helpers

  /** Occurrences of `x` in `s`. */
  function Occ(s: seq<TaskId>, x: TaskId): nat
  {
    if |s| == 0 then 0 else Occ(s[..|s| - 1], x) + (if s[|s| - 1] == x then 1 else 0)
  }

  lemma {:induction false} OccAppend(a: seq<TaskId>, b: seq<TaskId>, x: TaskId)
    ensures Occ(a + b, x) == Occ(a, x) + Occ(b, x)
    decreases |b|
  {
    if |b| == 0 {
      assert a + b == a;
    } else {
      OccAppend(a, b[..|b| - 1], x);
      assert (a + b)[..|a + b| - 1] == a + b[..|b| - 1];
    }
  }

  /** A prefix holds no more occurrences than the whole sequence. */
  lemma {:induction false} OccPrefix(s: seq<TaskId>, k: int, x: TaskId)
    requires 0 <= k <= |s|
    ensures Occ(s[..k], x) <= Occ(s, x)
  {
    assert s == s[..k] + s[k..];
    OccAppend(s[..k], s[k..], x);
  }

  /** One more element of a prefix. */
  lemma OccStep(s: seq<TaskId>, k: int, x: TaskId)
    requires 0 <= k < |s|
    ensures Occ(s[..k + 1], x) == Occ(s[..k], x) + (if s[k] == x then 1 else 0)
  {
    assert s[..k + 1][..k] == s[..k];
  }

  lemma {:induction false} OccPositive(s: seq<TaskId>, x: TaskId)
    ensures Occ(s, x) > 0 <==> x in s
  {
    if |s| > 0 {
      OccPositive(s[..|s| - 1], x);
      assert s == s[..|s| - 1] + [s[|s| - 1]];
    }
  }

  /** `k` copies of `x`. */
  function Repeat(x: TaskId, k: nat): (r: seq<TaskId>)
    ensures |r| == k && forall i :: 0 <= i < k ==> r[i] == x
  {
    seq(k, _ => x)
  }

  lemma {:induction false} OccRepeat(x: TaskId, k: nat, y: TaskId)
    ensures Occ(Repeat(x, k), y) == if x == y then k else 0
  {
    if k > 0 {
      OccRepeat(x, k - 1, y);
      assert Repeat(x, k)[..k - 1] == Repeat(x, k - 1);
    }
  }

  // ---------------------------------------------------------------------------
  // The graph as the source's maps hold it

  /** Dependencies in `deps` that name a known task not yet done. */
  function Pending(deps: seq<TaskId>, known: set<TaskId>, done: set<TaskId>): nat
  {
    if |deps| == 0 then 0
    else
      var d := deps[|deps| - 1];
      Pending(deps[..|deps| - 1], known, done) + (if d in known && d !in done then 1 else 0)
  }

  /** The in-degree of `x` once the tasks in `done` have been taken: pending
      dependencies summed over every task carrying the id `x`. */
  function DepCount(ts: seq<Task>, x: TaskId, known: set<TaskId>, done: set<TaskId>): nat
  {
    if |ts| == 0 then 0
    else
      var t := ts[|ts| - 1];
      DepCount(ts[..|ts| - 1], x, known, done) + (if t.id == x then Pending(t.deps, known, done) else 0)
  }

  /** The successor list of `d`: a task's id once per dependency on `d`, in
      task order. */
  function OutList(ts: seq<Task>, d: TaskId): seq<TaskId>
  {
    if |ts| == 0 then []
    else
      var t := ts[|ts| - 1];
      OutList(ts[..|ts| - 1], d) + Repeat(t.id, Occ(t.deps, d))
  }

  /** Taking the known task `y` removes from `x`'s in-degree exactly its
      occurrences in `y`'s successor list. */
  lemma {:induction false} PendingTake(deps: seq<TaskId>, known: set<TaskId>, done: set<TaskId>, y: TaskId)
    requires y in known && y !in done
    ensures Pending(deps, known, done) == Pending(deps, known, done + {y}) + Occ(deps, y)
  {
    if |deps| > 0 {
      PendingTake(deps[..|deps| - 1], known, done, y);
    }
  }

  lemma {:induction false} DepCountTake(ts: seq<Task>, x: TaskId, known: set<TaskId>, done: set<TaskId>, y: TaskId)
    requires y in known && y !in done
    ensures DepCount(ts, x, known, done) == DepCount(ts, x, known, done + {y}) + Occ(OutList(ts, y), x)
  {
    if |ts| > 0 {
      var t := ts[|ts| - 1];
      DepCountTake(ts[..|ts| - 1], x, known, done, y);
      PendingTake(t.deps, known, done, y);
      OccAppend(OutList(ts[..|ts| - 1], y), Repeat(t.id, Occ(t.deps, y)), x);
      OccRepeat(t.id, Occ(t.deps, y), x);
    }
  }

  /** Successors are task ids. */
  lemma {:induction false} OutListIds(ts: seq<Task>, d: TaskId)
    ensures forall x :: x in OutList(ts, d) ==> x in Ids(ts)
  {
    if |ts| > 0 {
      OutListIds(ts[..|ts| - 1], d);
      assert forall t :: t in ts[..|ts| - 1] ==> t in ts;
      assert ts[|ts| - 1] in ts;
    }
  }

  lemma {:induction false} PendingZero(deps: seq<TaskId>, known: set<TaskId>, done: set<TaskId>)
    ensures Pending(deps, known, done) == 0 <==> forall d :: d in deps && d in known ==> d in done
  {
    if |deps| > 0 {
      PendingZero(deps[..|deps| - 1], known, done);
      assert deps == deps[..|deps| - 1] + [deps[|deps| - 1]];
    }
  }

  /** A zero in-degree means every known dependency of every task with that id is done. */
  lemma {:induction false} DepCountZero(ts: seq<Task>, x: TaskId, known: set<TaskId>, done: set<TaskId>)
    ensures DepCount(ts, x, known, done) == 0 <==>
      forall i, d :: 0 <= i < |ts| && ts[i].id == x && d in ts[i].deps && d in known ==> d in done
  {
    if |ts| > 0 {
      var n := |ts| - 1;
      DepCountZero(ts[..n], x, known, done);
      PendingZero(ts[n].deps, known, done);
      assert forall i :: 0 <= i < n ==> ts[..n][i] == ts[i];
    }
  }

  /** Without repeated ids, the successor list of `d` names each task that
      depends on `d`. */
  lemma {:induction false} OutListHas(ts: seq<Task>, d: TaskId, i: int)
    requires 0 <= i < |ts| && d in ts[i].deps
    ensures ts[i].id in OutList(ts, d)
  {
    var n := |ts| - 1;
    OccPositive(ts[n].deps, d);
    if i < n {
      OutListHas(ts[..n], d, i);
    } else {
      assert Repeat(ts[n].id, Occ(ts[n].deps, d))[0] == ts[n].id;
    }
  }

  // ---------------------------------------------------------------------------
  // Ids

  /** The ids in order of first appearance: the key order of the source's maps. */
  function FirstIds(ts: seq<Task>): (r: seq<TaskId>)
    ensures Distinct(r)
    ensures forall x :: x in r <==> x in Ids(ts)
  {
    if |ts| == 0 then []
    else
      var n := |ts| - 1;
      var p := FirstIds(ts[..n]);
      assert Ids(ts) == Ids(ts[..n]) + {ts[n].id} by {
        assert ts == ts[..n] + [ts[n]];
      }
      if ts[n].id in p then p else p + [ts[n].id]
  }

  /** The task the id map holds for `x`: the last task with that id. */
  function ById(ts: seq<Task>, x: TaskId): (r: Option<Task>)
    ensures r.Some? <==> x in Ids(ts)
    ensures r.Some? ==> r.value in ts && r.value.id == x
  {
    if |ts| == 0 then None
    else
      var n := |ts| - 1;
      assert Ids(ts) == Ids(ts[..n]) + {ts[n].id} by {
        assert ts == ts[..n] + [ts[n]];
      }
      if ts[n].id == x then Some(ts[n]) else ById(ts[..n], x)
  }

  /** Without repeated ids the map holds each task under its own id. */
  lemma {:induction false} ByIdUnique(ts: seq<Task>, i: int)
    requires UniqueIds(ts) && 0 <= i < |ts|
    ensures ById(ts, ts[i].id) == Some(ts[i])
  {
    var n := |ts| - 1;
    if i < n {
      assert ts[n].id != ts[i].id;
      ByIdUnique(ts[..n], i);
    }
  }

  lemma IdsSnoc(ts: seq<Task>)
    requires |ts| > 0
    ensures Ids(ts) == Ids(ts[..|ts| - 1]) + {ts[|ts| - 1].id}
  {
    assert ts == ts[..|ts| - 1] + [ts[|ts| - 1]];
  }

  /** A list has no repeated id when its front has none and its last id is new. */
  lemma UniqueSnoc(ts: seq<Task>)
    requires |ts| > 0
    ensures UniqueIds(ts) <==> UniqueIds(ts[..|ts| - 1]) && ts[|ts| - 1].id !in Ids(ts[..|ts| - 1])
  {
    var n := |ts| - 1;
    var front := ts[..n];
    if ts[n].id in Ids(front) {
      var t :| t in front && t.id == ts[n].id;
      var j :| 0 <= j < n && front[j] == t;
      assert ts[j].id == ts[n].id;
    } else if UniqueIds(front) {
      forall i, j | 0 <= i < j < |ts|
        ensures ts[i].id != ts[j].id
      {
        assert front[i] == ts[i];
        if j == n {
          assert front[i] in front;
        } else {
          assert front[j] == ts[j];
        }
      }
    } else {
      var i, j :| 0 <= i < j < n && front[i].id == front[j].id;
      assert ts[i].id == ts[j].id;
    }
  }

  /** There are no more ids than tasks, and as many exactly when no id repeats. */
  lemma {:induction false} IdsCount(ts: seq<Task>)
    ensures |Ids(ts)| <= |ts|
    ensures |Ids(ts)| == |ts| <==> UniqueIds(ts)
  {
    if |ts| > 0 {
      var n := |ts| - 1;
      IdsCount(ts[..n]);
      IdsSnoc(ts);
      UniqueSnoc(ts);
    }
  }

  /** A subset has no more elements. */
  lemma {:induction false} SubsetCard<T>(a: set<T>, b: set<T>)
    requires a <= b
    ensures |a| <= |b|
    decreases |a|
  {
    if a != {} {
      var x :| x in a;
      SubsetCard(a - {x}, b - {x});
    }
  }

  // ---------------------------------------------------------------------------
  // What a topological order is

  /** `rank` puts every known dependency below its task. */
  ghost predicate RankedBy(ts: seq<Task>, rank: TaskId -> nat) {
    forall i, d :: 0 <= i < |ts| && d in ts[i].deps && d in Ids(ts) ==> rank(d) < rank(ts[i].id)
  }

  /** No cycle among the known dependencies: some ranking of the ids puts
      every known dependency below its task. */
  ghost predicate Acyclic(ts: seq<Task>) {
    exists rank: TaskId -> nat :: RankedBy(ts, rank)
  }

  /** `r` is a permutation of `ts` without repeated ids in which every known
      dependency of a task appears before it. */
  ghost predicate IsTopoOrderOf(r: seq<Task>, ts: seq<Task>) {
    multiset(r) == multiset(ts)
    && UniqueIds(r)
    && forall i, d :: 0 <= i < |r| && d in r[i].deps && d in Ids(ts) ==>
         exists j :: 0 <= j < i && r[j].id == d
  }

  /** The first position holding `x`, or the length when there is none. */
  function IdIndex(r: seq<Task>, x: TaskId): (k: nat)
    ensures k <= |r|
  {
    if |r| == 0 then 0
    else if r[0].id == x then 0
    else 1 + IdIndex(r[1..], x)
  }

  lemma {:induction false} IdIndexUnique(r: seq<Task>, j: int)
    requires UniqueIds(r) && 0 <= j < |r|
    ensures IdIndex(r, r[j].id) == j
  {
    if j > 0 {
      assert r[0].id != r[j].id;
      assert r[1..][j - 1] == r[j];
      IdIndexUnique(r[1..], j - 1);
    }
  }

  /** A sequence without repeated ids holds each value at most once. */
  lemma {:induction false} UniqueCounts(r: seq<Task>)
    requires UniqueIds(r)
    ensures forall t :: multiset(r)[t] <= 1
  {
    if |r| > 0 {
      var n := |r| - 1;
      UniqueCounts(r[..n]);
      assert r == r[..n] + [r[n]];
      assert r[n] !in r[..n];
    }
  }

  /** A value at two positions is counted twice. */
  lemma TwiceCounted(s: seq<Task>, i: int, j: int)
    requires 0 <= i < j < |s| && s[i] == s[j]
    ensures multiset(s)[s[i]] >= 2
  {
    assert s == s[..j] + [s[j]] + s[j + 1..];
    assert s[..j][i] == s[i];
  }

  /** A topological order exists only for a list without repeated ids and
      without cycles among its known dependencies. */
  lemma TopoOrderAcyclic(r: seq<Task>, ts: seq<Task>)
    requires IsTopoOrderOf(r, ts)
    ensures UniqueIds(ts) && Acyclic(ts)
  {
    UniqueCounts(r);
    forall i, j | 0 <= i < j < |ts|
      ensures ts[i].id != ts[j].id
    {
      if ts[i] == ts[j] {
        TwiceCounted(ts, i, j);
      } else {
        assert ts[i] in multiset(ts) && ts[j] in multiset(ts);
        var p :| 0 <= p < |r| && r[p] == ts[i];
        var q :| 0 <= q < |r| && r[q] == ts[j];
        assert p != q;
      }
    }
    var rank := x => IdIndex(r, x);
    forall i, d | 0 <= i < |ts| && d in ts[i].deps && d in Ids(ts)
      ensures rank(d) < rank(ts[i].id)
    {
      assert ts[i] in multiset(ts);
      var p :| 0 <= p < |r| && r[p] == ts[i];
      var j :| 0 <= j < p && r[j].id == d;
      IdIndexUnique(r, j);
      IdIndexUnique(r, p);
    }
    assert RankedBy(ts, rank);
  }

  /** Removing one position keeps a sequence distinct and loses only that value. */
  lemma DistinctRemove<T>(b: seq<T>, k: int)
    requires Distinct(b) && 0 <= k < |b|
    ensures Distinct(b[..k] + b[k + 1..])
    ensures forall y :: y in b && y != b[k] ==> y in b[..k] + b[k + 1..]
  {
    var rest: seq<T> := b[..k] + b[k + 1..];
    forall i, j | 0 <= i < j < |rest|
      ensures rest[i] != rest[j]
    {
      var i' := if i < k then i else i + 1;
      var j' := if j < k then j else j + 1;
      assert rest[i] == b[i'] && rest[j] == b[j'];
    }
    forall y | y in b && y != b[k]
      ensures y in rest
    {
      var j :| 0 <= j < |b| && b[j] == y;
      assert y == (if j < k then rest[j] else rest[j - 1]);
    }
  }

  /** A sequence counts as the rest of it plus the value at one position. */
  lemma MultisetRemove<T>(b: seq<T>, k: int)
    requires 0 <= k < |b|
    ensures multiset(b) == multiset(b[..k] + b[k + 1..]) + multiset{b[k]}
  {
    assert b == b[..k] + [b[k]] + b[k + 1..];
  }

  /** The front of a distinct sequence misses its last value. */
  lemma FrontMissesLast<T>(a: seq<T>)
    requires Distinct(a) && |a| > 0
    ensures Distinct(a[..|a| - 1])
    ensures forall y :: y in a[..|a| - 1] ==> y in a && y != a[|a| - 1]
  {
  }

  /** Distinct values drawn from another distinct sequence of the same length
      are a permutation of it. */
  lemma {:induction false} DistinctPermutation<T>(a: seq<T>, b: seq<T>)
    requires Distinct(a) && Distinct(b) && |a| == |b|
    requires forall x :: x in a ==> x in b
    ensures multiset(a) == multiset(b)
  {
    if |a| > 0 {
      var n := |a| - 1;
      assert a[n] in a;
      var k :| 0 <= k < |b| && b[k] == a[n];
      DistinctRemove(b, k);
      FrontMissesLast(a);
      assert forall y :: y in a[..n] ==> y in b && y != b[k];
      DistinctPermutation(a[..n], b[..k] + b[k + 1..]);
      MultisetRemove(b, k);
      MultisetRemove(a, n);
      assert a[..n] + a[n + 1..] == a[..n];
    }
  }

  // ---------------------------------------------------------------------------
  // The algorithm

  /** The inner loop of topoSort: lower the in-degree of every successor once
      per occurrence and queue those that reach zero. */
  method Release(inDeg: map<TaskId, int>, q: seq<TaskId>, succ: seq<TaskId>)
    returns (inDeg': map<TaskId, int>, q': seq<TaskId>)
    requires forall x :: x in succ ==> x in inDeg
    requires forall x :: x in inDeg ==> inDeg[x] >= Occ(succ, x)
    ensures inDeg'.Keys == inDeg.Keys
    ensures forall x :: x in inDeg ==> inDeg'[x] == inDeg[x] - Occ(succ, x)
    ensures |q'| >= |q| && q'[..|q|] == q
    ensures forall x :: x in q'[|q|..] <==> x in inDeg && Occ(succ, x) > 0 && inDeg'[x] == 0
    ensures Distinct(q'[|q|..])
  {
    inDeg' := inDeg;
    q' := q;
    var k := 0;
    while k < |succ|
      invariant 0 <= k <= |succ|
      invariant inDeg'.Keys == inDeg.Keys
      invariant forall x :: x in inDeg ==> inDeg'[x] == inDeg[x] - Occ(succ[..k], x)
      invariant |q'| >= |q| && q'[..|q|] == q
      invariant forall x :: x in q'[|q|..] <==> x in inDeg && Occ(succ[..k], x) > 0 && inDeg'[x] == 0
      invariant Distinct(q'[|q|..])
      decreases |succ| - k
    {
      var next := succ[k];
      OccStep(succ, k, next);
      OccPrefix(succ, k + 1, next);
      forall x | x in inDeg
        ensures Occ(succ[..k + 1], x) == Occ(succ[..k], x) + (if next == x then 1 else 0)
      {
        OccStep(succ, k, x);
      }
      var added := q'[|q|..];
      inDeg' := inDeg'[next := inDeg'[next] - 1];
      if inDeg'[next] == 0 {
        q' := q' + [next];
        assert q'[|q|..] == added + [next];
      }
      k := k + 1;
    }
    assert succ[..k] == succ;
  }

  /** One more dependency of a prefix. */
  lemma PendingStep(deps: seq<TaskId>, j: int, known: set<TaskId>, done: set<TaskId>)
    requires 0 <= j < |deps|
    ensures Pending(deps[..j + 1], known, done)
         == Pending(deps[..j], known, done) + (if deps[j] in known && deps[j] !in done then 1 else 0)
  {
    assert deps[..j + 1][..j] == deps[..j];
  }

  lemma RepeatSnoc(x: TaskId, k: nat)
    ensures Repeat(x, k + 1) == Repeat(x, k) + [x]
  {
  }

  /** One more task of a prefix. */
  lemma GraphStep(ts: seq<Task>, i: int, x: TaskId, known: set<TaskId>, done: set<TaskId>)
    requires 0 <= i < |ts|
    ensures DepCount(ts[..i + 1], x, known, done)
         == DepCount(ts[..i], x, known, done) + (if ts[i].id == x then Pending(ts[i].deps, known, done) else 0)
    ensures OutList(ts[..i + 1], x) == OutList(ts[..i], x) + Repeat(ts[i].id, Occ(ts[i].deps, x))
  {
    assert ts[..i + 1][..i] == ts[..i];
  }

  /** `inDeg'` is `inDeg` with the known dependencies in `deps` added to `id`. */
  ghost predicate DegreesAdded(inDeg': map<TaskId, int>, inDeg: map<TaskId, int>, id: TaskId, deps: seq<TaskId>,
                               known: set<TaskId>) {
    inDeg'.Keys == inDeg.Keys
    && forall x :: x in inDeg' ==> inDeg'[x] == inDeg[x] + (if x == id then Pending(deps, known, {}) else 0)
  }

  /** `out'` is `out` with `id` appended once per dependency on each key. */
  ghost predicate SuccessorsAdded(out': map<TaskId, seq<TaskId>>, out: map<TaskId, seq<TaskId>>, id: TaskId,
                                  deps: seq<TaskId>) {
    out'.Keys == out.Keys
    && forall d :: d in out' ==> out'[d] == out[d] + Repeat(id, Occ(deps, d))
  }

  lemma DegreesStep(cur: map<TaskId, int>, inDeg: map<TaskId, int>, id: TaskId, deps: seq<TaskId>,
                    known: set<TaskId>, j: int)
    requires 0 <= j < |deps| && id in cur && cur.Keys == known
    requires DegreesAdded(cur, inDeg, id, deps[..j], known)
    ensures DegreesAdded(if deps[j] in cur then cur[id := cur[id] + 1] else cur, inDeg, id, deps[..j + 1], known)
  {
    PendingStep(deps, j, known, {});
  }

  lemma SuccessorsStep(cur: map<TaskId, seq<TaskId>>, out: map<TaskId, seq<TaskId>>, id: TaskId,
                       deps: seq<TaskId>, j: int)
    requires 0 <= j < |deps|
    requires SuccessorsAdded(cur, out, id, deps[..j])
    ensures SuccessorsAdded(if deps[j] in cur then cur[deps[j] := cur[deps[j]] + [id]] else cur, out, id, deps[..j + 1])
  {
    forall d | d in cur
      ensures Repeat(id, Occ(deps[..j + 1], d)) == Repeat(id, Occ(deps[..j], d)) + (if deps[j] == d then [id] else [])
    {
      OccStep(deps, j, d);
      RepeatSnoc(id, Occ(deps[..j], d));
    }
  }

  /** The inner loop of the graph construction: each dependency of one task
      that names a task raises that task's in-degree and appends its id to the
      dependency's successor list. */
  method AddEdges(inDeg: map<TaskId, int>, out: map<TaskId, seq<TaskId>>, id: TaskId, deps: seq<TaskId>,
                  ghost known: set<TaskId>)
    returns (inDeg': map<TaskId, int>, out': map<TaskId, seq<TaskId>>)
    requires inDeg.Keys == known && out.Keys == known && id in known
    ensures DegreesAdded(inDeg', inDeg, id, deps, known)
    ensures SuccessorsAdded(out', out, id, deps)
  {
    inDeg' := inDeg;
    out' := out;
    var j := 0;
    assert deps[..0] == [];
    while j < |deps|
      invariant 0 <= j <= |deps|
      invariant DegreesAdded(inDeg', inDeg, id, deps[..j], known)
      invariant SuccessorsAdded(out', out, id, deps[..j])
    {
      DegreesStep(inDeg', inDeg, id, deps, known, j);
      SuccessorsStep(out', out, id, deps, j);
      if deps[j] in inDeg' {
        inDeg' := inDeg'[id := inDeg'[id] + 1];
        out' := out'[deps[j] := out'[deps[j]] + [id]];
      }
      j := j + 1;
    }
    assert deps[..j] == deps;
  }

  /** The maps hold the in-degrees and successor lists of the first `i` tasks. */
  ghost predicate GraphOf(inDeg: map<TaskId, int>, out: map<TaskId, seq<TaskId>>, ts: seq<Task>, i: int,
                          known: set<TaskId>)
    requires 0 <= i <= |ts|
  {
    inDeg.Keys == known && out.Keys == known
    && (forall x :: x in inDeg ==> inDeg[x] == DepCount(ts[..i], x, known, {}))
    && (forall d :: d in out ==> out[d] == OutList(ts[..i], d))
  }

  /** Adding the edges of task `i` extends the maps by that task. */
  lemma GraphOfStep(inDeg: map<TaskId, int>, out: map<TaskId, seq<TaskId>>, inDeg': map<TaskId, int>,
                    out': map<TaskId, seq<TaskId>>, ts: seq<Task>, i: int, known: set<TaskId>)
    requires 0 <= i < |ts| && GraphOf(inDeg, out, ts, i, known)
    requires DegreesAdded(inDeg', inDeg, ts[i].id, ts[i].deps, known)
    requires SuccessorsAdded(out', out, ts[i].id, ts[i].deps)
    ensures GraphOf(inDeg', out', ts, i + 1, known)
  {
    forall x | x in known
      ensures DepCount(ts[..i + 1], x, known, {})
           == DepCount(ts[..i], x, known, {}) + (if ts[i].id == x then Pending(ts[i].deps, known, {}) else 0)
      ensures OutList(ts[..i + 1], x) == OutList(ts[..i], x) + Repeat(ts[i].id, Occ(ts[i].deps, x))
    {
      GraphStep(ts, i, x, known, {});
    }
  }

  /** The first two loops of topoSort: every id starts with in-degree zero and
      no successors; then each dependency that names a task raises the
      in-degree of the dependent task and appends it to the successor list of
      the dependency. */
  method BuildGraph(tasks: seq<Task>) returns (inDeg: map<TaskId, int>, out: map<TaskId, seq<TaskId>>)
    ensures inDeg.Keys == Ids(tasks) && out.Keys == Ids(tasks)
    ensures forall x :: x in inDeg ==> inDeg[x] == DepCount(tasks, x, Ids(tasks), {})
    ensures forall d :: d in out ==> out[d] == OutList(tasks, d)
  {
    ghost var known := Ids(tasks);
    inDeg := map t | t in tasks :: t.id := 0;
    out := map t | t in tasks :: t.id := [];
    var i := 0;
    assert GraphOf(inDeg, out, tasks, 0, known);
    while i < |tasks|
      invariant 0 <= i <= |tasks|
      invariant GraphOf(inDeg, out, tasks, i, known)
    {
      assert tasks[i] in tasks;
      var inDeg', out' := AddEdges(inDeg, out, tasks[i].id, tasks[i].deps, known);
      GraphOfStep(inDeg, out, inDeg', out', tasks, i, known);
      inDeg, out := inDeg', out';
      i := i + 1;
    }
    assert tasks[..i] == tasks;
  }

  /** The in-degree map counts the pending dependencies of every id. */
  ghost predicate Tally(ts: seq<Task>, known: set<TaskId>, inDeg: map<TaskId, int>, done: set<TaskId>) {
    inDeg.Keys == known && forall x :: x in inDeg ==> inDeg[x] == DepCount(ts, x, known, done)
  }

  /** The queue holds, once each, exactly the untaken ids whose in-degree is zero. */
  ghost predicate QueueOk(known: set<TaskId>, inDeg: map<TaskId, int>, q: seq<TaskId>, done: set<TaskId>) {
    Distinct(q)
    && (forall x :: x in q ==> x in known && x !in done)
    && inDeg.Keys == known
    && forall x :: x in known ==> ((x in q || x in done) <==> inDeg[x] == 0)
  }

  /** The taken ids, in order, without repetition, with the task the id map
      holds for each. */
  ghost predicate Taken(ts: seq<Task>, popped: seq<TaskId>, done: set<TaskId>, result: seq<Task>) {
    |result| == |popped| && |done| == |popped| && Distinct(popped)
    && (forall x :: x in done <==> x in popped)
    && forall i :: 0 <= i < |popped| ==> ById(ts, popped[i]) == Some(result[i])
  }

  /** Every known dependency of a taken id was taken before it. */
  ghost predicate DepsFirst(ts: seq<Task>, popped: seq<TaskId>, known: set<TaskId>) {
    forall i, j, d ::
      (0 <= i < |popped| && 0 <= j < |ts| && ts[j].id == popped[i] && d in ts[j].deps && d in known)
      ==> d in popped[..i]
  }

  /** Taking `y` keeps the in-degrees right once its successors are lowered. */
  lemma TallyStep(ts: seq<Task>, known: set<TaskId>, inDeg: map<TaskId, int>, inDeg': map<TaskId, int>,
                  done: set<TaskId>, y: TaskId)
    requires Tally(ts, known, inDeg, done) && y in known && y !in done
    requires inDeg'.Keys == inDeg.Keys
    requires forall x :: x in inDeg ==> inDeg'[x] == inDeg[x] - Occ(OutList(ts, y), x)
    ensures Tally(ts, known, inDeg', done + {y})
  {
    forall x | x in inDeg'
      ensures inDeg'[x] == DepCount(ts, x, known, done + {y})
    {
      DepCountTake(ts, x, known, done, y);
    }
  }

  /** Lowering the successors of `y` can only lower in-degrees that are still
      positive. */
  lemma TallyRoom(ts: seq<Task>, known: set<TaskId>, inDeg: map<TaskId, int>, done: set<TaskId>, y: TaskId)
    requires Tally(ts, known, inDeg, done) && y in known && y !in done
    ensures forall x :: x in inDeg ==> inDeg[x] >= Occ(OutList(ts, y), x)
  {
    forall x | x in inDeg
      ensures inDeg[x] >= Occ(OutList(ts, y), x)
    {
      DepCountTake(ts, x, known, done, y);
    }
  }

  /** After taking the head `y` of the queue and releasing its successors,
      the queue again holds exactly the untaken ids of in-degree zero. */
  lemma QueueStep(known: set<TaskId>, inDeg: map<TaskId, int>, inDeg': map<TaskId, int>, y: TaskId,
                  rest: seq<TaskId>, q': seq<TaskId>, succ: seq<TaskId>, done: set<TaskId>)
    requires QueueOk(known, inDeg, [y] + rest, done)
    requires inDeg'.Keys == inDeg.Keys
    requires forall x :: x in inDeg ==> inDeg[x] >= Occ(succ, x) && inDeg'[x] == inDeg[x] - Occ(succ, x)
    requires forall x :: x in inDeg' ==> inDeg'[x] >= 0
    requires |q'| >= |rest| && q'[..|rest|] == rest
    requires forall x :: x in q'[|rest|..] <==> x in inDeg && Occ(succ, x) > 0 && inDeg'[x] == 0
    requires Distinct(q'[|rest|..])
    ensures QueueOk(known, inDeg', q', done + {y})
  {
    var z := q'[|rest|..];
    assert q' == rest + z;
    assert y in [y] + rest;
    assert forall x :: x in rest ==> x in [y] + rest;
    assert y !in rest by {
      forall i | 0 <= i < |rest|
        ensures rest[i] != y
      {
        assert ([y] + rest)[0] == y && ([y] + rest)[i + 1] == rest[i];
      }
    }
    assert Distinct(rest) by {
      forall i, j | 0 <= i < j < |rest|
        ensures rest[i] != rest[j]
      {
        assert rest[i] == ([y] + rest)[i + 1] && rest[j] == ([y] + rest)[j + 1];
      }
    }
    DistinctAppend(rest, z);
  }

  /** Taking a new id `y` and recording its task keeps the record. */
  lemma TakenStep(ts: seq<Task>, popped: seq<TaskId>, done: set<TaskId>, result: seq<Task>, y: TaskId)
    requires Taken(ts, popped, done, result) && y !in done && ById(ts, y).Some?
    ensures Taken(ts, popped + [y], done + {y}, result + [ById(ts, y).value])
  {
    assert Distinct(popped + [y]) by {
      assert y !in popped;
      DistinctAppend(popped, [y]);
    }
  }

  /** Taking `y` with all its known dependencies taken keeps dependencies first. */
  lemma DepsFirstStep(ts: seq<Task>, popped: seq<TaskId>, known: set<TaskId>, done: set<TaskId>, y: TaskId)
    requires DepsFirst(ts, popped, known)
    requires forall x :: x in done <==> x in popped
    requires DepCount(ts, y, known, done) == 0
    ensures DepsFirst(ts, popped + [y], known)
  {
    DepCountZero(ts, y, known, done);
    var p := popped + [y];
    forall i, j, d | 0 <= i < |p| && 0 <= j < |ts| && ts[j].id == p[i] && d in ts[j].deps && d in known
      ensures d in p[..i]
    {
      if i < |popped| {
        assert p[..i] == popped[..i];
      } else {
        assert p[..i] == popped;
      }
    }
  }

  /** The initial queue: the ids of in-degree zero, in key order. */
  method InitialQueue(keys: seq<TaskId>, inDeg: map<TaskId, int>) returns (q: seq<TaskId>)
    requires Distinct(keys) && forall x :: x in keys ==> x in inDeg
    ensures Distinct(q)
    ensures forall x :: x in q <==> x in keys && inDeg[x] == 0
  {
    q := [];
    var k := 0;
    while k < |keys|
      invariant 0 <= k <= |keys|
      invariant forall x :: x in q <==> x in keys[..k] && inDeg[x] == 0
      invariant Distinct(q)
    {
      assert keys[k] !in keys[..k];
      if inDeg[keys[k]] == 0 {
        q := q + [keys[k]];
      }
      assert keys[..k + 1] == keys[..k] + [keys[k]];
      k := k + 1;
    }
    assert keys[..k] == keys;
  }

  /** With as many taken ids as tasks, every id was taken and none repeats. */
  lemma AllTaken(ts: seq<Task>, done: set<TaskId>)
    requires done <= Ids(ts) && |done| == |ts|
    ensures done == Ids(ts) && UniqueIds(ts)
  {
    IdsCount(ts);
    if x :| x in Ids(ts) && x !in done {
      SubsetCard(done, Ids(ts) - {x});
    }
  }

  /** Taking as many distinct ids as there are tasks takes every task once, in
      an order that puts known dependencies first. */
  lemma Finished(ts: seq<Task>, popped: seq<TaskId>, done: set<TaskId>, result: seq<Task>)
    requires done <= Ids(ts) && |result| == |ts|
    requires Taken(ts, popped, done, result)
    requires DepsFirst(ts, popped, Ids(ts))
    ensures IsTopoOrderOf(result, ts)
  {
    AllTaken(ts, done);
    assert forall i :: 0 <= i < |result| ==> result[i].id == popped[i] && result[i] in ts;
    DistinctPermutation(result, ts);
    forall i, d | 0 <= i < |result| && d in result[i].deps && d in Ids(ts)
      ensures exists m :: 0 <= m < i && result[m].id == d
    {
      var j :| 0 <= j < |ts| && ts[j] == result[i];
      assert d in popped[..i];
      var m :| 0 <= m < i && popped[..i][m] == d;
      assert result[m].id == d;
    }
  }

  /** With every untaken id still waiting for an untaken dependency, a
      ranking would have to descend forever. */
  lemma {:induction false} Descent(ts: seq<Task>, rank: TaskId -> nat, done: set<TaskId>, x: TaskId)
    requires RankedBy(ts, rank)
    requires x in Ids(ts) && x !in done
    requires forall y :: y in Ids(ts) && y !in done ==> DepCount(ts, y, Ids(ts), done) > 0
    ensures false
    decreases rank(x)
  {
    DepCountZero(ts, x, Ids(ts), done);
    var i, d :| 0 <= i < |ts| && ts[i].id == x && d in ts[i].deps && d in Ids(ts) && d !in done;
    Descent(ts, rank, done, d);
  }

  /** When the queue runs dry on an acyclic list, every id has been taken. */
  lemma StuckMeansCycle(ts: seq<Task>, done: set<TaskId>)
    requires Acyclic(ts) && done <= Ids(ts)
    requires forall y :: y in Ids(ts) && y !in done ==> DepCount(ts, y, Ids(ts), done) > 0
    ensures done == Ids(ts)
  {
    var rank :| RankedBy(ts, rank);
    if x :| x in Ids(ts) && x !in done {
      Descent(ts, rank, done, x);
    }
  }

  /** The queue ran dry: a list without repeated ids and without cycles has
      had all its tasks taken. */
  lemma Exhausted(ts: seq<Task>, inDeg: map<TaskId, int>, popped: seq<TaskId>, done: set<TaskId>, result: seq<Task>)
    requires done <= Ids(ts)
    requires Tally(ts, Ids(ts), inDeg, done) && QueueOk(Ids(ts), inDeg, [], done)
    requires Taken(ts, popped, done, result)
    requires UniqueIds(ts) && Acyclic(ts)
    ensures |result| == |ts|
  {
    StuckMeansCycle(ts, done);
    IdsCount(ts);
  }

  /** topoSort: a list without repeated ids and without cycles comes back as a
      topological order of its tasks; any other list comes back unchanged. */
  method TopoSort(tasks: seq<Task>) returns (r: seq<Task>)
    ensures UniqueIds(tasks) && Acyclic(tasks) ==> IsTopoOrderOf(r, tasks)
    ensures !(UniqueIds(tasks) && Acyclic(tasks)) ==> r == tasks
  {
    var known := Ids(tasks);
    var inDeg, out := BuildGraph(tasks);
    var q := InitialQueue(FirstIds(tasks), inDeg);
    var result: seq<Task> := [];
    ghost var popped: seq<TaskId> := [];
    ghost var done: set<TaskId> := {};
    while |q| > 0
      invariant done <= known
      invariant out.Keys == known && forall d :: d in out ==> out[d] == OutList(tasks, d)
      invariant Tally(tasks, known, inDeg, done)
      invariant QueueOk(known, inDeg, q, done)
      invariant Taken(tasks, popped, done, result)
      invariant DepsFirst(tasks, popped, known)
      decreases |known| - |done|
    {
      var y := q[0];
      var rest := q[1..];
      assert q == [y] + rest;
      TakenStep(tasks, popped, done, result, y);
      result := result + [ById(tasks, y).value];
      TallyRoom(tasks, known, inDeg, done, y);
      OutListIds(tasks, y);
      DepsFirstStep(tasks, popped, known, done, y);
      var inDeg', q' := Release(inDeg, rest, out[y]);
      TallyStep(tasks, known, inDeg, inDeg', done, y);
      QueueStep(known, inDeg, inDeg', y, rest, q', out[y], done);
      inDeg, q := inDeg', q';
      popped := popped + [y];
      done := done + {y};
      SubsetCard(done, known);
    }

    if |result| == |tasks| {
      Finished(tasks, popped, done, result);
      TopoOrderAcyclic(result, tasks);
      r := result;
    } else {
      if UniqueIds(tasks) && Acyclic(tasks) {
        Exhausted(tasks, inDeg, popped, done, result);
      }
      r := tasks;
    }
  }

  /** The stage of a task: preparation, shared installation work, entry
      organisation, installation, test, restoration, buffer. */
  function StageRank(id: TaskId): nat
  {
    match id
    case Prep => 0
    case Basement => 1
    case Node => 1
    case OrgOf(_) => 2
    case InstallOf(_) => 3
    case TestOf(_) => 4
    case RestoreOf(_) => 5
    case GlobalBuffer => 6
  }

  /** A list whose tasks follow the dependency rules of buildTasks, with
      only test ids before the buffer, is ranked by stage. */
  lemma RankedByStage(ts: seq<Task>, piwnica: bool, tests: seq<TaskId>)
    requires forall t :: t in ts ==> DepsRule(t, piwnica, tests)
    requires forall d :: d in tests ==> d.TestOf?
    ensures RankedBy(ts, StageRank)
  {
    forall i, d | 0 <= i < |ts| && d in ts[i].deps && d in Ids(ts)
      ensures StageRank(d) < StageRank(ts[i].id)
    {
      assert ts[i] in ts;
    }
  }

  /** The tasks buildTasks produces have distinct ids and no cycle: every
      dependency belongs to an earlier stage. So topoSort orders them. */
  lemma BuildTasksAcyclic(plan: Plan)
    ensures UniqueIds(BuildTasks(plan)) && Acyclic(BuildTasks(plan))
  {
    var ids := RiserIds(plan.klatki, plan.piony);
    BuildTasksUnique(plan);
    BuildTasksDeps(plan);
    TestsOfAreTests(ids);
    RankedByStage(BuildTasks(plan), plan.piwnica, TestsOf(ids));
  }
}

=== FILE: search.dfy ===
/** The search for the smallest heater power that keeps the violation time
    within the allowance (_find_min_pmax in cwu_time_simulation.py): double the
    power from a start value until a run is feasible or the ceiling is passed,
    then bisect between 0 and the feasible power down to a tolerance.

    The simulator is a parameter: any function from a power to a run, as the
    source passes a closure over simulate_mixed or simulate_layered_2zone. */
module Search {
  import opened Outcomes
  import opened Numbers
  import opened TankPhysics
  import MixedTank
  import LayeredTank

  type Simulator = real -> Result<RunResult, SimError>

  /** A run at power `p` succeeds and stays within the allowed violation time. */
  predicate Feasible(sim: Simulator, allowed: real, p: real) {
    sim(p).Ok? && sim(p).value.violationMinutes <= allowed
  }

  /** A run at power `p` succeeds but exceeds the allowed violation time. */
  predicate Infeasible(sim: Simulator, allowed: real, p: real) {
    sim(p).Ok? && sim(p).value.violationMinutes > allowed
  }

  /** Violation time never grows with power, on the non-negative powers. */
  ghost predicate Monotone(sim: Simulator) {
    forall p, q :: 0.0 <= p <= q && sim(p).Ok? ==>
      sim(q).Ok? && sim(q).value.violationMinutes <= sim(p).value.violationMinutes
  }

  /** Why a search gives no power: a tolerance of 0 or below, no feasible run
      up to the ceiling, a doubling loop that cannot leave 0, or a simulator
      error. */
  datatype SearchError = ToleranceNotPositive | NoFeasiblePower | SearchDiverges | SimFailed(cause: SimError)

  /** What a successful search returns: the last infeasible bound (or 0), the
      feasible power found and its run. */
  datatype Found = Found(pLo: real, pHi: real, run: RunResult)

  /** Number of halvings of `x` still above 1, bounded by its ceiling. */
  function HalvingsLeft(x: real): (r: nat)
    ensures x > 1.0 ==> r as real >= x
  {
    if x > 1.0 then Ceil(x) else 0
  }

  /** Halving a value above 1 uses up at least one halving. */
  lemma HalvingDecreases(x: real)
    requires x > 1.0
    ensures HalvingsLeft(x / 2.0) < HalvingsLeft(x)
  {
    var c := Ceil(x);
    assert c >= 2;
    if x / 2.0 > 1.0 {
      assert Ceil(x / 2.0) as real < x / 2.0 + 1.0 <= c as real / 2.0 + 1.0;
    }
  }

  /** The ratio of a fixed bound to a doubled value is half the old ratio. */
  lemma HalfRatio(a: real, b: real)
    requires b > 0.0
    ensures a / (2.0 * b) == (a / b) / 2.0
  {
  }

  /** A value over a smaller positive one has a ratio above 1. */
  lemma RatioAboveOne(a: real, b: real)
    requires 0.0 < b < a
    ensures a / b > 1.0
  {
    DivStrictMonotone(b, a, b);
    assert b / b == 1.0;
  }

  /** Half a value over a fixed bound is half the ratio. */
  lemma RatioOfHalf(a: real, b: real)
    requires b > 0.0
    ensures (a / 2.0) / b == (a / b) / 2.0
  {
  }

  /** The doubling phase of the search: from `base`, double until a run is
      feasible or the power reaches the ceiling. It needs a positive base, or
      a feasible run at the base, or a base already at the ceiling. */
  method Double(sim: Simulator, base: real, ceiling: real, allowed: real)
    returns (r: Result<real, SearchError>)
    requires sim(base).Ok?
    requires base > 0.0 || Feasible(sim, allowed, base) || base >= ceiling
    ensures r.Err? ==> r.error == NoFeasiblePower || r.error.SimFailed?
    ensures r.Ok? ==> Feasible(sim, allowed, r.value) && r.value >= base
    ensures r.Ok? && r.value != base ==> Infeasible(sim, allowed, base)
    ensures r == Err(NoFeasiblePower) ==>
      Infeasible(sim, allowed, base) && exists p :: p >= base && p >= ceiling && Infeasible(sim, allowed, p)
  {
    var pHi := base;
    var res := sim(pHi);
    while !(res.value.violationMinutes <= allowed) && pHi < ceiling
      invariant res == sim(pHi) && res.Ok?
      invariant pHi >= base && (pHi > 0.0 || res.value.violationMinutes <= allowed || pHi >= ceiling)
      invariant Infeasible(sim, allowed, base) || (pHi == base && res.value.violationMinutes <= allowed)
      decreases if pHi > 0.0 then HalvingsLeft(ceiling / pHi) else 0
    {
      RatioAboveOne(ceiling, pHi);
      HalfRatio(ceiling, pHi);
      HalvingDecreases(ceiling / pHi);
      pHi := 2.0 * pHi;
      res := sim(pHi);
      if res.Err? {
        return Err(SimFailed(res.error));
      }
    }
    if !(res.value.violationMinutes <= allowed) {
      assert Infeasible(sim, allowed, pHi);
      return Err(NoFeasiblePower);
    }
    return Ok(pHi);
  }

  /** The bisection phase: between 0 and a feasible power, halve the interval
      until it is no wider than `tol`, keeping a feasible upper end and an
      infeasible (or zero) lower end. */
  method Bisect(sim: Simulator, pStart: real, tol: real, allowed: real)
    returns (r: Result<Found, SearchError>)
    requires tol > 0.0 && pStart >= 0.0 && Feasible(sim, allowed, pStart)
    ensures r.Err? ==> r.error.SimFailed?
    ensures r.Ok? ==>
      var f := r.value;
      Feasible(sim, allowed, f.pHi) && sim(f.pHi) == Ok(f.run)
      && 0.0 <= f.pLo <= f.pHi <= pStart && f.pHi - f.pLo <= tol
      && (f.pLo == 0.0 || Infeasible(sim, allowed, f.pLo))
  {
    var pHi := pStart;
    var run := sim(pHi).value;
    var pLo := 0.0;
    while pHi - pLo > tol
      invariant Feasible(sim, allowed, pHi) && sim(pHi) == Ok(run)
      invariant 0.0 <= pLo <= pHi <= pStart
      invariant pLo == 0.0 || Infeasible(sim, allowed, pLo)
      decreases HalvingsLeft((pHi - pLo) / tol)
    {
      var pMid := 0.5 * (pLo + pHi);
      RatioAboveOne(pHi - pLo, tol);
      RatioOfHalf(pHi - pLo, tol);
      HalvingDecreases((pHi - pLo) / tol);
      var resMid := sim(pMid);
      if resMid.Err? {
        return Err(SimFailed(resMid.error));
      }
      if resMid.value.violationMinutes <= allowed {
        assert pMid - pLo == (pHi - pLo) / 2.0;
        pHi := pMid;
        run := resMid.value;
      } else {
        assert pHi - pMid == (pHi - pLo) / 2.0;
        pLo := pMid;
      }
    }
    return Ok(Found(pLo, pHi, run));
  }

  /** _find_min_pmax with the non-terminating case reported: when the start
      power is 0 (or below), the run at 0 is infeasible and the ceiling is
      positive, the doubling loop of the source never leaves 0, and this
      search returns `SearchDiverges` instead. Otherwise it is the source's
      search: a tolerance of 0 or below is refused, a simulator error is passed
      on, running past the ceiling without a feasible run gives
      `NoFeasiblePower`, and a result is a feasible run at `pHi` with an
      infeasible (or zero) `pLo` at most `tol` below it. */
  method FindMinPmax(sim: Simulator, start: real, ceiling: real, tol: real, allowed: real)
    returns (r: Result<Found, SearchError>)
    ensures tol <= 0.0 ==> r == Err(ToleranceNotPositive)
    ensures r == Err(SearchDiverges) <==>
      tol > 0.0 && start <= 0.0 && 0.0 < ceiling && Infeasible(sim, allowed, 0.0)
    ensures r == Err(NoFeasiblePower) ==>
      Infeasible(sim, allowed, Max(0.0, start))
      && exists p :: p >= Max(0.0, start) && p >= ceiling && Infeasible(sim, allowed, p)
    ensures r.Ok? ==>
      var f := r.value;
      Feasible(sim, allowed, f.pHi) && sim(f.pHi) == Ok(f.run)
      && 0.0 <= f.pLo <= f.pHi && f.pHi - f.pLo <= tol
      && (f.pLo == 0.0 || Infeasible(sim, allowed, f.pLo))
  {
    if tol <= 0.0 {
      return Err(ToleranceNotPositive);
    }
    var base := Max(0.0, start);
    var res := sim(base);
    if res.Err? {
      return Err(SimFailed(res.error));
    }
    if base == 0.0 && !(res.value.violationMinutes <= allowed) && base < ceiling {
      return Err(SearchDiverges);
    }
    var hi := Double(sim, base, ceiling, allowed);
    if hi.Err? {
      return Err(hi.error);
    }
    r := Bisect(sim, hi.value, tol, allowed);
  }

  /** The guard of the source's doubling loop: the run at `p` is infeasible and
      `p` is still below the ceiling. */
  predicate DoublingContinues(sim: Simulator, allowed: real, ceiling: real, p: real) {
    Infeasible(sim, allowed, p) && p < ceiling
  }

  /** The power after `k` passes of the source's doubling loop, started at `p`. */
  function DoublingAsWritten(p: real, k: nat): (r: real)
    ensures p >= 0.0 ==> r >= p
  {
    if k == 0 then p else 2.0 * DoublingAsWritten(p, k - 1)
  }

  /** Started at 0 with an infeasible run at 0 and a positive ceiling, the
      source's doubling loop stays at 0 and its guard holds after every pass,
      so the loop never ends. */
  lemma {:induction false} DoublingFromZeroNeverEnds(sim: Simulator, allowed: real, ceiling: real, k: nat)
    requires Infeasible(sim, allowed, 0.0) && ceiling > 0.0
    ensures DoublingAsWritten(0.0, k) == 0.0
    ensures DoublingContinues(sim, allowed, ceiling, DoublingAsWritten(0.0, k))
  {
    if k > 0 {
      DoublingFromZeroNeverEnds(sim, allowed, ceiling, k - 1);
    }
  }

  /** For a simulator whose violation time never grows with power, the bounds
      a search returns bracket the smallest feasible power to within `tol`: no
      power more than `tol` below the result is feasible. */
  lemma FoundWithinTolerance(sim: Simulator, allowed: real, tol: real, f: Found)
    requires Monotone(sim)
    requires Feasible(sim, allowed, f.pHi) && 0.0 <= f.pLo <= f.pHi && f.pHi - f.pLo <= tol
    requires f.pLo == 0.0 || Infeasible(sim, allowed, f.pLo)
    ensures forall p :: 0.0 <= p < f.pHi - tol ==> !Feasible(sim, allowed, p)
  {
    forall p | 0.0 <= p < f.pHi - tol
      ensures !Feasible(sim, allowed, p)
    {
      assert f.pLo > 0.0;
      if sim(p).Ok? {
        assert sim(f.pLo).value.violationMinutes <= sim(p).value.violationMinutes;
      }
    }
  }

  /** The mixed-tank simulator as the search sees it. */
  function MixedSimulator(tank: TankParams, profile: seq<real>, lossKw: real, hysteresis: real): Simulator {
    p => MixedTank.Simulate(tank, profile, p, lossKw, hysteresis)
  }

  /** Without hysteresis the mixed-tank simulator satisfies the monotonicity
      the bisection relies on. */
  lemma MixedSimulatorMonotone(tank: TankParams, profile: seq<real>, lossKw: real, hysteresis: real)
    requires hysteresis <= 0.0
    ensures Monotone(MixedSimulator(tank, profile, lossKw, hysteresis))
  {
    var sim := MixedSimulator(tank, profile, lossKw, hysteresis);
    forall p, q | 0.0 <= p <= q && sim(p).Ok?
      ensures sim(q).Ok? && sim(q).value.violationMinutes <= sim(p).value.violationMinutes
    {
      MixedTank.ViolationMonotone(tank, profile, p, q, lossKw, hysteresis);
    }
  }

  /** A search over the mixed tank without hysteresis finds the smallest
      feasible power to within the tolerance. */
  method FindMinPmaxMixed(tank: TankParams, profile: seq<real>, lossKw: real, start: real, ceiling: real,
                          tol: real, allowed: real)
    returns (r: Result<Found, SearchError>)
    ensures tol <= 0.0 ==> r == Err(ToleranceNotPositive)
    ensures r.Ok? ==>
      var f := r.value;
      Feasible(MixedSimulator(tank, profile, lossKw, 0.0), allowed, f.pHi)
      && MixedSimulator(tank, profile, lossKw, 0.0)(f.pHi) == Ok(f.run)
      && forall p :: 0.0 <= p < f.pHi - tol ==> !Feasible(MixedSimulator(tank, profile, lossKw, 0.0), allowed, p)
  {
    var sim := MixedSimulator(tank, profile, lossKw, 0.0);
    r := FindMinPmax(sim, start, ceiling, tol, allowed);
    if r.Ok? {
      MixedSimulatorMonotone(tank, profile, lossKw, 0.0);
      FoundWithinTolerance(sim, allowed, tol, r.value);
    }
  }

  /** The layered simulator as the search sees it, without hysteresis as
      compare_models runs it. */
  function LayeredSimulator(tank: TankParams, lp: LayeredTank.LayeredParams, profile: seq<real>, lossKw: real)
    : Simulator
  {
    p => LayeredTank.Simulate(tank, lp, profile, p, lossKw, 0.0)
  }

  /** The layered simulator satisfies the monotonicity the bisection relies on. */
  lemma LayeredSimulatorMonotone(tank: TankParams, lp: LayeredTank.LayeredParams, profile: seq<real>, lossKw: real)
    ensures Monotone(LayeredSimulator(tank, lp, profile, lossKw))
  {
    var sim := LayeredSimulator(tank, lp, profile, lossKw);
    forall p, q | 0.0 <= p <= q && sim(p).Ok?
      ensures sim(q).Ok? && sim(q).value.violationMinutes <= sim(p).value.violationMinutes
    {
      LayeredTank.ViolationMonotone(tank, lp, profile, p, q, lossKw, 0.0);
    }
  }

  /** A search over the layered tank finds the smallest feasible power to
      within the tolerance. */
  method FindMinPmaxLayered(tank: TankParams, lp: LayeredTank.LayeredParams, profile: seq<real>, lossKw: real,
                            start: real, ceiling: real, tol: real, allowed: real)
    returns (r: Result<Found, SearchError>)
    ensures tol <= 0.0 ==> r == Err(ToleranceNotPositive)
    ensures r.Ok? ==>
      var f := r.value;
      Feasible(LayeredSimulator(tank, lp, profile, lossKw), allowed, f.pHi)
      && LayeredSimulator(tank, lp, profile, lossKw)(f.pHi) == Ok(f.run)
      && forall p :: 0.0 <= p < f.pHi - tol ==> !Feasible(LayeredSimulator(tank, lp, profile, lossKw), allowed, p)
  {
    var sim := LayeredSimulator(tank, lp, profile, lossKw);
    r := FindMinPmax(sim, start, ceiling, tol, allowed);
    if r.Ok? {
      LayeredSimulatorMonotone(tank, lp, profile, lossKw);
      FoundWithinTolerance(sim, allowed, tol, r.value);
    }
  }
}

=== FILE: tank_physics.dfy ===
/** Shared physics of the hot-water tank simulators (cwu_time_simulation.py):
    the tank and loss parameters, the energy/temperature conversion relative to
    the cold-water temperature, the mandatory energy pre-pass, the derivation of
    the constant loss power, the heater controller and the regeneration-time search.

    Water is taken at 1 kg per litre and 4180 J/(kg K); energies are in joules,
    powers in kW, times in whole seconds. */
module TankPhysics {
  import opened Outcomes
  import opened Numbers

  /** Specific heat of water in J/(kg K); one litre weighs one kilogram. */
  const Cp: real := 4180.0

  datatype TankParams = TankParams(
    volumeL: real, tInit: real, tSet: real, tCold: real, tMin: real, dt: int)

  /** The three accepted ways of stating circulation losses. */
  datatype LossInput = LossInput(
    lossKw: Option<real>, lossPercentOfPavg: Option<real>,
    uaWPerK: Option<real>, deltaTK: Option<real>)

  datatype LossError = NoLossGiven | UaWithoutDeltaT | DeltaTWithoutUa | NegativeLossKw | NegativeLossPercent

  datatype SimError =
    | DtNotPositive
    | EmptyProfile
    | DeliveryNotAboveCold
    | VolumeNotPositive
    | PowerNegative
    | LossNegative
    | SetNotAboveCold
    | HotFractionOutOfRange
    | InvalidLoss(loss: LossError)
    | NegativeMonthlyRate
    | NegativeYearlyRate
    | HorizonNotPositive

  /** Which simulator produced a run. */
  datatype ModelKind = Mixed | Layered2Zone

  /** One simulation run; `tSecondary` holds the cold-zone series of the layered model. */
  datatype RunResult = RunResult(
    model: ModelKind, pzamKw: real, lossKw: real,
    timeS: seq<int>, tPrimary: seq<real>, pIn: seq<real>,
    violationMinutes: real,
    regenToTminS: Option<int>, regenToTsetS: Option<int>,
    tMinTempS: int, tMinReached: real,
    tSecondary: Option<seq<real>>)

  /** Loss validation: accepted exactly when at least one form is given, the UA
      form comes with its temperature difference and neither the direct power
      nor the percentage is negative. Checks run in the source's order. */
  function ValidateLoss(l: LossInput): (r: Option<LossError>)
    ensures r.None? <==>
      (l.lossKw.Some? || l.lossPercentOfPavg.Some? || l.uaWPerK.Some?)
      && (l.uaWPerK.Some? <==> l.deltaTK.Some?)
      && (l.lossKw.Some? ==> l.lossKw.value >= 0.0)
      && (l.lossPercentOfPavg.Some? ==> l.lossPercentOfPavg.value >= 0.0)
    ensures l.lossKw.None? && l.lossPercentOfPavg.None? && l.uaWPerK.None? ==> r == Some(NoLossGiven)
  {
    if l.lossKw.None? && l.lossPercentOfPavg.None? && l.uaWPerK.None? then Some(NoLossGiven)
    else if l.uaWPerK.Some? && l.deltaTK.None? then Some(UaWithoutDeltaT)
    else if l.deltaTK.Some? && l.uaWPerK.None? then Some(DeltaTWithoutUa)
    else if l.lossKw.Some? && l.lossKw.value < 0.0 then Some(NegativeLossKw)
    else if l.lossPercentOfPavg.Some? && l.lossPercentOfPavg.value < 0.0 then Some(NegativeLossPercent)
    else None
  }

  /** The constant loss power: the direct value wins over UA * dT, which wins
      over a percentage of the average hot-water power. */
  function DeriveLossKw(l: LossInput, pAvgKw: real): (r: Result<real, LossError>)
    ensures r.Err? <==> ValidateLoss(l).Some?
    ensures r.Err? ==> r.error == ValidateLoss(l).value
    ensures r.Ok? && l.lossKw.Some? ==> r.value == l.lossKw.value
    ensures r.Ok? && l.lossKw.None? && l.uaWPerK.Some? ==>
      r.value * 1000.0 == l.uaWPerK.value * l.deltaTK.value
    ensures r.Ok? && l.lossKw.None? && l.uaWPerK.None? ==>
      r.value * 100.0 == l.lossPercentOfPavg.value * Max(0.0, pAvgKw)
  {
    match ValidateLoss(l)
    case Some(e) => Err(e)
    case None =>
      if l.lossKw.Some? then Ok(l.lossKw.value)
      else if l.uaWPerK.Some? && l.deltaTK.Some? then Ok(l.uaWPerK.value * l.deltaTK.value / 1000.0)
      else Ok((l.lossPercentOfPavg.value / 100.0) * Max(0.0, pAvgKw))
  }

  /** A validated loss is never negative unless it comes from a negative UA or dT,
      which validation does not reject. */
  lemma DerivedLossNonNegative(l: LossInput, pAvgKw: real)
    requires DeriveLossKw(l, pAvgKw).Ok?
    requires l.uaWPerK.Some? && l.lossKw.None? ==> l.uaWPerK.value >= 0.0 && l.deltaTK.value >= 0.0
    ensures DeriveLossKw(l, pAvgKw).value >= 0.0
  {
  }

  /** Energy stored in `volumeL` litres at `tTarget`, relative to `tCold`. */
  function EnergyCapacity(volumeL: real, tTarget: real, tCold: real): (r: real)
    ensures volumeL >= 0.0 ==> r >= 0.0
    ensures tTarget <= tCold ==> r == 0.0
  {
    volumeL * Cp * Max(0.0, tTarget - tCold)
  }

  /** Temperature of `volumeL` litres holding energy `e` above `tCold`. */
  function TempFromEnergy(e: real, volumeL: real, tCold: real): (r: real)
    ensures r >= tCold
    ensures volumeL <= 0.0 ==> r == tCold
  {
    if volumeL <= 0.0 then tCold else tCold + Max(0.0, e) / (volumeL * Cp)
  }

  /** Temperature to energy and back is the identity above the cold temperature. */
  lemma TempOfCapacity(volumeL: real, t: real, tCold: real)
    requires volumeL > 0.0 && t >= tCold
    ensures TempFromEnergy(EnergyCapacity(volumeL, t, tCold), volumeL, tCold) == t
  {
    var m := volumeL * Cp;
    assert EnergyCapacity(volumeL, t, tCold) == m * (t - tCold);
    assert m * (t - tCold) / m == t - tCold;
  }

  /** Energy to temperature and back is the identity on non-negative energies. */
  lemma CapacityOfTemp(e: real, volumeL: real, tCold: real)
    requires volumeL > 0.0 && e >= 0.0
    ensures EnergyCapacity(volumeL, TempFromEnergy(e, volumeL, tCold), tCold) == e
  {
    var m := volumeL * Cp;
    var t := TempFromEnergy(e, volumeL, tCold);
    assert t - tCold == e / m;
    assert m * (e / m) == e;
  }

  /** More energy never means a lower temperature. */
  lemma TempMonotone(e1: real, e2: real, volumeL: real, tCold: real)
    requires e1 <= e2
    ensures TempFromEnergy(e1, volumeL, tCold) <= TempFromEnergy(e2, volumeL, tCold)
  {
    if volumeL > 0.0 {
      var m := volumeL * Cp;
      assert m > 0.0;
      assert Max(0.0, e1) <= Max(0.0, e2);
      DivMonotone(Max(0.0, e1), Max(0.0, e2), m);
    }
  }

  /** For a non-negative energy in a real tank, being below a temperature is
      being below that temperature's energy capacity. */
  lemma TempBelowIff(e: real, volumeL: real, t: real, tCold: real)
    requires volumeL > 0.0 && e >= 0.0
    ensures TempFromEnergy(e, volumeL, tCold) < t <==> e < EnergyCapacity(volumeL, t, tCold)
  {
    var m := volumeL * Cp;
    if t > tCold {
      TempOfCapacity(volumeL, t, tCold);
      CapacityOfTemp(e, volumeL, tCold);
      var cap := EnergyCapacity(volumeL, t, tCold);
      if e < cap {
        assert m > 0.0;
        DivStrictMonotone(e, cap, m);
      } else {
        TempMonotone(cap, e, volumeL, tCold);
      }
    }
  }

  /** Energy in joules delivered by the demand samples at `dT` above cold water:
      each l/min sample, negatives counted as zero, lasts `dt` seconds. */
  function DeliveredJ(profile: seq<real>, dt: int, dT: real): (r: real)
    requires dt > 0 && dT >= 0.0
    ensures r >= 0.0
    decreases |profile|
  {
    if |profile| == 0 then 0.0
    else
      var last := profile[|profile| - 1];
      DeliveredJ(profile[..|profile| - 1], dt, dT)
        + Max(0.0, last) * (dt as real / 60.0) * Cp * dT
  }

  /** Delivered energy adds up over consecutive parts of a profile. */
  lemma {:induction false} DeliveredAdditive(a: seq<real>, b: seq<real>, dt: int, dT: real)
    requires dt > 0 && dT >= 0.0
    ensures DeliveredJ(a + b, dt, dT) == DeliveredJ(a, dt, dT) + DeliveredJ(b, dt, dT)
    decreases |b|
  {
    if |b| == 0 {
      assert a + b == a;
    } else {
      var b' := b[..|b| - 1];
      assert (a + b)[..|a + b| - 1] == a + b';
      DeliveredAdditive(a, b', dt, dT);
    }
  }

  /** The average power `pAvgKw`, over the profile's duration, delivers `eKwh`. */
  ghost predicate AveragePower(profile: seq<real>, dt: int, pAvgKw: real, eKwh: real) {
    pAvgKw * ((|profile| * dt) as real / 3600.0) == eKwh
  }

  /** Mandatory pre-pass: total delivered energy in kWh and the average power
      over the profile's duration, so that average power times hours is the energy. */
  method Prepass(profile: seq<real>, dt: int, tCold: real, tDelivery: real)
    returns (r: Result<(real, real), SimError>)
    ensures dt <= 0 ==> r == Err(DtNotPositive)
    ensures dt > 0 && |profile| == 0 ==> r == Err(EmptyProfile)
    ensures dt > 0 && |profile| > 0 && tDelivery <= tCold ==> r == Err(DeliveryNotAboveCold)
    ensures r.Ok? <==> dt > 0 && |profile| > 0 && tDelivery > tCold
    ensures r.Ok? ==> r.value.0 == DeliveredJ(profile, dt, tDelivery - tCold) / 3600000.0
    ensures r.Ok? ==> r.value.0 >= 0.0 && r.value.1 >= 0.0
    ensures r.Ok? ==> r.value.1 * ((|profile| * dt) as real / 3600.0) == r.value.0
    ensures r.Ok? ==> AveragePower(profile, dt, r.value.1, r.value.0)
  {
    if dt <= 0 {
      return Err(DtNotPositive);
    }
    if |profile| == 0 {
      return Err(EmptyProfile);
    }
    if tDelivery <= tCold {
      return Err(DeliveryNotAboveCold);
    }
    var dT := tDelivery - tCold;
    var totalJ := 0.0;
    var i := 0;
    while i < |profile|
      invariant 0 <= i <= |profile|
      invariant totalJ == DeliveredJ(profile[..i], dt, dT)
    {
      assert profile[..i + 1][..i] == profile[..i];
      totalJ := totalJ + Max(0.0, profile[i]) * (dt as real / 60.0) * Cp * dT;
      i := i + 1;
    }
    assert profile[..|profile|] == profile;
    var totalKwh := totalJ / 3600000.0;
    var totalH := (|profile| * dt) as real / 3600.0;
    assert totalH > 0.0;
    var pAvg := if totalH > 0.0 then totalKwh / totalH else 0.0;
    return Ok((totalKwh, pAvg));
  }

  /** Thermostat with an optional hysteresis band below the set point. Without
      hysteresis the heater runs exactly while the tank is below the set point;
      with it, the heater switches off at the set point, on at the band's lower
      edge, and keeps its state inside the band. */
  function HeaterControl(on: bool, tAfter: real, tSet: real, hysteresis: real): (r: bool)
    ensures hysteresis <= 0.0 ==> (r <==> tAfter < tSet)
    ensures hysteresis > 0.0 && tAfter >= tSet ==> !r
    ensures hysteresis > 0.0 && tAfter <= tSet - hysteresis ==> r
    ensures hysteresis > 0.0 && tSet - hysteresis < tAfter < tSet ==> r == on
  {
    if hysteresis > 0.0 then
      if on && tAfter >= tSet then false
      else if !on && tAfter <= tSet - hysteresis then true
      else on
    else tAfter < tSet
  }

  /** First index at or after `from` whose temperature reaches `threshold`. */
  function FirstReaching(temps: seq<real>, from: nat, threshold: real): (r: Option<nat>)
    ensures r.Some? ==> from <= r.value < |temps| && temps[r.value] >= threshold
    ensures r.Some? ==> forall k :: from <= k < r.value ==> temps[k] < threshold
    ensures r.None? ==> forall k :: from <= k < |temps| ==> temps[k] < threshold
    decreases |temps| - from
  {
    if from >= |temps| then None
    else if temps[from] >= threshold then Some(from)
    else FirstReaching(temps, from + 1, threshold)
  }

  /** The sample index at which the regeneration search starts: the step
      after the coldest moment, kept inside the series. */
  function RegenStart(n: int, tMinTempS: int, dt: int): (r: int)
    requires n > 0 && dt > 0
    ensures 0 <= r < n
  {
    MinInt(n - 1, MaxInt(0, tMinTempS / dt))
  }

  /** How many of `temps` lie below `tMin`: the steps a run counts as
      comfort violations when `temps` are the temperatures the steps end at. */
  function CountBelow(temps: seq<real>, tMin: real): (r: nat)
    ensures r <= |temps|
  {
    if |temps| == 0 then 0
    else CountBelow(temps[..|temps| - 1], tMin) + (if temps[|temps| - 1] < tMin then 1 else 0)
  }

  /** Adding one step of violation time to `d * c` seconds gives `d * (c + 1)`. */
  lemma CountedStep(d: int, c: int, v: int, v': int, below: bool)
    requires v == d * c && v' == v + (if below then d else 0)
    ensures v' == d * (c + (if below then 1 else 0))
  {
    MulSucc(c, d);
  }

  /** Seconds from the coldest moment until the recorded temperature first
      reaches `threshold` again, searching from `RegenStart`; none if it never does. */
  function RegenTime(timeS: seq<int>, temps: seq<real>, tMinTempS: int, threshold: real, dt: int)
    : (r: Option<int>)
    requires |timeS| == |temps| && dt > 0
    ensures |timeS| == 0 ==> r.None?
    ensures r.Some? ==>
      exists j :: RegenStart(|timeS|, tMinTempS, dt) <= j < |timeS|
        && temps[j] >= threshold && r.value == timeS[j] - tMinTempS
        && (forall k :: RegenStart(|timeS|, tMinTempS, dt) <= k < j ==> temps[k] < threshold)
    ensures r.None? && |timeS| > 0 ==>
      forall k :: RegenStart(|timeS|, tMinTempS, dt) <= k < |timeS| ==> temps[k] < threshold
  {
    if |timeS| == 0 then None
    else
      match FirstReaching(temps, RegenStart(|timeS|, tMinTempS, dt), threshold)
      case None => None
      case Some(j) => Some(timeS[j] - tMinTempS)
  }
}

=== FILE: text_input.dfy ===
/** Reading numbers typed by people or kept in browser storage, shared by the
    auditor page (`src/app/audytor/page.tsx`) and the manager page
    (`src/app/zarzadca/page.tsx`), which define the same `toFiniteNumber`,
    and the blank-text test (`s.trim().length > 0`) that several pages use. */
module TextInput {
  import opened Outcomes
  import opened Numbers

  /** The characters JavaScript's `\s` and `String.prototype.trim` treat as
      white space: the ECMAScript WhiteSpace and LineTerminator code points. */
  predicate IsSpace(c: char) {
    c == '\t' || c == '\n' || c == '\U{B}' || c == '\U{C}' || c == '\r' || c == ' '
    || c == '\U{A0}' || c == '\U{1680}' || ('\U{2000}' <= c <= '\U{200A}')
    || c == '\U{2028}' || c == '\U{2029}' || c == '\U{202F}' || c == '\U{205F}'
    || c == '\U{3000}' || c == '\U{FEFF}'
  }

  /** Every character of s is white space (the empty string included). */
  predicate Blank(s: string) {
    forall i :: 0 <= i < |s| ==> IsSpace(s[i])
  }

  function TrimStart(s: string): (r: string)
    ensures |r| <= |s| && r == s[|s| - |r|..]
    ensures Blank(s[..|s| - |r|])
    ensures |r| == 0 || !IsSpace(r[0])
  {
    if |s| > 0 && IsSpace(s[0]) then
      var r := TrimStart(s[1..]);
      var k := |s| - |r|;
      assert s[..k] == [s[0]] + s[1..][..k - 1];
      BlankCons(s[0], s[1..][..k - 1]);
      r
    else s
  }

  lemma BlankCons(c: char, t: string)
    requires IsSpace(c) && Blank(t)
    ensures Blank([c] + t)
  {
    assert forall i :: 1 <= i <= |t| ==> ([c] + t)[i] == t[i - 1];
  }

  function TrimEnd(s: string): (r: string)
    ensures |r| <= |s| && r == s[..|r|]
    ensures Blank(s[|r|..])
    ensures |r| == 0 || !IsSpace(r[|r| - 1])
  {
    if |s| > 0 && IsSpace(s[|s| - 1]) then
      var r := TrimEnd(s[..|s| - 1]);
      assert s[..|s| - 1][|r|..] == s[|r|..|s| - 1];
      r
    else s
  }

  /** `s.trim()`. */
  function Trim(s: string): (r: string)
    ensures |r| == 0 || (!IsSpace(r[0]) && !IsSpace(r[|r| - 1]))
  {
    var t := TrimStart(s);
    var r := TrimEnd(t);
    assert |r| > 0 ==> r[0] == t[0];
    r
  }

  /** `s.trim().length > 0` holds exactly when s has a character that is not
      white space. */
  lemma {:induction false} TrimEmptyIffBlank(s: string)
    ensures |Trim(s)| == 0 <==> Blank(s)
  {
    var t := TrimStart(s);
    var k := |s| - |t|;
    if |Trim(s)| == 0 {
      assert Blank(t[0..]);
      assert |t| == 0;
      forall i | 0 <= i < |s| ensures IsSpace(s[i]) {
        assert s[..k][i] == s[i];
      }
    } else {
      var r := Trim(s);
      assert r[0] == t[0] == s[k];
    }
  }

  /** `s.replace(/\s+/g, "")`: every white-space character removed. */
  function RemoveSpaces(s: string): (r: string)
    ensures forall i :: 0 <= i < |r| ==> !IsSpace(r[i])
    ensures |r| <= |s|
    ensures Blank(s) <==> |r| == 0
  {
    if |s| == 0 then []
    else if IsSpace(s[0]) then
      var r := RemoveSpaces(s[1..]);
      assert Blank(s[1..]) ==> Blank(s) by {
        if Blank(s[1..]) {
          forall i | 0 <= i < |s| ensures IsSpace(s[i]) {
            if i > 0 { assert s[1..][i - 1] == s[i]; }
          }
        }
      }
      r
    else [s[0]] + RemoveSpaces(s[1..])
  }

  /** Removing white space a second time changes nothing. */
  lemma {:induction false} RemoveSpacesIdempotent(s: string)
    ensures RemoveSpaces(RemoveSpaces(s)) == RemoveSpaces(s)
  {
    var r := RemoveSpaces(s);
    NoSpacesKept(r);
  }

  lemma {:induction false} NoSpacesKept(s: string)
    requires forall i :: 0 <= i < |s| ==> !IsSpace(s[i])
    ensures RemoveSpaces(s) == s
  {
    if |s| > 0 {
      NoSpacesKept(s[1..]);
    }
  }

  /** Position of the first comma of s, or |s| when there is none. */
  function CommaIndex(s: string): (k: nat)
    ensures k <= |s|
    ensures k < |s| ==> s[k] == ','
    ensures ',' !in s[..k]
  {
    if |s| == 0 || s[0] == ',' then 0
    else
      var k := CommaIndex(s[1..]);
      assert s[..k + 1] == [s[0]] + s[1..][..k];
      k + 1
  }

  /** `s.replace(",", ".")`: only the first comma becomes a dot. */
  function ReplaceFirstComma(s: string): (r: string)
    ensures var k := CommaIndex(s);
      r == if k == |s| then s else s[..k] + "." + s[k + 1..]
  {
    if |s| == 0 then s
    else if s[0] == ',' then "." + s[1..]
    else
      var t := ReplaceFirstComma(s[1..]);
      assert s == [s[0]] + s[1..];
      assert forall j :: 0 <= j <= |s| - 1 ==> s[..j + 1] == [s[0]] + s[1..][..j];
      [s[0]] + t
  }

  /** The text `toFiniteNumber` hands to `Number(...)`. */
  function Normalize(s: string): (r: string)
    ensures forall i :: 0 <= i < |r| ==> !IsSpace(r[i])
    ensures |r| == 0 <==> Blank(s)
  {
    var t := RemoveSpaces(s);
    CommaReplacedInPlace(t);
    ReplaceFirstComma(t)
  }

  /** Replacing the comma keeps every other character where it was. */
  lemma CommaReplacedInPlace(t: string)
    ensures var r := ReplaceFirstComma(t);
      |r| == |t| && forall i :: 0 <= i < |r| ==> r[i] == t[i] || r[i] == '.'
  {
    var k := CommaIndex(t);
    var r := ReplaceFirstComma(t);
    if k < |t| {
      assert r == t[..k] + "." + t[k + 1..];
      forall i | 0 <= i < |r| ensures r[i] == t[i] || r[i] == '.' {
        if i < k {
          assert r[i] == t[..k][i];
        } else if i > k {
          assert r[i] == t[k + 1..][i - k - 1];
        }
      }
    }
  }

  /** The values `toFiniteNumber` can be given: a number, a string, or any
      other JSON value. */
  datatype JsValue = NumberValue(n: Num) | StringValue(s: string) | OtherValue

  /** `toFiniteNumber`. The conversion `Number(text)` is a parameter. */
  function ToFiniteNumber(v: JsValue, parse: string -> Num): (r: Option<real>)
    ensures v.NumberValue? ==> (r.Some? <==> v.n.Finite?)
    ensures v.NumberValue? && v.n.Finite? ==> r == Some(v.n.v)
    ensures v.StringValue? && Blank(v.s) ==> r == None
    ensures v.StringValue? && !Blank(v.s) ==>
      r == (var n := parse(Normalize(v.s)); if n.Finite? then Some(n.v) else None)
    ensures v.OtherValue? ==> r == None
  {
    match v
    case NumberValue(n) => if n.Finite? then Some(n.v) else None
    case StringValue(s) =>
      var t := Normalize(s);
      if |t| == 0 then None
      else
        var n := parse(t);
        if n.Finite? then Some(n.v) else None
    case OtherValue => None
  }

  /** Spacing inside a typed number never changes what it reads as: a value
      with its spaces already removed reads the same. */
  lemma SpacingIrrelevant(s: string, parse: string -> Num)
    ensures ToFiniteNumber(StringValue(s), parse) == ToFiniteNumber(StringValue(RemoveSpaces(s)), parse)
  {
    RemoveSpacesIdempotent(s);
  }

  /** A decimal comma becomes the decimal point `Number(...)` expects. */
  lemma CommaBecomesDot()
    ensures ReplaceFirstComma("1234,5") == "1234.5"
  {
    assert CommaIndex(",5") == 0;
    assert CommaIndex("4,5") == 1;
    assert CommaIndex("34,5") == 2;
    assert CommaIndex("234,5") == 3;
    assert CommaIndex("1234,5") == 4;
    assert "1234,5"[..4] + "." + "1234,5"[5..] == "1234.5";
  }
}

=== FILE: work_schedule.dfy ===
/** The contractor's works-schedule page
    (`src/app/wykonawcy/harmonogram/HarmonogramPracPage.tsx`): the stages of a
    modernisation, sorted by their order field, moved up and down, chained
    into dates that may skip weekends, checked step by step in the wizard,
    and summarised as one progress figure.

    Dates are whole days counted from 1970-01-01, a Thursday; the weekday
    numbering is JavaScript's `getDay` (0 = Sunday, 6 = Saturday). */
module WorkSchedule {
  import opened Outcomes
  import opened Numbers

  datatype StageStatus = NotStarted | InProgress | Completed | Delayed

  datatype Stage = Stage(
    id: string,
    order: int,
    durationDays: real,
    startDate: Option<int>,
    endDate: Option<int>,
    status: StageStatus,
    progress: real)

  // ---------------------------------------------------------------- sorting

  predicate SortedByOrder(s: seq<Stage>) {
    forall i, j :: 0 <= i < j < |s| ==> s[i].order <= s[j].order
  }

  /** x placed after every stage whose order is not larger, so that equal
      orders keep their first-come position. */
  function Insert(x: Stage, s: seq<Stage>): (r: seq<Stage>)
    requires SortedByOrder(s)
    ensures SortedByOrder(r)
    ensures multiset(r) == multiset(s) + multiset{x}
    ensures |r| == |s| + 1
    ensures r[0] == x || (|s| > 0 && r[0] == s[0])
  {
    if |s| == 0 || x.order < s[0].order then [x] + s
    else
      var t := Insert(x, s[1..]);
      assert s == [s[0]] + s[1..];
      [s[0]] + t
  }

  /** `[...stages].sort((a, b) => a.order - b.order)`: a stable sort by order. */
  function SortByOrder(s: seq<Stage>): (r: seq<Stage>)
    ensures SortedByOrder(r)
    ensures multiset(r) == multiset(s)
    ensures |r| == |s|
  {
    if |s| == 0 then []
    else
      assert s == s[..|s| - 1] + [s[|s| - 1]];
      Insert(s[|s| - 1], SortByOrder(s[..|s| - 1]))
  }

  /** A stage whose order is not below any other goes last. */
  lemma {:induction false} InsertLast(x: Stage, s: seq<Stage>)
    requires SortedByOrder(s)
    requires forall k :: 0 <= k < |s| ==> s[k].order <= x.order
    ensures Insert(x, s) == s + [x]
  {
    if |s| > 0 {
      InsertLast(x, s[1..]);
      assert s == [s[0]] + s[1..];
    }
  }

  /** Sorting a sorted list changes nothing. */
  lemma {:induction false} SortSorted(s: seq<Stage>)
    requires SortedByOrder(s)
    ensures SortByOrder(s) == s
  {
    if |s| > 0 {
      var init := s[..|s| - 1];
      SortSorted(init);
      InsertLast(s[|s| - 1], init);
      assert init + [s[|s| - 1]] == s;
    }
  }

  // ---------------------------------------------------------------- moving a stage

  datatype Direction = Up | Down

  /** `findIndex` by id. */
  function FindIndex(s: seq<Stage>, id: string): (r: Option<nat>)
    ensures r.Some? ==> r.value < |s| && s[r.value].id == id
    ensures r.Some? ==> forall j :: 0 <= j < r.value ==> s[j].id != id
    ensures r.None? ==> forall j :: 0 <= j < |s| ==> s[j].id != id
  {
    if |s| == 0 then None
    else if s[0].id == id then Some(0)
    else
      var r := FindIndex(s[1..], id);
      if r.Some? then Some(r.value + 1) else None
  }

  /** Orders rewritten as positions 1..n. */
  function Renumber(s: seq<Stage>): (r: seq<Stage>)
    ensures |r| == |s|
    ensures forall i :: 0 <= i < |s| ==> r[i] == s[i].(order := i + 1)
  {
    seq(|s|, i requires 0 <= i < |s| => s[i].(order := i + 1))
  }

  /** The neighbour a stage trades places with, when there is one. */
  function TargetIndex(index: nat, direction: Direction, n: nat): (r: Option<nat>)
    ensures r.Some? ==> r.value < n && r.value != index
  {
    var t := if direction == Up then index - 1 else index + 1;
    if t < 0 || t >= n then None else Some(t)
  }

  /** Stages i and t trade places. */
  function Swap(s: seq<Stage>, i: nat, t: nat): (r: seq<Stage>)
    requires i < |s| && t < |s|
    ensures |r| == |s| && r[i] == s[t] && r[t] == s[i]
    ensures forall k :: 0 <= k < |s| && k != i && k != t ==> r[k] == s[k]
  {
    s[i := s[t]][t := s[i]]
  }

  /** `moveStage` as written: the two order fields are swapped, and then
      every order is overwritten with its position in the sorted list, so
      the swap is lost. An unknown id or a move past either end returns the
      list unchanged. */
  function MoveStageAsWritten(stages: seq<Stage>, stageId: string, direction: Direction): (r: seq<Stage>)
    ensures |r| == |stages|
  {
    var sorted := SortByOrder(stages);
    var moved := MoveAsWrittenInSorted(sorted, stageId, direction);
    if moved.None? then stages else moved.value
  }

  /** The order fields of stages i and t traded. */
  function SwapOrders(s: seq<Stage>, i: nat, t: nat): (r: seq<Stage>)
    requires i < |s| && t < |s|
    ensures |r| == |s|
    ensures forall k :: 0 <= k < |s| ==> r[k] == s[k].(order := r[k].order)
  {
    var tempOrder := s[i].order;
    var swapped := s[i := s[i].(order := s[t].order)];
    swapped[t := swapped[t].(order := tempOrder)]
  }

  function MoveAsWrittenInSorted(sorted: seq<Stage>, stageId: string, direction: Direction): (r: Option<seq<Stage>>)
    ensures r.Some? <==> var i := FindIndex(sorted, stageId);
      i.Some? && TargetIndex(i.value, direction, |sorted|).Some?
    ensures r.Some? ==> var i := FindIndex(sorted, stageId).value;
      r.value == Renumber(SwapOrders(sorted, i, TargetIndex(i, direction, |sorted|).value))
  {
    var index := FindIndex(sorted, stageId);
    if index.None? then None
    else
      var target := TargetIndex(index.value, direction, |sorted|);
      if target.None? then None
      else Some(Renumber(SwapOrders(sorted, index.value, target.value)))
  }

  /** Renumbering forgets every order the stages had. */
  lemma RenumberForgetsOrders(s: seq<Stage>, w: seq<Stage>)
    requires |s| == |w|
    requires forall k :: 0 <= k < |s| ==> w[k] == s[k].(order := w[k].order)
    ensures Renumber(w) == Renumber(s)
  {
    assert forall k :: 0 <= k < |s| ==> Renumber(w)[k] == Renumber(s)[k];
  }

  /** As written, a move that is carried out keeps every stage where it was
      in the sorted list; only the orders are rewritten to 1..n. */
  lemma MoveStageNeverReorders(stages: seq<Stage>, stageId: string, direction: Direction)
    requires var i := FindIndex(SortByOrder(stages), stageId);
      i.Some? && TargetIndex(i.value, direction, |stages|).Some?
    ensures MoveStageAsWritten(stages, stageId, direction) == Renumber(SortByOrder(stages))
  {
    var sorted := SortByOrder(stages);
    var i := FindIndex(sorted, stageId).value;
    var t := TargetIndex(i, direction, |sorted|).value;
    RenumberForgetsOrders(sorted, SwapOrders(sorted, i, t));
  }

  /** Two stages numbered 1 and 2: moving the second up leaves it second. */
  lemma MoveUpDoesNotMove()
    ensures var a := Stage("s1", 1, 7.0, None, None, NotStarted, 0.0);
      var b := Stage("s2", 2, 10.0, None, None, NotStarted, 0.0);
      MoveStageAsWritten([a, b], "s2", Up) == [a, b]
  {
    var a := Stage("s1", 1, 7.0, None, None, NotStarted, 0.0);
    var b := Stage("s2", 2, 10.0, None, None, NotStarted, 0.0);
    SortSorted([a, b]);
    assert FindIndex([a, b], "s2") == Some(1);
    MoveStageNeverReorders([a, b], "s2", Up);
    assert Renumber([a, b]) == [a, b];
  }

  /** `moveStage` as the buttons describe it: the stage trades places with
      its neighbour in the sorted list, and the orders become 1..n. */
  function MoveStage(stages: seq<Stage>, stageId: string, direction: Direction): (r: seq<Stage>)
    ensures |r| == |stages|
  {
    var sorted := SortByOrder(stages);
    var moved := MoveInSorted(sorted, stageId, direction);
    if moved.None? then stages else moved.value
  }

  /** The move within the sorted list; nothing for an unknown id or a move
      past either end. */
  function MoveInSorted(sorted: seq<Stage>, stageId: string, direction: Direction): (r: Option<seq<Stage>>)
    ensures r.Some? <==> var i := FindIndex(sorted, stageId);
      i.Some? && TargetIndex(i.value, direction, |sorted|).Some?
    ensures r.Some? ==> var i := FindIndex(sorted, stageId).value;
      r.value == Renumber(Swap(sorted, i, TargetIndex(i, direction, |sorted|).value))
  {
    var index := FindIndex(sorted, stageId);
    if index.None? then None
    else
      var target := TargetIndex(index.value, direction, |sorted|);
      if target.None? then None
      else Some(Renumber(Swap(sorted, index.value, target.value)))
  }

  /** After a move the stage sits at its neighbour's old place and the
      neighbour at the stage's, and the orders count 1..n. */
  lemma MovedStageLandsAtTarget(stages: seq<Stage>, stageId: string, direction: Direction)
    requires var i := FindIndex(SortByOrder(stages), stageId);
      i.Some? && TargetIndex(i.value, direction, |stages|).Some?
    ensures var sorted, i := SortByOrder(stages), FindIndex(SortByOrder(stages), stageId).value;
      var t, r := TargetIndex(i, direction, |stages|).value, MoveStage(stages, stageId, direction);
      r[t].id == stageId && r[i].id == sorted[t].id
      && (direction == Up ==> t == i - 1) && (direction == Down ==> t == i + 1)
      && forall k :: 0 <= k < |r| ==> r[k].order == k + 1
  {
  }

  predicate DistinctIds(s: seq<Stage>) {
    forall j, k :: 0 <= j < k < |s| ==> s[j].id != s[k].id
  }

  /** With distinct ids, `findIndex` finds the one stage with the id. */
  lemma FindIndexUnique(s: seq<Stage>, p: nat)
    requires DistinctIds(s) && p < |s|
    ensures FindIndex(s, s[p].id) == Some(p)
  {
    var f := FindIndex(s, s[p].id);
    assert f.Some?;
    assert s[f.value].id == s[p].id;
  }

  /** Moving a stage up and then down again gives the sorted list,
      renumbered, when ids are distinct. */
  lemma MoveUpThenDown(stages: seq<Stage>, stageId: string)
    requires DistinctIds(stages)
    requires var i := FindIndex(SortByOrder(stages), stageId); i.Some? && i.value > 0
    ensures MoveStage(MoveStage(stages, stageId, Up), stageId, Down) == Renumber(SortByOrder(stages))
  {
    var sorted := SortByOrder(stages);
    var i := FindIndex(sorted, stageId).value;
    assert MoveInSorted(sorted, stageId, Up) == Some(Renumber(Swap(sorted, i, i - 1)));
    DistinctIdsSorted(stages);
    MoveDownAfterUp(sorted, i);
  }

  lemma MoveDownAfterUp(sorted: seq<Stage>, i: nat)
    requires DistinctIds(sorted) && 0 < i < |sorted|
    ensures MoveStage(Renumber(Swap(sorted, i, i - 1)), sorted[i].id, Down) == Renumber(sorted)
  {
    var once := Renumber(Swap(sorted, i, i - 1));
    MoveInRenumbered(once, Swap(sorted, i, i - 1), sorted[i].id, Down);
    SwapBackInSorted(sorted, i);
  }

  /** A list already numbered 1..n is moved within itself. */
  lemma MoveInRenumbered(s: seq<Stage>, w: seq<Stage>, stageId: string, direction: Direction)
    requires s == Renumber(w)
    ensures MoveStage(s, stageId, direction) == MoveInSorted(s, stageId, direction).GetOr(s)
  {
    RenumberedIsSorted(w);
    SortSorted(s);
  }

  lemma SwapBackInSorted(sorted: seq<Stage>, i: nat)
    requires DistinctIds(sorted) && 0 < i < |sorted|
    ensures MoveInSorted(Renumber(Swap(sorted, i, i - 1)), sorted[i].id, Down) == Some(Renumber(sorted))
  {
    var once := Renumber(Swap(sorted, i, i - 1));
    SwapRenumberDistinct(sorted, i, i - 1);
    FindIndexUnique(once, i - 1);
    SwapBackRenumbered(sorted, i);
  }

  lemma RenumberedIsSorted(s: seq<Stage>)
    ensures SortedByOrder(Renumber(s))
  {
  }

  lemma SwapRenumberDistinct(s: seq<Stage>, i: nat, t: nat)
    requires DistinctIds(s) && i < |s| && t < |s|
    ensures DistinctIds(Renumber(Swap(s, i, t)))
  {
    var w := Swap(s, i, t);
    assert forall k :: 0 <= k < |s| ==> Renumber(w)[k].id == w[k].id;
  }

  lemma SwapBackRenumbered(s: seq<Stage>, i: nat)
    requires 0 < i < |s|
    ensures Renumber(Swap(Renumber(Swap(s, i, i - 1)), i - 1, i)) == Renumber(s)
  {
    var once := Renumber(Swap(s, i, i - 1));
    var twice := Renumber(Swap(once, i - 1, i));
    assert forall k :: 0 <= k < |s| ==> twice[k] == Renumber(s)[k];
  }

  /** Sorting keeps ids distinct. */
  lemma DistinctIdsSorted(stages: seq<Stage>)
    requires DistinctIds(stages)
    ensures DistinctIds(SortByOrder(stages))
  {
    var s := SortByOrder(stages);
    forall x ensures multiset(s)[x] <= 1 {
      CountAtMostOne(stages, x);
    }
    forall j, k | 0 <= j < k < |s| ensures s[j].id != s[k].id {
      CountAtLeastTwo(s, j, k);
      assert s[j] in multiset(stages) && s[k] in multiset(stages);
      var a :| 0 <= a < |stages| && stages[a] == s[j];
      var b :| 0 <= b < |stages| && stages[b] == s[k];
      assert a != b ==> stages[a].id != stages[b].id;
    }
  }

  /** A list with distinct ids holds no stage twice. */
  lemma {:induction false} CountAtMostOne(s: seq<Stage>, x: Stage)
    requires DistinctIds(s)
    ensures multiset(s)[x] <= 1
  {
    if |s| > 0 {
      var init := s[..|s| - 1];
      CountAtMostOne(init, x);
      assert s == init + [s[|s| - 1]];
      assert x == s[|s| - 1] ==> x !in init;
    }
  }

  /** Equal entries at two positions count twice. */
  lemma CountAtLeastTwo(s: seq<Stage>, j: nat, k: nat)
    requires j < k < |s|
    ensures s[j] == s[k] ==> multiset(s)[s[j]] >= 2
  {
    assert s == s[..j] + [s[j]] + s[j + 1..k] + [s[k]] + s[k + 1..];
  }

  // ---------------------------------------------------------------- dates

  /** JavaScript's `getDay` for a day counted from 1970-01-01. */
  function Weekday(day: int): (w: int)
    ensures 0 <= w < 7
  {
    (day + 4) % 7
  }

  predicate IsWeekend(day: int) {
    Weekday(day) == 0 || Weekday(day) == 6
  }

  lemma WeekdaySucc(day: int)
    ensures Weekday(day + 1) == if Weekday(day) == 6 then 0 else Weekday(day) + 1
  {
  }

  /** The first day after `day` that is not a Saturday or a Sunday. */
  function NextWorkday(day: int): (r: int)
    ensures day < r <= day + 3 && !IsWeekend(r)
    ensures forall k :: day < k < r ==> IsWeekend(k)
  {
    var w := Weekday(day + 1);
    WeekdaySucc(day + 1);
    WeekdaySucc(day + 2);
    if w == 6 then day + 3
    else if w == 0 then day + 2
    else day + 1
  }

  /** The number of loop rounds that decrement `remaining`. */
  function Steps(days: real): (n: nat)
    ensures days <= 0.0 ==> n == 0
    ensures days > 0.0 ==> days <= n as real < days + 1.0
  {
    if days <= 0.0 then 0 else Ceil(days)
  }

  /** `addDaysSkippingWeekends`: one day forward per decrement, skipping
      Saturdays and Sundays when only workdays count. */
  function AddDaysSkippingWeekends(start: int, days: real, workdaysOnly: bool): (r: int)
    ensures r >= start + Steps(days)
    ensures !workdaysOnly ==> r == start + Steps(days)
    decreases Steps(days)
  {
    if days <= 0.0 then start
    else
      var next := if workdaysOnly then NextWorkday(start) else start + 1;
      AddDaysSkippingWeekends(next, days - 1.0, workdaysOnly)
  }

  /** Workdays in the days after a and up to b. */
  function WorkdaysBetween(a: int, b: int): (n: nat)
    decreases b - a
  {
    if b <= a then 0 else WorkdaysBetween(a, b - 1) + (if IsWeekend(b) then 0 else 1)
  }

  lemma {:induction false} WorkdaysBetweenSplit(a: int, m: int, b: int)
    requires a <= m <= b
    ensures WorkdaysBetween(a, b) == WorkdaysBetween(a, m) + WorkdaysBetween(m, b)
    decreases b - m
  {
    if b > m {
      WorkdaysBetweenSplit(a, m, b - 1);
    }
  }

  lemma NextWorkdayCountsOne(day: int)
    ensures WorkdaysBetween(day, NextWorkday(day)) == 1
  {
    var r := NextWorkday(day);
    if r == day + 3 {
      assert WorkdaysBetween(day, day + 1) == 0;
      assert WorkdaysBetween(day, day + 2) == 0;
    } else if r == day + 2 {
      assert WorkdaysBetween(day, day + 1) == 0;
    }
  }

  /** With only workdays counting, the end date lies exactly as many
      workdays after the start as the loop decrements, and is itself a
      workday. */
  lemma {:induction false} WorkdaysAdded(start: int, days: real)
    ensures var e := AddDaysSkippingWeekends(start, days, true);
      WorkdaysBetween(start, e) == Steps(days) && (days > 0.0 ==> !IsWeekend(e))
    decreases Steps(days)
  {
    if days > 0.0 {
      var next := NextWorkday(start);
      WorkdaysAdded(next, days - 1.0);
      var e := AddDaysSkippingWeekends(next, days - 1.0, true);
      WorkdaysBetweenSplit(start, next, e);
      NextWorkdayCountsOne(start);
    }
  }

  // ---------------------------------------------------------------- schedule

  /** Stages chained from `current`: each starts where the previous ended. */
  function Chain(stages: seq<Stage>, current: int, workdaysOnly: bool): (r: seq<Stage>)
    ensures |r| == |stages|
    ensures |r| > 0 ==> r[0].startDate == Some(current)
    ensures forall k :: 0 <= k < |r| ==> r[k] == stages[k].(startDate := r[k].startDate, endDate := r[k].endDate)
    ensures forall k :: 0 <= k < |r| ==>
      (r[k].startDate.Some? && r[k].endDate.Some?
       && r[k].endDate.value == AddDaysSkippingWeekends(r[k].startDate.value, stages[k].durationDays, workdaysOnly))
    ensures forall k :: 0 <= k < |r| - 1 ==> r[k + 1].startDate == r[k].endDate
  {
    if |stages| == 0 then []
    else
      var end := AddDaysSkippingWeekends(current, stages[0].durationDays, workdaysOnly);
      [stages[0].(startDate := Some(current), endDate := Some(end))] + Chain(stages[1..], end, workdaysOnly)
  }

  /** A stage whose duration is falsy or below one day. */
  predicate BadDuration(s: Stage) {
    s.durationDays == 0.0 || s.durationDays < 1.0
  }

  /** The page-local `generateSchedule`: nothing without a start date or with
      a stage shorter than a day; otherwise the stages in order, chained
      from the start date. */
  function GenerateSchedule(stages: seq<Stage>, projectStart: Option<int>, workdaysOnly: bool): (r: Option<seq<Stage>>)
    ensures r.Some? <==> projectStart.Some? && forall k :: 0 <= k < |stages| ==> stages[k].durationDays >= 1.0
    ensures r.Some? ==> |r.value| == |stages| && (|stages| > 0 ==> r.value[0].startDate == projectStart)
    ensures r.Some? ==> forall k :: 0 <= k < |r.value| - 1 ==> r.value[k + 1].startDate == r.value[k].endDate
  {
    if projectStart.None? then None
    else if exists k :: 0 <= k < |stages| && BadDuration(stages[k]) then None
    else Some(Chain(SortByOrder(stages), projectStart.value, workdaysOnly))
  }

  /** Every scheduled stage lasts at least its duration in calendar days,
      and exactly its duration, rounded up, in workdays when only workdays
      count. */
  lemma ScheduledStagesLastTheirDuration(stages: seq<Stage>, projectStart: int, workdaysOnly: bool, k: int)
    requires GenerateSchedule(stages, Some(projectStart), workdaysOnly).Some?
    requires 0 <= k < |stages|
    ensures var s := GenerateSchedule(stages, Some(projectStart), workdaysOnly).value[k];
      var d := s.durationDays;
      s.endDate.value >= s.startDate.value + Steps(d)
      && (workdaysOnly ==> WorkdaysBetween(s.startDate.value, s.endDate.value) == Steps(d))
  {
    var sorted := SortByOrder(stages);
    var r := Chain(sorted, projectStart, workdaysOnly);
    assert r[k].durationDays == sorted[k].durationDays;
    WorkdaysAdded(r[k].startDate.value, sorted[k].durationDays);
  }

  // ---------------------------------------------------------------- wizard steps

  datatype StepError = NoProject | NoStages | NoStartDate | StageDatesMissing | StageTooShort

  /** What the last step asks of the stages: a start date, both dates on
      every stage, and no stage shorter than a day. */
  predicate ReadyToGenerate(sortedStages: seq<Stage>, projectStart: Option<int>) {
    projectStart.Some?
    && (forall k :: 0 <= k < |sortedStages| ==> sortedStages[k].startDate.Some? && sortedStages[k].endDate.Some?)
    && (forall k :: 0 <= k < |sortedStages| ==> sortedStages[k].durationDays >= 1.0)
  }

  /** `validateStep`: the first reason the wizard cannot go to `step`. */
  function ValidateStep(step: int, hasProject: bool, sortedStages: seq<Stage>, projectStart: Option<int>): (r: Option<StepError>)
    ensures r.None? <==>
      ((step > 0 ==> hasProject) && (step > 1 ==> |sortedStages| > 0) && (step > 2 ==> ReadyToGenerate(sortedStages, projectStart)))
  {
    if step > 0 && !hasProject then Some(NoProject)
    else if step > 1 && |sortedStages| == 0 then Some(NoStages)
    else if step > 2 && projectStart.None? then Some(NoStartDate)
    else if step > 2 && exists k :: 0 <= k < |sortedStages| && (sortedStages[k].startDate.None? || sortedStages[k].endDate.None?) then
      Some(StageDatesMissing)
    else if step > 2 && exists k :: 0 <= k < |sortedStages| && BadDuration(sortedStages[k]) then
      Some(StageTooShort)
    else None
  }

  /** A state that may go to a step may go to every earlier step. */
  lemma ValidateStepMonotone(step: int, earlier: int, hasProject: bool, sortedStages: seq<Stage>, projectStart: Option<int>)
    requires earlier <= step
    requires ValidateStep(step, hasProject, sortedStages, projectStart).None?
    ensures ValidateStep(earlier, hasProject, sortedStages, projectStart).None?
  {
  }

  /** A freshly generated schedule passes every step of the wizard once a
      project is chosen. */
  lemma GeneratedSchedulePassesValidation(stages: seq<Stage>, projectStart: int, workdaysOnly: bool, step: int)
    requires |stages| > 0
    requires GenerateSchedule(stages, Some(projectStart), workdaysOnly).Some?
    ensures ValidateStep(step, true, GenerateSchedule(stages, Some(projectStart), workdaysOnly).value, Some(projectStart)).None?
  {
    var sorted := SortByOrder(stages);
    var r := Chain(sorted, projectStart, workdaysOnly);
    forall k | 0 <= k < |r| ensures r[k].durationDays >= 1.0 {
      assert sorted[k] in multiset(stages);
    }
  }

  // ---------------------------------------------------------------- progress

  function SumProgress(s: seq<Stage>): real {
    if |s| == 0 then 0.0 else SumProgress(s[..|s| - 1]) + s[|s| - 1].progress
  }

  lemma {:induction false} SumProgressBounds(s: seq<Stage>, lo: real, hi: real)
    requires forall k :: 0 <= k < |s| ==> lo <= s[k].progress <= hi
    ensures |s| as real * lo <= SumProgress(s) <= |s| as real * hi
  {
    if |s| > 0 {
      SumProgressBounds(s[..|s| - 1], lo, hi);
    }
  }

  /** `overallProgress`: the rounded mean progress, 0 for no stages. */
  function OverallProgress(sortedStages: seq<Stage>): (r: int)
    ensures |sortedStages| == 0 ==> r == 0
    ensures (forall k :: 0 <= k < |sortedStages| ==> 0.0 <= sortedStages[k].progress <= 100.0) ==> 0 <= r <= 100
  {
    if |sortedStages| == 0 then 0
    else
      var n := |sortedStages| as real;
      assert (forall k :: 0 <= k < |sortedStages| ==> 0.0 <= sortedStages[k].progress <= 100.0) ==>
          0.0 <= SumProgress(sortedStages) / n <= 100.0 by {
        if forall k :: 0 <= k < |sortedStages| ==> 0.0 <= sortedStages[k].progress <= 100.0 {
          MeanWithinPercent(sortedStages);
        }
      }
      Round(SumProgress(sortedStages) / n)
  }

  /** The mean of progress values in [0, 100] lies in [0, 100]. */
  lemma MeanWithinPercent(s: seq<Stage>)
    requires |s| > 0
    requires forall k :: 0 <= k < |s| ==> 0.0 <= s[k].progress <= 100.0
    ensures 0.0 <= SumProgress(s) / |s| as real <= 100.0
  {
    var n := |s| as real;
    SumProgressBounds(s, 0.0, 100.0);
    DivMonotone(0.0, SumProgress(s), n);
    DivMonotone(SumProgress(s), n * 100.0, n);
    MulDivCancel(100.0, n);
    assert n * 100.0 == 100.0 * n;
  }

  /** Stages that all report the same whole percentage show that percentage. */
  lemma UniformProgressShown(s: seq<Stage>, p: int)
    requires |s| > 0
    requires forall k :: 0 <= k < |s| ==> s[k].progress == p as real
    ensures OverallProgress(s) == p
  {
    SumProgressBounds(s, p as real, p as real);
    MulDivCancel(p as real, |s| as real);
    assert SumProgress(s) / |s| as real == p as real;
  }
}
